=== FILE: README.md ===
# Azure egress management — a Dafny model of the analysis core

The system collects network egress metrics from Azure resources, flattens
them into a table of samples (one row per data point, with metric name,
resource id, name, group, type and location), and runs four analyses over
that table:

- **cost analysis** prices the egress gigabytes of every resource and region
  through a tiered per-zone price table, classifies the total against budget
  thresholds, projects it to a month, and emits cost recommendations;
- **anomaly detection** scores every resource/metric series with a z-score,
  a median-absolute-deviation score and a moving-average deviation,
  deduplicates and ranks the findings, and turns high findings into
  recommendations;
- **trend analysis** sums the egress per timestamp, fits a least-squares
  line, classifies direction and strength, reports recent changes, and
  looks for weekly and hourly patterns;
- the **recommendation engine** turns the outcomes of the other three into
  recommendations, deduplicates them by title and prioritises them with a
  per-category cap and an overall limit.

Around the analyses sit the utilities they rely on: Azure resource-id
parsing, the metric registries per resource type, the resource statistics
of the monitor, the nested configuration merge and environment overrides,
the phase timer and its duration format, the dashboard's flattening of a
collection into rows, and the release script's version bump and changelog
entry.

One Dafny module stands for each source file (`CostAnalysis`,
`AnomalyDetection`, `TrendAnalysis` with `TrendPatterns`, `Recommendation`,
`Monitor`, `Metrics`, `AzureUtils`, `ConfigUtils`, `TimeUtils`, `Dashboard`,
`Versioning`), over shared modules for the sample table (`Samples`), the
collection artifact (`Artifact`), ordered dictionaries (`Dicts`), text,
statistics and stable sorting (`Text`, `Stats`, `Sorting` in common.dfy),
pandas-style grouping (`Grouping`), keyed deduplication (`KeyedDedup`) and
per-category capping (`Capping`). Every operation is a pure function over
immutable values; Python dictionaries are association lists that keep
insertion order, floats are reals, and a pandas NaN is an absent value.

Where a source function has a defect that verification exposed, the model
has two members: one that computes what the code as written computes, with a
lemma exhibiting the defect, and a corrected one with the intended property
proved; the rest of the model uses the corrected one (see "## Findings").

## Model

| member | source | states |
|---|---|---|
| CostAnalysis.CostClosedForm | src/egress/cost_analysis.py:309-330 | for traffic that ends in tier k of a well-formed table, the tier walk costs the full price of every earlier tier plus tier k's price times the gigabytes above its lower boundary |
| CostAnalysis.CostMonotone | src/egress/cost_analysis.py:309-330 | more gigabytes never cost less, in any well-formed table |
| CostAnalysis.BoundaryContinuity | src/egress/cost_analysis.py:313-324 | at every tier boundary the two adjacent closed forms agree, so the price curve has no jump |
| CostAnalysis.FirstTierLinear | src/egress/cost_analysis.py:315-316 | traffic inside the first tier costs exactly gigabytes times the first price |
| CostAnalysis.CostOfNothing | src/egress/cost_analysis.py:309-330 | zero gigabytes cost nothing |
| CostAnalysis.TwoTierExample | src/egress/cost_analysis.py:313-328 | a 10 GB first tier at 0.10 and an unbounded tier at 0.05 bill 5, 10 and 20 GB as 0.5, 1.0 and 1.5 |
| CostAnalysis.AsWrittenTierWidths | src/egress/cost_analysis.py:44-48 | with the shipped limits 10/40/100 TB, the second tier bills 30 TB, the third 60 TB, and between 110 and 120 TB the last price 0.05 already applies |
| CostAnalysis.IntendedTierWidths | src/egress/cost_analysis.py:44-48 | with boundaries 10/50/150 TB the tiers bill the 10, 40 and 100 TB the comments name, and between 110 and 120 TB the third price 0.07 applies |
| CostAnalysis.TiersFor | src/egress/cost_analysis.py:301-307 | the region's zone supplies its own tiers when the table prices it, and a zone missing from the table falls back to the "default" zone |
| CostAnalysis.EgressCost | src/egress/cost_analysis.py:290-330 | a cost exists exactly when the table has a "default" zone, otherwise the lookup fails; the cost is the tiered cost of the gigabytes under the region's tiers |
| CostAnalysis.MappedRegionUsesItsZone | src/egress/cost_analysis.py:301-307 | a region the map knows, in any case, whose zone the table prices is billed through that zone's tiers |
| CostAnalysis.EgressCostIgnoresCase | src/egress/cost_analysis.py:302 | two region names that lower-case alike are priced the same |
| CostAnalysis.UnmappedRegionUsesDefault | src/egress/cost_analysis.py:302-306 | a region missing from the region map is priced with the default zone's tiers |
| CostAnalysis.EastUsInZoneOne | src/egress/cost_analysis.py:42-48 | "EastUS" is priced with the zone-1 tiers, under both the shipped and the corrected table |
| CostAnalysis.NoRegionAtDefaultRate | src/egress/cost_analysis.py:69-73 | a row with no region is priced as "unknown": a flat 0.087 per GB under both tables |
| CostAnalysis.ClassifyCost | src/egress/cost_analysis.py:235-240 | critical iff the total exceeds the critical threshold; warning iff it exceeds only the warning threshold; normal otherwise |
| CostAnalysis.ClassifyMonotone | src/egress/cost_analysis.py:235-240 | a larger total never gets a milder status |
| CostAnalysis.MonthlyProjection | src/egress/cost_analysis.py:225-233 | a projection exists iff the observed period is positive, and it scales the cost to 30 days |
| CostAnalysis.ProjectionWarning | src/egress/cost_analysis.py:270-279 | a warning needs a projection and a status below critical; critical iff the projected cost exceeds the critical threshold; a warning only when the status is normal and the warning threshold is exceeded |
| CostAnalysis.PeriodDays | src/egress/cost_analysis.py:210-221 | the period is 0 for fewer than two rows; otherwise it is the distance in days between two of the timestamps and no two timestamps lie further apart, so it is the span from the earliest to the latest |
| CostAnalysis.SharesSumToHundred | src/egress/cost_analysis.py:258 | when the total is the positive sum of the costs, the percentages add up to exactly 100 |
| CostAnalysis.ResourceCosts | src/egress/cost_analysis.py:178-193 | one entry per distinct (id, name, type, location) key, in the sorted key order of the grouping; each holds the sum of its rows in GB and the tiered cost of that sum in its region |
| CostAnalysis.RegionCosts | src/egress/cost_analysis.py:195-205 | one entry per distinct location, in sorted order, with its summed GB and the tiered cost of that sum |
| CostAnalysis.RegionBreakdown | src/egress/cost_analysis.py:261-267 | every region appears once, each egress row's location has an entry, and each share is the region's cost as a percentage of the total |
| CostAnalysis.Report | src/egress/cost_analysis.py:173-281 | the total is the sum of the resource costs, the traffic is the egress bytes in GB, the status classifies the total, the projection exists iff the period is positive, and shares are percentages of the total |
| CostAnalysis.AnalyzeCosts | src/egress/cost_analysis.py:160-171 | no rows gives no_data; rows without egress give no_egress_data; a pricing table without a default zone gives an error; otherwise the report is produced |
| CostAnalysis.ReportResources | src/egress/cost_analysis.py:180-193 | the report's resources ascend strictly in groupby key order, every egress row's key has an entry, and every entry comes from a row |
| CostAnalysis.ReportRegions | src/egress/cost_analysis.py:196-205 | the report's regions ascend strictly by name and each comes from an egress row |
| CostAnalysis.ReportTraffic | src/egress/cost_analysis.py:175-205 | the gigabytes of the resources add up to the report's total traffic, and so do the gigabytes of the regions |
| CostAnalysis.ReportShares | src/egress/cost_analysis.py:258 | when the total cost is positive, the resource percentages of the report add up to 100 |
| CostAnalysis.RegionCostsNotAdditive | src/egress/cost_analysis.py:201-208 | region costs price pooled traffic while the total sums resource costs, so two 10 TB resources in one zone-1 region cost more than that region's 20 TB |
| CostAnalysis.StatusRecs | src/egress/cost_analysis.py:347-373 | one cost-status recommendation exactly when the status is not normal |
| CostAnalysis.ResourceRec | src/egress/cost_analysis.py:380-415 | a resource gets one recommendation exactly when its share is at least 15 % and its lowered type contains "virtualmachine" or "site"; the recommendation is medium and names the resource |
| CostAnalysis.TopResourceRecs | src/egress/cost_analysis.py:375-380 | at most three recommendations, all resource-specific |
| CostAnalysis.RecsOfMembers | src/egress/cost_analysis.py:379-415 | a recommendation is among those of a list of resources exactly when it is the one ResourceRec gives some resource of the list |
| CostAnalysis.TopResourceRecsFrom | src/egress/cost_analysis.py:375-415 | a recommendation is made exactly when it is the one ResourceRec gives one of the three costliest resources |
| CostAnalysis.RegionRecs | src/egress/cost_analysis.py:417-455 | no region recommendation with one region or none; otherwise a medium cross-region recommendation exactly when the second costliest region's cost is more than a fifth of a nonzero total, and a low consolidation recommendation exactly when the costliest region is not "unknown" and takes more than 70 % |
| CostAnalysis.ProjectionRecs | src/egress/cost_analysis.py:457-473 | one projection recommendation iff the monthly projection exceeds 1.3 times the current total |
| CostAnalysis.RuleRecsKinds | src/egress/cost_analysis.py:345-473 | the rules never produce the general recommendation and produce at most three resource-specific ones |
| CostAnalysis.CostRecommendations | src/egress/cost_analysis.py:342-491 | nothing for an unsuccessful analysis; otherwise at least one recommendation, led by the status alert when the status is not normal |
| CostAnalysis.CostRecommendationsShape | src/egress/cost_analysis.py:475-489 | the general recommendation appears only when no rule fired, and then it is the only one |
| CostAnalysis.CostRecommendationsAsWritten | src/egress/cost_analysis.py:417-427 | as written, the recommendations fail (division by zero) exactly when there are two or more regions and the total cost is 0; otherwise they equal the corrected ones |
| CostAnalysis.IdleTrafficDividesByZero | src/egress/cost_analysis.py:160-208 | egress rows that all carry 0 bytes in two different locations give a successful analysis whose as-written recommendations fail |
| CostAnalysis.CumulativeFlat | src/egress/cost_analysis.py:529-536 | with a zero trend the cumulative cost after k months is k times the monthly cost |
| CostAnalysis.ScheduleMonths | src/egress/cost_analysis.py:531-543 | the schedule has one entry per month, and month m carries the base values grown by the trend m times |
| CostAnalysis.ScheduleTotal | src/egress/cost_analysis.py:529-551 | the last entry's cumulative cost is the compounded sum over all months, which is n times the base with a zero trend |
| CostAnalysis.ProjectCosts | src/egress/cost_analysis.py:493-553 | an unsuccessful analysis gives the error result; otherwise one entry per requested month (none for a non-positive count), built from the monthly base, with the compounded total |
| Recommendation.Weight | src/egress/recommendation.py:66-70 | high, medium and low weigh 3, 2 and 1; any other severity weighs 0; a missing one counts as low |
| Recommendation.WeightOfSeverity | src/egress/recommendation.py:66-70 | each severity's name maps to its weight, and a missing severity weighs the same as "low" |
| Recommendation.TransformCostSpec | src/egress/recommendation.py:168-192 | each cost recommendation keeps its savings and resource, gets confidence 0.9, and falls back to "cost", "Cost Optimization" and "medium" for a missing type, title and severity |
| Recommendation.TransformAnomalySpec | src/egress/recommendation.py:206-229 | each anomaly recommendation gets confidence 0.85 iff its severity is "high" (0.7 otherwise), source anomaly_detector, and the fallbacks "anomaly", "Anomaly Detection" and "medium" |
| Recommendation.NameOfSpec | src/egress/recommendation.py:188-190 | a resource name is attached iff a resource id is present, and it is the id's last path segment |
| Recommendation.TransformCostIdsDistinct | src/egress/recommendation.py:170-172 | the ids "cost_<i>_<stamp>" of one batch are pairwise distinct |
| Recommendation.IndexedIdInjective | src/egress/recommendation.py:172 | two indexed ids with the same prefix and stamp are equal only for the same index |
| Recommendation.RisingRecSpec | src/egress/recommendation.py:255-287 | a rising-trend recommendation exists iff the trend increases with moderate or strong strength; it is high with confidence 0.85 iff the normalised slope exceeds 20 % in magnitude, and medium with 0.7 otherwise |
| Recommendation.TrendRecsSpec | src/egress/recommendation.py:243-350 | no trend recommendation without a successful trend; at most three; a pattern recommendation only comes from a weekly or daily pattern with peaks; a weekly pattern with peak days always yields its recommendation |
| Recommendation.CombinedRecsSpec | src/egress/recommendation.py:368-470 | strategic iff the trend increases and the cost is elevated; security_cost iff more than 3 anomalies and elevated cost; architecture iff the total exceeds half the warning threshold and a pattern exists |
| Recommendation.SecurityCostSeverity | src/egress/recommendation.py:417-425 | the security-and-cost alert is high with confidence 0.85 iff some anomaly is high |
| Recommendation.DedupTitles | src/egress/recommendation.py:482-505 | the deduplicated titles are the distinct titles of the input, in first-appearance order |
| Recommendation.DedupKeepsBest | src/egress/recommendation.py:485-503 | for each title the kept recommendation is the first with the highest (severity weight, confidence) |
| Recommendation.Prioritize | src/egress/recommendation.py:517-553 | the result is a sub-multiset of the input, sorted by (severity weight, confidence) descending, at most the overall limit long and at most the per-category limit in each type |
| Recommendation.PrioritizeKeepsAll | src/egress/recommendation.py:517-553 | when the limits are not reached nothing is dropped |
| Recommendation.PrioritizeTopPerCategory | src/egress/recommendation.py:530-541 | what a category keeps ranks at least as high as anything it drops |
| Recommendation.PrioritizeNonEmpty | src/egress/recommendation.py:517-553 | with positive limits a non-empty input keeps at least one recommendation |
| Recommendation.CategoryCountsSpec | src/egress/recommendation.py:146-154 | each final type is counted once with its number of recommendations, every type present is counted, and the counts add up to the number of recommendations |
| Recommendation.RankedSpec | src/egress/recommendation.py:127-131 | after dedup and prioritising, titles are distinct, the list is sorted and within the limit |
| Recommendation.GenerateSpec | src/egress/recommendation.py:82-156 | empty input gives no_data; otherwise every final recommendation comes from one of the sources, titles are distinct, the order is by priority, the overall limit holds, and the sources flag which analyses succeeded |
| Recommendation.GenerateAsWritten | src/egress/recommendation.py:101-106 | as written, the engine fails exactly when the cost analysis succeeded with two or more regions and a zero total; otherwise it returns the corrected result |
| Recommendation.GenerateSucceeds | src/egress/recommendation.py:134-135 | with positive limits and at least one collected recommendation the status is success |
| Recommendation.CostAnalysisContributes | src/egress/recommendation.py:101-106 | a successful cost analysis always contributes a recommendation, so the status is success |
| AnomalyDetection.BandMonotone | src/egress/anomaly_detection.py:205-210 | a score of larger magnitude never gets a milder severity band |
| AnomalyDetection.ZScoreSeries | src/egress/anomaly_detection.py:184-201 | no findings for fewer than min_data_points rows or for a constant series; never more findings than rows |
| AnomalyDetection.ZScoreSound | src/egress/anomaly_detection.py:188-222 | every z-score finding comes from a row whose distance from the mean, divided by the sample standard deviation, exceeds the threshold, with expected value the mean |
| AnomalyDetection.ZScoreComplete | src/egress/anomaly_detection.py:197-204 | every row further from the mean than threshold times the standard deviation is reported |
| AnomalyDetection.MadSeries | src/egress/anomaly_detection.py:242-252 | no findings for too few rows or when the median absolute deviation is zero |
| AnomalyDetection.MadSound | src/egress/anomaly_detection.py:246-280 | every MAD finding's score times the MAD is 0.6745 times the row's distance from the median, and the row exceeds the threshold |
| AnomalyDetection.MadComplete | src/egress/anomaly_detection.py:255-262 | with a non-zero MAD, every row whose modified z-score exceeds the threshold is reported |
| AnomalyDetection.MadConstantQuiet | src/egress/anomaly_detection.py:250-252 | a constant series yields no MAD finding |
| AnomalyDetection.MadMissesSpike | src/egress/anomaly_detection.py:247-252 | four readings of 1 and one of 100 have MAD 0, so the MAD detector reports nothing for that spike |
| AnomalyDetection.ChronologicalOrdered | src/egress/anomaly_detection.py:312-313 | sorting by timestamp keeps the rows (as a multiset) and orders them by time |
| AnomalyDetection.RollingMeans | src/egress/anomaly_detection.py:315-316 | one mean per full window, each the mean of the window ending at that row |
| AnomalyDetection.MovingAvgSeries | src/egress/anomaly_detection.py:308-310 | no findings for a window below 1 or fewer than window + 2 rows |
| AnomalyDetection.MovingAvgConstantQuiet | src/egress/anomaly_detection.py:318-323 | a constant series yields no moving-average finding |
| AnomalyDetection.MovingAvgSound | src/egress/anomaly_detection.py:312-354 | every finding is a time-ordered row with a full window, its expected value is that window's mean, and its deviation over the spread of the differences exceeds the threshold |
| AnomalyDetection.MovingAvgComplete | src/egress/anomaly_detection.py:325-333 | every row with a full window whose deviation exceeds threshold times the spread is reported |
| AnomalyDetection.SeriesKeys | src/egress/anomaly_detection.py:181-183 | one key per distinct (resource id, name, metric) present in the rows, no repeats |
| AnomalyDetection.SeriesKeysAscend | src/egress/anomaly_detection.py:181-183 | the series are visited in groupby's sorted key order |
| AnomalyDetection.SeriesRows | src/egress/anomaly_detection.py:181-183 | a series holds exactly the rows carrying its key |
| AnomalyDetection.ScoreAll | src/egress/anomaly_detection.py:178-224 | every finding of an algorithm over all series reports a row of the input above the algorithm's threshold |
| AnomalyDetection.DedupFindings | src/egress/anomaly_detection.py:369-382 | deduplication keeps one finding per (resource, timestamp, metric), in first-appearance order of the keys |
| AnomalyDetection.DedupKeepsFirstMaximal | src/egress/anomaly_detection.py:375-380 | the kept finding for a key is the first one of largest absolute score |
| AnomalyDetection.DedupReplaced | src/egress/anomaly_detection.py:379-380 | a later finding of strictly larger magnitude replaces an earlier one with the same key |
| AnomalyDetection.DedupNewFinding | src/egress/anomaly_detection.py:379-380 | a finding with a new key is appended at the end |
| AnomalyDetection.DedupExample | src/egress/anomaly_detection.py:369-382 | four findings, two sharing a key, reduce to three, led by the larger of the pair |
| AnomalyDetection.RankOrdered | src/egress/anomaly_detection.py:125-126 | ranking keeps the findings and orders them by absolute score, largest first |
| AnomalyDetection.SeverityCountsAddUp | src/egress/anomaly_detection.py:146-150 | the high, medium and low counts add up to the number of findings |
| AnomalyDetection.ByResourcePartition | src/egress/anomaly_detection.py:128-134 | one group per resource id, each holding exactly that resource's findings, and every finding lands in its group |
| AnomalyDetection.DetectAnomalies | src/egress/anomaly_detection.py:90-166 | no_data iff no rows; no_egress_data iff no egress rows; the error result iff the window is negative; otherwise the findings are grouped by resource, the severity counts count the findings, and the algorithm counts are the lengths of the per-algorithm lists before dedup |
| AnomalyDetection.DetectedSound | src/egress/anomaly_detection.py:113-126 | every reported anomaly comes from an egress row that one of the three algorithms flags above its threshold |
| AnomalyDetection.DetectedRanked | src/egress/anomaly_detection.py:122-126 | the reported anomalies have distinct keys and are ordered by absolute score |
| AnomalyDetection.DetectedByResource | src/egress/anomaly_detection.py:128-139 | every resource group is non-empty and holds only its own findings, and every finding is grouped |
| AnomalyDetection.ResourceRecs | src/egress/anomaly_detection.py:436-460 | a resource-specific recommendation exists for every resource with a high finding and only for such resources |
| AnomalyDetection.AnomalyRecommendations | src/egress/anomaly_detection.py:394-476 | no recommendation without a successful detection with findings; otherwise the first is high iff some finding is high, and the last is the cost-impact one iff there are more than 5 findings |
| AnomalyDetection.HighRecommended | src/egress/anomaly_detection.py:444-460 | every resource with a high finding gets a recommendation naming it |
| AnomalyDetection.RecommendedHasHigh | src/egress/anomaly_detection.py:444-460 | a recommendation that names a resource implies that resource has a high finding |
| AnomalyDetection.DeviationPercent | src/egress/anomaly_detection.py:54-58 | infinite iff the expected value is 0 and the value positive; 0 when the expected value is 0 otherwise; else the signed difference over the magnitude of the expected value, in percent |
| AnomalyDetection.DeviationSign | src/egress/anomaly_detection.py:58 | the deviation is positive iff the value exceeds the expected value, and zero iff they are equal |
| TrendAnalysis.Totals | src/egress/trend_analysis.py:61-62 | each entry of the time series is the summed value of the egress rows at the matching timestamp of the time axis |
| TrendAnalysis.TotalsPartition | src/egress/trend_analysis.py:61-62 | the time axis is strictly increasing, holds exactly the timestamps present, and the per-timestamp totals add up to the sum of all values |
| TrendAnalysis.RSquared | src/egress/trend_analysis.py:90-94 | the coefficient of determination never exceeds 1 |
| TrendAnalysis.LineFit | src/egress/trend_analysis.py:83-94 | on points lying exactly on a line the least-squares fit recovers that line's slope and intercept, and R² is 1 unless the line is flat (then 0, since the total sum of squares vanishes) |
| TrendAnalysis.Classify | src/egress/trend_analysis.py:103-122 | direction is stable below 1% in magnitude and otherwise follows the sign; strength is none, weak up to 5%, moderate up to 10%, strong above, each as an if-and-only-if |
| TrendAnalysis.ClassifyMirror | src/egress/trend_analysis.py:107-122 | negating the normalised slope swaps increasing and decreasing and keeps the strength |
| TrendAnalysis.StrengthMonotone | src/egress/trend_analysis.py:104-122 | a larger slope magnitude never yields a weaker strength |
| TrendAnalysis.Confidence | src/egress/trend_analysis.py:97 | confidence is the absolute R² percentage capped at 100, hence within 0..100 |
| TrendAnalysis.FitOf | src/egress/trend_analysis.py:83-130 | fewer than three points give the unknown trend with zero slope, R² and confidence; otherwise the class is that of the normalised slope, with R² at most 1 and confidence in 0..100 |
| TrendAnalysis.ConstantFit | src/egress/trend_analysis.py:94-106 | a constant series is stable with no strength, zero slope, zero R² and zero confidence |
| TrendAnalysis.RisingLineFit | src/egress/trend_analysis.py:83-108 | a positive rising line has its exact slope, R² of 1, full confidence and a positive normalised slope |
| TrendAnalysis.ChangePercent | src/egress/trend_analysis.py:147-158 | the percentage change is the inverse of applying it: base plus that percentage of base gives back the current value; a zero base gives 0 |
| TrendAnalysis.ChangeSign | src/egress/trend_analysis.py:73-77 | over a positive base the change is positive exactly when the value rose and zero exactly when it stayed |
| TrendAnalysis.StepChanges | src/egress/trend_analysis.py:73-77 | a step change is defined after every nonzero predecessor, so there is none exactly when every total before the last is zero |
| TrendAnalysis.LatestChange | src/egress/trend_analysis.py:133-136 | the latest change is absent exactly when every predecessor is zero; otherwise it is the change into some position whose predecessor is nonzero and after which every predecessor is zero |
| TrendAnalysis.LatestIsLastStep | src/egress/trend_analysis.py:133-134 | the latest change is the last of the defined step changes |
| TrendAnalysis.DayOverDay | src/egress/trend_analysis.py:147-151 | the day-over-day change exists exactly when there are two points |
| TrendAnalysis.WeekOverWeek | src/egress/trend_analysis.py:154-158 | the week-over-week change exists exactly when there are seven points |
| TrendAnalysis.RecentChangesInverse | src/egress/trend_analysis.py:147-158 | both recent changes, applied to their earlier total, give back the latest total |
| TrendAnalysis.CoreOf | src/egress/trend_analysis.py:138-141 | the summary counts every point, the current value is the last total, and the minimum and maximum are totals that bound it |
| TrendAnalysis.OverallTrendAsWritten | src/egress/trend_analysis.py:36-183 | empty input is no data and input without egress rows is no egress data; the error outcome arises only when every total before the last is zero |
| TrendAnalysis.OverallTrendFailsExactly | src/egress/trend_analysis.py:77-134 | the analysis fails exactly for egress with at least two and at least the minimum number of timestamps whose totals before the last are all zero |
| TrendAnalysis.OverallTrend | src/egress/trend_analysis.py:36-183 | the outcome classes are exact (no data, no egress data, fewer points than configured), it never fails, and a found trend carries the summary, recent changes and latest change of the totals |
| TrendAnalysis.OverallTrendAgrees | src/egress/trend_analysis.py:36-183 | wherever the source does not fail, the corrected overall trend returns exactly what the source returns |
| TrendAnalysis.FlatZeroFails | src/egress/trend_analysis.py:133-134 | with only zero traffic over at least two timestamps the source ends in its error branch |
| TrendAnalysis.FlatZeroStable | src/egress/trend_analysis.py:104-106 | the corrected analysis reports zero traffic over three or more timestamps as a stable trend with no strength and zero latest change |
| TrendAnalysis.ZeroTrafficFails | src/egress/trend_analysis.py:133-134 | a concrete table of three zero-valued egress rows makes the source's overall trend fail |
| TrendAnalysis.ZeroTrafficStable | src/egress/trend_analysis.py:104-106 | the same table under the corrected analysis is a stable trend |
| TrendAnalysis.SingleGroupTrend | src/egress/trend_analysis.py:234-342 | a group is insufficient exactly when it has fewer timestamps than configured, and a found group summary counts every timestamp |
| TrendAnalysis.GroupTrends | src/egress/trend_analysis.py:221-232 | a group value is in the result exactly when it is nonempty and its analysis succeeded, and maps to that analysis |
| TrendAnalysis.TrendsByGroup | src/egress/trend_analysis.py:185-232 | an unknown column gives the empty result; a known column gives the per-group trends of the egress rows |
| TrendAnalysis.ColumnTrends | src/egress/trend_analysis.py:200-232 | the result holds exactly the nonempty cell values of the column whose group analysis succeeds, each mapped to its own group's summary; no rows give an empty result |
| TrendAnalysis.ColumnNamedName | src/egress/trend_analysis.py:214-216 | every modelled column is found by its own name |
| TrendAnalysis.GroupsPartitionTotals | src/egress/trend_analysis.py:221 | summing the group totals over the distinct column values gives the same total as the overall time series |
| TrendAnalysis.SingleGroupIsOverall | src/egress/trend_analysis.py:221-232 | when every egress row has the same nonempty column value, the grouped result is that one group mapped to the overall summary |
| TrendPatterns.Slots | src/egress/trend_analysis.py:373 | every row gets the slot (day or hour) of its own timestamp |
| TrendPatterns.SidesPartition | src/egress/trend_analysis.py:413-422 | the weekday and weekend sides (or the business and other hours) split the rows: their counts and sums add up to those of all rows |
| TrendPatterns.PercentDiff | src/egress/trend_analysis.py:413-422 | without a positive base average the difference is 0; otherwise it exists exactly when the other side has rows, and applying it to the base gives back the other average |
| TrendPatterns.Share | src/egress/trend_analysis.py:398-410 | a slot's share times the overall average is 100 times the slot average; a zero overall average gives 0 |
| TrendPatterns.MeanOf | src/egress/trend_analysis.py:413-422 | a side has an average exactly when it has rows |
| TrendPatterns.Judge | src/egress/trend_analysis.py:386-425 | a pattern is reported exactly when there is a peak, a low, or a side difference beyond the threshold; the difference relates the two side averages and every slot gets a statistic |
| TrendPatterns.SelectSlot | src/egress/trend_analysis.py:390-396 | a slot is selected exactly when it occurs and its own average meets the bound |
| TrendPatterns.PeaksAndLows | src/egress/trend_analysis.py:390-396 | peaks are the slots at (or, corrected, above) 120% of the overall average and lows those at (below) 80%; over a positive average no slot is both |
| TrendPatterns.PatternOf | src/egress/trend_analysis.py:344-396 | the outcome classes are exact (no data, no egress data, fewer slots than the rule needs) and a found pattern is the analysis of the egress rows |
| TrendPatterns.WeeklyPatternsAsWritten | src/egress/trend_analysis.py:344-443 | fewer than three days is insufficient, and every table with three days or more ends in an error; a pattern is never reported |
| TrendPatterns.WeeklyPatterns | src/egress/trend_analysis.py:344-443 | fewer than three days is insufficient, three or more always yield a pattern analysis, and there is never an error |
| TrendPatterns.HourlyPatternsAsWritten | src/egress/trend_analysis.py:445-536 | fewer than six hours is insufficient, six or more yield a pattern analysis, and there is no error outcome |
| TrendPatterns.HourlyPatterns | src/egress/trend_analysis.py:445-536 | as the hourly analysis, with the strict peak and low comparisons |
| TrendPatterns.WeeklySides | src/egress/trend_analysis.py:413-416 | the weekend average is the mean of the weekend rows |
| TrendPatterns.HourlySides | src/egress/trend_analysis.py:497-506 | the business-hours average is the mean of rows from 9:00 to 17:00 and the other average the mean of the remaining rows |
| TrendPatterns.FlatZeroPatternAsWritten | src/egress/trend_analysis.py:488-494 | with only zero traffic, the inclusive comparisons make every slot both a peak and a low and report a pattern |
| TrendPatterns.FlatZeroPatternCorrected | src/egress/trend_analysis.py:488-494 | with only zero traffic, the strict comparisons report no peaks, no lows and no pattern |
| TrendPatterns.ZeroWeekAsWritten | src/egress/trend_analysis.py:390-396 | a concrete table of three zero-valued days is judged a pattern by the inclusive comparisons, the stage before the day-name lookup fails |
| TrendPatterns.ZeroWeekCorrected | src/egress/trend_analysis.py:390-396 | the same table under the corrected weekly analysis reports no pattern |
| Monitor.TypeStatsSpec | src/egress/monitor.py:216-236 | a type's entry counts its resources, the resources with at least one metric, and the metrics of those resources |
| Monitor.DataBelowMetrics | src/egress/monitor.py:224-230 | resources with data never outnumber the metrics counted nor the resources |
| Monitor.AccumulateSpec | src/egress/monitor.py:213-239 | the statistics list every resource type in order and count all resources, those with data and all their metrics |
| Monitor.ResourceStatisticsSpec | src/egress/monitor.py:194-241 | errors are counted from the optional error list (none gives 0), the totals cover every resource, and resources with data are bounded by both the resource count and the metrics count |
| Monitor.TypeEntriesKeys | src/egress/monitor.py:232 | the per-type entries are keyed by exactly the resource types |
| Monitor.ByTypeSpec | src/egress/monitor.py:216-236 | with distinct type names, the per-type table holds one entry per type in order, each the statistics of that type alone |
| Monitor.TotalsByType | src/egress/monitor.py:218-239 | each global total is the sum of the matching per-type entry field |
| Monitor.FilterTypesSpec | src/egress/monitor.py:86-91 | with a filter, a type is kept exactly when its lowered name contains the lowered filter |
| Monitor.FilterTypesAppend | src/egress/monitor.py:88-90 | filtering distributes over concatenation, so kept types stay in their original order |
| Monitor.FilterTypesIgnoresCase | src/egress/monitor.py:89 | lowering the filter does not change the result |
| Monitor.FilterSameText | src/egress/monitor.py:89 | two nonempty filters that agree ignoring case select the same types |
| Metrics.Define | src/egress/metrics.py:8-23 | a definition keeps every given field and replaces absent dimensions by the empty list |
| Metrics.DescribeSpec | src/egress/metrics.py:24-25 | a nonempty description is kept; otherwise it is the display name followed by the unit in parentheses |
| Metrics.ToDict | src/egress/metrics.py:27-34 | the API form has exactly the four distinct keys name, aggregation, resourceType and unit with the definition's values |
| Metrics.DefineDefaults | src/egress/metrics.py:8-34 | a definition built without dimensions or description gets the empty dimension list, the generated description and the four-entry API form |
| Metrics.NicKeys | src/egress/metrics.py:40-79 | the network interface registry holds exactly its four metric keys in order |
| Metrics.VmKeys | src/egress/metrics.py:82-121 | the virtual machine registry holds exactly its four metric keys in order |
| Metrics.LbKeys | src/egress/metrics.py:124-156 | the load balancer registry holds exactly its three metric keys in order |
| Metrics.AppKeys | src/egress/metrics.py:159-180 | the App Service registry holds exactly its two metric keys in order |
| Metrics.Registries | src/egress/metrics.py:40-180 | each registry has its size, distinct keys, and every definition names the registry's own resource type |
| Metrics.RegistryLookups | src/egress/metrics.py:43-156 | sample lookups: the interface's bytes_out is BytesOutPerSecond in bytes per second, the VM's network_out is of the VM type, and the load balancer's bytes_out splits by Direction |
| Metrics.RegistryOfSpec | src/egress/metrics.py:195-208 | only the no-metrics family selects the empty registry; every other family selects a well-keyed registry of its own size and type |
| Metrics.FamilyOfSpec | src/egress/metrics.py:193-208 | the keyword tests on the lowered type, in order: virtualnetwork gives nothing, then networkinterface, virtualmachine, loadbalancer and sites or webapp, each as an if-and-only-if, and any other type gives nothing |
| Metrics.MetricsForIgnoresCase | src/egress/metrics.py:193 | the lookup gives the same registry for a type and its lowered form |
| Metrics.MetricsForExamples | src/egress/metrics.py:183-220 | the interface, VM, load balancer (in lower case) and App Service types select their registries, while virtual networks and an unknown type select none |
| Versioning.MatchAt | scripts/update_version.py:25 | a match is an opening `version="` followed by a nonempty run free of double quotes and closed by a double quote |
| Versioning.TokensRender | scripts/update_version.py:25-42 | cutting a text into literal characters and version assignments loses nothing: rendering the pieces unchanged gives the text back |
| Versioning.ReplaceAllRender | scripts/update_version.py:31-47 | the substitution rewrites every version assignment of the text, left to right and without overlap, to the new version and keeps every other character |
| Versioning.CurrentVersionSpec | scripts/update_version.py:12-29 | the current version is the value of the first assignment in the text, or 0.1.0 when there is none |
| Versioning.NoAssignUnchanged | scripts/update_version.py:25-42 | a text without an assignment is left unchanged by the update and reports the default version |
| Versioning.FormatParse | scripts/update_version.py:132-147 | reading back a formatted version gives the same three numbers |
| Versioning.BumpSpec | scripts/update_version.py:134-145 | every bump yields a strictly later version; a major bump resets minor and patch, a minor bump keeps major and resets patch, and a patch bump (also the default) keeps major and minor |
| Versioning.NewVersionSpec | scripts/update_version.py:128-147 | an explicit version wins; otherwise the result exists exactly when the current version parses, and it is the later version chosen by the first set flag, major before minor before patch |
| Versioning.BumpExamples | scripts/update_version.py:134-147 | from 1.2.3 the flags give 2.0.0, 1.3.0, 1.2.4, and 1.2.4 with no flag |
| Versioning.InsertionPointSpec | scripts/update_version.py:84-94 | the entry goes before the first release heading; failing that, right after the line holding the title; failing both, at the start |
| Versioning.AddEntryRemovable | scripts/update_version.py:96 | the new text is the old one with exactly the entry inserted at the insertion point |
| Versioning.NewestFirst | scripts/update_version.py:59-96 | after the insertion, the first release heading of the changelog is the new entry's |
| Versioning.ChangelogNewestFirst | scripts/update_version.py:49-101 | whether the changelog is created or updated, the new entry stands at the first release heading, behind the generated header in a new file |
| TimeUtils.Breakdown | src/utils/time_utils.py:95-96 | floor division splits the whole seconds into hours, minutes below 60 and seconds below 60 that add back up to them, with hours positive exactly from one hour on |
| TimeUtils.FormatDuration | src/utils/time_utils.py:85-105 | the text always ends with the seconds piece |
| TimeUtils.FormatDurationRoundTrip | src/utils/time_utils.py:85-105 | reading the pieces back gives the whole seconds, except that below one hour the hours are dropped, so the seconds come back modulo an hour |
| TimeUtils.FormatDurationShape | src/utils/time_utils.py:99-103 | there are three pieces from one hour on, two when there is at least a minute, and one otherwise |
| TimeUtils.FormatDurationExamples | src/utils/time_utils.py:85-105 | 0 seconds is "0s", 61 is "1m 1s", 3600 is "1h 0m 0s" and 9015 is "2h 30m 15s" |
| TimeUtils.DoneCount | src/utils/time_utils.py:128-135 | the completed phases never outnumber the phases |
| TimeUtils.PhaseSummary | src/utils/time_utils.py:121-143 | the summary counts every phase, never more completed ones than phases, formats its total duration, and carries the phases |
| TimeUtils.TotalsPut | src/utils/time_utils.py:131-135 | storing a phase changes the summed duration and the completed count by exactly what the replaced and the new phase contribute |
| TimeUtils.StartPhaseSpec | src/utils/time_utils.py:38-51 | starting a phase records it in progress with the given start and description, leaves every other phase unchanged, and adds an entry only for a new identifier |
| TimeUtils.StartPhaseSummary | src/utils/time_utils.py:38-143 | starting a new phase adds one phase and no duration; restarting one removes its old duration and completion |
| TimeUtils.EndPhaseSpec | src/utils/time_utils.py:53-83 | ending an unknown phase gives nothing and changes nothing; ending a known one keeps its start and description, sets the status, end, duration and formatted duration, and touches no other phase |
| TimeUtils.EndPhaseSummary | src/utils/time_utils.py:53-143 | ending a phase keeps the phase count, replaces its duration by the measured one and counts it as completed exactly when the status says so |
| TimeUtils.StartThenEnd | src/utils/time_utils.py:38-83 | a phase started and then ended reports the start, the description, the final status and the elapsed time between the two |
| ConfigUtils.MergeKeys | src/utils/config_utils.py:46-58 | the merged keys are distinct, begin with the base keys in their order, and are exactly the keys of either side |
| ConfigUtils.MergeFresh | src/utils/config_utils.py:48-56 | keys new to the base are appended in the override's order |
| ConfigUtils.MergeSameKeys | src/utils/config_utils.py:48-56 | an override using only existing keys keeps the base's key order |
| ConfigUtils.MergeDeep | src/utils/config_utils.py:35-58 | merging two well-formed nested configurations gives a well-formed one |
| ConfigUtils.MergeEmpty | src/utils/config_utils.py:46-58 | merging an empty override returns the base |
| ConfigUtils.MergeIntoEmpty | src/utils/config_utils.py:46-58 | merging into an empty base returns the override |
| ConfigUtils.MergeSelf | src/utils/config_utils.py:49-56 | merging a configuration with itself returns it |
| ConfigUtils.MergeIdempotent | src/utils/config_utils.py:35-58 | applying the same override twice is the same as applying it once |
| ConfigUtils.MergeExample | src/utils/config_utils.py:35-58 | nested sections merge key by key: an overridden level replaces the base level, the base file setting survives, and a new section is appended |
| ConfigUtils.SetInSpec | src/utils/config_utils.py:74-88 | setting a key inside a section fails exactly when the section exists and is not a dictionary; otherwise it creates the section if needed and sets that key alone |
| ConfigUtils.OverrideSpec | src/utils/config_utils.py:74-88 | one environment override sets its field when the variable is present, leaves every other field and section unchanged, and fails exactly on a blocking section |
| ConfigUtils.AzureOverrides | src/utils/config_utils.py:74-82 | the two Azure overrides together set the authentication method and the CLI flag from the environment and touch nothing outside the azure section |
| ConfigUtils.EnvOverridesFails | src/utils/config_utils.py:61-90 | the overrides fail exactly when a present variable's section exists but is not a dictionary, and with no variable set they return the configuration unchanged |
| ConfigUtils.EnvOverridesFields | src/utils/config_utils.py:61-90 | on success the authentication method, CLI flag and log level come from the environment when set and from the configuration otherwise, and every other field and section is kept |
| ConfigUtils.EnvOverridesSpec | src/utils/config_utils.py:61-90 | the failure condition and the field-by-field result together |
| ConfigUtils.EnvOverridesExample | src/utils/config_utils.py:61-90 | setting the authentication method and the log level in the environment replaces those two fields |
| Dashboard.SourcesSpec | src/dashboard/app.py:96-105 | a metric source is enumerated exactly when it sits at some resource type, resource and metric position of the collection |
| Dashboard.SourceRowsSpec | src/dashboard/app.py:107-126 | a metric yields rows exactly when its values and times are both nonempty and equally long, and then row i pairs time i with value i |
| Dashboard.RowDefaults | src/dashboard/app.py:100-125 | absent fields fall back to the metric key for name and display name, Count for the unit, Unknown for resource name and group, and unknown for the location |
| Dashboard.FlattenSpec | src/dashboard/app.py:83-138 | the table has one row per point of every contributing metric, and a row is in it exactly when it is the row of some point of some contributing metric |
| Dashboard.FlattenEmpty | src/dashboard/app.py:128-138 | the table is empty exactly when no metric contributes |
| Dashboard.FlattenAppend | src/dashboard/app.py:97 | the rows of two collections in sequence are the rows of the first followed by those of the second, so loop order is kept |
| AzureUtils.ResourceName | src/utils/azure_utils.py:14-28 | an empty id has the name "unknown", and any other id has a name free of '/' |
| AzureUtils.ResourceNameSuffix | src/utils/azure_utils.py:27-28 | the name is the tail of the id after its last '/', the whole id when there is none, and empty for an id ending in '/' |
| AzureUtils.NameAfterLastSlash | src/utils/azure_utils.py:27-28 | an id made of a path, a '/' and a name without '/' has that name |
| AzureUtils.SegmentSearch | src/utils/azure_utils.py:43-44 | the segment search fails exactly when no lead is followed by a non-empty run free of '/' and a '/', and otherwise answers the run of the leftmost such place |
| AzureUtils.ResourceGroupSpec | src/utils/azure_utils.py:30-44 | an empty id, or one with no "/resourceGroups/<g>/" segment, gives "unknown"; otherwise the group is the segment of the leftmost occurrence |
| AzureUtils.ResourceGroupAt | src/utils/azure_utils.py:43-44 | a group segment with none before it is the resource group |
| AzureUtils.ResourceGroupOfStandardId | src/utils/azure_utils.py:43-44 | in a standard id "/subscriptions/<s>/resourceGroups/<g>/..." the group is g |
| AzureUtils.SubscriptionSpec | src/utils/azure_utils.py:62-76 | an empty id, or one with no "/subscriptions/<s>/" segment, gives "unknown"; otherwise the subscription is the segment of the leftmost occurrence |
| AzureUtils.SubscriptionOfStandardId | src/utils/azure_utils.py:75-76 | an id starting "/subscriptions/<s>/" has subscription s |
| AzureUtils.TypeSearch | src/utils/azure_utils.py:59-60 | the type search fails exactly when no lead is followed by two non-empty runs free of '/' joined by a '/', and otherwise answers "a/b" of the leftmost such place |
| AzureUtils.ResourceTypeSpec | src/utils/azure_utils.py:46-60 | an empty id, or one with no "providers/<a>/<b>" part, gives "unknown"; otherwise the type is "a/b" of the leftmost occurrence |
| AzureUtils.ResourceTypeAt | src/utils/azure_utils.py:59-60 | a type match with none before it is the resource type |
| AzureUtils.TypeOfProviderPath | src/utils/azure_utils.py:59-60 | "providers/<ns>/<type>" followed by nothing or by a '/' has type "ns/type" |
| AzureUtils.BareSubscriptionId | src/utils/azure_utils.py:30-60 | an id naming only a subscription has group and type "unknown" |
| AzureUtils.ProviderOnlyId | src/utils/azure_utils.py:62-76 | an id with a provider but no subscription segment has subscription "unknown" |
| AzureUtils.FormatForQuery | src/utils/azure_utils.py:78-90 | the formatted id is a window of the id with only whitespace outside it, and it neither starts nor ends with whitespace |
| AzureUtils.FormatIdempotent | src/utils/azure_utils.py:78-90 | formatting a formatted id changes nothing |
| AzureUtils.FormatPadded | src/utils/azure_utils.py:78-90 | an id without surrounding whitespace is kept, and spaces padded around it are removed |
| Samples.EgressRows | src/egress/trend_analysis.py:50-54 | a row is kept exactly when its metric name contains out, sent or egress ignoring case, and the kept rows are never more than the input |
| Samples.OutIsEgress | src/egress/cost_analysis.py:164-168 | any metric name containing out in some casing counts as egress traffic |
| Samples.AllEgress | src/egress/anomaly_detection.py:104-108 | a table of egress rows only is kept whole, in order |
| Text.Lower | src/egress/metrics.py:193 | lowering keeps the length and lowers every character on its own |
| Text.LowerIdempotent | src/egress/monitor.py:89 | lowering twice is lowering once |
| Text.ContainsIff | src/egress/metrics.py:195-205 | a substring test holds exactly when the pattern occurs at some position |
| Text.JoinSplit | src/utils/azure_utils.py:27 | joining the pieces of a split with the separator gives the text back |
| Text.SplitJoin | src/utils/azure_utils.py:27 | splitting a join of separator-free pieces gives the pieces back |
| Text.StripWindow | src/utils/azure_utils.py:90 | stripping keeps one contiguous window, removes only white space on either side, and leaves no white space at its ends |
| Text.StripIdempotent | src/utils/azure_utils.py:90 | stripping twice is stripping once |
| Text.ParseNatOfNatToString | scripts/update_version.py:132-147 | reading back the decimal text of a natural gives the same natural |
| Stats.VarianceZeroIffConstant | src/egress/anomaly_detection.py:188-190 | the sample variance of two or more values is zero exactly when all values are equal |
| Stats.Std | src/egress/anomaly_detection.py:188-190 | the sample standard deviation is non-negative, squares to the variance, and is zero exactly for constant values |
| Stats.MedianWithin | src/egress/anomaly_detection.py:246-248 | the median lies between two of the values |
| Stats.Min | src/egress/trend_analysis.py:139 | the minimum is one of the values and at most each of them |
| Stats.Max | src/egress/trend_analysis.py:140 | the maximum is one of the values and at least each of them |
| Sorting.SortDesc | src/egress/recommendation.py:522-528 | sorting by a descending key keeps length and contents and orders the result |
| Sorting.SortStable | src/egress/cost_analysis.py:377 | the sort is stable: the items with any one key keep their original relative order |
| Grouping.Keys | src/egress/trend_analysis.py:221 | the distinct values of a column, each once, are exactly the values present |
| Grouping.DistinctKeys | src/egress/trend_analysis.py:221 | a column of distinct values has them as its keys in order |
| Grouping.SortedKeysIncreasing | src/egress/trend_analysis.py:61-62 | the sorted timestamps are strictly increasing and are exactly the timestamps present |
| Grouping.OrderedKeys | src/egress/cost_analysis.py:180 | the grouped keys are distinct and exactly the keys present |
| Grouping.OrderedKeysAscend | src/egress/cost_analysis.py:180-198 | under a strict total order the grouped keys come out ascending, as the grouping sorts them |
| Grouping.AscendsUnique | src/egress/anomaly_detection.py:181-183 | two ascending sequences with the same members are equal, so the group order is determined by the keys alone |
| Grouping.StrLtOrder | src/egress/anomaly_detection.py:181 | comparing text character by character is a strict total order |
| Grouping.GroupSums | src/egress/trend_analysis.py:61 | each group sum is the sum of the values whose key is that group's key |
| Grouping.GroupSumsAddUp | src/egress/cost_analysis.py:180-208 | group sums over distinct keys covering every row add up to the sum of all values |
| Grouping.TallyPartition | src/egress/anomaly_detection.py:146-150 | per-key counts over distinct keys covering every item add up to the number of items |
| KeyedDedup.DedupKeys | src/egress/anomaly_detection.py:369-382 | the deduplicated items carry each key once, in the order the key first appears |
| KeyedDedup.DedupKeepsFirstMaximal | src/egress/recommendation.py:482-505 | each kept item is the first of its key with the highest rank, since a later item replaces the kept one only when strictly better |
| Capping.Ranked | src/egress/recommendation.py:522-528 | ranking is a permutation into descending order |
| Capping.SelectedPerCategory | src/egress/recommendation.py:530-541 | each category keeps its best-ranked items up to the cap, and every kept one ranks at least as high as every dropped one |
| Capping.PrioritizeSub | src/egress/recommendation.py:517-553 | prioritising only drops items |
| Capping.PrioritizeRanked | src/egress/recommendation.py:544-553 | the result is in descending rank order and within the overall limit |
| Capping.PrioritizeCapped | src/egress/recommendation.py:538-541 | no category has more items than the cap |
| Capping.PrioritizeNonEmpty | src/egress/recommendation.py:517-553 | a nonempty input with positive cap and limit gives a nonempty result |
| Capping.PrioritizeKeepsAll | src/egress/recommendation.py:517-553 | when the input fits both the cap and the limit, nothing is dropped |

## Left out

- Text.Lower: folds ASCII letters only, whereas Python's `str.lower` and pandas' case-insensitive `contains` fold every Unicode letter; members that compare text ignoring case inherit this: Samples.IsEgressName and Samples.EgressRows, CostAnalysis.NormalizeRegion and CostAnalysis.ResourceRec, Monitor.FilterTypes, Metrics.FamilyOf and Metrics.MetricsFor, and the CLI-flag override of ConfigUtils.EnvOverrides.
- ConfigUtils.EnvOverrides: returns a fresh configuration; the source copies only the top level (config_utils.py:71), so setting a field of an existing nested section also changes the caller's dictionary. The aliasing is not modelled.
- ConfigUtils.Value: holds strings, integers, booleans and nested sections; lists, floats and null values of a configuration are not modelled, since no merge or override rule treats them differently from other leaves.
- Versioning.ParseVersion: accepts only plain digit runs; Python's `int` also accepts a sign, surrounding white space and `_` digit separators, so a version such as "1.2.-1" bumps in the source but is rejected here.
- Versioning.ReplaceAll: inserts the new version literally; `re.sub` would interpret backslash escapes in it, which a version string does not normally contain.
- Stats.Std: the square root is a parameter constrained by Stats.IsSqrt (non-negative and squaring back) rather than a computed function, because reals have no square root in Dafny; the z-score members take it the same way.
- Timestamps are integers ordered like the source's datetimes; the day of the week and the hour of the day of a timestamp are parameters of the pattern members, and the string-to-datetime conversion is not modelled.
- Recommendation.Rec: keeps the identifier, kind, title, severity, confidence and source of a recommendation; the action lists, descriptions and other prose are fixed text or copies of the inputs and are dropped.
- Recommendation.Generate: takes the cost, anomaly, trend and pattern outcomes as inputs; in the source the module fails to import (`pd` is used at recommendation.py:72 without an import) and the pattern-dependent rules read an undefined `metrics_df` (recommendation.py:290, 321, 440-441).
- TrendAnalysis.TrendsByGroup: groups by the eight text columns of the table; grouping by the numeric `value` or `timestamp` column, which the source would also accept, gives the empty result here.
- TrendPatterns.HourlyPatternsAsWritten: the per-hour statistics are keyed by the hour number, whereas the source keys them by the text of a float ("9.0") after `iterrows` widens the row.
- NaN and infinity: a mean over no rows and a percentage change over a zero base are absent values rather than NaN; `float('inf')` as a tier limit is the `Unbounded` limit.
- Clock readings, generated identifiers and dates (phase start and end times, recommendation and anomaly timestamps, the changelog date) are parameters.
- File and network I/O: loading and saving the phase tracker's JSON file, reading and writing setup.py and CHANGELOG.md, the Azure SDK calls of the monitor's fallback discovery, and argument parsing are not modelled; the monitor's type filter is modelled on the discovered dictionary.
- Catch-all `except` handlers that turn an exception into an "error" status are modelled only where the exception is reachable: the overall trend, the weekly patterns, and the cost analysis, which fails (CostAnalysis.AnalyzeCosts returns Failed, cost_analysis.py:283-288) when the pricing table has no "default" zone and the lookup at cost_analysis.py:306 raises; elsewhere the guarded computation cannot raise.
- Metrics.Define: the description is kept apart in Metrics.Describe, because nothing reads a registry entry's description.
- azure_utils.py's `safe_execute_azure_operation`, `get_time_range_for_metrics` and `batch_list_generator` wrap SDK calls and the clock and are not part of this model.
- The Dash layout and callbacks, the plotting pages, the CLI, authentication, storage and the collector are not part of this model.

## Findings

| source | as written | input that shows it | evidently intended | confidence | as-written member | corrected member |
|---|---|---|---|---|---|---|
| src/egress/cost_analysis.py:44-48 | the tier limits 10, 40 and 100 TB are walked as cumulative boundaries, so the "next 40 TB" tier bills 30 TB, the "next 100 TB" tier bills 60 TB, and the last price applies from 100 TB | 120 TB in zone 1: the step from 110 TB is billed at 0.05 per GB | boundaries at 10, 50 and 150 TB, so each tier bills the width its comment names | not executed | CostAnalysis.AsWrittenTierWidths | CostAnalysis.IntendedTierWidths |
| src/egress/cost_analysis.py:427 | the second region's cost is divided by the total cost, which is zero when all traffic is idle, raising ZeroDivisionError through the recommendation engine | egress rows with 0 bytes in two locations | skip the cross-region ratio when the total cost is zero | not executed | CostAnalysis.IdleTrafficDividesByZero | CostAnalysis.CostRecommendations |
| src/egress/trend_analysis.py:133-134 | the latest change is the last defined percentage change, and indexing an empty series raises when every earlier total is zero, so the trend ends in "error" | three zero-valued egress rows at consecutive timestamps | a latest change of 0, as for a single point, and a stable trend | not executed | TrendAnalysis.ZeroTrafficFails | TrendAnalysis.ZeroTrafficStable |
| src/egress/trend_analysis.py:488-494 | peak hours are those at or above 120% of the mean of the hourly averages and low hours those at or below 80% (the weekly rule at 390-396 is the same), so with zero traffic every hour is both a peak and a low and a pattern is reported | egress rows carrying 0 bytes in six different hours of the day | the strict comparisons the comments describe, reporting no pattern for flat traffic | not executed | TrendPatterns.FlatZeroPatternAsWritten | TrendPatterns.FlatZeroPatternCorrected |
| src/egress/trend_analysis.py:404-406 | `iterrows` widens the day-of-week column to float, and indexing the day-name list with a float raises TypeError, so every weekly analysis with three or more days ends in "error" | any egress rows on three different days | look the day name up with the whole day number | not executed | TrendPatterns.WeeklyPatternsAsWritten | TrendPatterns.WeeklyPatterns |

=== FILE: anomaly_detection.dfy ===
/** The egress anomaly detector: three scorers (z-score, median absolute
    deviation, moving average) run over every (resource, metric) series of
    the egress rows; their findings are deduplicated, ranked by the size of
    their score, summarised, grouped by resource and turned into
    recommendations. */
module AnomalyDetection {
  import opened Common
  import opened Stats
  import opened Sorting
  import opened Grouping
  import opened Samples
  import opened KeyedDedup

  datatype Algorithm = ZScore | Mad | MovingAverage

  /** The tunables the scorers read. The seasonal settings of the detector's
      configuration are never read by any scorer and are not modelled. */
  datatype Config = Config(
    zscoreThreshold: real,
    minDataPoints: int,
    madThreshold: real,
    movingAvgWindow: int,
    peakThreshold: real)

  const DefaultConfig := Config(3.0, 5, 3.5, 5, 3.0)

  /** The threshold each scorer compares its scores against. */
  function Threshold(cfg: Config, alg: Algorithm): real {
    match alg
    case ZScore => cfg.zscoreThreshold
    case Mad => cfg.madThreshold
    case MovingAverage => cfg.peakThreshold
  }

  datatype Anomaly = Anomaly(
    resourceId: string,
    resourceName: string,
    timestamp: int,
    value: real,
    expected: real,
    score: real,
    algorithm: Algorithm,
    metricName: string,
    severity: Severity)

  // ---------------------------------------------------------------------
  // Severity bands, shared by the three scorers

  /** A flagged score is high beyond twice the threshold, low up to 1.2
      times it, and medium in between. */
  function Band(score: real, t: real): Severity {
    if Abs(score) > t * 2.0 then High
    else if Abs(score) <= t * 1.2 then Low
    else Medium
  }

  function SeverityRank(s: Severity): nat {
    match s
    case Low => 0
    case Medium => 1
    case High => 2
  }

  /** A larger score never gets a lower severity. */
  lemma BandMonotone(s1: real, s2: real, t: real)
    requires 0.0 <= t && Abs(s1) <= Abs(s2)
    ensures SeverityRank(Band(s1, t)) <= SeverityRank(Band(s2, t))
  {
  }

  // ---------------------------------------------------------------------
  // Scoring and flagging points

  /** One scored point of a series: its row, the value the scorer expected
      there, and its score. */
  datatype Scored = Scored(row: Row, expected: real, score: real)

  /** Scores each row's value `v` against its expected value `e` as
      `c * (v - e) / d`: the shape all three scorers share. */
  function Points(rows: seq<Row>, es: seq<real>, c: real, d: real): (r: seq<Scored>)
    requires |es| == |rows| && d != 0.0
    ensures |r| == |rows|
    ensures forall j :: 0 <= j < |rows| ==>
              r[j] == Scored(rows[j], es[j], Product(c, rows[j].value - es[j]) / d)
  {
    seq(|rows|, j requires 0 <= j < |rows| => Scored(rows[j], es[j], Product(c, rows[j].value - es[j]) / d))
  }

  /** The anomaly a scorer reports for a point it flags. */
  function Report(p: Scored, t: real, alg: Algorithm): Anomaly {
    Anomaly(p.row.resourceId, p.row.resourceName, p.row.timestamp, p.row.value,
            p.expected, p.score, alg, p.row.metricName, Band(p.score, t))
  }

  /** Anomaly `a` reports row `x` for scorer `alg` at threshold `t`: it
      carries the row's identity and value, its score exceeds the threshold
      and its severity is the score's band. */
  predicate Reports(a: Anomaly, x: Row, alg: Algorithm, t: real) {
    a.resourceId == x.resourceId && a.resourceName == x.resourceName
    && a.metricName == x.metricName && a.timestamp == x.timestamp
    && a.value == x.value && a.algorithm == alg
    && Abs(a.score) > t && a.severity == Band(a.score, t)
  }

  /** The points whose score exceeds `t` in absolute value, reported in the
      order of the points. */
  function Flag(ps: seq<Scored>, t: real, alg: Algorithm): (r: seq<Anomaly>)
    ensures |r| <= |ps|
    ensures forall j :: 0 <= j < |ps| && Abs(ps[j].score) > t ==> Report(ps[j], t, alg) in r
    ensures forall a :: a in r ==>
              exists j :: 0 <= j < |ps| && Abs(ps[j].score) > t && a == Report(ps[j], t, alg)
  {
    if |ps| == 0 then []
    else
      var init := Flag(ps[..|ps| - 1], t, alg);
      var p := ps[|ps| - 1];
      assert forall j :: 0 <= j < |ps| - 1 ==> ps[..|ps| - 1][j] == ps[j];
      if Abs(p.score) > t then init + [Report(p, t, alg)] else init
  }

  /** `x / d * d == x` for a non-zero `d`. */
  lemma DivTimes(x: real, d: real)
    requires d != 0.0
    ensures Product(x / d, d) == x
  {
  }

  /** For a positive `d`, `|x / d| > t` exactly when `|x| > t * d`. */
  lemma AbsDivGt(x: real, d: real, t: real)
    requires d > 0.0
    ensures Abs(x / d) > t <==> Abs(x) > Product(t, d)
  {
    if x < 0.0 {
      assert Abs(x / d) == (-x) / d;
    }
  }

  /** Every flagged point reports its row and expected value, and its score
      times the divisor is the scaled distance of the value from the
      expected one. */
  lemma PointsFlagged(rows: seq<Row>, es: seq<real>, c: real, d: real, t: real, alg: Algorithm)
    requires |es| == |rows| && d != 0.0
    ensures forall a :: a in Flag(Points(rows, es, c, d), t, alg) ==>
              Scaled(a, c, d)
              && exists j :: 0 <= j < |rows| && Reports(a, rows[j], alg, t) && a.expected == es[j]
  {
    FlaggedRows(rows, es, c, d, t, alg);
    FlaggedScaled(rows, es, c, d, t, alg);
  }

  lemma FlaggedRows(rows: seq<Row>, es: seq<real>, c: real, d: real, t: real, alg: Algorithm)
    requires |es| == |rows| && d != 0.0
    ensures forall a :: a in Flag(Points(rows, es, c, d), t, alg) ==>
              exists j :: 0 <= j < |rows| && Reports(a, rows[j], alg, t) && a.expected == es[j]
  {
    var ps := Points(rows, es, c, d);
    FlagReports(ps, t, alg);
  }

  /** The score of `a`, times `d`, is `c` times its distance from the
      expected value. */
  predicate Scaled(a: Anomaly, c: real, d: real) {
    Product(a.score, d) == Product(c, a.value - a.expected)
  }

  /** The expected value plus the score in units of `d` gives the value. */
  predicate Explains(a: Anomaly, d: real) {
    a.expected + Product(a.score, d) == a.value
  }

  lemma FlaggedScaled(rows: seq<Row>, es: seq<real>, c: real, d: real, t: real, alg: Algorithm)
    requires |es| == |rows| && d != 0.0
    ensures forall a :: a in Flag(Points(rows, es, c, d), t, alg) ==> Scaled(a, c, d)
  {
    var ps := Points(rows, es, c, d);
    PointsScaled(rows, es, c, d);
    forall j | 0 <= j < |ps| ensures Scaled(Report(ps[j], t, alg), c, d) {
      ReportScaled(ps[j], t, alg, c, d);
    }
    FlagKeeps(ps, t, alg, a => Scaled(a, c, d));
  }

  /** What every report of a point satisfies, every flagged anomaly does. */
  lemma FlagKeeps(ps: seq<Scored>, t: real, alg: Algorithm, keep: Anomaly -> bool)
    requires forall j :: 0 <= j < |ps| ==> keep(Report(ps[j], t, alg))
    ensures forall a :: a in Flag(ps, t, alg) ==> keep(a)
  {
  }

  lemma ReportScaled(p: Scored, t: real, alg: Algorithm, c: real, d: real)
    requires Product(p.score, d) == Product(c, p.row.value - p.expected)
    ensures var a := Report(p, t, alg); Product(a.score, d) == Product(c, a.value - a.expected)
  {
  }

  /** Each point's score times the divisor is its scaled distance. */
  lemma PointsScaled(rows: seq<Row>, es: seq<real>, c: real, d: real)
    requires |es| == |rows| && d != 0.0
    ensures var ps := Points(rows, es, c, d);
            forall j :: 0 <= j < |ps| ==> Product(ps[j].score, d) == Product(c, ps[j].row.value - ps[j].expected)
  {
    forall j | 0 <= j < |rows| {
      DivTimes(Product(c, rows[j].value - es[j]), d);
    }
  }

  /** Every flagged anomaly reports the row of a point above the
      threshold, with that point's expected value and score. */
  lemma FlagReports(ps: seq<Scored>, t: real, alg: Algorithm)
    ensures forall a :: a in Flag(ps, t, alg) ==>
              exists j :: 0 <= j < |ps| && Reports(a, ps[j].row, alg, t)
                          && a.expected == ps[j].expected && a.score == ps[j].score
  {
    forall a | a in Flag(ps, t, alg)
      ensures exists j :: 0 <= j < |ps| && Reports(a, ps[j].row, alg, t)
                          && a.expected == ps[j].expected && a.score == ps[j].score
    {
      var j :| 0 <= j < |ps| && Abs(ps[j].score) > t && a == Report(ps[j], t, alg);
    }
  }

  /** A point whose scaled distance exceeds the threshold times a positive
      divisor is reported. */
  lemma PointFlagged(rows: seq<Row>, es: seq<real>, c: real, d: real, t: real, alg: Algorithm, j: int)
    requires |es| == |rows| && d > 0.0 && 0 <= j < |rows|
    requires Abs(Product(c, rows[j].value - es[j])) > Product(t, d)
    ensures exists a :: a in Flag(Points(rows, es, c, d), t, alg) && Reports(a, rows[j], alg, t)
  {
    var ps := Points(rows, es, c, d);
    AbsDivGt(Product(c, rows[j].value - es[j]), d, t);
    assert Report(ps[j], t, alg) in Flag(ps, t, alg);
    assert Reports(Report(ps[j], t, alg), rows[j], alg, t);
  }

  // ---------------------------------------------------------------------
  // Z-score scorer

  function Constant(n: nat, c: real): (r: seq<real>)
    ensures |r| == n && forall i :: 0 <= i < n ==> r[i] == c
  {
    seq(n, i => c)
  }

  /** The z-score anomalies of one series: each value's distance from the
      mean in standard deviations. A series shorter than the minimum, of a
      single point (whose standard deviation is undefined) or of constant
      value yields none. */
  function ZScoreSeries(rows: seq<Row>, cfg: Config, sqrt: real -> real): (r: seq<Anomaly>)
    requires IsSqrt(sqrt)
    ensures |rows| < cfg.minDataPoints || |rows| < 2 ==> r == []
    ensures |rows| >= 2 && (forall i :: 0 <= i < |rows| ==> rows[i].value == rows[0].value) ==> r == []
    ensures |r| <= |rows|
  {
    if |rows| < cfg.minDataPoints || |rows| < 2 then []
    else
      var vs := Values(rows);
      var sd := Std(vs, sqrt);
      if sd == 0.0 then []
      else Flag(Points(rows, Constant(|rows|, Mean(vs)), 1.0, sd), cfg.zscoreThreshold, ZScore)
  }

  /** Every z-score anomaly reports a row of its series, expects the
      series' mean, and its score times the standard deviation is the
      value's distance from that mean. */
  lemma ZScoreSound(rows: seq<Row>, cfg: Config, sqrt: real -> real)
    requires IsSqrt(sqrt)
    ensures forall a :: a in ZScoreSeries(rows, cfg, sqrt) ==>
              |rows| >= 2 && a.expected == Mean(Values(rows))
              && Explains(a, Std(Values(rows), sqrt))
              && exists i :: 0 <= i < |rows| && Reports(a, rows[i], ZScore, cfg.zscoreThreshold)
  {
    if ZScoreSeries(rows, cfg, sqrt) != [] {
      var m := Mean(Values(rows));
      PointsFlagged(rows, Constant(|rows|, m), 1.0, Std(Values(rows), sqrt), cfg.zscoreThreshold, ZScore);
    }
  }

  /** Conversely, once the series is long enough every value further from
      the mean than the threshold times the standard deviation is
      reported. */
  lemma ZScoreComplete(rows: seq<Row>, cfg: Config, sqrt: real -> real, i: int)
    requires IsSqrt(sqrt)
    requires |rows| >= cfg.minDataPoints && |rows| >= 2 && 0 <= i < |rows|
    requires Abs(rows[i].value - Mean(Values(rows))) > Product(cfg.zscoreThreshold, Std(Values(rows), sqrt))
    ensures exists a :: a in ZScoreSeries(rows, cfg, sqrt) && Reports(a, rows[i], ZScore, cfg.zscoreThreshold)
  {
    var vs := Values(rows);
    var sd := Std(vs, sqrt);
    var m := Mean(vs);
    if sd == 0.0 {
      MeanConstant(vs, vs[0]);
      assert false;
    }
    var es := Constant(|rows|, m);
    assert Product(1.0, rows[i].value - es[i]) == rows[i].value - m;
    PointFlagged(rows, es, 1.0, sd, cfg.zscoreThreshold, ZScore, i);
  }

  // ---------------------------------------------------------------------
  // Median-absolute-deviation scorer

  /** The consistency constant of the modified z-score. */
  const MadScale := 0.6745

  function AbsDeviations(vs: seq<real>, m: real): (r: seq<real>)
    ensures |r| == |vs| && forall i :: 0 <= i < |vs| ==> r[i] == Abs(vs[i] - m)
  {
    seq(|vs|, i requires 0 <= i < |vs| => Abs(vs[i] - m))
  }

  /** The median absolute deviation from the median. */
  function MadOf(vs: seq<real>): real
    requires |vs| > 0
  {
    Median(AbsDeviations(vs, Median(vs)))
  }

  /** A constant series has no spread around its median. */
  lemma MadConstant(vs: seq<real>)
    requires |vs| > 0
    requires forall i :: 0 <= i < |vs| ==> vs[i] == vs[0]
    ensures MadOf(vs) == 0.0
  {
    MedianConstant(vs, vs[0]);
    MedianConstant(AbsDeviations(vs, Median(vs)), 0.0);
  }

  /** The median absolute deviation is never negative. */
  lemma MadNonNegative(vs: seq<real>)
    requires |vs| > 0
    ensures MadOf(vs) >= 0.0
  {
    var ds := AbsDeviations(vs, Median(vs));
    MedianWithin(ds);
  }

  /** The modified z-score anomalies of one series: 0.6745 times each
      value's distance from the median, over the median absolute deviation.
      A series shorter than the minimum, or whose values mostly sit on the
      median (so that the median absolute deviation is zero), yields
      none. */
  function MadSeries(rows: seq<Row>, cfg: Config): (r: seq<Anomaly>)
    ensures |rows| < cfg.minDataPoints || |rows| == 0 ==> r == []
    ensures |rows| > 0 && MadOf(Values(rows)) == 0.0 ==> r == []
    ensures |r| <= |rows|
  {
    if |rows| < cfg.minDataPoints || |rows| == 0 then []
    else
      var vs := Values(rows);
      var mad := MadOf(vs);
      if mad == 0.0 then []
      else Flag(Points(rows, Constant(|rows|, Median(vs)), MadScale, mad), cfg.madThreshold, Mad)
  }

  /** A constant series has no MAD anomalies. */
  lemma MadConstantQuiet(rows: seq<Row>, cfg: Config)
    requires forall i :: 0 <= i < |rows| ==> rows[i].value == rows[0].value
    ensures MadSeries(rows, cfg) == []
  {
    if |rows| > 0 {
      MadConstant(Values(rows));
    }
  }

  /** Every MAD anomaly reports a row of its series, expects the median,
      and its score times the median absolute deviation is 0.6745 times the
      value's distance from the median. */
  lemma MadSound(rows: seq<Row>, cfg: Config)
    ensures forall a :: a in MadSeries(rows, cfg) ==>
              |rows| > 0 && a.expected == Median(Values(rows))
              && Product(a.score, MadOf(Values(rows))) == Product(MadScale, a.value - a.expected)
              && exists i :: 0 <= i < |rows| && Reports(a, rows[i], Mad, cfg.madThreshold)
  {
    if MadSeries(rows, cfg) != [] {
      var vs := Values(rows);
      PointsFlagged(rows, Constant(|rows|, Median(vs)), MadScale, MadOf(vs), cfg.madThreshold, Mad);
    }
  }

  /** Conversely, when the median absolute deviation is not zero, every
      value whose scaled distance from the median exceeds the threshold
      times that deviation is reported. */
  lemma MadComplete(rows: seq<Row>, cfg: Config, i: int)
    requires |rows| >= cfg.minDataPoints && 0 <= i < |rows|
    requires MadOf(Values(rows)) != 0.0
    requires Abs(MadScale * (rows[i].value - Median(Values(rows))))
             > Product(cfg.madThreshold, MadOf(Values(rows)))
    ensures exists a :: a in MadSeries(rows, cfg) && Reports(a, rows[i], Mad, cfg.madThreshold)
  {
    var vs := Values(rows);
    var es := Constant(|rows|, Median(vs));
    MadNonNegative(vs);
    assert Product(MadScale, rows[i].value - es[i]) == MadScale * (rows[i].value - Median(vs));
    PointFlagged(rows, es, MadScale, MadOf(vs), cfg.madThreshold, Mad, i);
  }

  /** The scorer's blind spot: when more than half of a series sits on one
      value the median absolute deviation is zero, and even a hundredfold
      spike goes unreported. */
  lemma MadMissesSpike()
    ensures MadSeries(SpikeSeries(), DefaultConfig) == []
  {
    var vs := Values(SpikeSeries());
    assert vs == [1.0, 1.0, 1.0, 1.0, 100.0];
    SpikeMad(vs);
  }

  lemma SpikeMad(vs: seq<real>)
    requires vs == [1.0, 1.0, 1.0, 1.0, 100.0]
    ensures MadOf(vs) == 0.0
  {
    MedianOfSpike(vs);
    SpikeDeviations(vs);
    MedianOfSpikeDeviations(AbsDeviations(vs, 1.0));
  }

  lemma SpikeDeviations(vs: seq<real>)
    requires vs == [1.0, 1.0, 1.0, 1.0, 100.0]
    ensures AbsDeviations(vs, 1.0) == [0.0, 0.0, 0.0, 0.0, 99.0]
  {
  }

  function SpikeRow(t: int, v: real): Row {
    Row(t, v, "vm-1", "vm-1", "vm", "rg", "eastus", "Network Out Total", "Network Out", "Bytes")
  }

  function SpikeSeries(): seq<Row> {
    [SpikeRow(0, 1.0), SpikeRow(1, 1.0), SpikeRow(2, 1.0), SpikeRow(3, 1.0), SpikeRow(4, 100.0)]
  }

  lemma MedianOfSpike(vs: seq<real>)
    requires vs == [1.0, 1.0, 1.0, 1.0, 100.0]
    ensures Median(vs) == 1.0
  {
    var s := SortDesc(vs, ByValue);
    MedianOfFive(s, 1.0, 100.0);
  }

  lemma MedianOfSpikeDeviations(ds: seq<real>)
    requires ds == [0.0, 0.0, 0.0, 0.0, 99.0]
    ensures Median(ds) == 0.0
  {
    var s := SortDesc(ds, ByValue);
    MedianOfFive(s, 0.0, 99.0);
  }

  /** Four equal values `c` and one larger `h`, sorted descending: the
      middle element is `c`. */
  lemma MedianOfFive(s: seq<real>, c: real, h: real)
    requires |s| == 5 && c < h
    requires multiset(s) == multiset{c, c, c, c, h}
    requires SortedDesc(s, ByValue)
    ensures s[2] == c
  {
    forall k | 0 <= k < 5 ensures s[k] == c || s[k] == h {
      assert s[k] in multiset(s);
    }
    assert KeyGe(ByValue(s[0]), ByValue(s[1])) && KeyGe(ByValue(s[1]), ByValue(s[2]));
    assert s == [s[0], s[1]] + s[2..];
    assert multiset(s) == multiset{s[0], s[1]} + multiset(s[2..]);
  }

  // ---------------------------------------------------------------------
  // Moving-average scorer

  /** Rows ordered by time: a stable sort on the timestamp. */
  function ByTime(x: Row): Key {
    Key(-x.timestamp, 0.0)
  }

  function Chronological(rows: seq<Row>): (r: seq<Row>)
    ensures |r| == |rows| && multiset(r) == multiset(rows)
  {
    SortDesc(rows, ByTime)
  }

  /** The series in time order is a rearrangement of the series whose
      timestamps never decrease. */
  lemma ChronologicalOrdered(rows: seq<Row>)
    ensures multiset(Chronological(rows)) == multiset(rows)
    ensures forall i, j :: 0 <= i < j < |rows| ==>
              Chronological(rows)[i].timestamp <= Chronological(rows)[j].timestamp
  {
    var r := Chronological(rows);
    assert forall i, j :: 0 <= i < j < |r| ==> KeyGe(ByTime(r[i]), ByTime(r[j]));
  }

  /** The rolling mean over the `w` values ending at position `i`. */
  function WindowMean(vs: seq<real>, i: int, w: int): real
    requires 1 <= w && w - 1 <= i < |vs|
  {
    Mean(vs[i - w + 1 .. i + 1])
  }

  /** The rolling means from the first full window on: entry `j` belongs to
      position `j + w - 1`; earlier points have no rolling mean. */
  function RollingMeans(vs: seq<real>, w: int): (r: seq<real>)
    requires 1 <= w <= |vs|
    ensures |r| == |vs| - w + 1
    ensures forall j :: 0 <= j < |r| ==> r[j] == WindowMean(vs, j + w - 1, w)
  {
    seq(|vs| - w + 1, j requires 0 <= j < |vs| - w + 1 => WindowMean(vs, j + w - 1, w))
  }

  /** Each value's difference from its rolling mean. */
  function Diffs(vs: seq<real>, ms: seq<real>, w: int): (r: seq<real>)
    requires 1 <= w && |ms| == |vs| - w + 1
    ensures |r| == |ms|
    ensures forall j :: 0 <= j < |r| ==> r[j] == vs[j + w - 1] - ms[j]
  {
    seq(|ms|, j requires 0 <= j < |ms| => vs[j + w - 1] - ms[j])
  }

  /** The spread the scorer divides by: the standard deviation of the
      differences, in time order. */
  function Spread(rows: seq<Row>, w: int, sqrt: real -> real): real
    requires 1 <= w && |rows| >= w + 2 && IsSqrt(sqrt)
  {
    var vs := Values(Chronological(rows));
    Std(Diffs(vs, RollingMeans(vs, w), w), sqrt)
  }

  /** The moving-average anomalies of one series: each difference from the
      rolling mean over the spread. A window below one, or a series shorter
      than the window plus two, yields none. */
  function MovingAvgSeries(rows: seq<Row>, cfg: Config, sqrt: real -> real): (r: seq<Anomaly>)
    requires IsSqrt(sqrt)
    ensures cfg.movingAvgWindow < 1 || |rows| < cfg.movingAvgWindow + 2 ==> r == []
    ensures |r| <= |rows|
  {
    var w := cfg.movingAvgWindow;
    if w < 1 || |rows| < w + 2 then []
    else
      var sd := Spread(rows, w, sqrt);
      if sd == 0.0 then []
      else MaFlag(Chronological(rows), w, sd, cfg.peakThreshold)
  }

  /** The flagged points of a series already in time order. */
  function MaFlag(s: seq<Row>, w: int, sd: real, t: real): (r: seq<Anomaly>)
    requires 1 <= w <= |s| && sd != 0.0
    ensures |r| <= |s|
  {
    Flag(Points(s[w - 1..], RollingMeans(Values(s), w), 1.0, sd), t, MovingAverage)
  }

  /** A constant series has no moving-average anomalies: every difference
      from the rolling mean is zero, so the spread is. */
  lemma MovingAvgConstantQuiet(rows: seq<Row>, cfg: Config, sqrt: real -> real)
    requires IsSqrt(sqrt)
    requires forall i :: 0 <= i < |rows| ==> rows[i].value == rows[0].value
    ensures MovingAvgSeries(rows, cfg, sqrt) == []
  {
    var w := cfg.movingAvgWindow;
    if 1 <= w && |rows| >= w + 2 {
      var vs := Values(Chronological(rows));
      ChronologicalConstant(rows, rows[0].value);
      DiffsOfConstant(vs, w, rows[0].value);
    }
  }

  lemma ChronologicalConstant(rows: seq<Row>, c: real)
    requires forall i :: 0 <= i < |rows| ==> rows[i].value == c
    ensures forall i :: 0 <= i < |rows| ==> Values(Chronological(rows))[i] == c
  {
    var s := Chronological(rows);
    forall i | 0 <= i < |rows| ensures s[i].value == c {
      assert s[i] in multiset(rows);
    }
  }

  lemma DiffsOfConstant(vs: seq<real>, w: int, c: real)
    requires 1 <= w && |vs| >= w + 2
    requires forall i :: 0 <= i < |vs| ==> vs[i] == c
    ensures forall j :: 0 <= j < |vs| - w + 1 ==> Diffs(vs, RollingMeans(vs, w), w)[j] == 0.0
  {
    var d := Diffs(vs, RollingMeans(vs, w), w);
    forall j | 0 <= j < |d| ensures d[j] == 0.0 {
      MeanConstant(vs[j .. j + w], c);
    }
  }

  /** Every moving-average anomaly reports a row at position `i >= w - 1`
      of the series in time order, expects the rolling mean of the `w`
      values ending there, and its score times the spread is the value's
      difference from that mean. The first `w - 1` points are never
      reported. */
  lemma MovingAvgSound(rows: seq<Row>, cfg: Config, sqrt: real -> real)
    requires IsSqrt(sqrt)
    ensures forall a :: a in MovingAvgSeries(rows, cfg, sqrt) ==>
              1 <= cfg.movingAvgWindow && |rows| >= cfg.movingAvgWindow + 2
              && Explains(a, Spread(rows, cfg.movingAvgWindow, sqrt))
              && exists i :: cfg.movingAvgWindow - 1 <= i < |rows|
                   && Reports(a, Chronological(rows)[i], MovingAverage, cfg.peakThreshold)
                   && a.expected == WindowMean(Values(Chronological(rows)), i, cfg.movingAvgWindow)
  {
    if MovingAvgSeries(rows, cfg, sqrt) != [] {
      var w := cfg.movingAvgWindow;
      MaSound(Chronological(rows), w, Spread(rows, w, sqrt), cfg.peakThreshold);
    }
  }

  lemma MaSound(s: seq<Row>, w: int, sd: real, t: real)
    requires 1 <= w <= |s| && sd != 0.0
    ensures forall a :: a in MaFlag(s, w, sd, t) ==>
              Explains(a, sd)
              && exists i :: w - 1 <= i < |s| && Reports(a, s[i], MovingAverage, t)
                   && a.expected == WindowMean(Values(s), i, w)
  {
    var ms := RollingMeans(Values(s), w);
    var late := s[w - 1..];
    PointsFlagged(late, ms, 1.0, sd, t, MovingAverage);
    forall a | a in MaFlag(s, w, sd, t)
      ensures exists i :: w - 1 <= i < |s| && Reports(a, s[i], MovingAverage, t)
                && a.expected == WindowMean(Values(s), i, w)
    {
      var j :| 0 <= j < |late| && Reports(a, late[j], MovingAverage, t) && a.expected == ms[j];
      assert late[j] == s[j + w - 1];
    }
  }

  /** Conversely, when the spread is not zero, every point with a full
      window whose difference from its rolling mean exceeds the threshold
      times the spread is reported. */
  lemma MovingAvgComplete(rows: seq<Row>, cfg: Config, sqrt: real -> real, i: int)
    requires IsSqrt(sqrt)
    requires 1 <= cfg.movingAvgWindow && |rows| >= cfg.movingAvgWindow + 2
    requires cfg.movingAvgWindow - 1 <= i < |rows|
    requires Spread(rows, cfg.movingAvgWindow, sqrt) != 0.0
    requires Abs(Chronological(rows)[i].value
                 - WindowMean(Values(Chronological(rows)), i, cfg.movingAvgWindow))
             > Product(cfg.peakThreshold, Spread(rows, cfg.movingAvgWindow, sqrt))
    ensures exists a :: a in MovingAvgSeries(rows, cfg, sqrt)
              && Reports(a, Chronological(rows)[i], MovingAverage, cfg.peakThreshold)
  {
    var w := cfg.movingAvgWindow;
    var sd := Spread(rows, w, sqrt);
    assert sd > 0.0;
    MaComplete(Chronological(rows), w, sd, cfg.peakThreshold, i);
  }

  lemma MaComplete(s: seq<Row>, w: int, sd: real, t: real, i: int)
    requires 1 <= w <= |s| && sd > 0.0 && w - 1 <= i < |s|
    requires Abs(s[i].value - WindowMean(Values(s), i, w)) > Product(t, sd)
    ensures exists a :: a in MaFlag(s, w, sd, t) && Reports(a, s[i], MovingAverage, t)
  {
    var ms := RollingMeans(Values(s), w);
    var late := s[w - 1..];
    var j := i - w + 1;
    assert late[j] == s[i] && ms[j] == WindowMean(Values(s), i, w);
    assert Product(1.0, late[j].value - ms[j]) == s[i].value - WindowMean(Values(s), i, w);
    PointFlagged(late, ms, 1.0, sd, t, MovingAverage, j);
  }

  // ---------------------------------------------------------------------
  // Scoring the whole table, series by series

  /** A series: the rows of one resource (id and name) and one metric. */
  datatype SeriesKey = SeriesKey(resourceId: string, resourceName: string, metricName: string)

  function SeriesOf(x: Row): SeriesKey {
    SeriesKey(x.resourceId, x.resourceName, x.metricName)
  }

  function SeriesFields(k: SeriesKey): seq<string> {
    [k.resourceId, k.resourceName, k.metricName]
  }

  /** The order the two nested groupings visit the series in: by resource
      id and name, then by metric name, each compared as Python compares
      strings. */
  predicate SeriesBefore(a: SeriesKey, b: SeriesKey) {
    Lex(SeriesFields(a), SeriesFields(b), StrLt)
  }

  lemma SeriesOrder()
    ensures StrictTotal(SeriesBefore)
  {
    forall a, b | SeriesFields(a) == SeriesFields(b) ensures a == b {
      assert SeriesFields(a)[0] == SeriesFields(b)[0] && SeriesFields(a)[1] == SeriesFields(b)[1];
      assert SeriesFields(a)[2] == SeriesFields(b)[2];
    }
    FieldsOrder(SeriesFields, SeriesBefore);
  }

  function SeriesColumn(rows: seq<Row>): (r: seq<SeriesKey>)
    ensures |r| == |rows| && forall i :: 0 <= i < |rows| ==> r[i] == SeriesOf(rows[i])
  {
    seq(|rows|, i requires 0 <= i < |rows| => SeriesOf(rows[i]))
  }

  /** The series of a table, each once, in the order the groupings visit
      them. */
  function SeriesKeys(rows: seq<Row>): (r: seq<SeriesKey>)
    ensures Distinct(r)
    ensures forall k :: k in r <==> exists x :: x in rows && SeriesOf(x) == k
  {
    var ks := SeriesColumn(rows);
    var r := OrderedKeys(ks, SeriesBefore);
    assert forall k :: k in ks <==> exists x :: x in rows && SeriesOf(x) == k by {
      forall k | k in ks ensures exists x :: x in rows && SeriesOf(x) == k {
        var i :| 0 <= i < |ks| && ks[i] == k;
        assert rows[i] in rows;
      }
      forall k | exists x :: x in rows && SeriesOf(x) == k ensures k in ks {
        var x :| x in rows && SeriesOf(x) == k;
        var i :| 0 <= i < |rows| && rows[i] == x;
        assert ks[i] == k;
      }
    }
    r
  }

  /** The series come in increasing order. */
  lemma SeriesKeysAscend(rows: seq<Row>)
    ensures forall i, j :: 0 <= i < j < |SeriesKeys(rows)| ==> SeriesBefore(SeriesKeys(rows)[i], SeriesKeys(rows)[j])
  {
    SeriesOrder();
    OrderedKeysAscend(SeriesColumn(rows), SeriesBefore);
  }

  /** The rows of series `k`, in table order. */
  function SeriesRows(rows: seq<Row>, k: SeriesKey): (r: seq<Row>)
    ensures |r| <= |rows|
    ensures forall x :: x in r <==> x in rows && SeriesOf(x) == k
  {
    if |rows| == 0 then []
    else
      var init := SeriesRows(rows[..|rows| - 1], k);
      var x := rows[|rows| - 1];
      assert rows == rows[..|rows| - 1] + [x];
      if SeriesOf(x) == k then init + [x] else init
  }

  /** One scorer on one series. */
  function ScoreSeries(alg: Algorithm, rows: seq<Row>, cfg: Config, sqrt: real -> real): seq<Anomaly>
    requires IsSqrt(sqrt)
  {
    match alg
    case ZScore => ZScoreSeries(rows, cfg, sqrt)
    case Mad => MadSeries(rows, cfg)
    case MovingAverage => MovingAvgSeries(rows, cfg, sqrt)
  }

  /** Whatever a scorer reports on a series reports one of its rows. */
  lemma ScoreSeriesSound(alg: Algorithm, rows: seq<Row>, cfg: Config, sqrt: real -> real)
    requires IsSqrt(sqrt)
    ensures forall a :: a in ScoreSeries(alg, rows, cfg, sqrt) ==>
              exists x :: x in rows && Reports(a, x, alg, Threshold(cfg, alg))
  {
    match alg
    case ZScore => ZScoreFromRows(rows, cfg, sqrt);
    case Mad => MadFromRows(rows, cfg);
    case MovingAverage => MovingAvgFromRows(rows, cfg, sqrt);
  }

  lemma ZScoreFromRows(rows: seq<Row>, cfg: Config, sqrt: real -> real)
    requires IsSqrt(sqrt)
    ensures forall a :: a in ZScoreSeries(rows, cfg, sqrt) ==>
              exists x :: x in rows && Reports(a, x, ZScore, cfg.zscoreThreshold)
  {
    ZScoreSound(rows, cfg, sqrt);
    forall a | a in ZScoreSeries(rows, cfg, sqrt)
      ensures exists x :: x in rows && Reports(a, x, ZScore, cfg.zscoreThreshold)
    {
      var i :| 0 <= i < |rows| && Reports(a, rows[i], ZScore, cfg.zscoreThreshold);
    }
  }

  lemma MadFromRows(rows: seq<Row>, cfg: Config)
    ensures forall a :: a in MadSeries(rows, cfg) ==>
              exists x :: x in rows && Reports(a, x, Mad, cfg.madThreshold)
  {
    MadSound(rows, cfg);
    forall a | a in MadSeries(rows, cfg)
      ensures exists x :: x in rows && Reports(a, x, Mad, cfg.madThreshold)
    {
      var i :| 0 <= i < |rows| && Reports(a, rows[i], Mad, cfg.madThreshold);
    }
  }

  lemma MovingAvgFromRows(rows: seq<Row>, cfg: Config, sqrt: real -> real)
    requires IsSqrt(sqrt)
    ensures forall a :: a in MovingAvgSeries(rows, cfg, sqrt) ==>
              exists x :: x in rows && Reports(a, x, MovingAverage, cfg.peakThreshold)
  {
    MovingAvgSound(rows, cfg, sqrt);
    var s := Chronological(rows);
    forall a | a in MovingAvgSeries(rows, cfg, sqrt)
      ensures exists x :: x in rows && Reports(a, x, MovingAverage, cfg.peakThreshold)
    {
      var i :| cfg.movingAvgWindow - 1 <= i < |rows| && Reports(a, s[i], MovingAverage, cfg.peakThreshold);
      assert s[i] in multiset(rows);
    }
  }

  /** One scorer over the series `ks` of a table, series after series. */
  function ScoreAll(alg: Algorithm, rows: seq<Row>, ks: seq<SeriesKey>, cfg: Config, sqrt: real -> real): (r: seq<Anomaly>)
    requires IsSqrt(sqrt)
    ensures forall a :: a in r ==> exists x :: x in rows && Reports(a, x, alg, Threshold(cfg, alg))
  {
    if |ks| == 0 then []
    else
      var k := ks[|ks| - 1];
      ScoreSeriesSound(alg, SeriesRows(rows, k), cfg, sqrt);
      ScoreAll(alg, rows, ks[..|ks| - 1], cfg, sqrt) + ScoreSeries(alg, SeriesRows(rows, k), cfg, sqrt)
  }

  /** One scorer over every series of a table. */
  function ScoreTable(alg: Algorithm, rows: seq<Row>, cfg: Config, sqrt: real -> real): seq<Anomaly>
    requires IsSqrt(sqrt)
  {
    ScoreAll(alg, rows, SeriesKeys(rows), cfg, sqrt)
  }

  // ---------------------------------------------------------------------
  // Deduplication

  /** Two anomalies are the same finding when they share resource, instant
      and metric. */
  datatype FindingKey = FindingKey(resourceId: string, timestamp: int, metricName: string)

  function FindingOf(a: Anomaly): FindingKey {
    FindingKey(a.resourceId, a.timestamp, a.metricName)
  }

  function FindingKeys(s: seq<Anomaly>): (r: seq<FindingKey>)
    ensures |r| == |s| && forall i :: 0 <= i < |s| ==> r[i] == FindingOf(s[i])
  {
    KeysBy(s, FindingOf)
  }

  /** Anomalies of one finding are ranked by absolute score alone. */
  function ByMagnitude(a: Anomaly): Key {
    Key(0, Abs(a.score))
  }

  /** One anomaly per finding, in order of the finding's first appearance;
      a later anomaly replaces the kept one only with a strictly larger
      absolute score. */
  function Dedup(s: seq<Anomaly>): (r: seq<Anomaly>)
    ensures |r| <= |s|
    ensures forall x :: x in r ==> x in s
  {
    KeyedDedup.Dedup(s, FindingOf, ByMagnitude)
  }

  /** The findings of the deduplicated list are the distinct findings of
      the input, each once, in order of first appearance. */
  lemma DedupFindings(s: seq<Anomaly>)
    ensures FindingKeys(Dedup(s)) == Keys(FindingKeys(s))
  {
    DedupKeys(s, FindingOf, ByMagnitude);
  }

  /** `s[j]` is the first anomaly of its finding with the largest absolute
      score: none of its finding scores more, and every earlier one scores
      strictly less. */
  predicate FirstMaximal(s: seq<Anomaly>, j: int)
    requires 0 <= j < |s|
  {
    (forall k :: 0 <= k < |s| && FindingOf(s[k]) == FindingOf(s[j]) ==> Abs(s[k].score) <= Abs(s[j].score))
    && (forall k :: 0 <= k < j && FindingOf(s[k]) == FindingOf(s[j]) ==> Abs(s[k].score) < Abs(s[j].score))
  }

  /** `x` is the first-maximal anomaly of its finding somewhere in `s`. */
  ghost predicate FirstMaximalIn(s: seq<Anomaly>, x: Anomaly) {
    exists j :: 0 <= j < |s| && s[j] == x && FirstMaximal(s, j)
  }

  /** Deduplication keeps, for each finding, its first anomaly with the
      largest absolute score. */
  lemma DedupKeepsFirstMaximal(s: seq<Anomaly>)
    ensures forall x :: x in Dedup(s) ==> FirstMaximalIn(s, x)
  {
    KeyedDedup.DedupKeepsFirstMaximal(s, FindingOf, ByMagnitude);
    forall x | x in Dedup(s) ensures FirstMaximalIn(s, x) {
      var j :| 0 <= j < |s| && s[j] == x && KeyedDedup.FirstMaximal(s, j, FindingOf, ByMagnitude);
      assert FirstMaximal(s, j);
    }
  }

  /** The four-anomaly example of the detector's own test: two anomalies
      of one finding with scores 2.5 and 3.0, and two of other findings,
      deduplicate to three, keeping the 3.0. */
  lemma DedupExample()
    ensures |Dedup(ExampleFindings())| == 3
    ensures Dedup(ExampleFindings())[0].score == 3.0
  {
    var s := ExampleFindings();
    ExampleFirstTwo(s);
    ExampleLastTwo(s);
  }

  lemma ExampleFirstTwo(s: seq<Anomaly>)
    requires s == ExampleFindings()
    ensures Dedup(s[..2]) == [s[1]]
  {
    assert s[..2] == [s[0]] + [s[1]];
    DedupReplaced(s[0], s[1]);
  }

  lemma ExampleLastTwo(s: seq<Anomaly>)
    requires s == ExampleFindings() && Dedup(s[..2]) == [s[1]]
    ensures Dedup(s) == [s[1], s[2], s[3]]
  {
    assert s[..3] == s[..2] + [s[2]];
    assert FindingOf(s[1]) != FindingOf(s[2]);
    DedupNewFinding(s[..2], s[2]);
    assert s == s[..3] + [s[3]];
    assert FindingOf(s[1]) != FindingOf(s[3]) && FindingOf(s[2]) != FindingOf(s[3]);
    DedupNewFinding(s[..3], s[3]);
  }

  /** A second anomaly of the same finding with a larger score replaces
      the first. */
  lemma DedupReplaced(a: Anomaly, b: Anomaly)
    requires FindingOf(a) == FindingOf(b) && Abs(b.score) > Abs(a.score)
    ensures Dedup([a] + [b]) == [b]
  {
    var s := [a] + [b];
    assert s[..1] == [a] && s[1] == b && [a][..0] == [];
    assert Dedup([a]) == [a];
    assert KeyGt(ByMagnitude(b), ByMagnitude(a));
  }

  /** An anomaly of a finding not yet kept is appended. */
  lemma DedupNewFinding(s: seq<Anomaly>, x: Anomaly)
    requires forall y :: y in Dedup(s) ==> FindingOf(y) != FindingOf(x)
    ensures Dedup(s + [x]) == Dedup(s) + [x]
  {
    DedupNewKey(s, x, FindingOf, ByMagnitude);
  }

  function ExampleAnomaly(id: string, t: int, score: real): Anomaly {
    Anomaly(id, "Unknown", t, 0.0, 0.0, score, ZScore, "m1", Medium)
  }

  function ExampleFindings(): seq<Anomaly> {
    [ExampleAnomaly("res1", 12, 2.5), ExampleAnomaly("res1", 12, 3.0),
     ExampleAnomaly("res1", 13, 2.0), ExampleAnomaly("res2", 12, 1.5)]
  }

  // ---------------------------------------------------------------------
  // Ranking, summary and grouping by resource

  function ByScore(a: Anomaly): Key {
    Key(0, Abs(a.score))
  }

  /** The anomalies by decreasing absolute score (a stable sort). */
  function Rank(s: seq<Anomaly>): (r: seq<Anomaly>)
    ensures |r| == |s| && multiset(r) == multiset(s)
  {
    SortDesc(s, ByScore)
  }

  lemma RankOrdered(s: seq<Anomaly>)
    ensures multiset(Rank(s)) == multiset(s)
    ensures forall i, j :: 0 <= i < j < |s| ==> Abs(Rank(s)[i].score) >= Abs(Rank(s)[j].score)
  {
    var r := Rank(s);
    assert forall i, j :: 0 <= i < j < |r| ==> KeyGe(ByScore(r[i]), ByScore(r[j]));
  }

  function CountSeverity(s: seq<Anomaly>, sev: Severity): (r: nat)
    ensures r <= |s|
    ensures r == 0 <==> forall a :: a in s ==> a.severity != sev
  {
    if |s| == 0 then 0
    else
      assert s == s[..|s| - 1] + [s[|s| - 1]];
      CountSeverity(s[..|s| - 1], sev) + (if s[|s| - 1].severity == sev then 1 else 0)
  }

  /** Every anomaly is counted under exactly one severity. */
  lemma {:induction false} SeverityCountsAddUp(s: seq<Anomaly>)
    ensures CountSeverity(s, High) + CountSeverity(s, Medium) + CountSeverity(s, Low) == |s|
  {
    if |s| > 0 {
      SeverityCountsAddUp(s[..|s| - 1]);
    }
  }

  function ResourceIds(s: seq<Anomaly>): (r: seq<string>)
    ensures |r| == |s| && forall i :: 0 <= i < |s| ==> r[i] == s[i].resourceId
  {
    seq(|s|, i requires 0 <= i < |s| => s[i].resourceId)
  }

  /** The anomalies of one resource, in order. */
  function OfResource(s: seq<Anomaly>, id: string): (r: seq<Anomaly>)
    ensures |r| <= |s|
    ensures forall a :: a in r <==> a in s && a.resourceId == id
  {
    if |s| == 0 then []
    else
      var init := OfResource(s[..|s| - 1], id);
      var a := s[|s| - 1];
      assert s == s[..|s| - 1] + [a];
      if a.resourceId == id then init + [a] else init
  }

  datatype ResourceAnomalies = ResourceAnomalies(resourceId: string, anomalies: seq<Anomaly>)

  /** The anomalies grouped by resource, resources in order of first
      appearance. */
  function ByResource(s: seq<Anomaly>): (r: seq<ResourceAnomalies>)
    ensures |r| == |Keys(ResourceIds(s))|
  {
    var ids := Keys(ResourceIds(s));
    seq(|ids|, i requires 0 <= i < |ids| => ResourceAnomalies(ids[i], OfResource(s, ids[i])))
  }

  /** The groups partition the anomalies: one group per resource, none
      empty, each holding exactly the anomalies of its resource. */
  lemma ByResourcePartition(s: seq<Anomaly>)
    ensures forall i, j :: 0 <= i < j < |ByResource(s)| ==>
              ByResource(s)[i].resourceId != ByResource(s)[j].resourceId
    ensures forall g :: g in ByResource(s) ==>
              |g.anomalies| > 0 && forall a :: a in g.anomalies <==> a in s && a.resourceId == g.resourceId
    ensures forall a :: a in s ==> exists g :: g in ByResource(s) && g.resourceId == a.resourceId
  {
    GroupsNonEmpty(s);
    GroupsCover(s);
  }

  lemma GroupsNonEmpty(s: seq<Anomaly>)
    ensures forall g :: g in ByResource(s) ==> |g.anomalies| > 0
  {
    var ids := Keys(ResourceIds(s));
    var r := ByResource(s);
    forall g | g in r
      ensures |g.anomalies| > 0
    {
      var i :| 0 <= i < |r| && r[i] == g;
      assert ids[i] in ResourceIds(s);
      var k :| 0 <= k < |s| && ResourceIds(s)[k] == ids[i];
      assert s[k] in g.anomalies;
    }
  }

  lemma GroupsCover(s: seq<Anomaly>)
    ensures forall a :: a in s ==> exists g :: g in ByResource(s) && g.resourceId == a.resourceId
  {
    var ids := Keys(ResourceIds(s));
    var r := ByResource(s);
    forall a | a in s ensures exists g :: g in r && g.resourceId == a.resourceId {
      var k :| 0 <= k < |s| && s[k] == a;
      assert ResourceIds(s)[k] in ids;
      var i :| 0 <= i < |ids| && ids[i] == a.resourceId;
      assert r[i] in r;
    }
  }

  // ---------------------------------------------------------------------
  // Detection

  datatype Summary = Summary(
    total: nat,
    resources: nat,
    zscoreCount: nat,
    madCount: nat,
    movingAvgCount: nat,
    high: nat,
    medium: nat,
    low: nat)

  /** The detector's outcome. `Failed` is the error status: a negative
      moving-average window makes the rolling mean raise. */
  datatype Detection =
    | NoData
    | NoEgressData
    | Failed
    | Detected(summary: Summary, anomalies: seq<Anomaly>, byResource: seq<ResourceAnomalies>)

  /** The three scorers' findings, deduplicated, in the order the detector
      combines them. */
  function Findings(eg: seq<Row>, cfg: Config, sqrt: real -> real): seq<Anomaly>
    requires IsSqrt(sqrt)
  {
    Dedup(ScoreTable(ZScore, eg, cfg, sqrt) + ScoreTable(Mad, eg, cfg, sqrt)
          + ScoreTable(MovingAverage, eg, cfg, sqrt))
  }

  function DetectAnomalies(rows: seq<Row>, cfg: Config, sqrt: real -> real): (r: Detection)
    requires IsSqrt(sqrt)
    ensures r.NoData? <==> |rows| == 0
    ensures r.NoEgressData? <==> |rows| > 0 && |EgressRows(rows)| == 0
    ensures r.Failed? <==> |EgressRows(rows)| > 0 && cfg.movingAvgWindow < 0
    ensures r.Detected? ==>
              r.anomalies == Rank(Findings(EgressRows(rows), cfg, sqrt))
              && r.byResource == ByResource(r.anomalies)
              && r.summary.total == |r.anomalies| && r.summary.resources == |r.byResource|
              && r.summary.high + r.summary.medium + r.summary.low == r.summary.total
              && r.summary.total <= r.summary.zscoreCount + r.summary.madCount + r.summary.movingAvgCount
    ensures r.Detected? ==>
              r.summary.high == CountSeverity(r.anomalies, High)
              && r.summary.medium == CountSeverity(r.anomalies, Medium)
              && r.summary.low == CountSeverity(r.anomalies, Low)
    ensures r.Detected? ==>
              var eg := EgressRows(rows);
              r.summary.zscoreCount == |ScoreTable(ZScore, eg, cfg, sqrt)|
              && r.summary.madCount == |ScoreTable(Mad, eg, cfg, sqrt)|
              && r.summary.movingAvgCount == |ScoreTable(MovingAverage, eg, cfg, sqrt)|
  {
    if |rows| == 0 then NoData
    else
      var eg := EgressRows(rows);
      if |eg| == 0 then NoEgressData
      else if cfg.movingAvgWindow < 0 then Failed
      else
        var z := ScoreTable(ZScore, eg, cfg, sqrt);
        var m := ScoreTable(Mad, eg, cfg, sqrt);
        var ma := ScoreTable(MovingAverage, eg, cfg, sqrt);
        var ranked := Rank(Dedup(z + m + ma));
        SeverityCountsAddUp(ranked);
        var groups := ByResource(ranked);
        Detected(
          Summary(|ranked|, |groups|, |z|, |m|, |ma|,
                  CountSeverity(ranked, High), CountSeverity(ranked, Medium), CountSeverity(ranked, Low)),
          ranked, groups)
  }

  /** Every detected anomaly reports an egress row: it carries the row's
      identity and value, and its score exceeds its scorer's threshold with
      the matching severity. */
  lemma DetectedSound(rows: seq<Row>, cfg: Config, sqrt: real -> real)
    requires IsSqrt(sqrt)
    ensures DetectAnomalies(rows, cfg, sqrt).Detected? ==>
              forall a :: a in DetectAnomalies(rows, cfg, sqrt).anomalies ==>
                exists x :: x in EgressRows(rows) && Reports(a, x, a.algorithm, Threshold(cfg, a.algorithm))
  {
    var d := DetectAnomalies(rows, cfg, sqrt);
    if d.Detected? {
      var f := Findings(EgressRows(rows), cfg, sqrt);
      FindingsSound(EgressRows(rows), cfg, sqrt);
      forall a | a in d.anomalies ensures a in f {
        assert a in multiset(Rank(f));
      }
    }
  }

  lemma FindingsSound(eg: seq<Row>, cfg: Config, sqrt: real -> real)
    requires IsSqrt(sqrt)
    ensures forall a :: a in Findings(eg, cfg, sqrt) ==>
              exists x :: x in eg && Reports(a, x, a.algorithm, Threshold(cfg, a.algorithm))
  {
    var z := ScoreTable(ZScore, eg, cfg, sqrt);
    var m := ScoreTable(Mad, eg, cfg, sqrt);
    var ma := ScoreTable(MovingAverage, eg, cfg, sqrt);
    forall a | a in Findings(eg, cfg, sqrt)
      ensures exists x :: x in eg && Reports(a, x, a.algorithm, Threshold(cfg, a.algorithm))
    {
      assert a in z + m + ma;
    }
  }

  /** The detected anomalies come by decreasing absolute score and no two
      of them are the same finding. */
  lemma DetectedRanked(rows: seq<Row>, cfg: Config, sqrt: real -> real)
    requires IsSqrt(sqrt)
    ensures DetectAnomalies(rows, cfg, sqrt).Detected? ==>
              var s := DetectAnomalies(rows, cfg, sqrt).anomalies;
              (forall i, j :: 0 <= i < j < |s| ==> Abs(s[i].score) >= Abs(s[j].score))
              && Distinct(FindingKeys(s))
  {
    var d := DetectAnomalies(rows, cfg, sqrt);
    if d.Detected? {
      var f := Findings(EgressRows(rows), cfg, sqrt);
      RankOrdered(f);
      DistinctFindings(EgressRows(rows), cfg, sqrt);
      PermutationKeepsDistinct(f, Rank(f));
    }
  }

  lemma DistinctFindings(eg: seq<Row>, cfg: Config, sqrt: real -> real)
    requires IsSqrt(sqrt)
    ensures Distinct(FindingKeys(Findings(eg, cfg, sqrt)))
  {
    var all := ScoreTable(ZScore, eg, cfg, sqrt) + ScoreTable(Mad, eg, cfg, sqrt)
               + ScoreTable(MovingAverage, eg, cfg, sqrt);
    DedupFindings(all);
  }

  /** Rearranging a list whose findings are distinct keeps them
      distinct. */
  lemma PermutationKeepsDistinct(s: seq<Anomaly>, r: seq<Anomaly>)
    requires Distinct(FindingKeys(s)) && multiset(r) == multiset(s)
    ensures Distinct(FindingKeys(r))
  {
    forall i, j | 0 <= i < j < |r| ensures FindingOf(r[i]) != FindingOf(r[j]) {
      if FindingOf(r[i]) == FindingOf(r[j]) {
        assert r[i] in multiset(s) && r[j] in multiset(s);
        var p :| 0 <= p < |s| && s[p] == r[i];
        var q :| 0 <= q < |s| && s[q] == r[j];
        assert FindingKeys(s)[p] == FindingKeys(s)[q];
        assert p == q;
        TwiceCounted(r, i, j);
        OnceCounted(s, r[i]);
        assert false;
      }
    }
  }

  /** In a list with distinct findings each anomaly occurs at most once. */
  lemma {:induction false} OnceCounted(s: seq<Anomaly>, x: Anomaly)
    requires Distinct(FindingKeys(s))
    ensures multiset(s)[x] <= 1
  {
    if |s| > 0 {
      var n := |s| - 1;
      var init := s[..n];
      assert s == init + [s[n]];
      assert FindingKeys(init) == FindingKeys(s)[..n];
      OnceCounted(init, x);
      assert forall k :: 0 <= k < n ==> FindingKeys(s)[k] != FindingKeys(s)[n];
      assert s[n] !in init;
    }
  }

  /** The by-resource view partitions the detected anomalies: one group
      per resource, none empty, each holding exactly that resource's
      anomalies. */
  lemma DetectedByResource(rows: seq<Row>, cfg: Config, sqrt: real -> real)
    requires IsSqrt(sqrt)
    ensures DetectAnomalies(rows, cfg, sqrt).Detected? ==>
              var d := DetectAnomalies(rows, cfg, sqrt);
              (forall i, j :: 0 <= i < j < |d.byResource| ==> d.byResource[i].resourceId != d.byResource[j].resourceId)
              && (forall g :: g in d.byResource ==>
                    |g.anomalies| > 0 && forall a :: a in g.anomalies <==> a in d.anomalies && a.resourceId == g.resourceId)
              && (forall a :: a in d.anomalies ==> exists g :: g in d.byResource && g.resourceId == a.resourceId)
  {
    var d := DetectAnomalies(rows, cfg, sqrt);
    if d.Detected? {
      ByResourcePartition(d.anomalies);
    }
  }

  // ---------------------------------------------------------------------
  // Recommendations drawn from a detection

  datatype AnomalyRecKind = Security | ResourceSpecific | CostImpact

  /** A recommendation; descriptions and action lists are fixed prose and
      are not modelled. */
  datatype AnomalyRec = AnomalyRec(kind: AnomalyRecKind, severity: Severity, title: string, resourceId: Option<string>)

  predicate HasHigh(s: seq<Anomaly>) {
    exists i :: 0 <= i < |s| && s[i].severity == High
  }

  /** The recommendation for one resource, named after its first anomaly. */
  function ResourceRec(g: ResourceAnomalies): AnomalyRec
    requires |g.anomalies| > 0
  {
    AnomalyRec(ResourceSpecific, High, "Investigate " + g.anomalies[0].resourceName + " Egress Anomaly",
               Some(g.resourceId))
  }

  /** One recommendation per resource group that holds a high-severity
      anomaly, in group order; empty groups are skipped. */
  function ResourceRecs(gs: seq<ResourceAnomalies>): (r: seq<AnomalyRec>)
    ensures |r| <= |gs|
    ensures forall rec :: rec in r ==>
              exists g :: g in gs && HasHigh(g.anomalies) && rec == ResourceRec(g)
    ensures forall g :: g in gs && HasHigh(g.anomalies) ==> ResourceRec(g) in r
  {
    if |gs| == 0 then []
    else
      var init := gs[..|gs| - 1];
      var g := gs[|gs| - 1];
      assert gs == init + [g];
      ResourceRecs(init) + (if HasHigh(g.anomalies) then [ResourceRec(g)] else [])
  }

  const CriticalTitle := "Critical Egress Anomalies Detected"
  const AnomaliesTitle := "Egress Anomalies Detected"
  const CostTitle := "Cost Impact from Anomalous Egress"

  /** The recommendations for a detector outcome: nothing unless anomalies
      were detected; otherwise a security notice (high when any anomaly is
      high), the per-resource recommendations, and a cost notice when more
      than five anomalies were found. */
  function AnomalyRecommendations(d: Detection): (r: seq<AnomalyRec>)
    ensures |r| == 0 <==> !d.Detected? || d.summary.total == 0
    ensures |r| > 0 ==>
              r[0].kind == Security && r[0].resourceId.None?
              && (r[0].severity == High <==> HasHigh(d.anomalies))
              && (r[|r| - 1].kind == CostImpact <==> d.summary.total > 5)
  {
    if !d.Detected? || d.summary.total == 0 then []
    else
      var notice :=
        if HasHigh(d.anomalies) then AnomalyRec(Security, High, CriticalTitle, None)
        else AnomalyRec(Security, Medium, AnomaliesTitle, None);
      var rs := ResourceRecs(d.byResource);
      assert |rs| > 0 ==> rs[|rs| - 1] in rs;
      [notice] + rs + (if d.summary.total > 5 then [AnomalyRec(CostImpact, Medium, CostTitle, None)] else [])
  }

  /** On a detection, a resource receives its own recommendation exactly
      when one of its anomalies is high. */
  lemma DetectionRecommendations(rows: seq<Row>, cfg: Config, sqrt: real -> real, id: string)
    requires IsSqrt(sqrt)
    ensures var d := DetectAnomalies(rows, cfg, sqrt);
            d.Detected? ==>
              ((exists rec :: rec in AnomalyRecommendations(d) && rec.resourceId == Some(id))
               <==> (exists a :: a in d.anomalies && a.resourceId == id && a.severity == High))
  {
    var d := DetectAnomalies(rows, cfg, sqrt);
    if d.Detected? {
      DetectedByResource(rows, cfg, sqrt);
      RecommendedResources(d, id);
    }
  }

  /** The same, for any detection whose groups partition its anomalies by
      resource and whose total counts them. */
  lemma RecommendedResources(d: Detection, id: string)
    requires d.Detected? && d.summary.total == |d.anomalies|
    requires forall g :: g in d.byResource ==>
               forall a :: a in g.anomalies <==> a in d.anomalies && a.resourceId == g.resourceId
    requires forall a :: a in d.anomalies ==> exists g :: g in d.byResource && g.resourceId == a.resourceId
    ensures (exists rec :: rec in AnomalyRecommendations(d) && rec.resourceId == Some(id))
            <==> (exists a :: a in d.anomalies && a.resourceId == id && a.severity == High)
  {
    if exists rec :: rec in AnomalyRecommendations(d) && rec.resourceId == Some(id) {
      var rec :| rec in AnomalyRecommendations(d) && rec.resourceId == Some(id);
      RecommendedHasHigh(d, rec);
    }
    if exists a :: a in d.anomalies && a.resourceId == id && a.severity == High {
      var a :| a in d.anomalies && a.resourceId == id && a.severity == High;
      HighRecommended(d, a);
    }
  }

  lemma RecommendedHasHigh(d: Detection, rec: AnomalyRec)
    requires d.Detected? && d.summary.total > 0
    requires forall g :: g in d.byResource ==>
               forall a :: a in g.anomalies ==> a in d.anomalies && a.resourceId == g.resourceId
    requires rec in AnomalyRecommendations(d) && rec.resourceId.Some?
    ensures exists a :: a in d.anomalies && Some(a.resourceId) == rec.resourceId && a.severity == High
  {
    ResourceEntries(d, rec);
    var g :| g in d.byResource && HasHigh(g.anomalies) && rec == ResourceRec(g);
    var a := HighIn(g.anomalies);
    assert a in d.anomalies && Some(a.resourceId) == rec.resourceId;
  }

  lemma HighRecommended(d: Detection, a: Anomaly)
    requires d.Detected? && d.summary.total > 0
    requires forall g :: g in d.byResource ==>
               forall a :: a in d.anomalies && a.resourceId == g.resourceId ==> a in g.anomalies
    requires forall a :: a in d.anomalies ==> exists g :: g in d.byResource && g.resourceId == a.resourceId
    requires a in d.anomalies && a.severity == High
    ensures exists rec :: rec in AnomalyRecommendations(d) && rec.resourceId == Some(a.resourceId)
  {
    var g :| g in d.byResource && g.resourceId == a.resourceId;
    HighMember(g.anomalies, a);
    assert ResourceRec(g) in ResourceRecs(d.byResource);
    ResourceEntries(d, ResourceRec(g));
  }

  /** The entries of a detection's recommendations that name a resource
      are the per-resource recommendations. */
  lemma ResourceEntries(d: Detection, rec: AnomalyRec)
    requires d.Detected? && d.summary.total > 0
    requires rec.resourceId.Some?
    ensures rec in AnomalyRecommendations(d) <==> rec in ResourceRecs(d.byResource)
  {
  }

  lemma HighIn(s: seq<Anomaly>) returns (a: Anomaly)
    requires HasHigh(s)
    ensures a in s && a.severity == High
  {
    var i :| 0 <= i < |s| && s[i].severity == High;
    a := s[i];
  }

  lemma HighMember(s: seq<Anomaly>, a: Anomaly)
    requires a in s && a.severity == High
    ensures HasHigh(s)
  {
    var i :| 0 <= i < |s| && s[i] == a;
  }

  // ---------------------------------------------------------------------
  // Deviation from the expected value

  datatype Deviation = Percent(pct: real) | Infinite

  /** The deviation of a value from its expected value, in percent of the
      expected value's magnitude. An expected value of zero gives an
      infinite deviation for a positive value and zero otherwise. */
  function DeviationPercent(value: real, expected: real): (r: Deviation)
    ensures r.Infinite? <==> expected == 0.0 && value > 0.0
    ensures expected == 0.0 && value <= 0.0 ==> r == Percent(0.0)
    ensures expected != 0.0 ==>
              r.Percent? && expected + Product(r.pct, Abs(expected)) / 100.0 == value
  {
    if expected == 0.0 then (if value > 0.0 then Infinite else Percent(0.0))
    else Percent(Product(value - expected, 100.0) / Abs(expected))
  }

  /** The deviation is positive, zero or negative as the value lies above,
      at or below a nonzero expected value. */
  lemma DeviationSign(value: real, expected: real)
    requires expected != 0.0
    ensures DeviationPercent(value, expected).pct > 0.0 <==> value > expected
    ensures DeviationPercent(value, expected).pct == 0.0 <==> value == expected
  {
    var p := DeviationPercent(value, expected).pct;
    assert expected + Product(p, Abs(expected)) / 100.0 == value;
    ProductSign(p, Abs(expected));
  }

  lemma ProductSign(x: real, y: real)
    requires y > 0.0
    ensures Product(x, y) > 0.0 <==> x > 0.0
    ensures Product(x, y) == 0.0 <==> x == 0.0
  {
  }
}

=== FILE: artifact.dfy ===
/** The collection artifact the collector writes and the monitor and the
    dashboard read: resources by type, then by id, each with its metric
    series, plus the errors met while collecting. A key the readers fetch
    with a default (`metrics`, `values`, `times`) is modelled by the
    default when absent. */
module Artifact {
  import opened Common
  import opened Dicts

  /** Timestamps are opaque: they are only carried from input to output. */
  type Stamp = string

  datatype MetricData = MetricData(name: Option<string>, displayName: Option<string>, unit: Option<string>,
                                   values: seq<real>, times: seq<Stamp>)

  datatype ResourceData = ResourceData(name: Option<string>, group: Option<string>, location: Option<string>,
                                       metrics: Dict<string, MetricData>)

  /** Resource type to resource id to resource. */
  type Resources = Dict<string, Dict<string, ResourceData>>

  datatype Collection = Collection(resources: Resources, errors: Option<seq<string>>)

  function ValuesOf<K, V>(d: Dict<K, V>): (r: seq<V>)
    ensures |r| == |d| && forall i :: 0 <= i < |d| ==> r[i] == d[i].1
  {
    seq(|d|, i requires 0 <= i < |d| => d[i].1)
  }

  /** The concatenation of `f` over `s`, left to right. */
  function FlatMap<A, B>(s: seq<A>, f: A -> seq<B>): seq<B> {
    if |s| == 0 then [] else FlatMap(s[..|s| - 1], f) + f(s[|s| - 1])
  }

  /** The sum of `f` over `s`. */
  function SumOf<A>(s: seq<A>, f: A -> nat): nat {
    if |s| == 0 then 0 else SumOf(s[..|s| - 1], f) + f(s[|s| - 1])
  }

  /** The sum of the lengths of `f` over `s`. */
  function SumLengths<A, B>(s: seq<A>, f: A -> seq<B>): nat {
    if |s| == 0 then 0 else SumLengths(s[..|s| - 1], f) + |f(s[|s| - 1])|
  }

  lemma {:induction false} FlatMapAppend<A, B>(a: seq<A>, b: seq<A>, f: A -> seq<B>)
    ensures FlatMap(a + b, f) == FlatMap(a, f) + FlatMap(b, f)
    ensures SumLengths(a + b, f) == SumLengths(a, f) + SumLengths(b, f)
    decreases |b|
  {
    if |b| > 0 {
      var n := |b| - 1;
      FlatMapAppend(a, b[..n], f);
      assert (a + b)[..|a + b| - 1] == a + b[..n];
    } else {
      assert a + b == a;
    }
  }

  lemma {:induction false} SumOfAppend<A>(a: seq<A>, b: seq<A>, f: A -> nat)
    ensures SumOf(a + b, f) == SumOf(a, f) + SumOf(b, f)
    decreases |b|
  {
    if |b| > 0 {
      var n := |b| - 1;
      SumOfAppend(a, b[..n], f);
      assert (a + b)[..|a + b| - 1] == a + b[..n];
    } else {
      assert a + b == a;
    }
  }

  /** The pieces' lengths add up to the length of the whole. */
  lemma {:induction false} FlatMapLength<A, B>(s: seq<A>, f: A -> seq<B>)
    ensures |FlatMap(s, f)| == SumLengths(s, f)
  {
    if |s| > 0 {
      FlatMapLength(s[..|s| - 1], f);
    }
  }

  /** An element of the whole comes from the piece of some element of `s`,
      and every element of every piece is in the whole. */
  lemma {:induction false} FlatMapMember<A, B>(s: seq<A>, f: A -> seq<B>, y: B)
    ensures y in FlatMap(s, f) <==> exists i :: 0 <= i < |s| && y in f(s[i])
  {
    if |s| > 0 {
      var n := |s| - 1;
      FlatMapMember(s[..n], f, y);
      if y in FlatMap(s[..n], f) {
        var i :| 0 <= i < n && y in f(s[..n][i]);
        assert s[i] == s[..n][i];
      }
      if i :| 0 <= i < |s| && y in f(s[i]) {
        if i < n {
          assert s[..n][i] == s[i];
        }
      }
    }
  }

  /** A sum over the whole is the sum of the sums over the pieces. */
  lemma {:induction false} SumOfFlat<A, B>(s: seq<A>, f: A -> seq<B>, g: B -> nat, h: A -> nat)
    requires forall x :: h(x) == SumOf(f(x), g)
    ensures SumOf(FlatMap(s, f), g) == SumOf(s, h)
  {
    if |s| > 0 {
      var n := |s| - 1;
      SumOfFlat(s[..n], f, g, h);
      SumOfAppend(FlatMap(s[..n], f), f(s[n]), g);
    }
  }

  /** Summing a bound term by term bounds the sum. */
  lemma {:induction false} SumOfLe<A>(s: seq<A>, f: A -> nat, g: A -> nat)
    requires forall x :: f(x) <= g(x)
    ensures SumOf(s, f) <= SumOf(s, g)
  {
    if |s| > 0 {
      SumOfLe(s[..|s| - 1], f, g);
    }
  }
}

=== FILE: azure_utils.dfy ===
/** Parsing of Azure resource ids, which read
    "/subscriptions/<sub>/resourceGroups/<group>/providers/<ns>/<type>/<name>".
    Each extractor answers "unknown" for an empty id or when its pattern
    does not occur. */
module AzureUtils {
  import opened Common
  import opened Text

  const Unknown := "unknown"

  // ---------------------------------------------------------------------
  // Resource name

  /** `get_resource_name`: the last piece of the id split at '/'. */
  function ResourceName(id: string): (r: string)
    ensures id == "" ==> r == Unknown
    ensures id != "" ==> '/' !in r
  {
    if id == "" then Unknown
    else
      var parts := Split(id, '/');
      parts[|parts| - 1]
  }

  /** Joining a non-empty list puts the last piece after the join of the
      others. */
  lemma {:induction false} JoinLast(parts: seq<string>, sep: string)
    requires |parts| >= 2
    ensures Join(parts, sep) == Join(parts[..|parts| - 1], sep) + sep + parts[|parts| - 1]
  {
    if |parts| > 2 {
      var n := |parts|;
      var x := Join(parts[1..][..n - 2], sep);
      JoinLast(parts[1..], sep);
      assert parts[1..][..n - 2] == parts[..n - 1][1..];
      assert Join(parts[..n - 1], sep) == parts[0] + sep + x;
      assert parts[0] + sep + (x + sep + parts[n - 1]) == parts[0] + sep + x + sep + parts[n - 1];
    }
  }

  /** The name is the text after the last '/' of the id, or the whole id
      when it has no '/'; an id ending in '/' has the empty name. */
  lemma ResourceNameSuffix(id: string)
    requires id != ""
    ensures var r := ResourceName(id);
            '/' !in r && |r| <= |id| && id[|id| - |r|..] == r
            && (|r| == |id| || id[|id| - |r| - 1] == '/')
            && (id[|id| - 1] == '/' ==> r == "")
  {
    var parts := Split(id, '/');
    var r := parts[|parts| - 1];
    JoinSplit(id, '/');
    if |parts| >= 2 {
      JoinLast(parts, "/");
      var init := Join(parts[..|parts| - 1], "/");
      assert id == init + "/" + r;
      assert id[|id| - |r|..] == r;
      assert id[|id| - |r| - 1] == '/';
    }
    if |r| > 0 {
      assert r[|r| - 1] == id[|id| - 1];
    }
  }

  /** An id "<path>/<name>" whose name holds no '/' is named `name`. */
  lemma NameAfterLastSlash(path: string, name: string)
    requires '/' !in name
    ensures ResourceName(path + "/" + name) == name
  {
    var id := path + "/" + name;
    ResourceNameSuffix(id);
    var r := ResourceName(id);
    var n := |id| - |name|;
    assert id[n..] == name && id[n - 1] == '/';
    forall k | |id| - |r| <= k < |id| ensures id[k] != '/' {
      assert id[k] == r[k - (|id| - |r|)];
    }
    forall k | n <= k < |id| ensures id[k] != '/' {
      assert id[k] == name[k - n];
    }
    assert |r| == |name|;
  }

  // ---------------------------------------------------------------------
  // Regular-expression search

  /** The end of the run of characters other than '/' starting at `i`. */
  function RunEnd(s: string, i: nat): (e: nat)
    requires i <= |s|
    ensures i <= e <= |s|
    ensures forall k :: i <= k < e ==> s[k] != '/'
    ensures e < |s| ==> s[e] == '/'
    decreases |s| - i
  {
    if i == |s| || s[i] == '/' then i else RunEnd(s, i + 1)
  }

  /** The two pattern shapes of the module: `lead([^/]+)/` and
      `lead([^/]+/[^/]+)`. */
  datatype Regex =
    | SegmentAfter(lead: string)
    | TypeAfter(lead: string)

  /** The group a match of `re` starting at `i` captures, if one starts
      there. The runs `[^/]+` are greedy and cannot give back a character
      to let a '/' follow, so each run extends to the next '/'. */
  function MatchAt(re: Regex, s: string, i: nat): Option<string>
    requires i <= |s|
  {
    if !OccursAt(s, re.lead, i) then None
    else
      var j := i + |re.lead|;
      var e := RunEnd(s, j);
      if !(j < e < |s|) then None
      else
        match re
        case SegmentAfter(_) => Some(s[j..e])
        case TypeAfter(_) =>
          var f := RunEnd(s, e + 1);
          if e + 1 < f then Some(s[j..f]) else None
  }

  /** The leftmost position at or after `i` where `re` matches, or -1. */
  function SearchFrom(re: Regex, s: string, i: nat): (r: int)
    requires i <= |s|
    ensures r == -1 || (i <= r <= |s| && MatchAt(re, s, r).Some?)
    ensures r == -1 ==> forall k :: i <= k <= |s| ==> MatchAt(re, s, k).None?
    ensures r != -1 ==> forall k :: i <= k < r ==> MatchAt(re, s, k).None?
    decreases |s| - i
  {
    if MatchAt(re, s, i).Some? then i
    else if i == |s| then -1
    else SearchFrom(re, s, i + 1)
  }

  /** `re.search(pattern, s)` followed by `group(1)`. */
  function Search(re: Regex, s: string): Option<string> {
    var k := SearchFrom(re, s, 0);
    if k < 0 then None else MatchAt(re, s, k)
  }

  /** At position `i` of `s` stand the lead, a non-empty run `g` free of '/',
      and a '/'. */
  predicate SegmentAt(s: string, lead: string, i: int, g: string) {
    |g| > 0 && '/' !in g && OccursAt(s, lead + g + "/", i)
  }

  /** At position `i` of `s` stand the lead and two non-empty runs `a` and
      `b` free of '/' joined by a '/', and `b` runs to the end of `s` or to
      a '/'. */
  predicate TypeAt(s: string, lead: string, i: int, a: string, b: string) {
    |a| > 0 && |b| > 0 && '/' !in a && '/' !in b
    && OccursAt(s, lead + a + "/" + b, i)
    && (var e := i + |lead| + |a| + 1 + |b|; e == |s| || s[e] == '/')
  }

  /** A run free of '/' that stops at a '/' or at the end is what RunEnd
      finds. */
  lemma RunEndAt(s: string, i: nat, e: nat)
    requires i <= e <= |s|
    requires forall k :: i <= k < e ==> s[k] != '/'
    requires e == |s| || s[e] == '/'
    ensures RunEnd(s, i) == e
    decreases e - i
  {
    if i < e {
      RunEndAt(s, i + 1, e);
    }
  }

  /** A match of `lead([^/]+)/` at `i` captures exactly the segments the
      pattern describes. */
  lemma SegmentMatch(s: string, lead: string, i: nat, g: string)
    requires i <= |s|
    ensures SegmentAt(s, lead, i, g) <==> MatchAt(SegmentAfter(lead), s, i) == Some(g)
  {
    var j := i + |lead|;
    if SegmentAt(s, lead, i, g) {
      OccursSplit(s, lead + g, "/", i);
      OccursSplit(s, lead, g, i);
      assert s[j + |g|] == s[j + |g|..j + |g| + 1][0];
      RunOf(s, j, g);
    }
    if MatchAt(SegmentAfter(lead), s, i) == Some(g) {
      var e := RunEnd(s, j);
      RunFree(s, j, e);
      SegmentWitness(s, lead, i, e);
    }
  }

  /** Where the lead stands and is followed by a non-empty run free of '/'
      and a '/', that run is a segment. */
  lemma SegmentWitness(s: string, lead: string, i: nat, e: nat)
    requires OccursAt(s, lead, i) && i + |lead| < e < |s| && s[e] == '/'
    requires '/' !in s[i + |lead|..e]
    ensures SegmentAt(s, lead, i, s[i + |lead|..e])
  {
    var g := s[i + |lead|..e];
    assert OccursAt(s, "/", e) by { assert s[e..e + 1] == [s[e]]; }
    OccursJoin(s, lead, g, i);
    OccursJoin(s, lead + g, "/", i);
  }

  /** A match of `lead([^/]+/[^/]+)` at `i` captures exactly the two runs
      the pattern describes, joined by their '/'. */
  lemma TypeMatch(s: string, lead: string, i: nat, a: string, b: string)
    requires i <= |s|
    ensures TypeAt(s, lead, i, a, b) ==> MatchAt(TypeAfter(lead), s, i) == Some(a + "/" + b)
  {
    if TypeAt(s, lead, i, a, b) {
      TypePieces(s, lead, i, a, b);
      TypeRuns(s, i + |lead|, a, b);
    }
  }

  /** Two runs free of '/' joined by a '/' and followed by a '/' or the end
      end where RunEnd says, and together they are the text after `j`. */
  lemma TypeRuns(s: string, j: nat, a: string, b: string)
    requires var e := j + |a|;
             e + 1 + |b| <= |s| && s[j..e] == a && s[e] == '/' && s[e + 1..e + 1 + |b|] == b
    requires '/' !in a && '/' !in b
    requires var f := j + |a| + 1 + |b|; f == |s| || s[f] == '/'
    ensures var e := j + |a|;
            var f := e + 1 + |b|;
            RunEnd(s, j) == e && RunEnd(s, e + 1) == f && s[j..f] == a + "/" + b
  {
    var e := j + |a|;
    RunOf(s, j, a);
    RunOf(s, e + 1, b);
    SliceJoin(s, j, e, e + 1 + |b|);
  }

  /** A run free of '/' standing at `j` and followed by a '/' or the end
      is the run RunEnd finds. */
  lemma RunOf(s: string, j: nat, a: string)
    requires j + |a| <= |s| && s[j..j + |a|] == a && '/' !in a
    requires j + |a| == |s| || s[j + |a|] == '/'
    ensures RunEnd(s, j) == j + |a|
  {
    forall k | j <= k < j + |a| ensures s[k] != '/' {
      assert s[k] == a[k - j];
    }
    RunEndAt(s, j, j + |a|);
  }

  lemma SliceJoin(s: string, j: nat, e: nat, f: nat)
    requires j <= e < f <= |s|
    ensures s[j..f] == s[j..e] + [s[e]] + s[e + 1..f]
  {
  }

  /** The pieces of a type match stand where the pattern puts them. */
  lemma TypePieces(s: string, lead: string, i: nat, a: string, b: string)
    requires TypeAt(s, lead, i, a, b)
    ensures var j := i + |lead|;
            var e := j + |a|;
            OccursAt(s, lead, i) && s[j..e] == a && s[e..e + 1] == "/" && s[e] == '/' && s[e + 1..e + 1 + |b|] == b
  {
    OccursSplit(s, lead + a + "/", b, i);
    OccursSplit(s, lead + a, "/", i);
    OccursSplit(s, lead, a, i);
    assert s[i + |lead| + |a|] == s[i + |lead| + |a|..i + |lead| + |a| + 1][0];
  }

  /** A text occurring at `i` that is two texts joined is the first at `i`
      and the second right after it. */
  lemma OccursSplit(s: string, x: string, y: string, i: int)
    requires OccursAt(s, x + y, i)
    ensures OccursAt(s, x, i) && OccursAt(s, y, i + |x|)
  {
    assert s[i..i + |x|] == s[i..i + |x + y|][..|x|];
    assert s[i + |x|..i + |x| + |y|] == s[i..i + |x + y|][|x|..];
  }

  /** Two texts standing one right after the other make their join. */
  lemma OccursJoin(s: string, x: string, y: string, i: int)
    requires OccursAt(s, x, i) && OccursAt(s, y, i + |x|)
    ensures OccursAt(s, x + y, i)
  {
    assert s[i..i + |x + y|] == s[i..i + |x|] + s[i + |x|..i + |x| + |y|];
  }

  /** Conversely every match of `lead([^/]+/[^/]+)` is two such runs. */
  lemma TypeMatchSound(s: string, lead: string, i: nat)
    requires i <= |s| && MatchAt(TypeAfter(lead), s, i).Some?
    ensures exists a, b :: TypeAt(s, lead, i, a, b) && MatchAt(TypeAfter(lead), s, i) == Some(a + "/" + b)
  {
    var j := i + |lead|;
    var e := RunEnd(s, j);
    var f := RunEnd(s, e + 1);
    TypeMatchShape(s, lead, i);
    RunFree(s, j, e);
    RunFree(s, e + 1, f);
    var a, b := s[j..e], s[e + 1..f];
    TypeWitness(s, lead, i, e, f);
    TypeMatch(s, lead, i, a, b);
    assert TypeAt(s, lead, i, a, b) && MatchAt(TypeAfter(lead), s, i) == Some(a + "/" + b);
  }

  /** A type match has the lead, a non-empty run, a '/' and another
      non-empty run. */
  lemma TypeMatchShape(s: string, lead: string, i: nat)
    requires i <= |s| && MatchAt(TypeAfter(lead), s, i).Some?
    ensures var j := i + |lead|;
            var e := RunEnd(s, j);
            OccursAt(s, lead, i) && j < e < |s| && s[e] == '/' && e + 1 < RunEnd(s, e + 1)
  {
  }

  /** Where the lead stands and is followed by two non-empty runs free of
      '/' joined by a '/' and ending at a '/' or the end, those runs are a
      type match. */
  lemma TypeWitness(s: string, lead: string, i: nat, e: nat, f: nat)
    requires OccursAt(s, lead, i) && i + |lead| < e < |s| && s[e] == '/' && e + 1 < f <= |s|
    requires '/' !in s[i + |lead|..e] && '/' !in s[e + 1..f]
    requires f == |s| || s[f] == '/'
    ensures TypeAt(s, lead, i, s[i + |lead|..e], s[e + 1..f])
  {
    var a := s[i + |lead|..e];
    var b := s[e + 1..f];
    assert OccursAt(s, "/", e) by { assert s[e..e + 1] == [s[e]]; }
    OccursJoin(s, lead, a, i);
    OccursJoin(s, lead + a, "/", i);
    OccursJoin(s, lead + a + "/", b, i);
  }

  /** A stretch without '/' has no '/'. */
  lemma RunFree(s: string, i: nat, e: nat)
    requires i <= e <= |s| && forall k :: i <= k < e ==> s[k] != '/'
    ensures '/' !in s[i..e]
  {
    forall c | c in s[i..e] ensures c != '/' {
      var k :| 0 <= k < e - i && s[i..e][k] == c;
      assert s[i + k] == c;
    }
  }

  // ---------------------------------------------------------------------
  // Resource group, subscription and type

  const GroupLead := "/resourceGroups/"
  const SubscriptionLead := "/subscriptions/"
  const ProviderLead := "providers/"

  /** `get_resource_group`. */
  function ResourceGroup(id: string): string {
    if id == "" then Unknown else Search(SegmentAfter(GroupLead), id).GetOr(Unknown)
  }

  /** `get_subscription_from_resource_id`. */
  function Subscription(id: string): string {
    if id == "" then Unknown else Search(SegmentAfter(SubscriptionLead), id).GetOr(Unknown)
  }

  /** `get_resource_type`. */
  function ResourceType(id: string): string {
    if id == "" then Unknown else Search(TypeAfter(ProviderLead), id).GetOr(Unknown)
  }

  /** The segment search answers the segment of the leftmost place where
      the lead is followed by a non-empty run free of '/' and a '/', and
      nothing when there is no such place. */
  lemma SegmentSearch(s: string, lead: string)
    ensures (forall i, g :: !SegmentAt(s, lead, i, g)) <==> Search(SegmentAfter(lead), s).None?
    ensures Search(SegmentAfter(lead), s).Some? ==>
              exists i :: SegmentAt(s, lead, i, Search(SegmentAfter(lead), s).value)
                          && forall j, h :: 0 <= j < i ==> !SegmentAt(s, lead, j, h)
  {
    var re := SegmentAfter(lead);
    var k := SearchFrom(re, s, 0);
    forall i, g | SegmentAt(s, lead, i, g) ensures 0 <= i <= |s| && MatchAt(re, s, i) == Some(g) {
      SegmentMatch(s, lead, i, g);
    }
    if k >= 0 {
      var g := MatchAt(re, s, k).value;
      SegmentMatch(s, lead, k, g);
      forall j, h | 0 <= j < k ensures !SegmentAt(s, lead, j, h) {
        SegmentMatch(s, lead, j, h);
      }
    }
  }

  /** A group segment at `i` with none before it is the resource group. */
  lemma ResourceGroupAt(id: string, i: int, g: string)
    requires SegmentAt(id, GroupLead, i, g)
    requires forall j, h :: 0 <= j < i ==> !SegmentAt(id, GroupLead, j, h)
    ensures ResourceGroup(id) == g
  {
    SegmentSearch(id, GroupLead);
    var k :| SegmentAt(id, GroupLead, k, ResourceGroup(id)) && forall j, h :: 0 <= j < k ==> !SegmentAt(id, GroupLead, j, h);
    SegmentMatch(id, GroupLead, i, g);
    SegmentMatch(id, GroupLead, k, ResourceGroup(id));
    assert !(k < i) && !(i < k);
  }

  /** A word occurring at `i` fixes the characters from `i` on. */
  lemma OccursChars(s: string, w: string, i: int)
    ensures OccursAt(s, w, i) ==> forall k :: 0 <= k < |w| ==> s[i + k] == w[k]
  {
    if OccursAt(s, w, i) {
      forall k | 0 <= k < |w| ensures s[i + k] == w[k] {
        assert s[i..i + |w|][k] == s[i + k];
      }
    }
  }

  /** A segment at `i` starts with the lead and ends with a '/'. */
  lemma SegmentChars(s: string, lead: string, i: int, g: string)
    ensures SegmentAt(s, lead, i, g) ==>
              OccursAt(s, lead, i)
              && (forall k :: 0 <= k < |lead| ==> s[i + k] == lead[k]) && s[i + |lead| + |g|] == '/'
  {
    OccursChars(s, lead + g + "/", i);
    if SegmentAt(s, lead, i, g) {
      assert s[i..i + |lead|] == (lead + g + "/")[..|lead|] == lead;
    }
  }

  /** The subscription of a standard id is its first segment. */
  lemma SubscriptionOfStandardId(sub: string, rest: string)
    requires |sub| > 0 && '/' !in sub
    ensures Subscription(SubscriptionLead + sub + "/" + rest) == sub
  {
    var id := SubscriptionLead + sub + "/" + rest;
    assert id[..|SubscriptionLead + sub + "/"|] == SubscriptionLead + sub + "/";
    assert SegmentAt(id, SubscriptionLead, 0, sub);
    SegmentSearch(id, SubscriptionLead);
    var k :| SegmentAt(id, SubscriptionLead, k, Subscription(id)) && forall j, h :: 0 <= j < k ==> !SegmentAt(id, SubscriptionLead, j, h);
    SegmentMatch(id, SubscriptionLead, 0, sub);
    SegmentMatch(id, SubscriptionLead, k, Subscription(id));
  }

  /** In "/subscriptions/<sub>/..." the group lead can only start at the
      second '/' when the subscription is itself "resourceGroups". */
  lemma GroupLeadAfterSubscriptionWord(sub: string, tail: string)
    requires '/' !in sub
    ensures OccursAt(SubscriptionLead + sub + GroupLead + tail, GroupLead, 14) ==> sub == "resourceGroups"
  {
    var id := SubscriptionLead + sub + GroupLead + tail;
    var p := 15 + |sub|;
    if OccursAt(id, GroupLead, 14) {
      assert id[14..30] == GroupLead;
      forall k | 14 <= k < 30 ensures id[k] == GroupLead[k - 14] {
        assert id[14..30][k - 14] == id[k];
      }
      forall k | 15 <= k < p ensures id[k] != '/' {
        assert id[k] == sub[k - 15];
      }
      assert forall m :: 1 <= m < 15 ==> GroupLead[m] != '/';
      assert id[p] == '/';
      assert id[29] == '/';
      assert |sub| == 14;
      forall k | 0 <= k < 14 ensures sub[k] == GroupLead[1 + k] {
        assert id[15 + k] == sub[k];
      }
      assert sub == GroupLead[1..15];
    }
  }

  /** The resource group of a standard id is the segment after
      "/resourceGroups/", unless the subscription is named "resourceGroups"
      and the lead is found inside it. */
  lemma ResourceGroupOfStandardId(sub: string, rg: string, rest: string)
    requires '/' !in sub && sub != "resourceGroups"
    requires |rg| > 0 && '/' !in rg
    ensures ResourceGroup(SubscriptionLead + sub + GroupLead + rg + "/" + rest) == rg
  {
    var tail := rg + "/" + rest;
    var id := SubscriptionLead + sub + GroupLead + tail;
    assert id == SubscriptionLead + sub + GroupLead + rg + "/" + rest;
    var p := 15 + |sub|;
    assert id[p..p + |GroupLead + rg + "/"|] == GroupLead + rg + "/";
    assert SegmentAt(id, GroupLead, p, rg);
    assert id[1] == 's';
    forall k | 0 <= k < p && k != 0 && k != 14 ensures id[k] != '/' {
      if k < 15 {
        assert id[k] == SubscriptionLead[k];
      } else {
        assert id[k] == sub[k - 15];
      }
    }
    GroupLeadAfterSubscriptionWord(sub, tail);
    forall j, h | 0 <= j < p ensures !SegmentAt(id, GroupLead, j, h) {
      SegmentChars(id, GroupLead, j, h);
      assert GroupLead[0] == '/' && GroupLead[1] == 'r';
    }
    ResourceGroupAt(id, p, rg);
  }

  /** The group search answers the first segment after "/resourceGroups/"
      and "unknown" when there is none. */
  lemma ResourceGroupSpec(id: string)
    ensures id == "" ==> ResourceGroup(id) == Unknown
    ensures (forall i, g :: !SegmentAt(id, GroupLead, i, g)) ==> ResourceGroup(id) == Unknown
    ensures id != "" && (exists i, g :: SegmentAt(id, GroupLead, i, g)) ==>
              exists i :: SegmentAt(id, GroupLead, i, ResourceGroup(id))
                          && forall j, h :: 0 <= j < i ==> !SegmentAt(id, GroupLead, j, h)
  {
    SegmentSearch(id, GroupLead);
    var m := Search(SegmentAfter(GroupLead), id);
    if id != "" && m.Some? {
      assert ResourceGroup(id) == m.value;
    }
  }

  /** The subscription search answers the first segment after
      "/subscriptions/" and "unknown" when there is none. */
  lemma SubscriptionSpec(id: string)
    ensures id == "" ==> Subscription(id) == Unknown
    ensures (forall i, g :: !SegmentAt(id, SubscriptionLead, i, g)) ==> Subscription(id) == Unknown
    ensures id != "" && (exists i, g :: SegmentAt(id, SubscriptionLead, i, g)) ==>
              exists i :: SegmentAt(id, SubscriptionLead, i, Subscription(id))
                          && forall j, h :: 0 <= j < i ==> !SegmentAt(id, SubscriptionLead, j, h)
  {
    SegmentSearch(id, SubscriptionLead);
    var m := Search(SegmentAfter(SubscriptionLead), id);
    if id != "" && m.Some? {
      assert Subscription(id) == m.value;
    }
  }

  /** The type search answers the two runs after the leftmost "providers/"
      that is followed by them, and nothing when there is no such place. */
  lemma TypeSearch(s: string, lead: string)
    ensures (forall i, a, b :: !TypeAt(s, lead, i, a, b)) <==> Search(TypeAfter(lead), s).None?
    ensures Search(TypeAfter(lead), s).Some? ==>
              exists i, a, b :: TypeAt(s, lead, i, a, b) && Search(TypeAfter(lead), s).value == a + "/" + b
                                && forall j, c, d :: 0 <= j < i ==> !TypeAt(s, lead, j, c, d)
  {
    var re := TypeAfter(lead);
    var k := SearchFrom(re, s, 0);
    forall i, a, b | TypeAt(s, lead, i, a, b) ensures 0 <= i <= |s| && MatchAt(re, s, i).Some? {
      TypeMatch(s, lead, i, a, b);
    }
    if k >= 0 {
      TypeMatchSound(s, lead, k);
      forall j, c, d | 0 <= j < k ensures !TypeAt(s, lead, j, c, d) {
        TypeMatch(s, lead, j, c, d);
      }
    }
  }

  /** The type search answers the two runs after the first "providers/"
      that has them, and "unknown" when there is none. */
  lemma ResourceTypeSpec(id: string)
    ensures id == "" ==> ResourceType(id) == Unknown
    ensures (forall i, a, b :: !TypeAt(id, ProviderLead, i, a, b)) ==> ResourceType(id) == Unknown
    ensures id != "" && (exists i, a, b :: TypeAt(id, ProviderLead, i, a, b)) ==>
              exists i, a, b :: TypeAt(id, ProviderLead, i, a, b) && ResourceType(id) == a + "/" + b
                                && forall j, c, d :: 0 <= j < i ==> !TypeAt(id, ProviderLead, j, c, d)
  {
    TypeSearch(id, ProviderLead);
    var m := Search(TypeAfter(ProviderLead), id);
    if id != "" && m.Some? {
      assert ResourceType(id) == m.value;
    }
  }

  /** A type at `i` with none before it is the resource type. */
  lemma ResourceTypeAt(id: string, i: int, a: string, b: string)
    requires TypeAt(id, ProviderLead, i, a, b)
    requires forall j, c, d :: 0 <= j < i ==> !TypeAt(id, ProviderLead, j, c, d)
    ensures ResourceType(id) == a + "/" + b
  {
    TypeSearch(id, ProviderLead);
    var k, c, d :| TypeAt(id, ProviderLead, k, c, d) && ResourceType(id) == c + "/" + d
                   && forall j, c', d' :: 0 <= j < k ==> !TypeAt(id, ProviderLead, j, c', d');
    TypeMatch(id, ProviderLead, i, a, b);
    TypeMatch(id, ProviderLead, k, c, d);
    assert !(k < i) && !(i < k);
  }

  /** The resource type needs no '/' after its second run: a provider path
      that ends there, or continues with a '/', is typed by its two runs. */
  lemma TypeOfProviderPath(ns: string, ty: string, tail: string)
    requires |ns| > 0 && '/' !in ns && |ty| > 0 && '/' !in ty
    requires tail == "" || tail[0] == '/'
    ensures ResourceType(ProviderLead + ns + "/" + ty + tail) == ns + "/" + ty
  {
    var id := ProviderLead + ns + "/" + ty + tail;
    var w := ProviderLead + ns + "/" + ty;
    assert id[..|w|] == w;
    assert TypeAt(id, ProviderLead, 0, ns, ty);
    ResourceTypeAt(id, 0, ns, ty);
  }

  /** "/subscriptions/<sub>" has neither a resource group nor a type. */
  lemma BareSubscriptionId(sub: string)
    requires '/' !in sub
    ensures ResourceGroup(SubscriptionLead + sub) == Unknown
    ensures ResourceType(SubscriptionLead + sub) == Unknown
  {
    var id := SubscriptionLead + sub;
    forall k | 0 <= k < |id| && k != 0 && k != 14 ensures id[k] != '/' {
      if k < 15 {
        assert id[k] == SubscriptionLead[k];
      } else {
        assert id[k] == sub[k - 15];
      }
    }
    forall j, h ensures !SegmentAt(id, GroupLead, j, h) {
      SegmentChars(id, GroupLead, j, h);
    }
    SegmentSearch(id, GroupLead);
    assert ProviderLead[9] == '/';
    forall i, a, b ensures !TypeAt(id, ProviderLead, i, a, b) {
      var w := ProviderLead + a + "/" + b;
      assert w[9] == '/' && w[10 + |a|] == '/';
      OccursChars(id, w, i);
    }
    TypeSearch(id, ProviderLead);
  }

  /** "/providers/<ns>" has no subscription. */
  lemma ProviderOnlyId(ns: string)
    requires '/' !in ns
    ensures Subscription("/" + ProviderLead + ns) == Unknown
  {
    var id := "/" + ProviderLead + ns;
    forall k | 0 <= k < |id| && k != 0 && k != 10 ensures id[k] != '/' {
      if k < 11 {
        assert id[k] == ("/" + ProviderLead)[k];
      } else {
        assert id[k] == ns[k - 11];
      }
    }
    assert SubscriptionLead[14] == '/';
    forall j, h ensures !SegmentAt(id, SubscriptionLead, j, h) {
      SegmentChars(id, SubscriptionLead, j, h);
    }
    SegmentSearch(id, SubscriptionLead);
  }

  // ---------------------------------------------------------------------
  // Query formatting

  /** `format_resource_id_for_metrics_query`: the id without surrounding
      whitespace. */
  function FormatForQuery(id: string): (r: string)
    ensures exists a, b :: 0 <= a <= b <= |id| && r == id[a..b]
                           && (forall k :: 0 <= k < a ==> IsSpace(id[k]))
                           && (forall k :: b <= k < |id| ==> IsSpace(id[k]))
    ensures |r| > 0 ==> !IsSpace(r[0]) && !IsSpace(r[|r| - 1])
  {
    StripWindow(id);
    Strip(id)
  }

  /** Formatting a formatted id changes nothing. */
  lemma FormatIdempotent(id: string)
    ensures FormatForQuery(FormatForQuery(id)) == FormatForQuery(id)
  {
    StripIdempotent(id);
  }

  /** An id without surrounding whitespace is already formatted, and
      padding it with spaces is undone. */
  lemma FormatPadded(id: string)
    requires |id| > 0 ==> !IsSpace(id[0]) && !IsSpace(id[|id| - 1])
    ensures FormatForQuery(id) == id
    ensures FormatForQuery(" " + id + " ") == id
  {
    StripTrimmed(id);
    StripPadded(id);
  }
}

=== FILE: capping.dfy ===
/** Ranking under caps: a list is sorted by rank (highest first, stable),
    split into categories in order of first appearance, each category cut
    to its first `cap` entries, and the survivors re-sorted and cut to
    `limit` entries. Cuts follow Python slicing, so a negative bound counts
    from the end. */
module Capping {
  import opened Sorting
  import opened Grouping
  import opened KeyedDedup

  /** Python's `s[:n]`. */
  function Prefix<T>(s: seq<T>, n: int): (r: seq<T>)
    ensures |r| <= |s| && r == s[..|r|]
    ensures n >= 0 ==> |r| == if n < |s| then n else |s|
    ensures n < 0 ==> |r| == if |s| + n > 0 then |s| + n else 0
  {
    if n >= 0 then (if n < |s| then s[..n] else s)
    else if |s| + n > 0 then s[..|s| + n] else []
  }

  /** Multisets of sequences are equal, or contained, when their counts
      are. */
  lemma SameCounts<T>(a: seq<T>, b: seq<T>)
    requires forall x :: multiset(a)[x] == multiset(b)[x]
    ensures multiset(a) == multiset(b)
  {
  }

  lemma FewerCounts<T>(a: seq<T>, b: seq<T>)
    requires forall x :: multiset(a)[x] <= multiset(b)[x]
    ensures multiset(a) <= multiset(b)
  {
  }

  lemma PrefixSub<T>(s: seq<T>, n: int)
    ensures multiset(Prefix(s, n)) <= multiset(s)
  {
    var p := Prefix(s, n);
    assert s == p + s[|p|..];
  }

  /** The entries of category `k`, in order. */
  function Having<T, K(==)>(s: seq<T>, key: T -> K, k: K): (r: seq<T>)
    ensures |r| <= |s|
    ensures forall x :: x in r ==> x in s && key(x) == k
  {
    if |s| == 0 then []
    else
      var n := |s| - 1;
      assert s == s[..n] + [s[n]];
      Having(s[..n], key, k) + (if key(s[n]) == k then [s[n]] else [])
  }

  lemma HavingSnoc<T, K>(s: seq<T>, x: T, key: T -> K, k: K)
    ensures Having(s + [x], key, k) == Having(s, key, k) + (if key(x) == k then [x] else [])
  {
    assert (s + [x])[..|s|] == s;
  }

  lemma {:induction false} HavingAppend<T, K>(a: seq<T>, b: seq<T>, key: T -> K, k: K)
    ensures Having(a + b, key, k) == Having(a, key, k) + Having(b, key, k)
    decreases |b|
  {
    if |b| > 0 {
      var n := |b| - 1;
      assert b == b[..n] + [b[n]];
      assert a + b == (a + b[..n]) + [b[n]];
      HavingAppend(a, b[..n], key, k);
      HavingSnoc(a + b[..n], b[n], key, k);
      HavingSnoc(b[..n], b[n], key, k);
    } else {
      assert a + b == a;
    }
  }

  /** A category holds every copy of its entries and nothing else. */
  lemma {:induction false} HavingCount<T, K>(s: seq<T>, key: T -> K, k: K, x: T)
    ensures multiset(Having(s, key, k))[x] == if key(x) == k then multiset(s)[x] else 0
  {
    if |s| > 0 {
      var n := |s| - 1;
      assert s == s[..n] + [s[n]];
      HavingCount(s[..n], key, k, x);
    }
  }

  /** Rearranging a list rearranges each of its categories. */
  lemma HavingPermutation<T, K>(a: seq<T>, b: seq<T>, key: T -> K, k: K)
    requires multiset(a) == multiset(b)
    ensures multiset(Having(a, key, k)) == multiset(Having(b, key, k))
    ensures |Having(a, key, k)| == |Having(b, key, k)|
  {
    var ha, hb := Having(a, key, k), Having(b, key, k);
    forall x ensures multiset(ha)[x] == multiset(hb)[x] {
      HavingCount(a, key, k, x);
      HavingCount(b, key, k, x);
    }
    SameCounts(ha, hb);
    assert |multiset(ha)| == |multiset(hb)|;
  }

  /** A category's size is the number of times its key occurs. */
  lemma {:induction false} HavingSize<T, K>(s: seq<T>, key: T -> K, k: K)
    ensures |Having(s, key, k)| == CountWhere(KeysBy(s, key), k)
  {
    if |s| > 0 {
      var n := |s| - 1;
      assert KeysBy(s, key)[..n] == KeysBy(s[..n], key);
      HavingSize(s[..n], key, k);
    }
  }

  /** A list of one category is its own category, and has no other. */
  lemma {:induction false} HavingUniform<T, K>(s: seq<T>, key: T -> K, u: K, k: K)
    requires forall x :: x in s ==> key(x) == u
    ensures Having(s, key, k) == if u == k then s else []
  {
    if |s| > 0 {
      var n := |s| - 1;
      assert s == s[..n] + [s[n]];
      assert s[n] in s;
      assert forall x :: x in s[..n] ==> x in s;
      HavingUniform(s[..n], key, u, k);
    }
  }

  /** A sub-multiset is no longer. */
  lemma SubShorter<T>(a: seq<T>, b: seq<T>)
    requires multiset(a) <= multiset(b)
    ensures |a| <= |b|
  {
    var ma, mb := multiset(a), multiset(b);
    var d := mb - ma;
    assert mb == ma + d;
    assert |mb| == |ma| + |d|;
    assert |ma| == |a| && |mb| == |b|;
  }

  /** Taking a sub-multiset takes a sub-multiset of each category. */
  lemma HavingSub<T, K>(a: seq<T>, b: seq<T>, key: T -> K, k: K)
    requires multiset(a) <= multiset(b)
    ensures |Having(a, key, k)| <= |Having(b, key, k)|
  {
    var ha, hb := Having(a, key, k), Having(b, key, k);
    forall x ensures multiset(ha)[x] <= multiset(hb)[x] {
      HavingCount(a, key, k, x);
      HavingCount(b, key, k, x);
    }
    FewerCounts(ha, hb);
    SubShorter(ha, hb);
  }

  /** Keys that are distinct in a list stay distinct in any sub-multiset. */
  lemma SubKeyDistinct<T, K>(a: seq<T>, b: seq<T>, key: T -> K)
    requires multiset(a) <= multiset(b) && Distinct(KeysBy(b, key))
    ensures Distinct(KeysBy(a, key))
  {
    var ka := KeysBy(a, key);
    forall i, j | 0 <= i < j < |ka| ensures ka[i] != ka[j] {
      if ka[i] == ka[j] {
        CountTwice(ka, i, j);
        HavingSize(a, key, ka[i]);
        HavingSize(b, key, ka[i]);
        HavingSub(a, b, key, ka[i]);
        DistinctCountOnce(KeysBy(b, key), ka[i]);
      }
    }
  }

  /** A category of a sorted list is sorted. */
  lemma {:induction false} HavingSorted<T, K>(s: seq<T>, key: T -> K, k: K, rank: T -> Key)
    requires SortedDesc(s, rank)
    ensures SortedDesc(Having(s, key, k), rank)
  {
    if |s| > 0 {
      var n := |s| - 1;
      var init := s[..n];
      assert s == init + [s[n]];
      assert SortedDesc(init, rank);
      HavingSorted(init, key, k, rank);
      if key(s[n]) == k {
        var h := Having(init, key, k);
        forall y | y in h ensures KeyGe(rank(y), rank(s[n])) {
          var i :| 0 <= i < |init| && init[i] == y;
          assert s[i] == y;
        }
        AppendSorted(h, s[n], rank);
      }
    }
  }

  /** Putting at the end an element that no other outranks... the other
      way round: an element ranked no higher than any other. */
  lemma AppendSorted<T>(s: seq<T>, y: T, rank: T -> Key)
    requires SortedDesc(s, rank)
    requires forall x :: x in s ==> KeyGe(rank(x), rank(y))
    ensures SortedDesc(s + [y], rank)
  {
    forall i, j | 0 <= i < j < |s + [y]| ensures KeyGe(rank((s + [y])[i]), rank((s + [y])[j])) {
      assert (s + [y])[i] == s[i];
      assert s[i] in s;
    }
  }

  /** The first `cap` entries of each category in `ks`, category after
      category. */
  function CapEach<T, K(==)>(s: seq<T>, ks: seq<K>, key: T -> K, cap: int): seq<T> {
    if |ks| == 0 then []
    else
      var n := |ks| - 1;
      CapEach(s, ks[..n], key, cap) + Prefix(Having(s, key, ks[n]), cap)
  }

  /** Category `k` of the capped list is the first `cap` entries of
      category `k` of the input when `k` is listed, and empty otherwise. */
  lemma {:induction false} CapEachHaving<T, K>(s: seq<T>, ks: seq<K>, key: T -> K, cap: int, k: K)
    requires Distinct(ks)
    ensures Having(CapEach(s, ks, key, cap), key, k) == if k in ks then Prefix(Having(s, key, k), cap) else []
  {
    if |ks| > 0 {
      var n := |ks| - 1;
      var u := ks[n];
      DistinctInit(ks);
      CapEachHaving(s, ks[..n], key, cap, k);
      var c := CapEach(s, ks[..n], key, cap);
      var p := Prefix(Having(s, key, u), cap);
      HavingAppend(c, p, key, k);
      PrefixOfHaving(s, key, u, cap);
      HavingUniform(p, key, u, k);
    }
  }

  /** Dropping the last of distinct keys leaves distinct keys without it. */
  lemma DistinctInit<K>(ks: seq<K>)
    requires Distinct(ks) && |ks| > 0
    ensures Distinct(ks[..|ks| - 1]) && ks[|ks| - 1] !in ks[..|ks| - 1]
    ensures forall k :: k in ks <==> k in ks[..|ks| - 1] || k == ks[|ks| - 1]
  {
    assert ks == ks[..|ks| - 1] + [ks[|ks| - 1]];
  }

  /** The first entries of a category are of that category. */
  lemma PrefixOfHaving<T, K>(s: seq<T>, key: T -> K, u: K, cap: int)
    ensures forall x :: x in Prefix(Having(s, key, u), cap) ==> key(x) == u
  {
    var h := Having(s, key, u);
    var p := Prefix(h, cap);
    forall x | x in p ensures key(x) == u {
      var i :| 0 <= i < |p| && p[i] == x;
      assert h[i] == x;
    }
  }

  /** Capping takes nothing that is not in the input, and takes all of a
      listed category that fits under the cap. */
  lemma CapEachCount<T, K>(s: seq<T>, ks: seq<K>, key: T -> K, cap: int, x: T)
    requires Distinct(ks)
    ensures multiset(CapEach(s, ks, key, cap))[x] <= multiset(s)[x]
    ensures key(x) !in ks ==> multiset(CapEach(s, ks, key, cap))[x] == 0
    ensures key(x) in ks && 0 <= |Having(s, key, key(x))| <= cap ==>
              multiset(CapEach(s, ks, key, cap))[x] == multiset(s)[x]
  {
    var c := CapEach(s, ks, key, cap);
    var k := key(x);
    HavingCount(c, key, k, x);
    CapEachHaving(s, ks, key, cap, k);
    HavingCount(s, key, k, x);
    PrefixSub(Having(s, key, k), cap);
  }

  // ---------------------------------------------------------------------
  // The pipeline

  function Ranked<T>(s: seq<T>, rank: T -> Key): (r: seq<T>)
    ensures |r| == |s| && multiset(r) == multiset(s) && SortedDesc(r, rank)
  {
    SortDesc(s, rank)
  }

  /** The categories of the ranked list, in order of first appearance. */
  function Categories<T, K(==)>(s: seq<T>, key: T -> K, rank: T -> Key): seq<K> {
    Keys(KeysBy(Ranked(s, rank), key))
  }

  /** What survives the per-category cap. */
  function Selected<T, K(==)>(s: seq<T>, key: T -> K, rank: T -> Key, cap: int): seq<T> {
    CapEach(Ranked(s, rank), Categories(s, key, rank), key, cap)
  }

  /** `_prioritize_recommendations`. */
  function Prioritize<T, K(==)>(s: seq<T>, key: T -> K, rank: T -> Key, cap: int, limit: int): seq<T> {
    if |s| == 0 then []
    else Prefix(Ranked(Selected(s, key, rank, cap), rank), limit)
  }

  /** Every category of the input is listed. */
  lemma CategoriesCover<T, K>(s: seq<T>, key: T -> K, rank: T -> Key, x: T)
    requires x in s
    ensures key(x) in Categories(s, key, rank) && Distinct(Categories(s, key, rank))
  {
    var r := Ranked(s, rank);
    assert x in multiset(r);
    var i :| 0 <= i < |r| && r[i] == x;
    assert KeysBy(r, key)[i] == key(x);
  }

  /** Category `k` of a capped sorted list is the first `cap` entries of
      category `k`, and they rank at least as high as every entry of that
      category left out. */
  lemma CapEachTop<T, K>(r: seq<T>, ks: seq<K>, key: T -> K, rank: T -> Key, cap: int, k: K)
    requires Distinct(ks) && SortedDesc(r, rank)
    requires forall i :: 0 <= i < |r| ==> key(r[i]) in ks
    ensures var g := Having(r, key, k);
            var h := Having(CapEach(r, ks, key, cap), key, k);
            h == Prefix(g, cap)
            && forall i, j :: 0 <= i < |h| <= j < |g| ==> KeyGe(rank(g[i]), rank(g[j]))
  {
    CapEachHaving(r, ks, key, cap, k);
    HavingSorted(r, key, k, rank);
    HavingSize(r, key, k);
    var kr := KeysBy(r, key);
    forall i | 0 <= i < |kr| ensures kr[i] in ks {
      assert kr[i] == key(r[i]);
    }
  }

  /** Every entry of the ranked list belongs to a listed category. */
  lemma RankedCovered<T, K>(s: seq<T>, key: T -> K, rank: T -> Key)
    ensures Distinct(Categories(s, key, rank))
    ensures forall i :: 0 <= i < |Ranked(s, rank)| ==> key(Ranked(s, rank)[i]) in Categories(s, key, rank)
  {
    var r := Ranked(s, rank);
    var kr := KeysBy(r, key);
    forall i | 0 <= i < |r| ensures key(r[i]) in Categories(s, key, rank) {
      assert kr[i] == key(r[i]);
    }
  }

  /** Category `k` of the selection is the first `cap` entries of category
      `k` of the ranked input, and they rank at least as high as every
      entry of that category left out. */
  lemma SelectedPerCategory<T, K>(s: seq<T>, key: T -> K, rank: T -> Key, cap: int, k: K)
    ensures var g := Having(Ranked(s, rank), key, k);
            var h := Having(Selected(s, key, rank, cap), key, k);
            h == Prefix(g, cap)
            && forall i, j :: 0 <= i < |h| <= j < |g| ==> KeyGe(rank(g[i]), rank(g[j]))
  {
    RankedCovered(s, key, rank);
    CapEachTop(Ranked(s, rank), Categories(s, key, rank), key, rank, cap, k);
  }

  /** Capping takes only entries of its input. */
  lemma CapEachSub<T, K>(s: seq<T>, ks: seq<K>, key: T -> K, cap: int)
    requires Distinct(ks)
    ensures multiset(CapEach(s, ks, key, cap)) <= multiset(s)
  {
    var c := CapEach(s, ks, key, cap);
    forall x ensures multiset(c)[x] <= multiset(s)[x] {
      CapEachCount(s, ks, key, cap, x);
    }
    FewerCounts(c, s);
  }

  /** Capping every category of the input by a cap none exceeds keeps the
      whole input. */
  lemma CapEachAll<T, K>(s: seq<T>, ks: seq<K>, key: T -> K, cap: int)
    requires Distinct(ks)
    requires forall x :: x in s ==> key(x) in ks
    requires forall k :: |Having(s, key, k)| <= cap
    ensures multiset(CapEach(s, ks, key, cap)) == multiset(s)
  {
    var c := CapEach(s, ks, key, cap);
    forall x ensures multiset(c)[x] == multiset(s)[x] {
      CapEachCount(s, ks, key, cap, x);
      if x !in s {
        assert multiset(s)[x] == 0;
      }
    }
    SameCounts(c, s);
  }

  /** The selection holds only entries of the input. */
  lemma SelectedSub<T, K>(s: seq<T>, key: T -> K, rank: T -> Key, cap: int)
    ensures multiset(Selected(s, key, rank, cap)) <= multiset(s)
  {
    var r := Ranked(s, rank);
    CapEachSub(r, Categories(s, key, rank), key, cap);
  }

  /** The output holds only entries of the input, each at most as often. */
  lemma PrioritizeSub<T, K>(s: seq<T>, key: T -> K, rank: T -> Key, cap: int, limit: int)
    ensures multiset(Prioritize(s, key, rank, cap, limit)) <= multiset(s)
  {
    if |s| > 0 {
      SelectedSub(s, key, rank, cap);
      PrefixSub(Ranked(Selected(s, key, rank, cap), rank), limit);
    }
  }

  /** The output is ranked and within the overall limit. */
  lemma PrioritizeRanked<T, K>(s: seq<T>, key: T -> K, rank: T -> Key, cap: int, limit: int)
    ensures SortedDesc(Prioritize(s, key, rank, cap, limit), rank)
    ensures limit >= 0 ==> |Prioritize(s, key, rank, cap, limit)| <= limit
  {
  }

  /** No category has more than `cap` entries in the output. */
  lemma PrioritizeCapped<T, K>(s: seq<T>, key: T -> K, rank: T -> Key, cap: int, limit: int)
    requires cap >= 0
    ensures forall k :: |Having(Prioritize(s, key, rank, cap, limit), key, k)| <= cap
  {
    forall k ensures |Having(Prioritize(s, key, rank, cap, limit), key, k)| <= cap {
      PrioritizeCappedAt(s, key, rank, cap, limit, k);
    }
  }

  lemma PrioritizeCappedAt<T, K>(s: seq<T>, key: T -> K, rank: T -> Key, cap: int, limit: int, k: K)
    requires cap >= 0
    ensures |Having(Prioritize(s, key, rank, cap, limit), key, k)| <= cap
  {
    if |s| > 0 {
      var sel := Selected(s, key, rank, cap);
      var ranked := Ranked(sel, rank);
      PrefixHavingShorter(ranked, limit, key, k);
      HavingPermutation(ranked, sel, key, k);
      SelectedCapped(s, key, rank, cap, k);
    }
  }

  /** A prefix has no more entries of a category than the whole. */
  lemma PrefixHavingShorter<T, K>(s: seq<T>, n: int, key: T -> K, k: K)
    ensures |Having(Prefix(s, n), key, k)| <= |Having(s, key, k)|
  {
    var p := Prefix(s, n);
    assert s == p + s[|p|..];
    HavingAppend(p, s[|p|..], key, k);
  }

  /** The selection has at most `cap` entries of each category. */
  lemma SelectedCapped<T, K>(s: seq<T>, key: T -> K, rank: T -> Key, cap: int, k: K)
    requires cap >= 0
    ensures |Having(Selected(s, key, rank, cap), key, k)| <= cap
  {
    SelectedPerCategory(s, key, rank, cap, k);
  }

  /** With room for at least one entry overall and per category, a
      non-empty input gives a non-empty output. */
  lemma PrioritizeNonEmpty<T, K>(s: seq<T>, key: T -> K, rank: T -> Key, cap: int, limit: int)
    requires |s| > 0 && cap >= 1 && limit >= 1
    ensures |Prioritize(s, key, rank, cap, limit)| > 0
  {
    var r := Ranked(s, rank);
    var k := key(s[0]);
    HavingCount(r, key, k, s[0]);
    assert multiset(r)[s[0]] > 0;
    SelectedPerCategory(s, key, rank, cap, k);
  }

  /** When no category exceeds the cap and the whole list fits under the
      limit, the output is a rearrangement of the input. */
  lemma PrioritizeKeepsAll<T, K>(s: seq<T>, key: T -> K, rank: T -> Key, cap: int, limit: int)
    requires |s| <= limit
    requires forall k :: |Having(s, key, k)| <= cap
    ensures multiset(Prioritize(s, key, rank, cap, limit)) == multiset(s)
  {
    if |s| > 0 {
      var r := Ranked(s, rank);
      var ks := Categories(s, key, rank);
      forall x | x in r ensures key(x) in ks {
        assert x in multiset(s);
        CategoriesCover(s, key, rank, x);
      }
      forall k ensures |Having(r, key, k)| <= cap {
        HavingPermutation(r, s, key, k);
      }
      CategoriesCover(s, key, rank, s[0]);
      CapEachAll(r, ks, key, cap);
      var sel := Selected(s, key, rank, cap);
      assert |sel| == |multiset(s)|;
    }
  }
}

=== FILE: common.dfy ===
/** Small failure-carrying datatypes shared by every analyzer model. */
module Common {

  /** A value that may be absent: Python's `None`, a missing dictionary key,
      or a pandas NaN where the model needs to tell it apart. */
  datatype Option<+T> = None | Some(value: T) {
    function GetOr(default: T): T {
      match this
      case Some(v) => v
      case None => default
    }
  }

  /** A computation that either yields a value or raises. */
  datatype Result<+T, +E> = Ok(value: T) | Err(error: E)

  /** The "high" / "medium" / "low" severity every analyzer attaches to its
      findings and recommendations. */
  datatype Severity = High | Medium | Low
}

/** String helpers with Python's semantics: `str.lower` (ASCII letters),
    `in`, `str.find`, `str.strip` and decimal integers. */
module Text {
  import opened Common

  function LowerChar(c: char): char {
    if 'A' <= c <= 'Z' then (c as int + 32) as char else c
  }

  /** `s.lower()` restricted to ASCII letters. */
  function Lower(s: string): (r: string)
    ensures |r| == |s|
    ensures forall i :: 0 <= i < |s| ==> r[i] == LowerChar(s[i])
  {
    seq(|s|, i requires 0 <= i < |s| => LowerChar(s[i]))
  }

  lemma LowerIdempotent(s: string)
    ensures Lower(Lower(s)) == Lower(s)
  {
    assert forall i :: 0 <= i < |s| ==> LowerChar(LowerChar(s[i])) == LowerChar(s[i]);
  }

  lemma LowerSlice(s: string, i: int, j: int)
    requires 0 <= i <= j <= |s|
    ensures Lower(s)[i..j] == Lower(s[i..j])
  {
  }

  /** Neither the lower-case letter `c` nor its upper-case form is in `s`. */
  predicate LacksLetter(s: string, c: char)
    requires 'a' <= c <= 'z'
  {
    c !in s && (c as int - 32) as char !in s
  }

  /** A letter `s` lacks in both cases is not in `s.lower()`. */
  lemma LowerLacks(s: string, c: char)
    requires 'a' <= c <= 'z' && LacksLetter(s, c)
    ensures c !in Lower(s)
  {
  }

  /** `p` occurs in `s` starting at index `i`. */
  predicate OccursAt(s: string, p: string, i: int) {
    0 <= i && i + |p| <= |s| && s[i..i + |p|] == p
  }

  /** `s.find(p, i)`: the least index at or after `i` where `p` occurs, or -1. */
  function FindFrom(s: string, p: string, i: nat): (r: int)
    requires i <= |s|
    ensures r == -1 || (i <= r && OccursAt(s, p, r))
    ensures r == -1 ==> forall j :: i <= j ==> !OccursAt(s, p, j)
    ensures r != -1 ==> forall j :: i <= j < r ==> !OccursAt(s, p, j)
    decreases |s| - i
  {
    if i + |p| > |s| then -1
    else if s[i..i + |p|] == p then i
    else FindFrom(s, p, i + 1)
  }

  /** `s.find(p)`. */
  function Find(s: string, p: string): int {
    FindFrom(s, p, 0)
  }

  /** Python's `p in s`. */
  predicate Contains(s: string, p: string) {
    Find(s, p) >= 0
  }

  lemma ContainsIff(s: string, p: string)
    ensures Contains(s, p) <==> exists i :: OccursAt(s, p, i)
  {
    if !Contains(s, p) {
      forall i ensures !OccursAt(s, p, i) {
        if i >= 0 {
          assert 0 <= i;
        }
      }
    }
  }

  /** A piece `w` of `s` whose lower-case form is `p` puts `p` in `s.lower()`. */
  lemma LowerOccurs(s: string, i: int, w: string, p: string)
    requires 0 <= i && i + |w| <= |s| && s[i..i + |w|] == w && Lower(w) == p
    ensures Contains(Lower(s), p)
  {
    LowerSlice(s, i, i + |w|);
    assert OccursAt(Lower(s), p, i);
    ContainsIff(Lower(s), p);
  }

  /** A character of `p` that `s` lacks rules `p` out of `s`. */
  lemma AbsentChar(s: string, p: string, c: char)
    requires c in p && c !in s
    ensures !Contains(s, p)
  {
    ContainsIff(s, p);
  }

  /** If `p[m]` occurs in `s` only at `j`, the one place `p` could start is
      `j - m`. */
  lemma OnlyAt(s: string, p: string, m: int, j: int)
    requires 0 <= m < |p| && 0 <= j < |s|
    requires p[m] !in s[..j] && p[m] !in s[j + 1..]
    requires !OccursAt(s, p, j - m)
    ensures !Contains(s, p)
  {
    ContainsIff(s, p);
    forall i | OccursAt(s, p, i) ensures i == j - m {
      assert s[i..i + |p|][m] == s[i + m];
    }
  }

  /** The characters `str.strip()` removes: Python's Unicode whitespace. */
  predicate IsSpace(c: char) {
    var n := c as int;
    (9 <= n <= 13) || (28 <= n <= 32) || n == 0x85 || n == 0xA0 || n == 0x1680
    || (0x2000 <= n <= 0x200A) || n == 0x2028 || n == 0x2029 || n == 0x202F
    || n == 0x205F || n == 0x3000
  }

  function StripLeft(s: string): (r: string)
    ensures |r| <= |s| && r == s[|s| - |r|..]
    ensures |r| > 0 ==> !IsSpace(r[0])
    ensures forall i :: 0 <= i < |s| - |r| ==> IsSpace(s[i])
  {
    if |s| > 0 && IsSpace(s[0]) then StripLeft(s[1..]) else s
  }

  function StripRight(s: string): (r: string)
    ensures |r| <= |s| && r == s[..|r|]
    ensures |r| > 0 ==> !IsSpace(r[|r| - 1])
    ensures forall i :: |r| <= i < |s| ==> IsSpace(s[i])
  {
    if |s| > 0 && IsSpace(s[|s| - 1]) then StripRight(s[..|s| - 1]) else s
  }

  /** `s.strip()` with no arguments. */
  function Strip(s: string): string {
    StripRight(StripLeft(s))
  }

  /** The stripped text is a window of the text with only whitespace
      outside it, and it neither starts nor ends with whitespace. */
  lemma StripWindow(s: string)
    ensures exists a, b :: 0 <= a <= b <= |s| && Strip(s) == s[a..b]
                           && (forall k :: 0 <= k < a ==> IsSpace(s[k]))
                           && (forall k :: b <= k < |s| ==> IsSpace(s[k]))
    ensures |Strip(s)| > 0 ==> !IsSpace(Strip(s)[0]) && !IsSpace(Strip(s)[|Strip(s)| - 1])
  {
    var l := StripLeft(s);
    var r := StripRight(l);
    Window(s, l, r);
    if |r| > 0 {
      assert r[0] == l[0];
    }
  }

  /** A prefix `r` of a suffix `l` of `s` is a window of `s`; what `s`
      has outside it is what `l` has outside `r` and `s` outside `l`. */
  lemma Window(s: string, l: string, r: string)
    requires |l| <= |s| && l == s[|s| - |l|..] && |r| <= |l| && r == l[..|r|]
    requires forall i :: 0 <= i < |s| - |l| ==> IsSpace(s[i])
    requires forall i :: |r| <= i < |l| ==> IsSpace(l[i])
    ensures exists a, b :: 0 <= a <= b <= |s| && r == s[a..b]
                           && (forall k :: 0 <= k < a ==> IsSpace(s[k]))
                           && (forall k :: b <= k < |s| ==> IsSpace(s[k]))
  {
    var a := |s| - |l|;
    var b := a + |r|;
    forall k | b <= k < |s| ensures IsSpace(s[k]) {
      assert s[k] == l[k - a];
    }
    assert 0 <= a <= b <= |s| && r == s[a..b]
           && (forall k :: 0 <= k < a ==> IsSpace(s[k]))
           && (forall k :: b <= k < |s| ==> IsSpace(s[k]));
  }

  lemma StripTrimmed(s: string)
    requires |s| > 0 ==> !IsSpace(s[0]) && !IsSpace(s[|s| - 1])
    ensures Strip(s) == s
  {
  }

  /** A leading whitespace character is stripped. */
  lemma StripLeftSpace(c: char, t: string)
    requires IsSpace(c)
    ensures StripLeft([c] + t) == StripLeft(t)
  {
    assert ([c] + t)[1..] == t;
  }

  /** A trailing whitespace character is stripped. */
  lemma StripRightSpace(t: string, c: char)
    requires IsSpace(c)
    ensures StripRight(t + [c]) == StripRight(t)
  {
    assert (t + [c])[..|t|] == t;
  }

  /** Padding a trimmed string with a space on each side is undone by
      stripping. */
  lemma StripPadded(s: string)
    requires |s| > 0 ==> !IsSpace(s[0]) && !IsSpace(s[|s| - 1])
    ensures Strip(" " + s + " ") == s
  {
    assert IsSpace(' ');
    StripLeftSpace(' ', s + " ");
    assert " " + s + " " == [' '] + (s + " ");
    if |s| == 0 {
      StripLeftSpace(' ', "");
      assert s + " " == [' '] + "";
    } else {
      assert (s + " ")[0] == s[0];
      assert StripLeft(s + " ") == s + " ";
      StripRightSpace(s, ' ');
      assert s + " " == s + [' '];
    }
  }

  /** Stripping twice strips no more than stripping once. */
  lemma StripIdempotent(s: string)
    ensures Strip(Strip(s)) == Strip(s)
  {
    var l := StripLeft(s);
    var r := StripRight(l);
    if |r| > 0 {
      assert r[0] == l[0];
    }
    StripTrimmed(r);
  }

  predicate IsDigit(c: char) {
    '0' <= c <= '9'
  }

  function DigitChar(d: nat): (c: char)
    requires d < 10
    ensures IsDigit(c)
  {
    ('0' as int + d) as char
  }

  /** `str(n)` for a non-negative integer. */
  function NatToString(n: nat): (r: string)
    ensures |r| > 0
    ensures forall i :: 0 <= i < |r| ==> IsDigit(r[i])
    decreases n
  {
    if n < 10 then [DigitChar(n)] else NatToString(n / 10) + [DigitChar(n % 10)]
  }

  predicate AllDigits(s: string) {
    forall i :: 0 <= i < |s| ==> IsDigit(s[i])
  }

  function DigitsValue(s: string): nat
    requires AllDigits(s)
  {
    if |s| == 0 then 0
    else DigitsValue(s[..|s| - 1]) * 10 + (s[|s| - 1] as int - '0' as int)
  }

  /** `int(s)` for a plain decimal numeral; None where `int` would raise. */
  function ParseNat(s: string): Option<nat> {
    if |s| > 0 && AllDigits(s) then Some(DigitsValue(s)) else None
  }

  lemma {:induction false} DigitsValueOfNatToString(n: nat)
    ensures AllDigits(NatToString(n)) && DigitsValue(NatToString(n)) == n
    decreases n
  {
    if n >= 10 {
      DigitsValueOfNatToString(n / 10);
      var s := NatToString(n);
      assert s[..|s| - 1] == NatToString(n / 10);
    }
  }

  /** Printing a count and reading it back gives the count. */
  lemma ParseNatOfNatToString(n: nat)
    ensures ParseNat(NatToString(n)) == Some(n)
  {
    DigitsValueOfNatToString(n);
  }

  /** Joins `parts` with `sep` in between, as `sep.join(parts)`. */
  function Join(parts: seq<string>, sep: string): string {
    if |parts| == 0 then ""
    else if |parts| == 1 then parts[0]
    else parts[0] + sep + Join(parts[1..], sep)
  }

  /** `s.split(sep)` for a one-character separator: the pieces between the
      separators, from left to right; there is always at least one. */
  function Split(s: string, sep: char): (r: seq<string>)
    ensures |r| >= 1
    ensures forall i :: 0 <= i < |r| ==> sep !in r[i]
  {
    if |s| == 0 then [""]
    else
      var rest := Split(s[1..], sep);
      if s[0] == sep then [""] + rest else [[s[0]] + rest[0]] + rest[1..]
  }

  /** Joining the pieces with the separator gives the string back. */
  lemma {:induction false} JoinSplit(s: string, sep: char)
    ensures Join(Split(s, sep), [sep]) == s
  {
    if |s| > 0 {
      var rest := Split(s[1..], sep);
      JoinSplit(s[1..], sep);
      if s[0] != sep {
        var r := Split(s, sep);
        assert r[1..] == rest[1..];
        if |rest| > 1 {
          assert rest == [rest[0]] + rest[1..];
        }
      }
    }
  }

  /** Text without the separator before a split joins the first piece. */
  lemma {:induction false} SplitPrefix(p: string, t: string, sep: char)
    requires sep !in p
    ensures Split(p + t, sep) == [p + Split(t, sep)[0]] + Split(t, sep)[1..]
  {
    var st := Split(t, sep);
    if |p| == 0 {
      assert p + t == t && p + st[0] == st[0];
      assert st == [st[0]] + st[1..];
    } else {
      SplitPrefix(p[1..], t, sep);
      var rest := Split(p[1..] + t, sep);
      assert (p + t)[1..] == p[1..] + t;
      assert (p + t)[0] == p[0] != sep;
      assert Split(p + t, sep) == [[p[0]] + rest[0]] + rest[1..];
      assert rest[0] == p[1..] + st[0] && rest[1..] == st[1..];
      assert [p[0]] + (p[1..] + st[0]) == p + st[0];
    }
  }

  /** Splitting pieces joined by a separator none of them holds gives the
      pieces back. */
  lemma {:induction false} SplitJoin(parts: seq<string>, sep: char)
    requires |parts| >= 1
    requires forall i :: 0 <= i < |parts| ==> sep !in parts[i]
    ensures Split(Join(parts, [sep]), sep) == parts
  {
    if |parts| == 1 {
      SplitPrefix(parts[0], "", sep);
      assert parts[0] + "" == parts[0];
    } else {
      var tail := Join(parts[1..], [sep]);
      SplitJoin(parts[1..], sep);
      assert Join(parts, [sep]) == parts[0] + ([sep] + tail);
      SplitPrefix(parts[0], [sep] + tail, sep);
      var st := Split([sep] + tail, sep);
      assert ([sep] + tail)[1..] == tail;
      assert st == [""] + parts[1..];
      assert parts[0] + "" == parts[0];
      assert parts == [parts[0]] + parts[1..];
    }
  }
}

/** Sums, means and the spread statistics the analyzers use, over reals. */
module Stats {
  import Sorting

  function Sum(xs: seq<real>): real {
    if |xs| == 0 then 0.0 else Sum(xs[..|xs| - 1]) + xs[|xs| - 1]
  }

  lemma {:induction false} SumAppend(a: seq<real>, b: seq<real>)
    ensures Sum(a + b) == Sum(a) + Sum(b)
    decreases |b|
  {
    if |b| == 0 {
      assert a + b == a;
    } else {
      assert (a + b)[..|a + b| - 1] == a + b[..|b| - 1];
      SumAppend(a, b[..|b| - 1]);
    }
  }

  lemma {:induction false} SumConstant(xs: seq<real>, c: real)
    requires forall i :: 0 <= i < |xs| ==> xs[i] == c
    ensures Sum(xs) == |xs| as real * c
  {
    if |xs| > 0 {
      SumConstant(xs[..|xs| - 1], c);
    }
  }

  lemma {:induction false} SumZero(xs: seq<real>)
    requires forall i :: 0 <= i < |xs| ==> xs[i] == 0.0
    ensures Sum(xs) == 0.0
  {
    if |xs| > 0 {
      SumZero(xs[..|xs| - 1]);
    }
  }

  lemma {:induction false} SumNonNegative(xs: seq<real>)
    requires forall i :: 0 <= i < |xs| ==> xs[i] >= 0.0
    ensures Sum(xs) >= 0.0
  {
    if |xs| > 0 {
      SumNonNegative(xs[..|xs| - 1]);
    }
  }

  /** Dividing every term by `d` divides the sum by `d`. */
  lemma {:induction false} SumScaled(xs: seq<real>, ys: seq<real>, d: real)
    requires d != 0.0 && |ys| == |xs|
    requires forall i :: 0 <= i < |xs| ==> ys[i] == xs[i] / d
    ensures Sum(ys) == Sum(xs) / d
  {
    if |xs| > 0 {
      var n := |xs| - 1;
      SumScaled(xs[..n], ys[..n], d);
      assert Sum(ys) == Sum(xs[..n]) / d + xs[n] / d;
    }
  }

  function Mean(xs: seq<real>): real
    requires |xs| > 0
  {
    Sum(xs) / |xs| as real
  }

  lemma MeanConstant(xs: seq<real>, c: real)
    requires |xs| > 0
    requires forall i :: 0 <= i < |xs| ==> xs[i] == c
    ensures Mean(xs) == c
  {
    SumConstant(xs, c);
  }

  /** The sum of squared deviations of `xs` from `m`. */
  function SumSqDev(xs: seq<real>, m: real): real {
    if |xs| == 0 then 0.0
    else SumSqDev(xs[..|xs| - 1], m) + Product(xs[|xs| - 1] - m, xs[|xs| - 1] - m)
  }

  lemma {:induction false} SumSqDevNonNegative(xs: seq<real>, m: real)
    ensures SumSqDev(xs, m) >= 0.0
  {
    if |xs| > 0 {
      SumSqDevNonNegative(xs[..|xs| - 1], m);
      var d := xs[|xs| - 1] - m;
      assert d * d >= 0.0;
    }
  }

  /** A product of reals is zero only when a factor is. */
  lemma MulZero(x: real, y: real)
    requires x * y == 0.0
    ensures x == 0.0 || y == 0.0
  {
  }

  /** Two non-negative terms that sum to zero are both zero. */
  lemma NonNegSumZero(t: real, s: real)
    requires t >= 0.0 && s >= 0.0 && t + s == 0.0
    ensures t == 0.0 && s == 0.0
  {
  }

  /** The squared deviations vanish exactly when every element equals `m`. */
  lemma {:induction false} SumSqDevZeroIff(xs: seq<real>, m: real)
    ensures SumSqDev(xs, m) == 0.0 <==> forall i :: 0 <= i < |xs| ==> xs[i] == m
  {
    if |xs| > 0 {
      var init := xs[..|xs| - 1];
      var d := xs[|xs| - 1] - m;
      SumSqDevZeroIff(init, m);
      SumSqDevNonNegative(init, m);
      assert d * d >= 0.0;
      if forall i :: 0 <= i < |xs| ==> xs[i] == m {
        assert forall i :: 0 <= i < |init| ==> init[i] == m;
      }
      if SumSqDev(xs, m) == 0.0 {
        NonNegSumZero(SumSqDev(init, m), d * d);
        MulZero(d, d);
        forall i | 0 <= i < |xs| ensures xs[i] == m {
          if i < |init| {
            assert init[i] == xs[i];
          }
        }
      }
    }
  }

  /** Sample variance (pandas' `std` squared, one degree of freedom). */
  function SampleVariance(xs: seq<real>): real
    requires |xs| >= 2
  {
    SumSqDev(xs, Mean(xs)) / (|xs| as real - 1.0)
  }

  /** A zero sample standard deviation means every value is the same, and
      conversely. */
  lemma VarianceZeroIffConstant(xs: seq<real>)
    requires |xs| >= 2
    ensures SampleVariance(xs) == 0.0 <==> forall i :: 0 <= i < |xs| ==> xs[i] == xs[0]
  {
    var m := Mean(xs);
    SumSqDevZeroIff(xs, m);
    if forall i :: 0 <= i < |xs| ==> xs[i] == xs[0] {
      MeanConstant(xs, xs[0]);
    }
  }

  /** `a` times `b`, kept as one term so that equal factors give equal
      products without arithmetic. */
  function Product(a: real, b: real): real {
    a * b
  }

  function Abs(x: real): real {
    if x < 0.0 then -x else x
  }

  /** `sqrt` returns the non-negative square root of every non-negative
      real: the model's stand-in for the floating-point square root. */
  ghost predicate IsSqrt(sqrt: real -> real) {
    forall x :: 0.0 <= x ==> 0.0 <= sqrt(x) && sqrt(x) * sqrt(x) == x
  }

  lemma SqrtZero(sqrt: real -> real, v: real)
    requires IsSqrt(sqrt) && 0.0 <= v
    ensures 0.0 <= sqrt(v) && sqrt(v) * sqrt(v) == v
    ensures sqrt(v) == 0.0 <==> v == 0.0
  {
    assert 0.0 <= sqrt(v) && sqrt(v) * sqrt(v) == v;
    if v == 0.0 {
      MulZero(sqrt(v), sqrt(v));
    }
  }

  /** Sample standard deviation (pandas' `std`, one degree of freedom): it
      is zero exactly when every value is the same. */
  function Std(xs: seq<real>, sqrt: real -> real): (r: real)
    requires |xs| >= 2 && IsSqrt(sqrt)
    ensures 0.0 <= r && Product(r, r) == SampleVariance(xs)
    ensures r == 0.0 <==> forall i :: 0 <= i < |xs| ==> xs[i] == xs[0]
  {
    SumSqDevNonNegative(xs, Mean(xs));
    VarianceZeroIffConstant(xs);
    var v := SampleVariance(xs);
    SqrtZero(sqrt, v);
    sqrt(v)
  }

  /** Orders reals by their value. */
  function ByValue(x: real): Sorting.Key {
    Sorting.Key(0, x)
  }

  /** The middle element of the sorted values, or the mean of the two
      middle ones when their number is even (pandas' and numpy's median). */
  function Median(xs: seq<real>): real
    requires |xs| > 0
  {
    Middle(Sorting.SortDesc(xs, ByValue))
  }

  function Middle(s: seq<real>): real
    requires |s| > 0
  {
    var n := |s|;
    if n % 2 == 1 then s[n / 2] else (s[n / 2 - 1] + s[n / 2]) / 2.0
  }

  /** The median lies between two of the values. */
  lemma MedianWithin(xs: seq<real>)
    requires |xs| > 0
    ensures exists i, j :: 0 <= i < |xs| && 0 <= j < |xs| && xs[i] <= Median(xs) <= xs[j]
  {
    var s := Sorting.SortDesc(xs, ByValue);
    var lo, hi := MiddleBetween(s);
    assert s[hi] in multiset(xs) && s[lo] in multiset(xs);
    var i :| 0 <= i < |xs| && xs[i] == s[lo];
    var j :| 0 <= j < |xs| && xs[j] == s[hi];
  }

  /** In a descending sequence the middle lies between two entries. */
  lemma MiddleBetween(s: seq<real>) returns (lo: int, hi: int)
    requires |s| > 0 && Sorting.SortedDesc(s, ByValue)
    ensures 0 <= lo < |s| && 0 <= hi < |s| && s[lo] <= Middle(s) <= s[hi]
  {
    var n := |s|;
    lo, hi := n / 2, n / 2;
    if n % 2 == 0 {
      hi := n / 2 - 1;
      assert Sorting.KeyGe(ByValue(s[hi]), ByValue(s[lo]));
    }
  }

  /** The median of a constant sequence is that constant. */
  lemma MedianConstant(xs: seq<real>, c: real)
    requires |xs| > 0
    requires forall i :: 0 <= i < |xs| ==> xs[i] == c
    ensures Median(xs) == c
  {
    var s := Sorting.SortDesc(xs, ByValue);
    forall k | 0 <= k < |s| ensures s[k] == c {
      assert s[k] in multiset(xs);
    }
  }

  /** The smallest of the values. */
  function Min(xs: seq<real>): (r: real)
    requires |xs| > 0
    ensures r in xs && forall i :: 0 <= i < |xs| ==> r <= xs[i]
  {
    if |xs| == 1 then xs[0]
    else
      var m := Min(xs[..|xs| - 1]);
      assert forall i :: 0 <= i < |xs| - 1 ==> xs[..|xs| - 1][i] == xs[i];
      if xs[|xs| - 1] < m then xs[|xs| - 1] else m
  }

  /** The largest of the values. */
  function Max(xs: seq<real>): (r: real)
    requires |xs| > 0
    ensures r in xs && forall i :: 0 <= i < |xs| ==> xs[i] <= r
  {
    if |xs| == 1 then xs[0]
    else
      var m := Max(xs[..|xs| - 1]);
      assert forall i :: 0 <= i < |xs| - 1 ==> xs[..|xs| - 1][i] == xs[i];
      if xs[|xs| - 1] > m then xs[|xs| - 1] else m
  }

  /** Sum of the cross deviations of two equally long sequences. */
  function SumCross(xs: seq<real>, ys: seq<real>, mx: real, my: real): real
    requires |xs| == |ys|
  {
    if |xs| == 0 then 0.0
    else SumCross(xs[..|xs| - 1], ys[..|ys| - 1], mx, my)
         + Product(xs[|xs| - 1] - mx, ys[|ys| - 1] - my)
  }

  lemma {:induction false} SumCrossConstant(xs: seq<real>, ys: seq<real>, mx: real, c: real)
    requires |xs| == |ys|
    requires forall i :: 0 <= i < |ys| ==> ys[i] == c
    ensures SumCross(xs, ys, mx, c) == 0.0
  {
    if |xs| > 0 {
      SumCrossConstant(xs[..|xs| - 1], ys[..|ys| - 1], mx, c);
      TimesZero(xs[|xs| - 1] - mx, ys[|ys| - 1] - c);
    }
  }

  /** Dividing a product by a nonzero factor recovers the other factor. */
  lemma DivProduct(b: real, s: real)
    requires s != 0.0
    ensures Product(b, s) / s == b
  {
  }

  /** One more of a factor adds that factor once more. */
  lemma ProductStep(m: real, c: real)
    ensures Product(m + 1.0, c) == Product(m, c) + c
  {
  }

  lemma TimesZero(a: real, b: real)
    requires b == 0.0
    ensures Product(a, b) == 0.0
  {
  }

  /** If `ys` lies on the line `a + b x`, its cross deviation with `xs` is `b`
      times the squared deviation of `xs`. */
  lemma {:induction false} SumCrossLinear(xs: seq<real>, ys: seq<real>, mx: real, my: real, a: real, b: real)
    requires |xs| == |ys| && my == a + Product(b, mx)
    requires forall i :: 0 <= i < |xs| ==> ys[i] == a + b * xs[i]
    ensures SumCross(xs, ys, mx, my) == Product(b, SumSqDev(xs, mx))
  {
    if |xs| > 0 {
      var n := |xs| - 1;
      SumCrossLinear(xs[..n], ys[..n], mx, my, a, b);
      CrossTerm(xs[n] - mx, ys[n] - my, b, SumSqDev(xs[..n], mx));
    }
  }

  /** The step of `SumCrossLinear`: a deviation `e` that is `b` times `d`
      contributes `b` times `d` squared. */
  lemma CrossTerm(d: real, e: real, b: real, s: real)
    requires e == b * d
    ensures Product(b, s) + Product(d, e) == Product(b, s + Product(d, d))
  {
  }

  lemma {:induction false} SumLinear(xs: seq<real>, ys: seq<real>, a: real, b: real)
    requires |xs| == |ys|
    requires forall i :: 0 <= i < |xs| ==> ys[i] == a + b * xs[i]
    ensures Sum(ys) == |xs| as real * a + b * Sum(xs)
  {
    if |xs| > 0 {
      var n := |xs| - 1;
      SumLinear(xs[..n], ys[..n], a, b);
    }
  }

  /** The index sequence 0, 1, ..., n-1 as reals (numpy's `arange`). */
  function Indices(n: nat): (r: seq<real>)
    ensures |r| == n
    ensures forall i :: 0 <= i < n ==> r[i] == i as real
  {
    seq(n, i => i as real)
  }

  lemma {:induction false} SumSqDevPositive(xs: seq<real>, m: real, i: nat, j: nat)
    requires i < j < |xs| && xs[i] != xs[j]
    ensures SumSqDev(xs, m) > 0.0
  {
    SumSqDevNonNegative(xs, m);
    SumSqDevZeroIff(xs, m);
  }
}

/** A stable insertion sort, descending by a lexicographic key; ascending
    orders are expressed by negating the key. This is what Python's
    `sorted(..., key=..., reverse=True)` and `sort_values` give. */
module Sorting {

  datatype Key = Key(major: int, minor: real)

  predicate KeyGe(a: Key, b: Key) {
    a.major > b.major || (a.major == b.major && a.minor >= b.minor)
  }

  predicate KeyGt(a: Key, b: Key) {
    a.major > b.major || (a.major == b.major && a.minor > b.minor)
  }

  ghost predicate SortedDesc<T>(s: seq<T>, key: T -> Key) {
    forall i, j :: 0 <= i < j < |s| ==> KeyGe(key(s[i]), key(s[j]))
  }

  /** Inserts `x` after every element whose key is not smaller than its own. */
  function Insert<T>(s: seq<T>, x: T, key: T -> Key): (r: seq<T>)
    ensures |r| == |s| + 1
    ensures multiset(r) == multiset(s) + multiset{x}
  {
    if |s| == 0 then [x]
    else if KeyGt(key(x), key(s[0])) then [x] + s
    else
      assert s == [s[0]] + s[1..];
      [s[0]] + Insert(s[1..], x, key)
  }

  /** Putting in front an element whose key is not smaller than any other
      keeps a sequence sorted. */
  lemma PrependSorted<T>(y: T, s: seq<T>, key: T -> Key)
    requires SortedDesc(s, key)
    requires forall i :: 0 <= i < |s| ==> KeyGe(key(y), key(s[i]))
    ensures SortedDesc([y] + s, key)
  {
    forall i, j | 0 <= i < j < |[y] + s|
      ensures KeyGe(key(([y] + s)[i]), key(([y] + s)[j]))
    {
      assert ([y] + s)[j] == s[j - 1];
      if i > 0 {
        assert ([y] + s)[i] == s[i - 1];
      }
    }
  }

  /** Insertion keeps a sorted sequence sorted. */
  lemma {:induction false} InsertSorted<T>(s: seq<T>, x: T, key: T -> Key)
    requires SortedDesc(s, key)
    ensures SortedDesc(Insert(s, x, key), key)
  {
    if |s| > 0 {
      if KeyGt(key(x), key(s[0])) {
        PrependSorted(x, s, key);
      } else {
        var rest := Insert(s[1..], x, key);
        InsertSorted(s[1..], x, key);
        forall i | 0 <= i < |rest| ensures KeyGe(key(s[0]), key(rest[i])) {
          var y := rest[i];
          assert y in multiset(rest);
          if y != x {
            assert y in multiset(s[1..]);
            var k :| 0 <= k < |s[1..]| && s[1..][k] == y;
            assert s[k + 1] == y;
          }
        }
        PrependSorted(s[0], rest, key);
      }
    }
  }

  function SortDesc<T>(xs: seq<T>, key: T -> Key): (r: seq<T>)
    ensures |r| == |xs|
    ensures multiset(r) == multiset(xs)
    ensures SortedDesc(r, key)
  {
    if |xs| == 0 then []
    else
      assert xs == xs[..|xs| - 1] + [xs[|xs| - 1]];
      InsertSorted(SortDesc(xs[..|xs| - 1], key), xs[|xs| - 1], key);
      Insert(SortDesc(xs[..|xs| - 1], key), xs[|xs| - 1], key)
  }

  /** The entries of `s` whose key is `k`, in their order in `s`. */
  function WithKey<T>(s: seq<T>, key: T -> Key, k: Key): seq<T> {
    if |s| == 0 then []
    else (if key(s[0]) == k then [s[0]] else []) + WithKey(s[1..], key, k)
  }

  lemma {:induction false} WithKeyAppend<T>(a: seq<T>, b: seq<T>, key: T -> Key, k: Key)
    ensures WithKey(a + b, key, k) == WithKey(a, key, k) + WithKey(b, key, k)
  {
    if |a| > 0 {
      assert (a + b)[1..] == a[1..] + b;
      WithKeyAppend(a[1..], b, key, k);
    } else {
      assert a + b == b;
    }
  }

  lemma {:induction false} WithKeyNone<T>(s: seq<T>, key: T -> Key, k: Key)
    requires forall i :: 0 <= i < |s| ==> key(s[i]) != k
    ensures WithKey(s, key, k) == []
  {
    if |s| > 0 {
      WithKeyNone(s[1..], key, k);
    }
  }

  /** Insertion into a sorted sequence puts `x` behind every entry with its
      key. */
  lemma {:induction false} InsertWithKey<T>(s: seq<T>, x: T, key: T -> Key, k: Key)
    requires SortedDesc(s, key)
    ensures WithKey(Insert(s, x, key), key, k) == WithKey(s, key, k) + (if key(x) == k then [x] else [])
  {
    if |s| == 0 {
    } else if KeyGt(key(x), key(s[0])) {
      InsertInFront(s, x, key, k);
    } else {
      SortedTail(s, key);
      InsertWithKey(s[1..], x, key, k);
      assert ([s[0]] + Insert(s[1..], x, key))[1..] == Insert(s[1..], x, key);
    }
  }

  /** An element placed in front of a sorted sequence with only smaller keys
      is the only one with its key. */
  lemma InsertInFront<T>(s: seq<T>, x: T, key: T -> Key, k: Key)
    requires SortedDesc(s, key) && |s| > 0 && KeyGt(key(x), key(s[0]))
    ensures WithKey([x] + s, key, k) == WithKey(s, key, k) + (if key(x) == k then [x] else [])
  {
    if key(x) == k {
      forall i | 0 <= i < |s| ensures key(s[i]) != k {
        if i > 0 {
          assert KeyGe(key(s[0]), key(s[i]));
        }
      }
      WithKeyNone(s, key, k);
    }
    assert ([x] + s)[1..] == s;
  }

  lemma SortedTail<T>(s: seq<T>, key: T -> Key)
    requires SortedDesc(s, key) && |s| > 0
    ensures SortedDesc(s[1..], key)
  {
    forall i, j | 0 <= i < j < |s[1..]| ensures KeyGe(key(s[1..][i]), key(s[1..][j])) {
      assert s[1..][i] == s[i + 1] && s[1..][j] == s[j + 1];
    }
  }

  /** The sort is stable: for every key, the entries with that key come out
      in the order they went in. */
  lemma {:induction false} SortStable<T>(xs: seq<T>, key: T -> Key, k: Key)
    ensures WithKey(SortDesc(xs, key), key, k) == WithKey(xs, key, k)
  {
    if |xs| > 0 {
      var n := |xs| - 1;
      var init := xs[..n];
      var x := xs[n];
      assert xs == init + [x];
      var tail := if key(x) == k then [x] else [];
      SortStable(init, key, k);
      InsertWithKey(SortDesc(init, key), x, key, k);
      assert SortDesc(xs, key) == Insert(SortDesc(init, key), x, key);
      assert WithKey(SortDesc(xs, key), key, k) == WithKey(init, key, k) + tail;
      WithKeyAppend(init, [x], key, k);
      WithKeySingle(x, key, k);
      assert WithKey(xs, key, k) == WithKey(init, key, k) + tail;
    }
  }

  lemma WithKeySingle<T>(x: T, key: T -> Key, k: Key)
    ensures WithKey([x], key, k) == if key(x) == k then [x] else []
  {
    assert [x][1..] == [];
  }
}

=== FILE: config_utils.dfy ===
/** Configuration dictionaries: a recursive merge in which the override
    wins except where both sides hold a dictionary, and the three
    environment-variable overrides. The environment is an explicit map. */
module ConfigUtils {
  import opened Common
  import opened Text
  import opened Dicts

  /** A JSON-like configuration value; objects keep insertion order. */
  datatype Value = Str(s: string) | Int(i: int) | Bool(b: bool) | Obj(fields: Dict<string, Value>)

  type Config = Dict<string, Value>

  function Size(v: Value): nat
    decreases v, 1
  {
    match v
    case Obj(f) => 1 + SizeFrom(v, 0)
    case _ => 1
  }

  /** The sizes of the fields from the `i`-th on, one more per entry. */
  function SizeFrom(v: Value, i: nat): nat
    requires v.Obj?
    decreases v, 0, |v.fields| - i
  {
    if i >= |v.fields| then 0
    else
      assert v.fields[i] in v.fields;
      1 + Size(v.fields[i].1) + SizeFrom(v, i + 1)
  }

  function SizeOf(d: Config): nat {
    SizeFrom(Obj(d), 0)
  }

  lemma {:induction false} SizeShift(d: Config, i: nat, j: nat)
    requires j <= i <= |d|
    ensures SizeFrom(Obj(d), i) == SizeFrom(Obj(d[j..]), i - j)
    decreases |d| - i
  {
    if i < |d| {
      assert d[j..][i - j] == d[i];
      SizeShift(d, i + 1, j);
    }
  }

  /** A dictionary's size is its first entry's plus the rest's. */
  lemma SizeTail(d: Config)
    requires |d| > 0
    ensures SizeOf(d) == 1 + Size(d[0].1) + SizeOf(d[1..])
  {
    SizeShift(d, 1, 1);
  }

  /** Well keyed at every level. */
  predicate Deep(d: Config)
    decreases SizeOf(d), 1
  {
    WellKeyed(d) && DeepValues(d)
  }

  predicate DeepValues(d: Config)
    decreases SizeOf(d), 0
  {
    |d| == 0 || (SizeTail(d); (d[0].1.Obj? ==> Deep(d[0].1.fields)) && DeepValues(d[1..]))
  }

  // ---------------------------------------------------------------------
  // merge_configs

  /** The value a key gets when the override brings `v` and the result so
      far holds `cur`: the recursive merge when both are dictionaries, the
      override otherwise. */
  function Combine(cur: Option<Value>, v: Value): Value
    decreases Size(v)
  {
    if cur.Some? && cur.value.Obj? && v.Obj? then Obj(Merge(cur.value.fields, v.fields)) else v
  }

  /** `merge_configs(base, override)`: the override's entries, in order,
      assigned into a copy of the base. */
  function Merge(base: Config, over: Config): Config
    decreases SizeOf(over)
  {
    if |over| == 0 then base
    else
      var k := over[0].0;
      SizeTail(over);
      Merge(Put(base, k, Combine(Get(base, k), over[0].1)), over[1..])
  }

  /** A key the override does not name keeps its value. */
  lemma {:induction false} MergeOther(base: Config, over: Config, k: string)
    requires WellKeyed(base) && k !in KeysOf(over)
    ensures Get(Merge(base, over), k) == Get(base, k)
    decreases |over|
  {
    if |over| > 0 {
      var k0 := over[0].0;
      var b' := Put(base, k0, Combine(Get(base, k0), over[0].1));
      GetPut(base, k0, Combine(Get(base, k0), over[0].1));
      KeysTail(over);
      MergeOther(b', over[1..], k);
    }
  }

  /** A key the override names gets the override's value, merged
      recursively when both sides hold a dictionary. */
  lemma {:induction false} MergeNamed(base: Config, over: Config, k: string)
    requires WellKeyed(base) && WellKeyed(over) && k in KeysOf(over)
    ensures Get(Merge(base, over), k) == Some(Combine(Get(base, k), Get(over, k).value))
    decreases |over|
  {
    var k0 := over[0].0;
    var v0 := Combine(Get(base, k0), over[0].1);
    var b' := Put(base, k0, v0);
    GetPut(base, k0, v0);
    var rest := over[1..];
    KeysTail(over);
    GetEntry(over, 0);
    if k == k0 {
      assert k !in KeysOf(rest);
      MergeOther(b', rest, k);
    } else {
      var i :| 0 <= i < |over| && KeysOf(over)[i] == k;
      assert KeysOf(rest)[i - 1] == k;
      GetEntry(over, i);
      GetEntry(rest, i - 1);
      MergeNamed(b', rest, k);
    }
  }

  /** The keys of a non-empty dictionary are its first key followed by
      the rest's; a well-keyed one's rest is well keyed and lacks the first
      key. */
  lemma KeysTail(d: Config)
    requires |d| > 0
    ensures KeysOf(d) == [d[0].0] + KeysOf(d[1..])
    ensures WellKeyed(d) ==> WellKeyed(d[1..]) && d[0].0 !in KeysOf(d[1..])
  {
    assert KeysOf(d) == [d[0].0] + KeysOf(d[1..]);
  }

  /** The merged keys are the base's keys, in place, followed by the keys
      only the override has; the result is well keyed. */
  lemma MergeKeys(base: Config, over: Config)
    requires WellKeyed(base)
    ensures WellKeyed(Merge(base, over))
    ensures |base| <= |Merge(base, over)| && KeysOf(Merge(base, over))[..|base|] == KeysOf(base)
    ensures forall k :: k in KeysOf(Merge(base, over)) <==> k in KeysOf(base) || k in KeysOf(over)
  {
    MergePrefix(base, over);
    MergeKeySet(base, over);
  }

  lemma {:induction false} MergePrefix(base: Config, over: Config)
    requires WellKeyed(base)
    ensures WellKeyed(Merge(base, over))
    ensures |base| <= |Merge(base, over)| && KeysOf(Merge(base, over))[..|base|] == KeysOf(base)
    decreases |over|
  {
    if |over| > 0 {
      var k0 := over[0].0;
      var b' := Put(base, k0, Combine(Get(base, k0), over[0].1));
      GetPut(base, k0, Combine(Get(base, k0), over[0].1));
      MergePrefix(b', over[1..]);
      assert KeysOf(b')[..|base|] == KeysOf(base);
    }
  }

  lemma {:induction false} MergeKeySet(base: Config, over: Config)
    requires WellKeyed(base)
    ensures forall k :: k in KeysOf(Merge(base, over)) <==> k in KeysOf(base) || k in KeysOf(over)
    decreases |over|
  {
    if |over| > 0 {
      var k0 := over[0].0;
      var b' := Put(base, k0, Combine(Get(base, k0), over[0].1));
      GetPut(base, k0, Combine(Get(base, k0), over[0].1));
      MergeKeySet(b', over[1..]);
      KeysTail(over);
    }
  }

  /** Merging an override whose keys the base already has keeps the base's
      key order. */
  lemma {:induction false} MergeSameKeys(base: Config, over: Config)
    requires WellKeyed(base) && forall k :: k in KeysOf(over) ==> k in KeysOf(base)
    ensures KeysOf(Merge(base, over)) == KeysOf(base)
    decreases |over|
  {
    if |over| > 0 {
      var k0 := over[0].0;
      var b' := Put(base, k0, Combine(Get(base, k0), over[0].1));
      GetPut(base, k0, Combine(Get(base, k0), over[0].1));
      KeysTail(over);
      MergeSameKeys(b', over[1..]);
    }
  }

  /** Two well-keyed dictionaries with the same keys in the same order and
      the same value per key are equal. */
  lemma DictExt(a: Config, b: Config)
    requires WellKeyed(a) && WellKeyed(b) && KeysOf(a) == KeysOf(b)
    requires forall k :: Get(a, k) == Get(b, k)
    ensures a == b
  {
    forall i | 0 <= i < |a| ensures a[i] == b[i] {
      GetEntry(a, i);
      GetEntry(b, i);
      assert a[i].0 == KeysOf(a)[i] == KeysOf(b)[i] == b[i].0;
    }
  }

  /** The values of a deep dictionary are deep. */
  lemma {:induction false} DeepAt(d: Config, i: int)
    requires Deep(d) && 0 <= i < |d|
    ensures d[i].1.Obj? ==> Deep(d[i].1.fields)
    ensures Size(d[i].1) < SizeOf(d)
    decreases |d|
  {
    SizeTail(d);
    if i > 0 {
      assert forall j :: 0 <= j < |d| - 1 ==> KeysOf(d[1..])[j] == KeysOf(d)[j + 1];
      assert d[1..][i - 1] == d[i];
      DeepAt(d[1..], i - 1);
    }
  }

  /** A present key's value in a deep dictionary is deep. */
  lemma DeepGet(d: Config, k: string)
    requires Deep(d) && Get(d, k).Some?
    ensures Get(d, k).value.Obj? ==> Deep(Get(d, k).value.fields)
    ensures Size(Get(d, k).value) < SizeOf(d)
  {
    DeepAt(d, IndexOf(d, k));
  }

  /** Merging a deep dictionary into an empty one gives it back. */
  lemma MergeIntoEmpty(over: Config)
    requires Deep(over)
    ensures Merge([], over) == over
  {
    MergeKeys([], over);
    var r := Merge([], over);
    forall k ensures Get(r, k) == Get(over, k) {
      if k in KeysOf(over) {
        MergeNamed([], over, k);
      } else {
        MergeOther([], over, k);
      }
    }
    assert KeysOf(r) == KeysOf(over) by {
      KeysAfterEmpty(over);
    }
    DictExt(r, over);
  }

  /** Into an empty base the keys arrive in the override's order. */
  lemma {:induction false} KeysAfterEmpty(over: Config)
    requires WellKeyed(over)
    ensures KeysOf(Merge([], over)) == KeysOf(over)
  {
    MergeFresh([], over);
  }

  /** An override with keys new to the base appends them in order. */
  lemma {:induction false} MergeFresh(base: Config, over: Config)
    requires WellKeyed(base) && WellKeyed(over)
    requires forall k :: k in KeysOf(over) ==> k !in KeysOf(base)
    ensures KeysOf(Merge(base, over)) == KeysOf(base) + KeysOf(over)
    decreases |over|
  {
    if |over| > 0 {
      var k0 := over[0].0;
      var v0 := Combine(Get(base, k0), over[0].1);
      var b' := Put(base, k0, v0);
      var rest := over[1..];
      KeysTail(over);
      PutNew(base, k0, v0);
      forall k | k in KeysOf(rest) ensures k !in KeysOf(b') {
        assert k in KeysOf(over);
      }
      MergeFresh(b', rest);
      AppendAssoc(KeysOf(base), [k0], KeysOf(rest));
    }
  }

  lemma AppendAssoc<T>(a: seq<T>, b: seq<T>, c: seq<T>)
    ensures (a + b) + c == a + (b + c)
  {
  }

  /** Assigning a new key appends it. */
  lemma PutNew(d: Config, k: string, v: Value)
    requires WellKeyed(d) && k !in KeysOf(d)
    ensures WellKeyed(Put(d, k, v)) && KeysOf(Put(d, k, v)) == KeysOf(d) + [k]
  {
    GetPut(d, k, v);
  }

  /** An empty override changes nothing. */
  lemma MergeEmpty(base: Config)
    ensures Merge(base, []) == base
  {
  }

  /** Merging a deep dictionary with itself gives it back. */
  lemma {:induction false} MergeSelf(d: Config)
    requires Deep(d)
    ensures Merge(d, d) == d
    decreases SizeOf(d)
  {
    var r := Merge(d, d);
    MergeKeys(d, d);
    MergeSameKeys(d, d);
    forall k ensures Get(r, k) == Get(d, k) {
      if k in KeysOf(d) {
        MergeNamed(d, d, k);
        var v := Get(d, k).value;
        DeepGet(d, k);
        if v.Obj? {
          MergeSelf(v.fields);
        }
      } else {
        MergeOther(d, d, k);
      }
    }
    DictExt(r, d);
  }

  /** Merging the same override twice is merging it once. */
  lemma {:induction false} MergeIdempotent(base: Config, over: Config)
    requires Deep(base) && Deep(over)
    ensures Merge(Merge(base, over), over) == Merge(base, over)
    decreases SizeOf(over)
  {
    var r := Merge(base, over);
    var r2 := Merge(r, over);
    MergeKeys(base, over);
    MergeKeys(r, over);
    MergeSameKeys(r, over);
    forall k ensures Get(r2, k) == Get(r, k) {
      if k in KeysOf(over) {
        MergeNamed(base, over, k);
        MergeNamed(r, over, k);
        var v := Get(over, k).value;
        var c := Get(base, k);
        DeepGet(over, k);
        if c.Some? && c.value.Obj? && v.Obj? {
          DeepGet(base, k);
          MergeDeep(c.value.fields, v.fields);
          MergeIdempotent(c.value.fields, v.fields);
        } else if v.Obj? {
          MergeSelf(v.fields);
        }
      } else {
        MergeOther(r, over, k);
      }
    }
    DictExt(r2, r);
  }

  /** Merging deep dictionaries gives a deep dictionary. */
  lemma {:induction false} MergeDeep(base: Config, over: Config)
    requires Deep(base) && Deep(over)
    ensures Deep(Merge(base, over))
    decreases SizeOf(over)
  {
    var r := Merge(base, over);
    MergeKeys(base, over);
    forall i | 0 <= i < |r| && r[i].1.Obj? ensures Deep(r[i].1.fields) {
      var k := r[i].0;
      GetEntry(r, i);
      if k in KeysOf(over) {
        MergeNamed(base, over, k);
        var v := Get(over, k).value;
        var c := Get(base, k);
        DeepGet(over, k);
        if c.Some? && c.value.Obj? && v.Obj? {
          DeepGet(base, k);
          MergeDeep(c.value.fields, v.fields);
        }
      } else {
        MergeOther(base, over, k);
        DeepGet(base, k);
      }
    }
    DeepFromValues(r);
  }

  /** Deepness from the values one by one. */
  lemma {:induction false} DeepFromValues(d: Config)
    requires WellKeyed(d)
    requires forall i :: 0 <= i < |d| && d[i].1.Obj? ==> Deep(d[i].1.fields)
    ensures Deep(d)
    decreases |d|
  {
    if |d| > 0 {
      var rest := d[1..];
      assert forall i :: 0 <= i < |rest| ==> KeysOf(rest)[i] == KeysOf(d)[i + 1];
      assert WellKeyed(rest);
      assert forall i :: 0 <= i < |rest| ==> rest[i] == d[i + 1];
      DeepFromValues(rest);
    }
  }

  /** Assigning a value that is deep where it is a dictionary keeps a
      deep dictionary deep. */
  lemma DeepPut(d: Config, k: string, v: Value)
    requires Deep(d) && (v.Obj? ==> Deep(v.fields))
    ensures Deep(Put(d, k, v))
  {
    var e := Put(d, k, v);
    GetPut(d, k, v);
    forall i | 0 <= i < |e| && e[i].1.Obj? ensures Deep(e[i].1.fields) {
      if e[i] != (k, v) {
        var j := IndexOf(d, k);
        assert j < 0 ==> i < |d|;
        assert e[i] == d[i];
        DeepAt(d, i);
      }
    }
    DeepFromValues(e);
  }

  /** The example merge: a nested override and a new section. */
  lemma MergeExample()
    ensures Merge(
              [("logging", Obj([("level", Str("INFO")), ("file", Str("base.log"))])),
               ("azure", Obj([("auth_method", Str("default")), ("use_cli", Bool(true))]))],
              [("logging", Obj([("level", Str("DEBUG"))])),
               ("monitoring", Obj([("default_days", Int(14))]))])
            == [("logging", Obj([("level", Str("DEBUG")), ("file", Str("base.log"))])),
                ("azure", Obj([("auth_method", Str("default")), ("use_cli", Bool(true))])),
                ("monitoring", Obj([("default_days", Int(14))]))]
  {
    var logging := Obj([("level", Str("INFO")), ("file", Str("base.log"))]);
    var azure := Obj([("auth_method", Str("default")), ("use_cli", Bool(true))]);
    var monitoring := Obj([("default_days", Int(14))]);
    var base := [("logging", logging), ("azure", azure)];
    var inner := [("level", Str("DEBUG"))];
    assert Get(logging.fields, "level") == Some(Str("INFO"));
    var merged := Merge(logging.fields, inner);
    assert merged == Merge(Put(logging.fields, "level", Str("DEBUG")), []);
    assert merged == [("level", Str("DEBUG")), ("file", Str("base.log"))];
    assert Get(base, "logging") == Some(logging);
    var b1 := Put(base, "logging", Obj(merged));
    assert b1 == [("logging", Obj(merged)), ("azure", azure)];
    assert Get(b1, "monitoring") == None;
    assert Merge(b1, [("monitoring", monitoring)]) == b1 + [("monitoring", monitoring)];
  }

  // ---------------------------------------------------------------------
  // get_config_with_env_overrides

  /** `os.environ.get(name)` as a condition: set and non-empty. */
  function EnvValue(env: map<string, string>, name: string): Option<string> {
    if name in env && env[name] != "" then Some(env[name]) else None
  }

  /** `c[section][key]`, when `c[section]` is a dictionary. */
  function Field(c: Config, section: string, key: string): Option<Value> {
    var g := Get(c, section);
    if g.Some? && g.value.Obj? then Get(g.value.fields, key) else None
  }

  /** A section that holds something other than a dictionary. */
  predicate Blocked(c: Config, section: string) {
    Get(c, section).Some? && !Get(c, section).value.Obj?
  }

  /** `result[section][key] = v`, creating an empty section first when it
      is absent; assigning into a string, number or boolean raises. */
  function SetIn(c: Config, section: string, key: string, v: Value): Result<Config, string> {
    var g := Get(c, section);
    if g.None? then Ok(Put(c, section, Obj([(key, v)])))
    else if g.value.Obj? then Ok(Put(c, section, Obj(Put(g.value.fields, key, v))))
    else Err("TypeError")
  }

  /** One override: skipped when the variable is unset or empty. */
  function Override(r: Result<Config, string>, value: Option<Value>, section: string, key: string): Result<Config, string> {
    if r.Err? || value.None? then r else SetIn(r.value, section, key, value.value)
  }

  function AuthMethod(env: map<string, string>): Option<Value> {
    match EnvValue(env, "AZURE_AUTH_METHOD")
    case Some(a) => Some(Str(a))
    case None => None
  }

  function UseCli(env: map<string, string>): Option<Value> {
    match EnvValue(env, "AZURE_USE_CLI")
    case Some(a) => Some(Bool(Lower(a) == "true"))
    case None => None
  }

  function LogLevel(env: map<string, string>): Option<Value> {
    match EnvValue(env, "LOG_LEVEL")
    case Some(a) => Some(Str(a))
    case None => None
  }

  /** `get_config_with_env_overrides`, with the environment as a map. */
  function EnvOverrides(c: Config, env: map<string, string>): Result<Config, string> {
    Override(Override(Override(Ok(c), AuthMethod(env), "azure", "auth_method"),
                      UseCli(env), "azure", "use_cli"),
             LogLevel(env), "logging", "level")
  }

  /** `r` is `c` with `section.key` set to `v` and nothing else changed:
      still deep, and the section now a dictionary. */
  ghost predicate SetsOnly(c: Config, r: Config, section: string, key: string, v: Value) {
    Deep(r)
    && Field(r, section, key) == Some(v)
    && (forall j :: j != key ==> Field(r, section, j) == Field(c, section, j))
    && (forall s :: s != section ==> Get(r, s) == Get(c, s))
    && !Blocked(r, section)
  }

  /** Assigning into a section fails exactly when the section holds a
      non-dictionary; otherwise it sets that one field and changes nothing
      else. */
  lemma SetInSpec(c: Config, section: string, key: string, v: Value)
    requires Deep(c) && !v.Obj?
    ensures SetIn(c, section, key, v).Err? <==> Blocked(c, section)
    ensures SetIn(c, section, key, v).Ok? ==> SetsOnly(c, SetIn(c, section, key, v).value, section, key, v)
  {
    var g := Get(c, section);
    if g.None? {
      SetInNew(c, section, key, v);
    } else if g.value.Obj? {
      SetInExisting(c, section, key, v);
    }
  }

  lemma SetInNew(c: Config, section: string, key: string, v: Value)
    requires Deep(c) && !v.Obj? && Get(c, section).None?
    ensures SetIn(c, section, key, v).Ok? && SetsOnly(c, SetIn(c, section, key, v).value, section, key, v)
  {
    var o := [(key, v)];
    assert KeysOf(o) == [key];
    DeepFromValues(o);
    DeepPut(c, section, Obj(o));
    GetPut(c, section, Obj(o));
    forall j | j != key ensures Get(o, j) == None {
      assert j !in KeysOf(o);
    }
    GetEntry(o, 0);
  }

  lemma SetInExisting(c: Config, section: string, key: string, v: Value)
    requires Deep(c) && !v.Obj? && Get(c, section).Some? && Get(c, section).value.Obj?
    ensures SetIn(c, section, key, v).Ok? && SetsOnly(c, SetIn(c, section, key, v).value, section, key, v)
  {
    var f := Get(c, section).value.fields;
    DeepGet(c, section);
    GetPut(f, key, v);
    DeepPut(f, key, v);
    DeepPut(c, section, Obj(Put(f, key, v)));
    GetPut(c, section, Obj(Put(f, key, v)));
  }

  /** A skipped override changes nothing; an applied one is `SetIn`. */
  lemma OverrideSpec(r: Result<Config, string>, value: Option<Value>, section: string, key: string)
    requires r.Ok? ==> Deep(r.value)
    requires value.Some? ==> !value.value.Obj?
    ensures var o := Override(r, value, section, key);
            (o.Err? <==> r.Err? || (value.Some? && Blocked(r.value, section)))
            && (o.Ok? ==>
                  Deep(o.value)
                  && Field(o.value, section, key) == (if value.Some? then value else Field(r.value, section, key))
                  && (forall j :: j != key ==> Field(o.value, section, j) == Field(r.value, section, j))
                  && (forall s :: s != section ==> Get(o.value, s) == Get(r.value, s))
                  && (Blocked(o.value, section) <==> value.None? && Blocked(r.value, section)))
  {
    if r.Ok? && value.Some? {
      SetInSpec(r.value, section, key, value.value);
    }
  }

  /** Reading a field only looks at its own section. */
  lemma FieldOfSection(a: Config, b: Config, section: string)
    requires Get(a, section) == Get(b, section)
    ensures forall j :: Field(a, section, j) == Field(b, section, j)
    ensures Blocked(a, section) == Blocked(b, section)
  {
  }

  /** The environment overrides set `azure.auth_method`, `azure.use_cli`
      and `logging.level` from the variables that are set and non-empty,
      leave every other entry alone, and fail only when a section they
      write holds a non-dictionary. */
  lemma EnvOverridesSpec(c: Config, env: map<string, string>)
    requires Deep(c)
    ensures var r := EnvOverrides(c, env);
            var auth, cli, level := AuthMethod(env), UseCli(env), LogLevel(env);
            (r.Err? <==> ((auth.Some? || cli.Some?) && Blocked(c, "azure")) || (level.Some? && Blocked(c, "logging")))
            && (auth.None? && cli.None? && level.None? ==> r == Ok(c))
            && (r.Ok? ==>
                  (forall s :: s != "azure" && s != "logging" ==> Get(r.value, s) == Get(c, s))
                  && Field(r.value, "azure", "auth_method") == (if auth.Some? then auth else Field(c, "azure", "auth_method"))
                  && Field(r.value, "azure", "use_cli") == (if cli.Some? then cli else Field(c, "azure", "use_cli"))
                  && Field(r.value, "logging", "level") == (if level.Some? then level else Field(c, "logging", "level"))
                  && (forall j :: j != "auth_method" && j != "use_cli" ==> Field(r.value, "azure", j) == Field(c, "azure", j))
                  && (forall j :: j != "level" ==> Field(r.value, "logging", j) == Field(c, "logging", j)))
  {
    EnvOverridesFails(c, env);
    EnvOverridesFields(c, env);
  }

  /** The two azure overrides: the section afterwards and whether they
      failed. */
  lemma AzureOverrides(c: Config, env: map<string, string>)
    requires Deep(c)
    ensures var auth, cli := AuthMethod(env), UseCli(env);
            var r2 := Override(Override(Ok(c), auth, "azure", "auth_method"), cli, "azure", "use_cli");
            (r2.Err? <==> (auth.Some? || cli.Some?) && Blocked(c, "azure"))
            && (r2.Ok? ==>
                  Deep(r2.value)
                  && (forall s :: s != "azure" ==> Get(r2.value, s) == Get(c, s))
                  && Field(r2.value, "azure", "auth_method") == (if auth.Some? then auth else Field(c, "azure", "auth_method"))
                  && Field(r2.value, "azure", "use_cli") == (if cli.Some? then cli else Field(c, "azure", "use_cli"))
                  && (forall j :: j != "auth_method" && j != "use_cli" ==> Field(r2.value, "azure", j) == Field(c, "azure", j)))
  {
    var auth, cli := AuthMethod(env), UseCli(env);
    var r1 := Override(Ok(c), auth, "azure", "auth_method");
    OverrideSpec(Ok(c), auth, "azure", "auth_method");
    OverrideSpec(r1, cli, "azure", "use_cli");
  }

  lemma EnvOverridesFails(c: Config, env: map<string, string>)
    requires Deep(c)
    ensures var r := EnvOverrides(c, env);
            var auth, cli, level := AuthMethod(env), UseCli(env), LogLevel(env);
            (r.Err? <==> ((auth.Some? || cli.Some?) && Blocked(c, "azure")) || (level.Some? && Blocked(c, "logging")))
            && (auth.None? && cli.None? && level.None? ==> r == Ok(c))
  {
    var r2 := Override(Override(Ok(c), AuthMethod(env), "azure", "auth_method"), UseCli(env), "azure", "use_cli");
    AzureOverrides(c, env);
    OverrideSpec(r2, LogLevel(env), "logging", "level");
    if r2.Ok? {
      FieldOfSection(r2.value, c, "logging");
    }
  }

  lemma EnvOverridesFields(c: Config, env: map<string, string>)
    requires Deep(c)
    ensures var r := EnvOverrides(c, env);
            var auth, cli, level := AuthMethod(env), UseCli(env), LogLevel(env);
            r.Ok? ==>
              (forall s :: s != "azure" && s != "logging" ==> Get(r.value, s) == Get(c, s))
              && Field(r.value, "azure", "auth_method") == (if auth.Some? then auth else Field(c, "azure", "auth_method"))
              && Field(r.value, "azure", "use_cli") == (if cli.Some? then cli else Field(c, "azure", "use_cli"))
              && Field(r.value, "logging", "level") == (if level.Some? then level else Field(c, "logging", "level"))
              && (forall j :: j != "auth_method" && j != "use_cli" ==> Field(r.value, "azure", j) == Field(c, "azure", j))
              && (forall j :: j != "level" ==> Field(r.value, "logging", j) == Field(c, "logging", j))
  {
    var r2 := Override(Override(Ok(c), AuthMethod(env), "azure", "auth_method"), UseCli(env), "azure", "use_cli");
    AzureOverrides(c, env);
    OverrideSpec(r2, LogLevel(env), "logging", "level");
    if r2.Ok? {
      FieldOfSection(r2.value, c, "logging");
      var r := EnvOverrides(c, env);
      if r.Ok? {
        FieldOfSection(r.value, r2.value, "azure");
      }
    }
  }

  /** The example: both variables set over a configuration that has both
      sections. */
  lemma EnvOverridesExample(c: Config)
    requires c == [("logging", Obj([("level", Str("INFO"))])), ("azure", Obj([("auth_method", Str("default"))]))]
    ensures var r := EnvOverrides(c, map["AZURE_AUTH_METHOD" := "browser", "LOG_LEVEL" := "DEBUG"]);
            r.Ok? && Field(r.value, "azure", "auth_method") == Some(Str("browser"))
            && Field(r.value, "logging", "level") == Some(Str("DEBUG"))
  {
    var env := map["AZURE_AUTH_METHOD" := "browser", "LOG_LEVEL" := "DEBUG"];
    assert "AZURE_USE_CLI" !in env;
    assert KeysOf([("level", Str("INFO"))]) == ["level"];
    assert KeysOf([("auth_method", Str("default"))]) == ["auth_method"];
    DeepFromValues([("level", Str("INFO"))]);
    DeepFromValues([("auth_method", Str("default"))]);
    assert KeysOf(c) == ["logging", "azure"];
    DeepFromValues(c);
    EnvOverridesSpec(c, env);
  }
}

=== FILE: cost_analysis.dfy ===
/** The egress cost analyzer: a progressive walk over a zone's price tiers,
    region-to-zone resolution, threshold status, the 30-day projection, the
    rule-based cost recommendations and the compounding multi-month
    projection. */
module CostAnalysis {
  import opened Common
  import opened Text
  import opened Stats
  import opened Sorting
  import opened Grouping
  import opened Samples

  // ---------------------------------------------------------------------
  // Price tiers
  // ---------------------------------------------------------------------

  /** A tier's `limit_gb`: a finite boundary or `float('inf')`. */
  datatype Limit = Bounded(gb: real) | Unbounded

  datatype Tier = Tier(limit: Limit, price: real)

  /** The `zones` part of a pricing table: zone name to its ordered tiers. */
  datatype Pricing = Pricing(zones: map<string, seq<Tier>>)

  /** Python's two-argument `min`: the first argument unless the second is
      strictly smaller. */
  function Min(a: real, b: real): (r: real)
    ensures r <= a && r <= b && (r == a || r == b)
  {
    if b < a then b else a
  }

  /** The gigabytes billed in tier `i` when `rem` are still unbilled: tier 0
      takes up to its limit, tier i takes up to the difference between its
      limit and the previous one, an unbounded tier takes everything. */
  function TierTake(tiers: seq<Tier>, i: nat, rem: real): real
    requires i < |tiers|
    requires i == 0 || tiers[i - 1].limit.Bounded?
  {
    match tiers[i].limit
    case Unbounded => rem
    case Bounded(l) => if i == 0 then Min(rem, l) else Min(rem, l - tiers[i - 1].limit.gb)
  }

  /** The price of `gb` gigabytes at `price` per gigabyte. */
  function Priced(gb: real, price: real): real {
    gb * price
  }

  /** The cost the loop adds up from tier `i` on, with `rem` gigabytes
      still unbilled on reaching it: each tier bills its take at its price,
      and the loop stops once nothing remains or the tiers run out. */
  function Walk(tiers: seq<Tier>, i: nat, rem: real): real
    requires i <= |tiers|
    requires i == 0 || tiers[i - 1].limit.Bounded?
    decreases |tiers| - i
  {
    if i == |tiers| then 0.0
    else
      var take := TierTake(tiers, i, rem);
      Priced(take, tiers[i].price) + (if rem - take <= 0.0 then 0.0 else Walk(tiers, i + 1, rem - take))
  }

  /** `calculate_egress_cost` once the tiers are known. */
  function TierCost(tiers: seq<Tier>, gb: real): real {
    Walk(tiers, 0, gb)
  }

  /** A sensible tier table: finite, strictly increasing positive boundaries,
      an unbounded last tier and non-negative prices. */
  predicate WellFormed(tiers: seq<Tier>) {
    && |tiers| > 0
    && tiers[|tiers| - 1].limit.Unbounded?
    && (forall i :: 0 <= i < |tiers| - 1 ==> tiers[i].limit.Bounded?)
    && (|tiers| > 1 ==> tiers[0].limit.gb > 0.0)
    && (forall i, j :: 0 <= i < j < |tiers| - 1 ==> tiers[i].limit.gb < tiers[j].limit.gb)
    && (forall i :: 0 <= i < |tiers| ==> tiers[i].price >= 0.0)
  }

  /** The lower boundary of tier `k`. */
  function Lo(tiers: seq<Tier>, k: nat): real
    requires WellFormed(tiers) && k < |tiers|
  {
    if k == 0 then 0.0 else tiers[k - 1].limit.gb
  }

  /** `gb` lies in tier `k`: above its lower boundary (at or above zero for
      the first tier) and at most its upper one. */
  predicate InTier(tiers: seq<Tier>, k: nat, gb: real)
    requires WellFormed(tiers) && k < |tiers|
  {
    && (if k == 0 then 0.0 <= gb else Lo(tiers, k) < gb)
    && (tiers[k].limit.Bounded? ==> gb <= tiers[k].limit.gb)
  }

  /** The cost of filling tiers i..k-1 completely, each to its width. */
  function BaseFrom(tiers: seq<Tier>, i: nat, k: nat): real
    requires WellFormed(tiers) && i <= k < |tiers|
    decreases k - i
  {
    if i == k then 0.0
    else Priced(Lo(tiers, i + 1) - Lo(tiers, i), tiers[i].price) + BaseFrom(tiers, i + 1, k)
  }

  /** The cost of filling the tiers below tier k. */
  function Base(tiers: seq<Tier>, k: nat): real
    requires WellFormed(tiers) && k < |tiers|
  {
    BaseFrom(tiers, 0, k)
  }

  lemma LoIncreasing(tiers: seq<Tier>, i: nat, k: nat)
    requires WellFormed(tiers) && i < k < |tiers|
    ensures Lo(tiers, i) < Lo(tiers, k)
  {
  }

  /** In the tier that holds `gb`, the loop bills all that is left and
      stops. */
  lemma WalkLast(tiers: seq<Tier>, k: nat, gb: real, rem: real)
    requires WellFormed(tiers) && k < |tiers| && InTier(tiers, k, gb) && rem == gb - Lo(tiers, k)
    ensures Walk(tiers, k, rem) == Priced(gb - Lo(tiers, k), tiers[k].price)
  {
    assert TierTake(tiers, k, rem) == rem;
  }

  /** Below the tier that holds `gb`, tier i is filled to its width and the
      loop goes on with `gb` less the next boundary. */
  lemma TakeFull(tiers: seq<Tier>, i: nat, k: nat, gb: real)
    requires WellFormed(tiers) && i < k < |tiers| && InTier(tiers, k, gb)
    ensures TierTake(tiers, i, gb - Lo(tiers, i)) == Lo(tiers, i + 1) - Lo(tiers, i)
    ensures Lo(tiers, i + 1) < gb
  {
    if i + 1 < k {
      LoIncreasing(tiers, i + 1, k);
    }
  }

  /** One round of the loop that leaves something unbilled. */
  lemma WalkStep(tiers: seq<Tier>, i: nat, rem: real, take: real)
    requires i < |tiers| && (i == 0 || tiers[i - 1].limit.Bounded?)
    requires take == TierTake(tiers, i, rem) && rem - take > 0.0
    ensures Walk(tiers, i, rem) == Priced(take, tiers[i].price) + Walk(tiers, i + 1, rem - take)
  {
  }

  /** From tier i on, the loop fills every tier below k and bills the rest
      in tier k. */
  lemma {:induction false} WalkInTier(tiers: seq<Tier>, i: nat, k: nat, gb: real, rem: real)
    requires WellFormed(tiers) && i <= k < |tiers| && InTier(tiers, k, gb) && rem == gb - Lo(tiers, i)
    ensures Walk(tiers, i, rem) == BaseFrom(tiers, i, k) + Priced(gb - Lo(tiers, k), tiers[k].price)
    decreases k - i
  {
    if i == k {
      WalkLast(tiers, k, gb, rem);
    } else {
      TakeFull(tiers, i, k, gb);
      WalkStep(tiers, i, rem, Lo(tiers, i + 1) - Lo(tiers, i));
      WalkInTier(tiers, i + 1, k, gb, gb - Lo(tiers, i + 1));
    }
  }

  /** Closed form of the tiered price: inside tier k the cost is the price
      of the full tiers below plus the part inside tier k at tier k's
      price. */
  lemma CostClosedForm(tiers: seq<Tier>, k: nat, gb: real)
    requires WellFormed(tiers) && k < |tiers| && InTier(tiers, k, gb)
    ensures TierCost(tiers, gb) == Base(tiers, k) + Priced(gb - Lo(tiers, k), tiers[k].price)
  {
    WalkInTier(tiers, 0, k, gb, gb);
  }

  lemma {:induction false} BaseSnoc(tiers: seq<Tier>, i: nat, k: nat)
    requires WellFormed(tiers) && i <= k && k + 1 < |tiers|
    ensures BaseFrom(tiers, i, k + 1)
            == BaseFrom(tiers, i, k) + Priced(Lo(tiers, k + 1) - Lo(tiers, k), tiers[k].price)
    decreases k - i
  {
    if i < k {
      BaseSnoc(tiers, i + 1, k);
    }
  }

  /** The formulas of two neighbouring tiers agree on their shared boundary,
      so the cost is continuous there. */
  lemma BoundaryContinuity(tiers: seq<Tier>, k: nat)
    requires WellFormed(tiers) && k + 1 < |tiers|
    ensures Base(tiers, k) + Priced(Lo(tiers, k + 1) - Lo(tiers, k), tiers[k].price)
            == Base(tiers, k + 1) + Priced(Lo(tiers, k + 1) - Lo(tiers, k + 1), tiers[k + 1].price)
  {
    BaseSnoc(tiers, 0, k);
    PricedZero(Lo(tiers, k + 1) - Lo(tiers, k + 1), tiers[k + 1].price);
  }

  lemma PricedZero(gb: real, price: real)
    requires gb == 0.0
    ensures Priced(gb, price) == 0.0
  {
  }

  lemma PricedMonotone(a: real, b: real, price: real)
    requires a <= b && price >= 0.0
    ensures Priced(a, price) <= Priced(b, price)
  {
  }

  /** Up to the first boundary (and below zero) the cost is linear at the
      first tier's price. */
  lemma FirstTierLinear(tiers: seq<Tier>, gb: real)
    requires WellFormed(tiers)
    requires tiers[0].limit.Bounded? ==> gb <= tiers[0].limit.gb
    ensures TierCost(tiers, gb) == Priced(gb, tiers[0].price)
  {
    assert TierTake(tiers, 0, gb) == gb;
  }

  lemma CostOfNothing(tiers: seq<Tier>)
    requires WellFormed(tiers)
    ensures TierCost(tiers, 0.0) == 0.0
  {
    FirstTierLinear(tiers, 0.0);
  }

  /** Billing a non-negative amount from any tier on costs nothing
      negative. */
  lemma {:induction false} WalkNonNegative(tiers: seq<Tier>, i: nat, rem: real)
    requires WellFormed(tiers) && i < |tiers| && (i == 0 || tiers[i - 1].limit.Bounded?)
    requires rem >= 0.0
    ensures Walk(tiers, i, rem) >= 0.0
    decreases |tiers| - i
  {
    var take := TierTake(tiers, i, rem);
    if i > 0 && i < |tiers| - 1 {
      assert tiers[i - 1].limit.gb < tiers[i].limit.gb;
    }
    PricedMonotone(0.0, take, tiers[i].price);
    if rem - take > 0.0 {
      WalkNonNegative(tiers, i + 1, rem - take);
    }
  }

  /** More gigabytes on reaching a tier never cost less from there on. */
  lemma {:induction false} WalkMonotone(tiers: seq<Tier>, i: nat, r1: real, r2: real)
    requires WellFormed(tiers) && i < |tiers| && (i == 0 || tiers[i - 1].limit.Bounded?)
    requires r1 <= r2
    ensures Walk(tiers, i, r1) <= Walk(tiers, i, r2)
    decreases |tiers| - i
  {
    var t1 := TierTake(tiers, i, r1);
    var t2 := TierTake(tiers, i, r2);
    PricedMonotone(t1, t2, tiers[i].price);
    if r2 - t2 > 0.0 {
      if r1 - t1 > 0.0 {
        WalkMonotone(tiers, i + 1, r1 - t1, r2 - t2);
      } else {
        WalkNonNegative(tiers, i + 1, r2 - t2);
      }
    }
  }

  /** Billing more gigabytes never costs less. */
  lemma CostMonotone(tiers: seq<Tier>, g1: real, g2: real)
    requires WellFormed(tiers) && g1 <= g2
    ensures TierCost(tiers, g1) <= TierCost(tiers, g2)
  {
    WalkMonotone(tiers, 0, g1, g2);
  }

  /** Two tiers [(10, 0.10), (inf, 0.05)]: 5, 10 and 20 GB cost 0.5, 1.0
      and 1.5. */
  lemma TwoTierExample()
    ensures var tiers := [Tier(Bounded(10.0), 0.10), Tier(Unbounded, 0.05)];
            TierCost(tiers, 5.0) == 0.5 && TierCost(tiers, 10.0) == 1.0
            && TierCost(tiers, 20.0) == 1.5
  {
    var tiers := [Tier(Bounded(10.0), 0.10), Tier(Unbounded, 0.05)];
    CostClosedForm(tiers, 0, 5.0);
    CostClosedForm(tiers, 0, 10.0);
    CostClosedForm(tiers, 1, 20.0);
  }

  // ---------------------------------------------------------------------
  // The default tables
  // ---------------------------------------------------------------------

  /** One zone's default tiers with the boundaries the source lists:
      10, 40 and 100 TB, read by the walk as cumulative boundaries. */
  function AsWrittenTiers(p0: real, p1: real, p2: real, p3: real): seq<Tier> {
    [Tier(Bounded(10.0 * 1024.0), p0), Tier(Bounded(40.0 * 1024.0), p1),
     Tier(Bounded(100.0 * 1024.0), p2), Tier(Unbounded, p3)]
  }

  /** The tiers the comments describe: first 10 TB, next 40 TB, next 100 TB,
      beyond 150 TB, written as the cumulative boundaries the walk needs. */
  function IntendedTiers(p0: real, p1: real, p2: real, p3: real): seq<Tier> {
    [Tier(Bounded(10.0 * 1024.0), p0), Tier(Bounded(50.0 * 1024.0), p1),
     Tier(Bounded(150.0 * 1024.0), p2), Tier(Unbounded, p3)]
  }

  function Zones(tiers: (real, real, real, real) -> seq<Tier>): map<string, seq<Tier>> {
    map[
      "zone1" := tiers(0.087, 0.083, 0.07, 0.05),
      "zone2" := tiers(0.12, 0.11, 0.08, 0.06),
      "zone3" := tiers(0.181, 0.175, 0.17, 0.16),
      "default" := [Tier(Unbounded, 0.087)]]
  }

  /** The shipped default pricing table, boundaries as written. */
  function AsWrittenPricing(): Pricing {
    Pricing(Zones(AsWrittenTiers))
  }

  /** The corrected default pricing table: the tier widths the comments
      give. */
  function IntendedPricing(): Pricing {
    Pricing(Zones(IntendedTiers))
  }

  const DefaultRegionMap: map<string, string> := map[
    "eastus" := "zone1", "eastus2" := "zone1", "westus" := "zone1",
    "westus2" := "zone1", "centralus" := "zone1", "northcentralus" := "zone1",
    "southcentralus" := "zone1", "westcentralus" := "zone1",
    "canadacentral" := "zone1", "canadaeast" := "zone1",
    "northeurope" := "zone1", "westeurope" := "zone1", "uksouth" := "zone1",
    "ukwest" := "zone1", "francecentral" := "zone1", "francesouth" := "zone1",
    "germanywestcentral" := "zone1", "germanynorth" := "zone1",
    "eastasia" := "zone2", "southeastasia" := "zone2",
    "australiaeast" := "zone2", "australiasoutheast" := "zone2",
    "australiacentral" := "zone2", "japaneast" := "zone2",
    "japanwest" := "zone2", "koreacentral" := "zone2", "koreasouth" := "zone2",
    "centralindia" := "zone2", "southindia" := "zone2", "westindia" := "zone2",
    "brazilsouth" := "zone3", "brazilsoutheast" := "zone3",
    "unknown" := "default"]

  /** The billed width of each tier of a table: the walk's view of it. */
  function Width(tiers: seq<Tier>, i: nat): real
    requires i < |tiers| && tiers[i].limit.Bounded?
    requires i == 0 || tiers[i - 1].limit.Bounded?
  {
    if i == 0 then tiers[0].limit.gb else tiers[i].limit.gb - tiers[i - 1].limit.gb
  }

  /** As written, the "next 40 TB" tier bills only 30 TB, the "next 100 TB"
      tier only 60 TB, and the "beyond 150 TB" price already applies between
      100 and 150 TB: 10 TB more at 120 TB than at 110 TB costs 0.05 per GB
      in zone 1. */
  lemma AsWrittenTierWidths()
    ensures var t := AsWrittenTiers(0.087, 0.083, 0.07, 0.05);
            Width(t, 1) == 30.0 * 1024.0 && Width(t, 2) == 60.0 * 1024.0
            && TierCost(t, 120.0 * 1024.0) - TierCost(t, 110.0 * 1024.0) == 10.0 * 1024.0 * 0.05
  {
    var t := AsWrittenTiers(0.087, 0.083, 0.07, 0.05);
    CostClosedForm(t, 3, 120.0 * 1024.0);
    CostClosedForm(t, 3, 110.0 * 1024.0);
  }

  /** With the intended boundaries each tier bills the width its comment
      gives, and between 100 and 150 TB the third price still applies. */
  lemma IntendedTierWidths()
    ensures var t := IntendedTiers(0.087, 0.083, 0.07, 0.05);
            WellFormed(t)
            && Width(t, 0) == 10.0 * 1024.0 && Width(t, 1) == 40.0 * 1024.0
            && Width(t, 2) == 100.0 * 1024.0
            && TierCost(t, 120.0 * 1024.0) - TierCost(t, 110.0 * 1024.0) == 10.0 * 1024.0 * 0.07
  {
    var t := IntendedTiers(0.087, 0.083, 0.07, 0.05);
    CostClosedForm(t, 2, 120.0 * 1024.0);
    CostClosedForm(t, 2, 110.0 * 1024.0);
  }

  // ---------------------------------------------------------------------
  // Region resolution
  // ---------------------------------------------------------------------

  /** `region.lower() if region else "unknown"`. */
  function NormalizeRegion(region: Option<string>): string {
    match region
    case Some(r) => if |r| > 0 then Lower(r) else "unknown"
    case None => "unknown"
  }

  /** The pricing zone of a region; unmapped regions use "default". */
  function ZoneOf(regionMap: map<string, string>, region: Option<string>): string {
    var r := NormalizeRegion(region);
    if r in regionMap then regionMap[r] else "default"
  }

  /** The tiers used for a region; a zone missing from the table falls back to
      the default zone, which must exist because it is looked up eagerly. */
  function TiersFor(pricing: Pricing, regionMap: map<string, string>, region: Option<string>): (r: seq<Tier>)
    requires "default" in pricing.zones
    ensures r in pricing.zones.Values
    ensures ZoneOf(regionMap, region) in pricing.zones ==> r == pricing.zones[ZoneOf(regionMap, region)]
    ensures ZoneOf(regionMap, region) !in pricing.zones ==> r == pricing.zones["default"]
  {
    var zone := ZoneOf(regionMap, region);
    if zone in pricing.zones then pricing.zones[zone] else pricing.zones["default"]
  }

  /** `calculate_egress_cost`: None where the table has no default zone and
      the lookup raises. */
  function EgressCost(pricing: Pricing, regionMap: map<string, string>, gb: real, region: Option<string>): (r: Option<real>)
    ensures r.Some? <==> "default" in pricing.zones
    ensures r.Some? ==> r.value == TierCost(TiersFor(pricing, regionMap, region), gb)
  {
    if "default" in pricing.zones then Some(TierCost(TiersFor(pricing, regionMap, region), gb)) else None
  }

  /** The region name is matched without regard to case. */
  lemma EgressCostIgnoresCase(pricing: Pricing, regionMap: map<string, string>, gb: real, r1: string, r2: string)
    requires Lower(r1) == Lower(r2)
    ensures EgressCost(pricing, regionMap, gb, Some(r1)) == EgressCost(pricing, regionMap, gb, Some(r2))
  {
    assert |r1| == |Lower(r1)| && |r2| == |Lower(r2)|;
  }

  /** A region the map knows, whose zone the table prices, is billed at
      that zone's tiers whatever the case of its name. */
  lemma MappedRegionUsesItsZone(pricing: Pricing, regionMap: map<string, string>, gb: real, region: string)
    requires "default" in pricing.zones
    requires region != "" && Lower(region) in regionMap
    requires regionMap[Lower(region)] in pricing.zones
    ensures EgressCost(pricing, regionMap, gb, Some(region)) == Some(TierCost(pricing.zones[regionMap[Lower(region)]], gb))
  {
  }

  /** An empty or absent region is priced as "unknown", and a region the map
      does not know at the default zone's tiers. */
  lemma UnmappedRegionUsesDefault(pricing: Pricing, regionMap: map<string, string>, gb: real, region: Option<string>)
    requires "default" in pricing.zones
    requires NormalizeRegion(region) !in regionMap
    ensures EgressCost(pricing, regionMap, gb, region) == Some(TierCost(pricing.zones["default"], gb))
  {
  }

  /** With the shipped tables, "EastUS" is priced in zone 1, at the tiers
      as written; the corrected table prices it at the intended tiers. */
  lemma EastUsInZoneOne(gb: real)
    ensures EgressCost(AsWrittenPricing(), DefaultRegionMap, gb, Some("EastUS"))
            == Some(TierCost(AsWrittenTiers(0.087, 0.083, 0.07, 0.05), gb))
    ensures EgressCost(IntendedPricing(), DefaultRegionMap, gb, Some("EastUS"))
            == Some(TierCost(IntendedTiers(0.087, 0.083, 0.07, 0.05), gb))
  {
    LowerEastUs();
    assert DefaultRegionMap["eastus"] == "zone1";
  }

  lemma LowerEastUs()
    ensures NormalizeRegion(Some("EastUS")) == "eastus"
  {
    assert Lower("EastUS") == "eastus";
  }

  /** With the shipped tables, and with the corrected ones, an absent region
      is priced at the flat default rate. */
  lemma NoRegionAtDefaultRate(gb: real)
    ensures EgressCost(AsWrittenPricing(), DefaultRegionMap, gb, None) == Some(Priced(gb, 0.087))
    ensures EgressCost(IntendedPricing(), DefaultRegionMap, gb, None) == Some(Priced(gb, 0.087))
  {
    assert DefaultRegionMap["unknown"] == "default";
    FirstTierLinear([Tier(Unbounded, 0.087)], gb);
  }

  // ---------------------------------------------------------------------
  // Analysis
  // ---------------------------------------------------------------------

  datatype CostStatus = Normal | Warning | Critical

  /** The cost status of a total against the warning and critical
      thresholds. */
  function ClassifyCost(total: real, warn: real, crit: real): (s: CostStatus)
    ensures s == Critical <==> total > crit
    ensures s == Warning <==> total <= crit && total > warn
    ensures s == Normal <==> total <= crit && total <= warn
  {
    if total > crit then Critical else if total > warn then Warning else Normal
  }

  function Rank(s: CostStatus): nat {
    match s
    case Normal => 0
    case Warning => 1
    case Critical => 2
  }

  /** A larger total never has a lower status. */
  lemma ClassifyMonotone(t1: real, t2: real, warn: real, crit: real)
    requires t1 <= t2
    ensures Rank(ClassifyCost(t1, warn, crit)) <= Rank(ClassifyCost(t2, warn, crit))
  {
  }

  datatype Monthly = Monthly(egressGb: real, cost: real)

  /** Totals scaled to 30 days, when the observed period is positive. */
  function MonthlyProjection(totalGb: real, totalCost: real, periodDays: real): (r: Option<Monthly>)
    ensures r.Some? <==> periodDays > 0.0
    ensures r.Some? ==> r.value.cost * periodDays == totalCost * 30.0
                        && r.value.egressGb * periodDays == totalGb * 30.0
  {
    if periodDays > 0.0 then
      var factor := 30.0 / periodDays;
      Some(Monthly(totalGb * factor, totalCost * factor))
    else None
  }

  /** A warning about the projected month, never raised when the current
      status is already critical. */
  function ProjectionWarning(monthly: Option<Monthly>, status: CostStatus, warn: real, crit: real): (r: Option<CostStatus>)
    ensures r.Some? ==> monthly.Some? && status != Critical && r.value != Normal
    ensures r == Some(Critical) <==> monthly.Some? && monthly.value.cost > crit && status != Critical
    ensures r == Some(Warning) ==> status == Normal && monthly.value.cost > warn
    ensures monthly.Some? && status == Normal && monthly.value.cost > warn ==> r.Some?
  {
    match monthly
    case None => None
    case Some(m) =>
      if m.cost > crit && status != Critical then Some(Critical)
      else if m.cost > warn && status == Normal then Some(Warning)
      else None
  }

  /** The span of the timestamps in days (`timedelta.days + seconds / 86400`
      for whole-second instants); 0 for fewer than two rows. */
  function PeriodDays(ts: seq<int>): (r: real)
    ensures r >= 0.0
    ensures |ts| > 1 ==> forall i, j :: 0 <= i < |ts| && 0 <= j < |ts| ==>
              (ts[i] - ts[j]) as real <= r * 86400.0
    ensures |ts| > 1 ==>
              exists i, j :: 0 <= i < |ts| && 0 <= j < |ts| && (ts[i] - ts[j]) as real == r * 86400.0
    ensures |ts| <= 1 ==> r == 0.0
  {
    if |ts| > 1 then
      var hi, lo := MaxOf(ts), MinOf(ts);
      var i :| 0 <= i < |ts| && ts[i] == hi;
      var j :| 0 <= j < |ts| && ts[j] == lo;
      assert (ts[i] - ts[j]) as real == (hi - lo) as real / 86400.0 * 86400.0;
      (hi - lo) as real / 86400.0
    else 0.0
  }

  function MaxOf(ts: seq<int>): (r: int)
    requires |ts| > 0
    ensures forall i :: 0 <= i < |ts| ==> ts[i] <= r
    ensures r in ts
  {
    if |ts| == 1 then ts[0]
    else
      var m := MaxOf(ts[..|ts| - 1]);
      assert ts == ts[..|ts| - 1] + [ts[|ts| - 1]];
      if ts[|ts| - 1] > m then ts[|ts| - 1] else m
  }

  function MinOf(ts: seq<int>): (r: int)
    requires |ts| > 0
    ensures forall i :: 0 <= i < |ts| ==> r <= ts[i]
    ensures r in ts
  {
    if |ts| == 1 then ts[0]
    else
      var m := MinOf(ts[..|ts| - 1]);
      assert ts == ts[..|ts| - 1] + [ts[|ts| - 1]];
      if ts[|ts| - 1] < m then ts[|ts| - 1] else m
  }

  /** Share of `cost` in `total`, in percent; 0 when the total is not
      positive. */
  function Share(cost: real, total: real): real {
    if total > 0.0 then cost / total * 100.0 else 0.0
  }

  function Shares(costs: seq<real>, total: real): (r: seq<real>)
    ensures |r| == |costs|
    ensures forall i :: 0 <= i < |costs| ==> r[i] == Share(costs[i], total)
  {
    seq(|costs|, i requires 0 <= i < |costs| => Share(costs[i], total))
  }

  lemma {:induction false} SharesSum(costs: seq<real>, total: real)
    requires total > 0.0
    ensures Sum(Shares(costs, total)) * total == Sum(costs) * 100.0
  {
    var s := Shares(costs, total);
    if |costs| > 0 {
      var n := |costs| - 1;
      assert s[..n] == Shares(costs[..n], total);
      SharesSum(costs[..n], total);
      assert s[n] * total == costs[n] * 100.0;
    }
  }

  /** The resource shares add up to 100 % whenever the total, which is the
      sum of the resource costs, is positive. */
  lemma SharesSumToHundred(costs: seq<real>)
    requires Sum(costs) > 0.0
    ensures Sum(Shares(costs, Sum(costs))) == 100.0
  {
    var total := Sum(costs);
    var sum := Sum(Shares(costs, total));
    SharesSum(costs, total);
    assert (sum - 100.0) * total == 0.0;
    Stats.MulZero(sum - 100.0, total);
  }

  datatype ResourceCost = ResourceCost(
    resourceId: string, resourceName: string, resourceType: string,
    region: string, egressGb: real, cost: real, share: real)

  datatype RegionCost = RegionCost(region: string, egressGb: real, cost: real, share: real)

  datatype CostReport = CostReport(
    costStatus: CostStatus,
    egressGb: real,
    totalCost: real,
    periodDays: real,
    resources: seq<ResourceCost>,
    byRegion: seq<RegionCost>,
    monthly: Option<Monthly>,
    projectionWarning: Option<CostStatus>)

  /** What `analyze_costs` reports: "no_data", "no_egress_data", "error"
      (here only the missing default zone raises) or "success". */
  datatype CostOutcome = NoData | NoEgressData | Failed | Analyzed(report: CostReport)

  const BytesPerGb: real := 1024.0 * 1024.0 * 1024.0

  function ResourceKey(x: Row): (string, string, string, string) {
    (x.resourceId, x.resourceName, x.resourceType, x.location)
  }

  function ResourceKeys(rows: seq<Row>): (r: seq<(string, string, string, string)>)
    ensures |r| == |rows| && forall i :: 0 <= i < |rows| ==> r[i] == ResourceKey(rows[i])
  {
    seq(|rows|, i requires 0 <= i < |rows| => ResourceKey(rows[i]))
  }

  function Locations(rows: seq<Row>): (r: seq<string>)
    ensures |r| == |rows| && forall i :: 0 <= i < |rows| ==> r[i] == rows[i].location
  {
    seq(|rows|, i requires 0 <= i < |rows| => rows[i].location)
  }

  function ResourceFields(k: (string, string, string, string)): seq<string> {
    [k.0, k.1, k.2, k.3]
  }

  /** Python's comparison of (id, name, type, location) tuples, the order in
      which the grouping by resource visits them. */
  predicate ResourceBefore(a: (string, string, string, string), b: (string, string, string, string)) {
    Lex(ResourceFields(a), ResourceFields(b), StrLt)
  }

  lemma ResourceOrder()
    ensures StrictTotal(ResourceBefore)
  {
    forall a, b | ResourceFields(a) == ResourceFields(b) ensures a == b {
      assert ResourceFields(a)[0] == ResourceFields(b)[0] && ResourceFields(a)[1] == ResourceFields(b)[1];
      assert ResourceFields(a)[2] == ResourceFields(b)[2] && ResourceFields(a)[3] == ResourceFields(b)[3];
    }
    FieldsOrder(ResourceFields, ResourceBefore);
  }

  /** The resources of the rows, sorted. */
  function ResourceGroups(rows: seq<Row>): seq<(string, string, string, string)> {
    OrderedKeys(ResourceKeys(rows), ResourceBefore)
  }

  /** The locations of the rows, sorted. */
  function LocationGroups(rows: seq<Row>): seq<string> {
    OrderedKeys(Locations(rows), StrLt)
  }

  function KeyOf(c: ResourceCost): (string, string, string, string) {
    (c.resourceId, c.resourceName, c.resourceType, c.region)
  }

  /** Per resource (id, name, type, location), in sorted order: its
      gigabytes (the bytes of its rows) and the tiered cost of them. */
  function ResourceCosts(pricing: Pricing, regionMap: map<string, string>, rows: seq<Row>): (r: seq<ResourceCost>)
    requires "default" in pricing.zones
    ensures |r| == |ResourceGroups(rows)|
    ensures forall i :: 0 <= i < |r| ==> KeyOf(r[i]) == ResourceGroups(rows)[i]
    ensures forall i :: 0 <= i < |r| ==>
              r[i].egressGb == SumWhere(ResourceKeys(rows), Values(rows), KeyOf(r[i])) / BytesPerGb
              && r[i].cost == TierCost(TiersFor(pricing, regionMap, Some(r[i].region)), r[i].egressGb)
  {
    var keys := ResourceGroups(rows);
    seq(|keys|, i requires 0 <= i < |keys| => ResourceEntry(pricing, regionMap, rows, keys[i]))
  }

  /** One resource's gigabytes and the cost of that total, priced by its
      region. */
  function ResourceEntry(pricing: Pricing, regionMap: map<string, string>, rows: seq<Row>,
                         key: (string, string, string, string)): (c: ResourceCost)
    requires "default" in pricing.zones
    ensures KeyOf(c) == key && c.share == 0.0
    ensures c.egressGb == SumWhere(ResourceKeys(rows), Values(rows), key) / BytesPerGb
    ensures c.cost == TierCost(TiersFor(pricing, regionMap, Some(key.3)), c.egressGb)
  {
    var gb := SumWhere(ResourceKeys(rows), Values(rows), key) / BytesPerGb;
    ResourceCost(key.0, key.1, key.2, key.3, gb, TierCost(TiersFor(pricing, regionMap, Some(key.3)), gb), 0.0)
  }

  /** Per location, in sorted order: its gigabytes and the cost of that
      total. */
  function RegionCosts(pricing: Pricing, regionMap: map<string, string>, rows: seq<Row>): (r: seq<RegionCost>)
    requires "default" in pricing.zones
    ensures |r| == |LocationGroups(rows)|
    ensures forall i :: 0 <= i < |r| ==> r[i].region == LocationGroups(rows)[i]
    ensures forall i :: 0 <= i < |r| ==>
              r[i].egressGb == SumWhere(Locations(rows), Values(rows), r[i].region) / BytesPerGb
              && r[i].cost == TierCost(TiersFor(pricing, regionMap, Some(r[i].region)), r[i].egressGb)
  {
    var keys := LocationGroups(rows);
    seq(|keys|, i requires 0 <= i < |keys| => RegionEntry(pricing, regionMap, rows, keys[i]))
  }

  /** One location's gigabytes and the cost of that total. */
  function RegionEntry(pricing: Pricing, regionMap: map<string, string>, rows: seq<Row>, loc: string): (c: RegionCost)
    requires "default" in pricing.zones
    ensures c.region == loc && c.share == 0.0
    ensures c.egressGb == SumWhere(Locations(rows), Values(rows), loc) / BytesPerGb
    ensures c.cost == TierCost(TiersFor(pricing, regionMap, Some(loc)), c.egressGb)
  {
    var gb := SumWhere(Locations(rows), Values(rows), loc) / BytesPerGb;
    RegionCost(loc, gb, TierCost(TiersFor(pricing, regionMap, Some(loc)), gb), 0.0)
  }

  function CostsOf(rs: seq<ResourceCost>): (r: seq<real>)
    ensures |r| == |rs| && forall i :: 0 <= i < |rs| ==> r[i] == rs[i].cost
  {
    seq(|rs|, i requires 0 <= i < |rs| => rs[i].cost)
  }

  function WithResourceShares(rs: seq<ResourceCost>, total: real): (r: seq<ResourceCost>)
    ensures |r| == |rs|
    ensures forall i :: 0 <= i < |rs| ==> r[i] == rs[i].(share := Share(rs[i].cost, total))
    ensures CostsOf(r) == CostsOf(rs)
  {
    seq(|rs|, i requires 0 <= i < |rs| => rs[i].(share := Share(rs[i].cost, total)))
  }

  function WithRegionShares(rs: seq<RegionCost>, total: real): (r: seq<RegionCost>)
    ensures |r| == |rs|
    ensures forall i :: 0 <= i < |rs| ==> r[i] == rs[i].(share := Share(rs[i].cost, total))
  {
    seq(|rs|, i requires 0 <= i < |rs| => rs[i].(share := Share(rs[i].cost, total)))
  }

  /** Per location with shares: one entry per distinct location. */
  function RegionBreakdown(pricing: Pricing, regionMap: map<string, string>, egress: seq<Row>, total: real): (r: seq<RegionCost>)
    requires "default" in pricing.zones
    ensures forall i :: 0 <= i < |r| ==> r[i].share == Share(r[i].cost, total)
    ensures forall i, j :: 0 <= i < j < |r| ==> r[i].region != r[j].region
    ensures forall i :: 0 <= i < |egress| ==> exists j :: 0 <= j < |r| && r[j].region == egress[i].location
  {
    var r := WithRegionShares(RegionCosts(pricing, regionMap, egress), total);
    LocationsCovered(egress, r);
    r
  }

  lemma LocationsCovered(egress: seq<Row>, r: seq<RegionCost>)
    requires |r| == |LocationGroups(egress)|
    requires forall i :: 0 <= i < |r| ==> r[i].region == LocationGroups(egress)[i]
    ensures forall i :: 0 <= i < |egress| ==> exists j :: 0 <= j < |r| && r[j].region == egress[i].location
  {
    var ks := Locations(egress);
    var us := LocationGroups(egress);
    forall i | 0 <= i < |egress|
      ensures exists j :: 0 <= j < |r| && r[j].region == egress[i].location
    {
      assert ks[i] in us;
      var j :| 0 <= j < |us| && us[j] == ks[i];
      assert r[j].region == egress[i].location;
    }
  }

  /** The report over the egress rows, when there are some and the table has
      a default zone: the total is the sum of the resource costs, each
      resource and region carries its share of it, and the status, the
      monthly projection and its warning follow from the total. */
  function Report(egress: seq<Row>, pricing: Pricing, regionMap: map<string, string>, warn: real, crit: real): (rep: CostReport)
    requires "default" in pricing.zones
    ensures rep.totalCost == Sum(CostsOf(rep.resources))
    ensures rep.egressGb == Sum(Values(egress)) / BytesPerGb
    ensures rep.costStatus == ClassifyCost(rep.totalCost, warn, crit)
    ensures rep.periodDays == PeriodDays(Timestamps(egress))
    ensures rep.monthly.Some? <==> rep.periodDays > 0.0
    ensures rep.projectionWarning == ProjectionWarning(rep.monthly, rep.costStatus, warn, crit)
    ensures forall i :: 0 <= i < |rep.resources| ==> rep.resources[i].share == Share(rep.resources[i].cost, rep.totalCost)
    ensures forall i :: 0 <= i < |rep.byRegion| ==> rep.byRegion[i].share == Share(rep.byRegion[i].cost, rep.totalCost)
    ensures forall i, j :: 0 <= i < j < |rep.byRegion| ==> rep.byRegion[i].region != rep.byRegion[j].region
  {
    var resources := ResourceCosts(pricing, regionMap, egress);
    var total := Sum(CostsOf(resources));
    var totalGb := Sum(Values(egress)) / BytesPerGb;
    var period := PeriodDays(Timestamps(egress));
    var status := ClassifyCost(total, warn, crit);
    var monthly := MonthlyProjection(totalGb, total, period);
    CostReport(status, totalGb, total, period, WithResourceShares(resources, total),
               RegionBreakdown(pricing, regionMap, egress, total), monthly,
               ProjectionWarning(monthly, status, warn, crit))
  }

  /** `analyze_costs` over the metrics table: "no_data" exactly for an empty
      table, "no_egress_data" exactly when no metric name is an egress name,
      an error exactly when the table lacks a default zone, and otherwise the
      report over the egress rows. */
  function AnalyzeCosts(rows: seq<Row>, pricing: Pricing, regionMap: map<string, string>, warn: real, crit: real): (r: CostOutcome)
    ensures r == NoData <==> |rows| == 0
    ensures r == NoEgressData <==> |rows| > 0 && |EgressRows(rows)| == 0
    ensures r == Failed <==> |EgressRows(rows)| > 0 && "default" !in pricing.zones
    ensures r.Analyzed? ==> |EgressRows(rows)| > 0 && "default" in pricing.zones
  {
    if |rows| == 0 then NoData
    else
      var egress := EgressRows(rows);
      if |egress| == 0 then NoEgressData
      else if "default" !in pricing.zones then Failed
      else Analyzed(Report(egress, pricing, regionMap, warn, crit))
  }

  function GbOf(rs: seq<ResourceCost>): (r: seq<real>)
    ensures |r| == |rs| && forall i :: 0 <= i < |rs| ==> r[i] == rs[i].egressGb
  {
    seq(|rs|, i requires 0 <= i < |rs| => rs[i].egressGb)
  }

  /** The region counterpart of `GbOf`: region and resource entries are
      distinct record types, so each breakdown has its own projection. */
  function RegionGbOf(rs: seq<RegionCost>): (r: seq<real>)
    ensures |r| == |rs| && forall i :: 0 <= i < |rs| ==> r[i] == rs[i].egressGb
  {
    seq(|rs|, i requires 0 <= i < |rs| => rs[i].egressGb)
  }

  function SharesOf(rs: seq<ResourceCost>): (r: seq<real>)
    ensures |r| == |rs| && forall i :: 0 <= i < |rs| ==> r[i] == rs[i].share
  {
    seq(|rs|, i requires 0 <= i < |rs| => rs[i].share)
  }

  /** The resources of a report are the sorted, duplicate-free resources of
      the egress rows: one entry per (id, name, type, location) that some
      row has, and none that no row has. */
  lemma ReportResources(egress: seq<Row>, pricing: Pricing, regionMap: map<string, string>, warn: real, crit: real)
    requires "default" in pricing.zones
    ensures var rs := Report(egress, pricing, regionMap, warn, crit).resources;
            (forall i, j :: 0 <= i < j < |rs| ==> ResourceBefore(KeyOf(rs[i]), KeyOf(rs[j])))
            && (forall x :: x in egress ==> exists i :: 0 <= i < |rs| && KeyOf(rs[i]) == ResourceKey(x))
            && (forall i :: 0 <= i < |rs| ==> exists x :: x in egress && ResourceKey(x) == KeyOf(rs[i]))
  {
    var rep := Report(egress, pricing, regionMap, warn, crit);
    var rc := ResourceCosts(pricing, regionMap, egress);
    assert rep.resources == WithResourceShares(rc, rep.totalCost);
    GroupedResources(egress, rep.resources);
  }

  lemma GroupedResources(egress: seq<Row>, rs: seq<ResourceCost>)
    requires |rs| == |ResourceGroups(egress)|
    requires forall i :: 0 <= i < |rs| ==> KeyOf(rs[i]) == ResourceGroups(egress)[i]
    ensures forall i, j :: 0 <= i < j < |rs| ==> ResourceBefore(KeyOf(rs[i]), KeyOf(rs[j]))
    ensures forall x :: x in egress ==> exists i :: 0 <= i < |rs| && KeyOf(rs[i]) == ResourceKey(x)
    ensures forall i :: 0 <= i < |rs| ==> exists x :: x in egress && ResourceKey(x) == KeyOf(rs[i])
  {
    GroupedAscend(egress, rs);
    GroupedCover(egress, rs);
    GroupedFromRows(egress, rs);
  }

  lemma GroupedAscend(egress: seq<Row>, rs: seq<ResourceCost>)
    requires |rs| == |ResourceGroups(egress)|
    requires forall i :: 0 <= i < |rs| ==> KeyOf(rs[i]) == ResourceGroups(egress)[i]
    ensures forall i, j :: 0 <= i < j < |rs| ==> ResourceBefore(KeyOf(rs[i]), KeyOf(rs[j]))
  {
    ResourceOrder();
    OrderedKeysAscend(ResourceKeys(egress), ResourceBefore);
  }

  lemma GroupedCover(egress: seq<Row>, rs: seq<ResourceCost>)
    requires |rs| == |ResourceGroups(egress)|
    requires forall i :: 0 <= i < |rs| ==> KeyOf(rs[i]) == ResourceGroups(egress)[i]
    ensures forall x :: x in egress ==> exists i :: 0 <= i < |rs| && KeyOf(rs[i]) == ResourceKey(x)
  {
    var us := ResourceGroups(egress);
    var ks := ResourceKeys(egress);
    forall x | x in egress ensures exists i :: 0 <= i < |rs| && KeyOf(rs[i]) == ResourceKey(x) {
      var m :| 0 <= m < |egress| && egress[m] == x;
      assert ks[m] in us;
      var i :| 0 <= i < |us| && us[i] == ks[m];
      assert KeyOf(rs[i]) == ResourceKey(x);
    }
  }

  lemma GroupedFromRows(egress: seq<Row>, rs: seq<ResourceCost>)
    requires |rs| == |ResourceGroups(egress)|
    requires forall i :: 0 <= i < |rs| ==> KeyOf(rs[i]) == ResourceGroups(egress)[i]
    ensures forall i :: 0 <= i < |rs| ==> exists x :: x in egress && ResourceKey(x) == KeyOf(rs[i])
  {
    var us := ResourceGroups(egress);
    var ks := ResourceKeys(egress);
    forall i | 0 <= i < |rs| ensures exists x :: x in egress && ResourceKey(x) == KeyOf(rs[i]) {
      assert us[i] in ks;
      var m :| 0 <= m < |ks| && ks[m] == us[i];
      assert egress[m] in egress;
    }
  }

  /** The regions of a report are the sorted locations of the egress rows. */
  lemma ReportRegions(egress: seq<Row>, pricing: Pricing, regionMap: map<string, string>, warn: real, crit: real)
    requires "default" in pricing.zones
    ensures var gs := Report(egress, pricing, regionMap, warn, crit).byRegion;
            (forall i, j :: 0 <= i < j < |gs| ==> StrLt(gs[i].region, gs[j].region))
            && (forall i :: 0 <= i < |gs| ==> exists x :: x in egress && x.location == gs[i].region)
  {
    var rep := Report(egress, pricing, regionMap, warn, crit);
    assert rep.byRegion == WithRegionShares(RegionCosts(pricing, regionMap, egress), rep.totalCost);
    GroupedRegions(egress, rep.byRegion);
  }

  lemma GroupedRegions(egress: seq<Row>, gs: seq<RegionCost>)
    requires |gs| == |LocationGroups(egress)|
    requires forall i :: 0 <= i < |gs| ==> gs[i].region == LocationGroups(egress)[i]
    ensures forall i, j :: 0 <= i < j < |gs| ==> StrLt(gs[i].region, gs[j].region)
    ensures forall i :: 0 <= i < |gs| ==> exists x :: x in egress && x.location == gs[i].region
  {
    var us := LocationGroups(egress);
    var ks := Locations(egress);
    StrLtOrder();
    OrderedKeysAscend(ks, StrLt);
    forall i | 0 <= i < |gs| ensures exists x :: x in egress && x.location == gs[i].region {
      assert us[i] in ks;
      var m :| 0 <= m < |ks| && ks[m] == us[i];
      assert egress[m] in egress;
    }
  }

  /** Every byte is counted once per resource and once per region: the
      resources' gigabytes and the regions' gigabytes each add up to the
      report's total gigabytes. */
  lemma ReportTraffic(egress: seq<Row>, pricing: Pricing, regionMap: map<string, string>, warn: real, crit: real)
    requires "default" in pricing.zones
    ensures var rep := Report(egress, pricing, regionMap, warn, crit);
            Sum(GbOf(rep.resources)) == rep.egressGb && Sum(RegionGbOf(rep.byRegion)) == rep.egressGb
  {
    ResourceTraffic(egress, pricing, regionMap);
    RegionTraffic(egress, pricing, regionMap);
    var rep := Report(egress, pricing, regionMap, warn, crit);
    assert GbOf(rep.resources) == GbOf(ResourceCosts(pricing, regionMap, egress));
    assert RegionGbOf(rep.byRegion) == RegionGbOf(RegionCosts(pricing, regionMap, egress));
  }

  lemma ResourceTraffic(egress: seq<Row>, pricing: Pricing, regionMap: map<string, string>)
    requires "default" in pricing.zones
    ensures Sum(GbOf(ResourceCosts(pricing, regionMap, egress))) == Sum(Values(egress)) / BytesPerGb
  {
    var rs := ResourceCosts(pricing, regionMap, egress);
    var us := ResourceGroups(egress);
    var ks := ResourceKeys(egress);
    var vs := Values(egress);
    var sums := GroupSums(us, ks, vs);
    forall i | 0 <= i < |rs| ensures GbOf(rs)[i] == sums[i] / BytesPerGb {
      assert KeyOf(rs[i]) == us[i];
    }
    SumScaled(sums, GbOf(rs), BytesPerGb);
    GroupSumsAddUp(us, ks, vs);
  }

  lemma RegionTraffic(egress: seq<Row>, pricing: Pricing, regionMap: map<string, string>)
    requires "default" in pricing.zones
    ensures Sum(RegionGbOf(RegionCosts(pricing, regionMap, egress))) == Sum(Values(egress)) / BytesPerGb
  {
    var rs := RegionCosts(pricing, regionMap, egress);
    var us := LocationGroups(egress);
    var ks := Locations(egress);
    var vs := Values(egress);
    var sums := GroupSums(us, ks, vs);
    forall i | 0 <= i < |rs| ensures RegionGbOf(rs)[i] == sums[i] / BytesPerGb {
      assert rs[i].region == us[i];
    }
    SumScaled(sums, RegionGbOf(rs), BytesPerGb);
    GroupSumsAddUp(us, ks, vs);
  }

  /** When anything is billed, the resources' percentages of the total add
      up to 100. */
  lemma ReportShares(egress: seq<Row>, pricing: Pricing, regionMap: map<string, string>, warn: real, crit: real)
    requires "default" in pricing.zones
    requires Report(egress, pricing, regionMap, warn, crit).totalCost > 0.0
    ensures Sum(SharesOf(Report(egress, pricing, regionMap, warn, crit).resources)) == 100.0
  {
    var rep := Report(egress, pricing, regionMap, warn, crit);
    SharesAddUp(rep.resources, rep.totalCost);
  }

  lemma SharesAddUp(rs: seq<ResourceCost>, total: real)
    requires total == Sum(CostsOf(rs)) && total > 0.0
    requires forall i :: 0 <= i < |rs| ==> rs[i].share == Share(rs[i].cost, total)
    ensures Sum(SharesOf(rs)) == 100.0
  {
    assert SharesOf(rs) == Shares(CostsOf(rs), total);
    SharesSumToHundred(CostsOf(rs));
  }

  /** The total is the sum of the resource costs, each priced on its own
      gigabytes; a region's cost prices the region's pooled gigabytes, so
      the region costs need not add up to the total: two resources of 10 TB
      each in one zone-1 region cost more apart than the region's 20 TB. */
  lemma RegionCostsNotAdditive()
    ensures var t := AsWrittenTiers(0.087, 0.083, 0.07, 0.05);
            TierCost(t, 10.0 * 1024.0) + TierCost(t, 10.0 * 1024.0) > TierCost(t, 20.0 * 1024.0)
  {
    var t := AsWrittenTiers(0.087, 0.083, 0.07, 0.05);
    CostClosedForm(t, 0, 10.0 * 1024.0);
    CostClosedForm(t, 1, 20.0 * 1024.0);
  }

  // ---------------------------------------------------------------------
  // Recommendations
  // ---------------------------------------------------------------------

  /** The recommendation's "type". */
  datatype RecKind = CostKind | ResourceSpecific | RegionKind | ProjectionKind | General

  datatype CostRec = CostRec(kind: RecKind, severity: Severity, title: string, savings: real, resourceId: Option<string>)

  function StatusRecs(rep: CostReport): (r: seq<CostRec>)
    ensures |r| <= 1
    ensures |r| == 1 <==> rep.costStatus != Normal
    ensures |r| == 1 ==> r[0].kind == CostKind
  {
    match rep.costStatus
    case Critical => [CostRec(CostKind, High, "Critical Egress Cost Alert", rep.totalCost * 0.3, None)]
    case Warning => [CostRec(CostKind, Medium, "High Egress Cost Warning", rep.totalCost * 0.2, None)]
    case Normal => []
  }

  /** One recommendation for a top resource taking at least 15 % of the
      cost: virtual machines and App Services only. */
  function ResourceRec(res: ResourceCost): (r: seq<CostRec>)
    ensures |r| <= 1
    ensures |r| == 1 ==> r[0].kind == ResourceSpecific && r[0].resourceId == Some(res.resourceId)
    ensures |r| == 1 ==> res.share >= 15.0 && r[0].severity == Medium
    ensures |r| == 1 <==> res.share >= 15.0 && (Contains(Lower(res.resourceType), "virtualmachine")
                                                || Contains(Lower(res.resourceType), "site"))
  {
    if res.share >= 15.0 then
      var t := Lower(res.resourceType);
      if Contains(t, "virtualmachine") then
        [CostRec(ResourceSpecific, Medium, "High VM Egress: " + res.resourceName, res.cost * 0.4, Some(res.resourceId))]
      else if Contains(t, "site") then
        [CostRec(ResourceSpecific, Medium, "High App Service Egress: " + res.resourceName, res.cost * 0.5, Some(res.resourceId))]
      else []
    else []
  }

  /** The recommendations of the given resources, in their order. */
  function ResourceRecsOf(rs: seq<ResourceCost>): (r: seq<CostRec>)
    ensures |r| <= |rs|
    ensures forall i :: 0 <= i < |r| ==> r[i].kind == ResourceSpecific
  {
    if |rs| == 0 then [] else ResourceRec(rs[0]) + ResourceRecsOf(rs[1..])
  }

  /** A recommendation is among those of the resources exactly when it is
      the one `ResourceRec` gives one of them. */
  lemma {:induction false} RecsOfMembers(rs: seq<ResourceCost>)
    ensures forall x :: x in ResourceRecsOf(rs) <==> exists j :: 0 <= j < |rs| && ResourceRec(rs[j]) == [x]
  {
    if |rs| > 0 {
      RecsOfMembers(rs[1..]);
      assert forall j :: 1 <= j < |rs| ==> rs[1..][j - 1] == rs[j];
    }
  }

  /** The resources from the most expensive down, ties in their order. */
  function ByCostDesc(rs: seq<ResourceCost>): (r: seq<ResourceCost>)
    ensures |r| == |rs| && multiset(r) == multiset(rs)
  {
    SortDesc(rs, (x: ResourceCost) => Key(0, x.cost))
  }

  /** Recommendations for the three most expensive resources: a
      recommendation is made exactly for those among them that pass
      `ResourceRec`. */
  function TopResourceRecs(rep: CostReport): (r: seq<CostRec>)
    ensures |r| <= 3
    ensures forall i :: 0 <= i < |r| ==> r[i].kind == ResourceSpecific
  {
    var sorted := ByCostDesc(rep.resources);
    ResourceRecsOf(sorted[..if |sorted| < 3 then |sorted| else 3])
  }

  /** The top-resource rule recommends exactly what `ResourceRec` gives the
      three most expensive resources. */
  lemma TopResourceRecsFrom(rep: CostReport)
    ensures forall x :: x in TopResourceRecs(rep) <==>
              exists j :: 0 <= j < 3 && j < |rep.resources| && ResourceRec(ByCostDesc(rep.resources)[j]) == [x]
  {
    var sorted := ByCostDesc(rep.resources);
    var n := if |sorted| < 3 then |sorted| else 3;
    var top := sorted[..n];
    RecsOfMembers(top);
    assert forall j :: 0 <= j < n ==> top[j] == sorted[j];
  }

  /** The second-largest region's cost as a fraction of the total exceeds
      0.2; the corrected reading of line 427, which skips the division when
      the total is zero. */
  predicate CrossRegionSignificant(second: RegionCost, total: real) {
    total != 0.0 && second.cost / total > 0.2
  }

  /** The regions from the most expensive down, ties in their order. */
  function RegionsByCost(rep: CostReport): (r: seq<RegionCost>)
    ensures |r| == |rep.byRegion| && multiset(r) == multiset(rep.byRegion)
  {
    SortDesc(rep.byRegion, (x: RegionCost) => Key(0, x.cost))
  }

  /** Some recommendation of the list has the severity. */
  predicate HasSeverity(recs: seq<CostRec>, severity: Severity) {
    exists i :: 0 <= i < |recs| && recs[i].severity == severity
  }

  /** The region rules, which apply only with two or more regions: a
      cross-region recommendation (medium) when the second most expensive
      region carries more than a fifth of the total cost, and a
      consolidation recommendation (low) when the most expensive region is
      known and takes more than 70 % of the cost. */
  function RegionRecs(rep: CostReport): (r: seq<CostRec>)
    ensures |r| <= 2
    ensures |rep.byRegion| <= 1 ==> r == []
    ensures forall i :: 0 <= i < |r| ==> r[i].kind == RegionKind
    ensures |rep.byRegion| > 1 ==>
              (HasSeverity(r, Medium) <==> CrossRegionSignificant(RegionsByCost(rep)[1], rep.totalCost))
    ensures |rep.byRegion| > 1 ==>
              (HasSeverity(r, Low) <==> RegionsByCost(rep)[0].region != "unknown" && RegionsByCost(rep)[0].share > 70.0)
  {
    if |rep.byRegion| <= 1 then []
    else
      var sorted := RegionsByCost(rep);
      var cross := CrossRec(rep, sorted[1]);
      var consolidate := ConsolidateRec(rep, sorted[0]);
      SeveritiesOfPair(cross, consolidate);
      cross + consolidate
  }

  function CrossRec(rep: CostReport, second: RegionCost): (r: seq<CostRec>)
    ensures |r| <= 1 && (|r| == 1 <==> CrossRegionSignificant(second, rep.totalCost))
    ensures forall i :: 0 <= i < |r| ==> r[i].kind == RegionKind && r[i].severity == Medium
  {
    if CrossRegionSignificant(second, rep.totalCost) then
      [CostRec(RegionKind, Medium, "Significant Cross-Region Traffic", rep.totalCost * 0.15, None)]
    else []
  }

  function ConsolidateRec(rep: CostReport, top: RegionCost): (r: seq<CostRec>)
    ensures |r| <= 1 && (|r| == 1 <==> top.region != "unknown" && top.share > 70.0)
    ensures forall i :: 0 <= i < |r| ==> r[i].kind == RegionKind && r[i].severity == Low
  {
    if top.region != "unknown" && top.share > 70.0 then
      [CostRec(RegionKind, Low, "Consider Consolidation to " + top.region, rep.totalCost * 0.08, None)]
    else []
  }

  /** A medium recommendation followed by a low one: each severity is
      present exactly when its part is. */
  lemma SeveritiesOfPair(a: seq<CostRec>, b: seq<CostRec>)
    requires |a| <= 1 && |b| <= 1
    requires forall i :: 0 <= i < |a| ==> a[i].severity == Medium
    requires forall i :: 0 <= i < |b| ==> b[i].severity == Low
    ensures HasSeverity(a + b, Medium) <==> |a| == 1
    ensures HasSeverity(a + b, Low) <==> |b| == 1
  {
    if |a| == 1 {
      assert (a + b)[0].severity == Medium;
    }
    if |b| == 1 {
      assert (a + b)[|a|].severity == Low;
    }
  }

  function ProjectionRecs(rep: CostReport): (r: seq<CostRec>)
    ensures |r| == 1 <==> rep.monthly.Some? && rep.monthly.value.cost > rep.totalCost * 1.3
    ensures |r| <= 1
  {
    match rep.monthly
    case Some(m) =>
      if m.cost > rep.totalCost * 1.3 then
        [CostRec(ProjectionKind, Medium, "Increasing Cost Trend Detected", m.cost * 0.25, None)]
      else []
    case None => []
  }

  function CountKind(recs: seq<CostRec>, kind: RecKind): (r: nat)
    ensures r <= |recs|
  {
    if |recs| == 0 then 0
    else (if recs[0].kind == kind then 1 else 0) + CountKind(recs[1..], kind)
  }

  lemma {:induction false} CountKindAppend(a: seq<CostRec>, b: seq<CostRec>, kind: RecKind)
    ensures CountKind(a + b, kind) == CountKind(a, kind) + CountKind(b, kind)
  {
    if |a| == 0 {
      assert a + b == b;
    } else {
      assert (a + b)[1..] == a[1..] + b;
      CountKindAppend(a[1..], b, kind);
    }
  }

  lemma {:induction false} CountKindNone(a: seq<CostRec>, kind: RecKind)
    requires forall i :: 0 <= i < |a| ==> a[i].kind != kind
    ensures CountKind(a, kind) == 0
  {
    if |a| > 0 {
      CountKindNone(a[1..], kind);
    }
  }

  /** No recommendation of the list has the given kind. */
  predicate NoneOfKind(recs: seq<CostRec>, kind: RecKind) {
    forall i :: 0 <= i < |recs| ==> recs[i].kind != kind
  }

  lemma NoneOfKindAppend(a: seq<CostRec>, b: seq<CostRec>, kind: RecKind)
    requires NoneOfKind(a, kind) && NoneOfKind(b, kind)
    ensures NoneOfKind(a + b, kind)
  {
    forall i | 0 <= i < |a + b| ensures (a + b)[i].kind != kind {
      if i >= |a| {
        assert (a + b)[i] == b[i - |a|];
      }
    }
  }

  /** The recommendations of the four rules, in rule order: status,
      top resources, regions, projection. */
  function RuleRecs(rep: CostReport): (r: seq<CostRec>)
    ensures rep.costStatus != Normal ==> |r| >= 1 && r[0].kind == CostKind
  {
    StatusRecs(rep) + TopResourceRecs(rep) + RegionRecs(rep) + ProjectionRecs(rep)
  }

  /** No rule yields the general recommendation, and at most three of the
      rule recommendations are about single resources. */
  lemma RuleRecsKinds(rep: CostReport)
    ensures NoneOfKind(RuleRecs(rep), General)
    ensures CountKind(RuleRecs(rep), ResourceSpecific) <= 3
  {
    RuleRecsNotGeneral(rep);
    RuleRecsResourceCount(rep);
  }

  lemma RuleRecsNotGeneral(rep: CostReport)
    ensures NoneOfKind(RuleRecs(rep), General)
  {
    StatusNotGeneral(rep);
    TopNotGeneral(rep);
    RegionNotGeneral(rep);
    ProjectionNotGeneral(rep);
    NoneOfKindAppend4(StatusRecs(rep), TopResourceRecs(rep), RegionRecs(rep), ProjectionRecs(rep), General);
  }

  lemma StatusNotGeneral(rep: CostReport)
    ensures NoneOfKind(StatusRecs(rep), General) && CountKind(StatusRecs(rep), ResourceSpecific) == 0
  {
    CountKindNone(StatusRecs(rep), ResourceSpecific);
  }

  lemma TopNotGeneral(rep: CostReport)
    ensures NoneOfKind(TopResourceRecs(rep), General) && CountKind(TopResourceRecs(rep), ResourceSpecific) <= 3
  {
  }

  lemma RegionNotGeneral(rep: CostReport)
    ensures NoneOfKind(RegionRecs(rep), General) && CountKind(RegionRecs(rep), ResourceSpecific) == 0
  {
    CountKindNone(RegionRecs(rep), ResourceSpecific);
  }

  lemma ProjectionNotGeneral(rep: CostReport)
    ensures NoneOfKind(ProjectionRecs(rep), General) && CountKind(ProjectionRecs(rep), ResourceSpecific) == 0
  {
    CountKindNone(ProjectionRecs(rep), ResourceSpecific);
  }

  lemma NoneOfKindAppend4(s: seq<CostRec>, t: seq<CostRec>, g: seq<CostRec>, p: seq<CostRec>, kind: RecKind)
    requires NoneOfKind(s, kind) && NoneOfKind(t, kind) && NoneOfKind(g, kind) && NoneOfKind(p, kind)
    ensures NoneOfKind(s + t + g + p, kind)
  {
    NoneOfKindAppend(s, t, kind);
    NoneOfKindAppend(s + t, g, kind);
    NoneOfKindAppend(s + t + g, p, kind);
  }

  lemma CountKindAppend4(s: seq<CostRec>, t: seq<CostRec>, g: seq<CostRec>, p: seq<CostRec>, kind: RecKind)
    ensures CountKind(s + t + g + p, kind) == CountKind(s, kind) + CountKind(t, kind) + CountKind(g, kind) + CountKind(p, kind)
  {
    CountKindAppend(s, t, kind);
    CountKindAppend(s + t, g, kind);
    CountKindAppend(s + t + g, p, kind);
  }

  lemma RuleRecsResourceCount(rep: CostReport)
    ensures CountKind(RuleRecs(rep), ResourceSpecific) <= 3
  {
    StatusNotGeneral(rep);
    TopNotGeneral(rep);
    RegionNotGeneral(rep);
    ProjectionNotGeneral(rep);
    CountKindAppend4(StatusRecs(rep), TopResourceRecs(rep), RegionRecs(rep), ProjectionRecs(rep), ResourceSpecific);
  }

  /** `generate_cost_recommendations` with the zero-total division guarded:
      nothing for a failed analysis, otherwise the rule recommendations, or
      the general one alone when no rule fired. */
  function CostRecommendations(o: CostOutcome): (r: seq<CostRec>)
    ensures !o.Analyzed? ==> r == []
    ensures o.Analyzed? ==> |r| >= 1
    ensures o.Analyzed? && o.report.costStatus != Normal ==> r[0].kind == CostKind
  {
    if !o.Analyzed? then []
    else
      var recs := RuleRecs(o.report);
      if |recs| == 0 then
        [CostRec(General, Low, "General Cost Optimization", o.report.totalCost * 0.1, None)]
      else recs
  }

  /** At most three recommendations are about single resources, and the
      general recommendation appears exactly when it is the only one. */
  lemma CostRecommendationsShape(o: CostOutcome)
    ensures CountKind(CostRecommendations(o), ResourceSpecific) <= 3
    ensures forall i :: 0 <= i < |CostRecommendations(o)| && CostRecommendations(o)[i].kind == General
              ==> |CostRecommendations(o)| == 1
    ensures o.Analyzed? && |RuleRecs(o.report)| == 0 ==> CostRecommendations(o)[0].kind == General
  {
    if o.Analyzed? {
      RuleRecsKinds(o.report);
    }
  }

  /** The case in which line 427 divides by zero: several regions and a zero
      total cost. */
  predicate DividesByZero(o: CostOutcome) {
    o.Analyzed? && |o.report.byRegion| > 1 && o.report.totalCost == 0.0
  }

  /** `generate_cost_recommendations` as written: it raises
      ZeroDivisionError when there are several regions and the total cost is
      zero, and otherwise agrees with the guarded version. */
  function CostRecommendationsAsWritten(o: CostOutcome): (r: Result<seq<CostRec>, string>)
    ensures r.Err? <==> o.Analyzed? && |o.report.byRegion| > 1 && o.report.totalCost == 0.0
    ensures r.Ok? ==> r.value == CostRecommendations(o)
  {
    if DividesByZero(o) then Err("float division by zero") else Ok(CostRecommendations(o))
  }

  /** Every zone of the table is a sensible tier table. */
  predicate ValidPricing(pricing: Pricing) {
    "default" in pricing.zones && forall t :: t in pricing.zones.Values ==> WellFormed(t)
  }

  /** Idle traffic seen in two locations: the analysis succeeds with a zero
      total, so the recommendations as written divide by zero. */
  lemma IdleTrafficDividesByZero(rows: seq<Row>, pricing: Pricing, regionMap: map<string, string>,
                                 warn: real, crit: real, i: int, j: int)
    requires ValidPricing(pricing)
    requires forall x :: x in rows ==> x.value == 0.0
    requires 0 <= i < |EgressRows(rows)| && 0 <= j < |EgressRows(rows)|
    requires EgressRows(rows)[i].location != EgressRows(rows)[j].location
    ensures AnalyzeCosts(rows, pricing, regionMap, warn, crit).Analyzed?
    ensures CostRecommendationsAsWritten(AnalyzeCosts(rows, pricing, regionMap, warn, crit)).Err?
  {
    var egress := EgressRows(rows);
    var rep := Report(egress, pricing, regionMap, warn, crit);
    assert AnalyzeCosts(rows, pricing, regionMap, warn, crit) == Analyzed(rep);
    IdleTotalZero(egress, pricing, regionMap, warn, crit);
    TwoLocations(egress, i, j);
    assert rep.byRegion == WithRegionShares(RegionCosts(pricing, regionMap, egress), rep.totalCost);
  }

  /** Traffic of zero bytes costs nothing in total. */
  lemma IdleTotalZero(egress: seq<Row>, pricing: Pricing, regionMap: map<string, string>, warn: real, crit: real)
    requires ValidPricing(pricing)
    requires forall x :: x in egress ==> x.value == 0.0
    ensures Report(egress, pricing, regionMap, warn, crit).totalCost == 0.0
  {
    var rep := Report(egress, pricing, regionMap, warn, crit);
    assert rep.resources == WithResourceShares(ResourceCosts(pricing, regionMap, egress), rep.totalCost);
    IdleResourcesFree(egress, pricing, regionMap);
  }

  lemma IdleResourcesFree(egress: seq<Row>, pricing: Pricing, regionMap: map<string, string>)
    requires ValidPricing(pricing)
    requires forall x :: x in egress ==> x.value == 0.0
    ensures Sum(CostsOf(ResourceCosts(pricing, regionMap, egress))) == 0.0
  {
    var rc := ResourceCosts(pricing, regionMap, egress);
    var vs := Values(egress);
    forall m | 0 <= m < |vs| ensures vs[m] == 0.0 {
      assert egress[m] in egress;
    }
    var cs := CostsOf(rc);
    forall k | 0 <= k < |cs| ensures cs[k] == 0.0 {
      IdleResourceFree(egress, pricing, regionMap, vs, k);
    }
    SumZero(cs);
  }

  lemma IdleResourceFree(egress: seq<Row>, pricing: Pricing, regionMap: map<string, string>, vs: seq<real>, k: int)
    requires ValidPricing(pricing)
    requires vs == Values(egress) && forall m :: 0 <= m < |vs| ==> vs[m] == 0.0
    requires 0 <= k < |ResourceCosts(pricing, regionMap, egress)|
    ensures ResourceCosts(pricing, regionMap, egress)[k].cost == 0.0
  {
    var c := ResourceCosts(pricing, regionMap, egress)[k];
    SumWhereZero(ResourceKeys(egress), vs, KeyOf(c));
    NothingBilled(TiersFor(pricing, regionMap, Some(c.region)), c.egressGb, c.cost);
  }

  lemma NothingBilled(tiers: seq<Tier>, gb: real, cost: real)
    requires WellFormed(tiers) && gb == 0.0 && cost == TierCost(tiers, gb)
    ensures cost == 0.0
  {
    CostOfNothing(tiers);
  }

  /** Rows in two different locations make at least two regions. */
  lemma TwoLocations(egress: seq<Row>, i: int, j: int)
    requires 0 <= i < |egress| && 0 <= j < |egress| && egress[i].location != egress[j].location
    ensures |LocationGroups(egress)| > 1
  {
    var us := LocationGroups(egress);
    var ks := Locations(egress);
    assert ks[i] in us && ks[j] in us;
    var p :| 0 <= p < |us| && us[p] == ks[i];
    var q :| 0 <= q < |us| && us[q] == ks[j];
    assert p != q;
  }

  // ---------------------------------------------------------------------
  // Multi-month projection
  // ---------------------------------------------------------------------

  function Pow(b: real, n: nat): real {
    if n == 0 then 1.0 else b * Pow(b, n - 1)
  }

  lemma {:induction false} PowOne(n: nat)
    ensures Pow(1.0, n) == 1.0
  {
    if n > 0 {
      PowOne(n - 1);
    }
  }

  /** The compounded cost of the first `k` months. */
  function CumulativeCost(base: real, growth: real, k: nat): real {
    if k == 0 then 0.0 else CumulativeCost(base, growth, k - 1) + base * Pow(growth, k - 1)
  }

  lemma CumulativeStep(base: real, growth: real, k: nat)
    ensures CumulativeCost(base, growth, k + 1) == CumulativeCost(base, growth, k) + base * Pow(growth, k)
  {
  }

  lemma {:induction false} CumulativeFlat(base: real, k: nat)
    ensures CumulativeCost(base, 1.0, k) == k as real * base
  {
    if k > 0 {
      CumulativeFlat(base, k - 1);
      PowOne(k - 1);
    }
  }

  /** The base month: the 30-day projection when there is one, otherwise the
      totals scaled to 30 days, a non-positive period counting as 30 days. */
  function BaseMonth(rep: CostReport): Monthly {
    match rep.monthly
    case Some(m) => m
    case None =>
      var period := if rep.periodDays <= 0.0 then 30.0 else rep.periodDays;
      var factor := 30.0 / period;
      Monthly(rep.egressGb * factor, rep.totalCost * factor)
  }

  datatype MonthProjection = MonthProjection(month: int, egressGb: real, cost: real, cumulative: real)

  datatype ProjectionOutcome =
    | ProjectionError
    | Projected(baseCost: real, baseGb: real, trendPercent: real, total: real, months: seq<MonthProjection>)

  /** The monthly growth factor of a trend given in percent. */
  function Growth(trendPercent: real): real {
    1.0 + trendPercent / 100.0
  }

  /** Month m+1 of the projection: the base month compounded m times, and
      the running total up to and including it. */
  function MonthEntry(base: Monthly, growth: real, m: nat): MonthProjection {
    MonthProjection(m + 1, base.egressGb * Pow(growth, m), base.cost * Pow(growth, m),
                    CumulativeCost(base.cost, growth, m + 1))
  }

  /** The first `n` months of the projection. */
  function Schedule(base: Monthly, growth: real, n: nat): (r: seq<MonthProjection>)
    ensures |r| == n
  {
    if n == 0 then [] else Schedule(base, growth, n - 1) + [MonthEntry(base, growth, n - 1)]
  }

  /** The schedule lists month 1, 2, ..., n in order, month m at base × g^(m-1). */
  lemma {:induction false} ScheduleMonths(base: Monthly, growth: real, n: nat)
    ensures |Schedule(base, growth, n)| == n
    ensures forall m :: 0 <= m < n ==> Schedule(base, growth, n)[m] == MonthEntry(base, growth, m)
  {
    if n > 0 {
      ScheduleMonths(base, growth, n - 1);
    }
  }

  /** The last month's running total is the projected total, and with no
      trend it is the number of months times the base cost. */
  lemma ScheduleTotal(base: Monthly, growth: real, n: nat)
    requires n > 0
    ensures Schedule(base, growth, n)[n - 1].cumulative == CumulativeCost(base.cost, growth, n)
    ensures growth == 1.0 ==> CumulativeCost(base.cost, growth, n) == n as real * base.cost
  {
    ScheduleMonths(base, growth, n);
    if growth == 1.0 {
      CumulativeFlat(base.cost, n);
    }
  }

  /** `project_costs`: `months` entries (none for a non-positive count),
      month m costing base × (1 + tf/100)^(m-1), with the running total
      ending at the projected total. */
  method ProjectCosts(o: CostOutcome, months: int, trendPercent: real) returns (r: ProjectionOutcome)
    ensures r.ProjectionError? <==> !o.Analyzed?
    ensures r.Projected? ==>
      && r.baseCost == BaseMonth(o.report).cost && r.baseGb == BaseMonth(o.report).egressGb
      && r.trendPercent == trendPercent
      && |r.months| == (if months > 0 then months else 0)
      && r.months == Schedule(BaseMonth(o.report), Growth(trendPercent), |r.months|)
      && r.total == CumulativeCost(BaseMonth(o.report).cost, Growth(trendPercent), |r.months|)
  {
    if !o.Analyzed? {
      return ProjectionError;
    }
    var base := BaseMonth(o.report);
    var entries: seq<MonthProjection> := [];
    var cumulative := 0.0;
    var month := 1;
    while month <= months
      invariant 1 <= month <= (if months > 0 then months else 0) + 1
      invariant |entries| == month - 1
      invariant entries == Schedule(base, Growth(trendPercent), |entries|)
      invariant cumulative == CumulativeCost(base.cost, Growth(trendPercent), |entries|)
    {
      var k := |entries|;
      CumulativeStep(base.cost, Growth(trendPercent), k);
      cumulative := cumulative + base.cost * Pow(Growth(trendPercent), k);
      var entry := MonthProjection(k + 1, base.egressGb * Pow(Growth(trendPercent), k),
                                   base.cost * Pow(Growth(trendPercent), k), cumulative);
      assert entry == MonthEntry(base, Growth(trendPercent), k);
      entries := entries + [entry];
      month := month + 1;
    }
    r := Projected(base.cost, base.egressGb, trendPercent, cumulative, entries);
  }
}

=== FILE: dashboard.dfy ===
/** The dashboard's flattening of a collection artifact into table rows,
    one per data point. The nested loops over types, resources, metrics
    and points are written as two stages: the metric sources in loop
    order, then each contributing metric's points. */
module Dashboard {
  import opened Common
  import opened Dicts
  import opened Artifact

  datatype Row = Row(timestamp: Stamp, value: real, metricName: string, displayName: string, unit: string,
                     resourceId: string, resourceName: string, resourceGroup: string,
                     resourceType: string, location: string)

  /** One metric of one resource of one type, with the keys the loops
      iterate under. */
  datatype Source = Source(resourceType: string, resourceId: string, resource: ResourceData,
                           key: string, metric: MetricData)

  /** A metric yields rows only when its values and times are both
      non-empty and equally long. */
  predicate Contributes(m: MetricData) {
    |m.values| > 0 && |m.times| > 0 && |m.values| == |m.times|
  }

  function Tagged(rt: string, items: Dict<string, ResourceData>): seq<(string, string, ResourceData)> {
    seq(|items|, i requires 0 <= i < |items| => (rt, items[i].0, items[i].1))
  }

  function ResourceSources(t: (string, string, ResourceData)): seq<Source> {
    var ms := t.2.metrics;
    seq(|ms|, j requires 0 <= j < |ms| => Source(t.0, t.1, t.2, ms[j].0, ms[j].1))
  }

  function TypeSources(e: (string, Dict<string, ResourceData>)): seq<Source> {
    FlatMap(Tagged(e.0, e.1), ResourceSources)
  }

  /** Every metric of every resource of every type, in loop order. */
  function Sources(rs: Resources): seq<Source> {
    FlatMap(rs, TypeSources)
  }

  /** The row of point `i`, with the defaults the dashboard fills in. */
  function RowOf(src: Source, i: int): Row
    requires 0 <= i < |src.metric.values| && i < |src.metric.times|
  {
    var m := src.metric;
    var r := src.resource;
    Row(m.times[i], m.values[i], m.name.GetOr(src.key), m.displayName.GetOr(src.key), m.unit.GetOr("Count"),
        src.resourceId, r.name.GetOr("Unknown"), r.group.GetOr("Unknown"), src.resourceType,
        r.location.GetOr("unknown"))
  }

  function SourceRows(src: Source): seq<Row> {
    var m := src.metric;
    if Contributes(m) then seq(|m.values|, i requires 0 <= i < |m.values| => RowOf(src, i)) else []
  }

  /** `parse_metrics_to_dataframe`: the rows of every contributing metric,
      in loop order; no rows make an empty table. */
  function Flatten(rs: Resources): seq<Row> {
    FlatMap(Sources(rs), SourceRows)
  }

  function Points(src: Source): nat {
    if Contributes(src.metric) then |src.metric.values| else 0
  }

  /** Metric `c` of resource `b` of type `a`, as a source. */
  predicate SourceAt(rs: Resources, a: int, b: int, c: int, src: Source) {
    0 <= a < |rs| && 0 <= b < |rs[a].1| && 0 <= c < |rs[a].1[b].1.metrics|
    && src == Source(rs[a].0, rs[a].1[b].0, rs[a].1[b].1, rs[a].1[b].1.metrics[c].0, rs[a].1[b].1.metrics[c].1)
  }

  /** The sources are exactly the metrics of the resources of the types:
      each one names the type, the resource and the metric it came from. */
  lemma SourcesSpec(rs: Resources, src: Source)
    ensures src in Sources(rs) <==> exists a, b, c :: SourceAt(rs, a, b, c, src)
  {
    if src in Sources(rs) {
      SourceFrom(rs, src);
    }
    if exists a, b, c :: SourceAt(rs, a, b, c, src) {
      var a, b, c :| SourceAt(rs, a, b, c, src);
      SourceIn(rs, a, b, c, src);
    }
  }

  lemma SourceFrom(rs: Resources, src: Source)
    requires src in Sources(rs)
    ensures exists a, b, c :: SourceAt(rs, a, b, c, src)
  {
    FlatMapMember(rs, TypeSources, src);
    var a :| 0 <= a < |rs| && src in TypeSources(rs[a]);
    var t := Tagged(rs[a].0, rs[a].1);
    FlatMapMember(t, ResourceSources, src);
    var b :| 0 <= b < |t| && src in ResourceSources(t[b]);
    var c :| 0 <= c < |ResourceSources(t[b])| && src == ResourceSources(t[b])[c];
    assert SourceAt(rs, a, b, c, src);
  }

  lemma SourceIn(rs: Resources, a: int, b: int, c: int, src: Source)
    requires SourceAt(rs, a, b, c, src)
    ensures src in Sources(rs)
  {
    var t := Tagged(rs[a].0, rs[a].1);
    assert src == ResourceSources(t[b])[c];
    FlatMapMember(t, ResourceSources, src);
    FlatMapMember(rs, TypeSources, src);
  }

  /** A metric's rows pair its times with its values point by point, and a
      metric that does not contribute yields none. */
  lemma SourceRowsSpec(src: Source)
    ensures var m := src.metric;
            var rows := SourceRows(src);
            (|rows| > 0 <==> Contributes(m))
            && (Contributes(m) ==>
                  (|rows| == |m.values| == |m.times|
                   && forall i :: 0 <= i < |rows| ==> rows[i].timestamp == m.times[i] && rows[i].value == m.values[i]))
  {
  }

  /** The defaults: the metric key stands in for a missing name and display
      name, "Count" for a missing unit, "Unknown" for a missing resource
      name or group and "unknown" for a missing location. */
  lemma RowDefaults(src: Source, i: int)
    requires 0 <= i < |src.metric.values| && i < |src.metric.times|
    ensures var r := RowOf(src, i);
            (src.metric.name.None? ==> r.metricName == src.key)
            && (src.metric.displayName.None? ==> r.displayName == src.key)
            && (src.metric.unit.None? ==> r.unit == "Count")
            && (src.resource.name.None? ==> r.resourceName == "Unknown")
            && (src.resource.group.None? ==> r.resourceGroup == "Unknown")
            && (src.resource.location.None? ==> r.location == "unknown")
            && (src.metric.name.Some? ==> r.metricName == src.metric.name.value)
            && r.resourceType == src.resourceType && r.resourceId == src.resourceId
  {
  }

  lemma {:induction false} RowCount(s: seq<Source>)
    ensures |FlatMap(s, SourceRows)| == SumOf(s, Points)
  {
    FlatMapLength(s, SourceRows);
    LengthsArePoints(s);
  }

  lemma {:induction false} LengthsArePoints(s: seq<Source>)
    ensures SumLengths(s, SourceRows) == SumOf(s, Points)
  {
    if |s| > 0 {
      LengthsArePoints(s[..|s| - 1]);
    }
  }

  /** The number of rows is the number of points of the contributing
      metrics, and a row is in the table exactly when it is the row of a
      point of a contributing metric. */
  lemma FlattenSpec(rs: Resources, y: Row)
    ensures |Flatten(rs)| == SumOf(Sources(rs), Points)
    ensures y in Flatten(rs) <==>
            exists k, i :: 0 <= k < |Sources(rs)| && Contributes(Sources(rs)[k].metric)
                           && 0 <= i < |Sources(rs)[k].metric.values| && y == RowOf(Sources(rs)[k], i)
  {
    var s := Sources(rs);
    RowCount(s);
    FlatMapMember(s, SourceRows, y);
    if y in Flatten(rs) {
      var k :| 0 <= k < |s| && y in SourceRows(s[k]);
      var i :| 0 <= i < |SourceRows(s[k])| && y == SourceRows(s[k])[i];
    }
    if k, i :| 0 <= k < |s| && Contributes(s[k].metric) && 0 <= i < |s[k].metric.values| && y == RowOf(s[k], i) {
      assert SourceRows(s[k])[i] == y;
    }
  }

  /** The table is empty exactly when no metric contributes. */
  lemma FlattenEmpty(rs: Resources)
    ensures Flatten(rs) == [] <==> forall k :: 0 <= k < |Sources(rs)| ==> !Contributes(Sources(rs)[k].metric)
  {
    var s := Sources(rs);
    if Flatten(rs) != [] {
      var y := Flatten(rs)[0];
      FlatMapMember(s, SourceRows, y);
    }
    if k :| 0 <= k < |s| && Contributes(s[k].metric) {
      FlatMapMember(s, SourceRows, SourceRows(s[k])[0]);
    }
  }

  /** Rows follow the artifact's order: the rows of two parts of the
      artifact are the rows of the first part, then those of the second. */
  lemma FlattenAppend(a: Resources, b: Resources)
    ensures Flatten(a + b) == Flatten(a) + Flatten(b)
  {
    FlatMapAppend(a, b, TypeSources);
    FlatMapAppend(Sources(a), Sources(b), SourceRows);
  }
}

=== FILE: dicts.dfy ===
/** Python dictionaries, which iterate in insertion order, as sequences of
    key-value pairs; a well-keyed one holds each key once. */
module Dicts {
  import opened Common
  import opened Grouping

  type Dict<K, V> = seq<(K, V)>

  function KeysOf<K, V>(d: Dict<K, V>): (r: seq<K>)
    ensures |r| == |d| && forall i :: 0 <= i < |d| ==> r[i] == d[i].0
  {
    seq(|d|, i requires 0 <= i < |d| => d[i].0)
  }

  predicate WellKeyed<K(==), V>(d: Dict<K, V>) {
    Distinct(KeysOf(d))
  }

  /** The position of key `k`, or -1 when it is absent. */
  function IndexOf<K(==), V>(d: Dict<K, V>, k: K): (r: int)
    ensures -1 <= r < |d|
    ensures r == -1 <==> k !in KeysOf(d)
    ensures r >= 0 ==> d[r].0 == k && forall i :: 0 <= i < r ==> d[i].0 != k
  {
    if |d| == 0 then -1
    else if d[0].0 == k then 0
    else
      var r := IndexOf(d[1..], k);
      assert forall i :: 1 <= i < |d| ==> d[i].0 == KeysOf(d[1..])[i - 1];
      if r == -1 then -1 else r + 1
  }

  /** `d.get(k)`. */
  function Get<K(==), V>(d: Dict<K, V>, k: K): Option<V> {
    var i := IndexOf(d, k);
    if i < 0 then None else Some(d[i].1)
  }

  /** `d[k] = v`: a present key keeps its place, a new one goes last. */
  function Put<K(==), V>(d: Dict<K, V>, k: K, v: V): Dict<K, V> {
    var i := IndexOf(d, k);
    if i < 0 then d + [(k, v)] else d[i := (k, v)]
  }

  /** Assigning a new key appends its entry. */
  lemma PutAbsent<K, V>(d: Dict<K, V>, k: K, v: V)
    requires k !in KeysOf(d)
    ensures Put(d, k, v) == d + [(k, v)]
  {
  }

  /** In a well-keyed dictionary a key's entry is the only one with it. */
  lemma GetEntry<K, V>(d: Dict<K, V>, i: int)
    requires WellKeyed(d) && 0 <= i < |d|
    ensures Get(d, d[i].0) == Some(d[i].1)
  {
    var j := IndexOf(d, d[i].0);
    assert KeysOf(d)[j] == KeysOf(d)[i];
  }

  /** Assignment stores the value under its key, leaves every other key's
      value alone, keeps the dictionary well keyed and adds a key only when
      it is new. */
  lemma GetPut<K, V>(d: Dict<K, V>, k: K, v: V)
    requires WellKeyed(d)
    ensures WellKeyed(Put(d, k, v))
    ensures Get(Put(d, k, v), k) == Some(v)
    ensures forall j :: j != k ==> Get(Put(d, k, v), j) == Get(d, j)
    ensures KeysOf(Put(d, k, v)) == if k in KeysOf(d) then KeysOf(d) else KeysOf(d) + [k]
  {
    var e := Put(d, k, v);
    if k in KeysOf(d) {
      assert KeysOf(e) == KeysOf(d);
    } else {
      assert KeysOf(e) == KeysOf(d) + [k];
    }
    forall j | j != k ensures Get(e, j) == Get(d, j) {
      if j in KeysOf(d) {
        var i := IndexOf(d, j);
        GetEntry(e, i);
      } else {
        assert j !in KeysOf(e);
      }
    }
    GetEntry(e, IndexOf(e, k));
  }
}

=== FILE: grouping.dfy ===
/** pandas `groupby(...).sum()` and Python counting dictionaries, over a key
    column `ks` and an aligned value column `vs`: the distinct keys in order
    of first appearance, and per key the sum and the number of its rows. */
module Grouping {
  import opened Stats
  import Sorting

  predicate Distinct<K(==)>(s: seq<K>) {
    forall i, j :: 0 <= i < j < |s| ==> s[i] != s[j]
  }

  /** The distinct keys of `ks`, each where it first appears. */
  function Keys<K(==)>(ks: seq<K>): (r: seq<K>)
    ensures Distinct(r)
    ensures forall i :: 0 <= i < |ks| ==> ks[i] in r
    ensures forall i :: 0 <= i < |r| ==> r[i] in ks
    ensures |r| <= |ks|
  {
    if |ks| == 0 then []
    else
      var init := Keys(ks[..|ks| - 1]);
      var k := ks[|ks| - 1];
      assert ks == ks[..|ks| - 1] + [k];
      if k in init then init else init + [k]
  }

  /** A duplicate-free key column is its own list of distinct keys. */
  lemma {:induction false} DistinctKeys<K>(ks: seq<K>)
    requires Distinct(ks)
    ensures Keys(ks) == ks
  {
    if |ks| > 0 {
      var n := |ks| - 1;
      DistinctKeys(ks[..n]);
      assert ks[n] !in ks[..n];
      assert ks == ks[..n] + [ks[n]];
    }
  }

  /** A column holding one key throughout has that key alone. */
  lemma {:induction false} KeysConstant<K>(ks: seq<K>, k: K)
    requires |ks| > 0 && forall i :: 0 <= i < |ks| ==> ks[i] == k
    ensures Keys(ks) == [k]
  {
    var n := |ks| - 1;
    if n > 0 {
      KeysConstant(ks[..n], k);
    }
  }

  /** Appending a key adds it to the distinct keys exactly when it is new. */
  lemma KeysSnoc<K>(ks: seq<K>, k: K)
    ensures Keys(ks + [k]) == if k in Keys(ks) then Keys(ks) else Keys(ks) + [k]
  {
    assert (ks + [k])[..|ks|] == ks;
  }

  /** Sum of the values whose key is `k`. */
  function SumWhere<K(==)>(ks: seq<K>, vs: seq<real>, k: K): real
    requires |ks| == |vs|
  {
    if |ks| == 0 then 0.0
    else SumWhere(ks[..|ks| - 1], vs[..|vs| - 1], k)
         + (if ks[|ks| - 1] == k then vs[|vs| - 1] else 0.0)
  }

  /** Values that are all zero sum to zero under every key. */
  lemma {:induction false} SumWhereZero<K>(ks: seq<K>, vs: seq<real>, k: K)
    requires |ks| == |vs| && forall i :: 0 <= i < |vs| ==> vs[i] == 0.0
    ensures SumWhere(ks, vs, k) == 0.0
  {
    if |ks| > 0 {
      var n := |ks| - 1;
      assert forall i :: 0 <= i < n ==> vs[..n][i] == vs[i];
      SumWhereZero(ks[..n], vs[..n], k);
    }
  }

  /** Number of rows whose key is `k`. */
  function CountWhere<K(==)>(ks: seq<K>, k: K): (r: nat)
    ensures r <= |ks|
    ensures r == 0 <==> k !in ks
  {
    if |ks| == 0 then 0
    else
      assert ks == ks[..|ks| - 1] + [ks[|ks| - 1]];
      CountWhere(ks[..|ks| - 1], k) + (if ks[|ks| - 1] == k then 1 else 0)
  }

  /** A key at two positions is counted at least twice. */
  lemma {:induction false} CountTwice<K>(ks: seq<K>, i: int, j: int)
    requires 0 <= i < j < |ks| && ks[i] == ks[j]
    ensures CountWhere(ks, ks[i]) >= 2
  {
    var n := |ks| - 1;
    var init := ks[..n];
    assert ks == init + [ks[n]];
    CountWhereSnoc(init, ks[n], ks[i]);
    if j < n {
      assert init[i] == ks[i] && init[j] == ks[j];
      CountTwice(init, i, j);
    } else {
      assert init[i] == ks[i];
      assert ks[i] in init;
    }
  }

  /** A duplicate-free list counts each key at most once. */
  lemma {:induction false} DistinctCountOnce<K>(ks: seq<K>, k: K)
    requires Distinct(ks)
    ensures CountWhere(ks, k) <= 1
  {
    if |ks| > 0 {
      var n := |ks| - 1;
      var init := ks[..n];
      assert ks == init + [ks[n]];
      assert Distinct(init);
      CountWhereSnoc(init, ks[n], k);
      DistinctCountOnce(init, k);
      if ks[n] == k {
        assert k !in init;
      }
    }
  }

  /** The count of each key of `us` among `ks`, in the order of `us`: the
      `{key: count}` dictionary a counting loop builds. */
  function Tally<K(==)>(us: seq<K>, ks: seq<K>): (r: seq<(K, nat)>)
    ensures |r| == |us| && forall i :: 0 <= i < |us| ==> r[i] == (us[i], CountWhere(ks, us[i]))
  {
    seq(|us|, i requires 0 <= i < |us| => (us[i], CountWhere(ks, us[i])))
  }

  function TallyTotal<K>(t: seq<(K, nat)>): nat {
    if |t| == 0 then 0 else TallyTotal(t[..|t| - 1]) + t[|t| - 1].1
  }

  lemma CountWhereSnoc<K>(ks: seq<K>, k: K, u: K)
    ensures CountWhere(ks + [k], u) == CountWhere(ks, u) + (if k == u then 1 else 0)
  {
    assert (ks + [k])[..|ks|] == ks;
  }

  /** One more row with key `k` adds one to a tally over a key list that
      holds `k` once, and nothing if `k` is absent. */
  lemma {:induction false} TallySnoc<K>(us: seq<K>, ks: seq<K>, k: K)
    requires Distinct(us)
    ensures TallyTotal(Tally(us, ks + [k])) == TallyTotal(Tally(us, ks)) + (if k in us then 1 else 0)
  {
    if |us| > 0 {
      var n := |us| - 1;
      var init := us[..n];
      var u := us[n];
      assert us == init + [u];
      assert Tally(us, ks + [k])[..n] == Tally(init, ks + [k]);
      assert Tally(us, ks)[..n] == Tally(init, ks);
      TallySnoc(init, ks, k);
      CountWhereSnoc(ks, k, u);
      if k == u {
        assert k !in init;
      }
    }
  }

  lemma {:induction false} TallyEmpty<K>(us: seq<K>, ks: seq<K>)
    requires |ks| == 0
    ensures TallyTotal(Tally(us, ks)) == 0
  {
    if |us| > 0 {
      assert Tally(us, ks)[..|us| - 1] == Tally(us[..|us| - 1], ks);
      TallyEmpty(us[..|us| - 1], ks);
    }
  }

  /** Counting keeps every row: the counts over a duplicate-free key list
      that covers every key add up to the number of rows. */
  lemma {:induction false} TallyPartition<K>(us: seq<K>, ks: seq<K>)
    requires Distinct(us)
    requires forall k :: k in ks ==> k in us
    ensures TallyTotal(Tally(us, ks)) == |ks|
  {
    if |ks| == 0 {
      TallyEmpty(us, ks);
    } else {
      var n := |ks| - 1;
      assert ks == ks[..n] + [ks[n]];
      assert forall k :: k in ks[..n] ==> k in ks;
      TallyPartition(us, ks[..n]);
      TallySnoc(us, ks[..n], ks[n]);
    }
  }

  /** The group sums over the key list `us`, added up. */
  function TotalOver<K(==)>(us: seq<K>, ks: seq<K>, vs: seq<real>): real
    requires |ks| == |vs|
  {
    if |us| == 0 then 0.0
    else TotalOver(us[..|us| - 1], ks, vs) + SumWhere(ks, vs, us[|us| - 1])
  }

  /** Adding one row with key `k` and value `v` adds `v` to the total over a
      key list that holds `k` once, and nothing if `k` is absent. */
  lemma {:induction false} TotalOverSnoc<K>(us: seq<K>, ks: seq<K>, vs: seq<real>, k: K, v: real)
    requires |ks| == |vs| && Distinct(us)
    ensures TotalOver(us, ks + [k], vs + [v])
            == TotalOver(us, ks, vs) + (if k in us then v else 0.0)
  {
    var ks' := ks + [k];
    var vs' := vs + [v];
    assert ks'[..|ks'| - 1] == ks && vs'[..|vs'| - 1] == vs;
    if |us| > 0 {
      var init := us[..|us| - 1];
      var u := us[|us| - 1];
      TotalOverSnoc(init, ks, vs, k, v);
      assert us == init + [u];
      assert k in us <==> k in init || k == u;
      if k == u {
        assert k !in init;
      }
    }
  }

  /** Grouping keeps every row: the group sums over any duplicate-free key list
      that covers every key add up to the plain sum of the values. */
  lemma {:induction false} GroupSumsPartition<K>(us: seq<K>, ks: seq<K>, vs: seq<real>)
    requires |ks| == |vs| && Distinct(us)
    requires forall k :: k in ks ==> k in us
    ensures TotalOver(us, ks, vs) == Sum(vs)
  {
    if |ks| == 0 {
      TotalOverEmpty(us, ks, vs);
    } else {
      var n := |ks| - 1;
      assert ks == ks[..n] + [ks[n]] && vs == vs[..n] + [vs[n]];
      assert forall k :: k in ks[..n] ==> k in ks;
      GroupSumsPartition(us, ks[..n], vs[..n]);
      TotalOverSnoc(us, ks[..n], vs[..n], ks[n], vs[n]);
    }
  }

  lemma {:induction false} TotalOverEmpty<K>(us: seq<K>, ks: seq<K>, vs: seq<real>)
    requires |ks| == 0 && |vs| == 0
    ensures TotalOver(us, ks, vs) == 0.0
  {
    if |us| > 0 {
      TotalOverEmpty(us[..|us| - 1], ks, vs);
    }
  }

  /** In particular the group sums over `Keys(ks)` add up to the total. */
  lemma GroupSumsTotal<K>(ks: seq<K>, vs: seq<real>)
    requires |ks| == |vs|
    ensures TotalOver(Keys(ks), ks, vs) == Sum(vs)
  {
    GroupSumsPartition(Keys(ks), ks, vs);
  }

  /** Each group's sum, group by group over the key list `us`. */
  function GroupSums<K(==)>(us: seq<K>, ks: seq<K>, vs: seq<real>): (r: seq<real>)
    requires |ks| == |vs|
    ensures |r| == |us| && forall i :: 0 <= i < |us| ==> r[i] == SumWhere(ks, vs, us[i])
  {
    seq(|us|, i requires 0 <= i < |us| => SumWhere(ks, vs, us[i]))
  }

  lemma {:induction false} GroupSumsOver<K>(us: seq<K>, ks: seq<K>, vs: seq<real>)
    requires |ks| == |vs|
    ensures Sum(GroupSums(us, ks, vs)) == TotalOver(us, ks, vs)
  {
    if |us| > 0 {
      var n := |us| - 1;
      assert GroupSums(us, ks, vs)[..n] == GroupSums(us[..n], ks, vs);
      GroupSumsOver(us[..n], ks, vs);
    }
  }

  /** The group sums over a duplicate-free key list that covers every row
      add up to the sum of all values: no row is lost or counted twice. */
  lemma GroupSumsAddUp<K>(us: seq<K>, ks: seq<K>, vs: seq<real>)
    requires |ks| == |vs| && Distinct(us)
    requires forall k :: k in ks ==> k in us
    ensures Sum(GroupSums(us, ks, vs)) == Sum(vs)
  {
    GroupSumsOver(us, ks, vs);
    GroupSumsPartition(us, ks, vs);
  }

  /** An entry at two positions is counted at least twice. */
  lemma TwiceCounted<T>(r: seq<T>, i: int, j: int)
    requires 0 <= i < j < |r| && r[i] == r[j]
    ensures multiset(r)[r[i]] >= 2
  {
    assert r == r[..j] + r[j..];
    assert r[i] in r[..j] && r[j] in r[j..];
    assert multiset(r) == multiset(r[..j]) + multiset(r[j..]);
  }

  /** In a duplicate-free sequence every entry is counted at most once. */
  lemma {:induction false} DistinctOnce<K>(s: seq<K>, x: K)
    requires Distinct(s)
    ensures multiset(s)[x] <= 1
  {
    if |s| > 0 {
      var n := |s| - 1;
      assert s == s[..n] + [s[n]];
      DistinctOnce(s[..n], x);
      assert s[n] !in s[..n];
    }
  }

  /** Rearranging a duplicate-free sequence leaves it duplicate-free. */
  lemma DistinctPermutation<K>(s: seq<K>, r: seq<K>)
    requires Distinct(s) && multiset(r) == multiset(s)
    ensures Distinct(r)
  {
    forall i, j | 0 <= i < j < |r| ensures r[i] != r[j] {
      if r[i] == r[j] {
        TwiceCounted(r, i, j);
        DistinctOnce(s, r[i]);
      }
    }
  }

  function Ascending(k: int): Sorting.Key {
    Sorting.Key(-k, 0.0)
  }

  /** The distinct integer keys of `ks` in increasing order: the groups a
      pandas `groupby` on an integer column visits. */
  function SortedKeys(ks: seq<int>): (r: seq<int>)
    ensures |r| == |Keys(ks)| && multiset(r) == multiset(Keys(ks))
  {
    Sorting.SortDesc(Keys(ks), Ascending)
  }

  lemma SortedKeysIncreasing(ks: seq<int>)
    ensures forall i, j :: 0 <= i < j < |SortedKeys(ks)| ==> SortedKeys(ks)[i] < SortedKeys(ks)[j]
    ensures forall k :: k in SortedKeys(ks) <==> k in ks
  {
    var r := SortedKeys(ks);
    DistinctPermutation(Keys(ks), r);
    forall i, j | 0 <= i < j < |r| ensures r[i] < r[j] {
      assert Sorting.KeyGe(Ascending(r[i]), Ascending(r[j]));
    }
    forall k ensures k in r <==> k in ks {
      assert k in r <==> k in multiset(r);
      assert k in Keys(ks) <==> k in multiset(Keys(ks));
    }
  }

  // ---------------------------------------------------------------------
  // Sorted group keys: what a pandas `groupby` with its default `sort=True`
  // visits, for keys ordered by Python's comparison

  /** `lt` orders the keys strictly and totally. */
  ghost predicate StrictTotal<K(!new)>(lt: (K, K) -> bool) {
    (forall a, b :: lt(a, b) ==> !lt(b, a))
    && (forall a, b, c :: lt(a, b) && lt(b, c) ==> lt(a, c))
    && (forall a, b :: a != b ==> lt(a, b) || lt(b, a))
  }

  /** Every key of `s` comes strictly before every later one. */
  ghost predicate Ascends<K>(s: seq<K>, lt: (K, K) -> bool) {
    forall i, j :: 0 <= i < j < |s| ==> lt(s[i], s[j])
  }

  /** Python's comparison of sequences: the first differing entry decides,
      and a proper prefix comes first. */
  predicate Lex<T(==)>(a: seq<T>, b: seq<T>, lt: (T, T) -> bool) {
    if |a| == 0 then |b| > 0
    else if |b| == 0 then false
    else if a[0] != b[0] then lt(a[0], b[0])
    else Lex(a[1..], b[1..], lt)
  }

  predicate CharLt(x: char, y: char) {
    x < y
  }

  /** Python's `<` on strings: code point by code point. */
  predicate StrLt(a: string, b: string) {
    Lex(a, b, CharLt)
  }

  lemma {:induction false} LexAsymmetric<T(!new)>(a: seq<T>, b: seq<T>, lt: (T, T) -> bool)
    requires StrictTotal(lt) && Lex(a, b, lt)
    ensures !Lex(b, a, lt)
  {
    if |a| > 0 && |b| > 0 && a[0] == b[0] {
      LexAsymmetric(a[1..], b[1..], lt);
    }
  }

  lemma {:induction false} LexTransitive<T(!new)>(a: seq<T>, b: seq<T>, c: seq<T>, lt: (T, T) -> bool)
    requires StrictTotal(lt) && Lex(a, b, lt) && Lex(b, c, lt)
    ensures Lex(a, c, lt)
  {
    if |a| > 0 && |c| > 0 && a[0] == b[0] && b[0] == c[0] {
      LexTransitive(a[1..], b[1..], c[1..], lt);
    }
  }

  lemma {:induction false} LexTotal<T(!new)>(a: seq<T>, b: seq<T>, lt: (T, T) -> bool)
    requires StrictTotal(lt) && a != b
    ensures Lex(a, b, lt) || Lex(b, a, lt)
  {
    if |a| > 0 && |b| > 0 && a[0] == b[0] {
      assert a == [a[0]] + a[1..] && b == [b[0]] + b[1..];
      LexTotal(a[1..], b[1..], lt);
    }
  }

  /** Python's string comparison is a strict total order. */
  lemma StrLtOrder()
    ensures StrictTotal(StrLt)
  {
    assert StrictTotal(CharLt);
    forall a: string, b: string | StrLt(a, b) ensures !StrLt(b, a) {
      LexAsymmetric(a, b, CharLt);
    }
    forall a: string, b: string, c: string | StrLt(a, b) && StrLt(b, c) ensures StrLt(a, c) {
      LexTransitive(a, b, c, CharLt);
    }
    forall a: string, b: string | a != b ensures StrLt(a, b) || StrLt(b, a) {
      LexTotal(a, b, CharLt);
    }
  }

  /** Comparing records field by field, each field a string, is a strict
      total order when distinct records have distinct fields. */
  lemma FieldsOrder<K(!new)>(fields: K -> seq<string>, lt: (K, K) -> bool)
    requires forall a, b :: lt(a, b) == Lex(fields(a), fields(b), StrLt)
    requires forall a, b :: fields(a) == fields(b) ==> a == b
    ensures StrictTotal(lt)
  {
    StrLtOrder();
    forall a, b | lt(a, b) ensures !lt(b, a) {
      LexAsymmetric(fields(a), fields(b), StrLt);
    }
    forall a, b, c | lt(a, b) && lt(b, c) ensures lt(a, c) {
      LexTransitive(fields(a), fields(b), fields(c), StrLt);
    }
    forall a, b | a != b ensures lt(a, b) || lt(b, a) {
      LexTotal(fields(a), fields(b), StrLt);
    }
  }

  /** Puts `k` in front of the first key it precedes. */
  function Place<K(==,!new)>(k: K, s: seq<K>, lt: (K, K) -> bool): (r: seq<K>)
    ensures |r| == |s| + 1
    ensures forall x :: x in r <==> x == k || x in s
  {
    if |s| == 0 then [k]
    else if lt(k, s[0]) then [k] + s
    else
      assert s == [s[0]] + s[1..];
      [s[0]] + Place(k, s[1..], lt)
  }

  lemma {:induction false} PlaceDistinct<K(!new)>(k: K, s: seq<K>, lt: (K, K) -> bool)
    requires Distinct(s) && k !in s
    ensures Distinct(Place(k, s, lt))
  {
    if |s| > 0 {
      assert s == [s[0]] + s[1..];
      if lt(k, s[0]) {
        PrependDistinct(k, s);
      } else {
        var rest := Place(k, s[1..], lt);
        PlaceDistinct(k, s[1..], lt);
        assert s[0] !in s[1..] by {
          forall j | 0 <= j < |s[1..]| ensures s[1..][j] != s[0] {
            assert s[1..][j] == s[j + 1];
          }
        }
        PrependDistinct(s[0], rest);
      }
    }
  }

  lemma PrependDistinct<K>(k: K, s: seq<K>)
    requires Distinct(s) && k !in s
    ensures Distinct([k] + s)
  {
    forall i, j | 0 <= i < j < |[k] + s| ensures ([k] + s)[i] != ([k] + s)[j] {
      assert ([k] + s)[j] == s[j - 1];
      if i > 0 {
        assert ([k] + s)[i] == s[i - 1];
      }
    }
  }

  /** The distinct keys of `ks`, ordered by `lt`. */
  function OrderedKeys<K(==,!new)>(ks: seq<K>, lt: (K, K) -> bool): (r: seq<K>)
    ensures Distinct(r)
    ensures forall k :: k in r <==> k in ks
    ensures |r| <= |ks|
  {
    if |ks| == 0 then []
    else
      var n := |ks| - 1;
      var init := OrderedKeys(ks[..n], lt);
      assert ks == ks[..n] + [ks[n]];
      if ks[n] in init then init
      else
        PlaceDistinct(ks[n], init, lt);
        Place(ks[n], init, lt)
  }

  lemma {:induction false} PrependAscends<K(!new)>(k: K, s: seq<K>, lt: (K, K) -> bool)
    requires Ascends(s, lt) && forall x :: x in s ==> lt(k, x)
    ensures Ascends([k] + s, lt)
  {
    forall i, j | 0 <= i < j < |[k] + s| ensures lt(([k] + s)[i], ([k] + s)[j]) {
      assert ([k] + s)[j] == s[j - 1];
      if i > 0 {
        assert ([k] + s)[i] == s[i - 1];
      }
    }
  }

  lemma {:induction false} PlaceAscends<K(!new)>(k: K, s: seq<K>, lt: (K, K) -> bool)
    requires StrictTotal(lt) && Ascends(s, lt) && k !in s
    ensures Ascends(Place(k, s, lt), lt)
  {
    if |s| > 0 {
      assert s == [s[0]] + s[1..];
      if lt(k, s[0]) {
        forall x | x in s ensures lt(k, x) {
          var j :| 0 <= j < |s| && s[j] == x;
          if j > 0 {
            assert lt(s[0], s[j]);
          }
        }
        PrependAscends(k, s, lt);
      } else {
        assert lt(s[0], k);
        var rest := Place(k, s[1..], lt);
        PlaceAscends(k, s[1..], lt);
        forall x | x in rest ensures lt(s[0], x) {
          if x != k {
            var j :| 0 <= j < |s[1..]| && s[1..][j] == x;
            assert s[j + 1] == x;
          }
        }
        PrependAscends(s[0], rest, lt);
      }
    }
  }

  /** Under a strict total order the keys come out in increasing order. */
  lemma {:induction false} OrderedKeysAscend<K(!new)>(ks: seq<K>, lt: (K, K) -> bool)
    requires StrictTotal(lt)
    ensures Ascends(OrderedKeys(ks, lt), lt)
  {
    if |ks| > 0 {
      var n := |ks| - 1;
      OrderedKeysAscend(ks[..n], lt);
      var init := OrderedKeys(ks[..n], lt);
      if ks[n] !in init {
        PlaceAscends(ks[n], init, lt);
      }
    }
  }

  /** The first entry of an increasing sequence precedes every other one. */
  lemma AscendsLeast<K>(s: seq<K>, x: K, lt: (K, K) -> bool)
    requires Ascends(s, lt) && x in s
    ensures x == s[0] || lt(s[0], x)
  {
    var i :| 0 <= i < |s| && s[i] == x;
    if i > 0 {
      assert lt(s[0], s[i]);
    }
  }

  /** Two increasing sequences with the same members are equal: the sorted
      keys are the only increasing list of the distinct keys. */
  lemma {:induction false} AscendsUnique<K(!new)>(a: seq<K>, b: seq<K>, lt: (K, K) -> bool)
    requires StrictTotal(lt) && Ascends(a, lt) && Ascends(b, lt)
    requires forall x :: x in a <==> x in b
    ensures a == b
  {
    if |a| > 0 {
      assert a[0] in b;
    }
    if |b| > 0 {
      assert b[0] in a;
    }
    if |a| > 0 && |b| > 0 {
      assert a == [a[0]] + a[1..] && b == [b[0]] + b[1..];
      assert a[0] == b[0] by {
        AscendsLeast(b, a[0], lt);
        AscendsLeast(a, b[0], lt);
      }
      forall x ensures x in a[1..] <==> x in b[1..] {
        if x in a[1..] {
          var i :| 0 <= i < |a[1..]| && a[1..][i] == x;
          assert lt(a[0], a[i + 1]);
          assert x in b;
          var j :| 0 <= j < |b| && b[j] == x;
          assert j > 0;
          assert b[1..][j - 1] == x;
        }
        if x in b[1..] {
          var i :| 0 <= i < |b[1..]| && b[1..][i] == x;
          assert lt(b[0], b[i + 1]);
          assert x in a;
          var j :| 0 <= j < |a| && a[j] == x;
          assert j > 0;
          assert a[1..][j - 1] == x;
        }
      }
      AscendsUnique(a[1..], b[1..], lt);
    }
  }
}

=== FILE: keyed_dedup.dfy ===
/** Deduplication through a Python dictionary keyed by `key`: the first
    entry of each key takes the key's place, and a later entry of the same
    key replaces the kept one only when its rank is strictly higher. */
module KeyedDedup {
  import opened Grouping
  import opened Sorting

  function KeysBy<T, K>(s: seq<T>, key: T -> K): (r: seq<K>)
    ensures |r| == |s| && forall i :: 0 <= i < |s| ==> r[i] == key(s[i])
  {
    seq(|s|, i requires 0 <= i < |s| => key(s[i]))
  }

  lemma KeysBySnoc<T, K>(s: seq<T>, a: T, key: T -> K)
    ensures KeysBy(s + [a], key) == KeysBy(s, key) + [key(a)]
  {
  }

  /** The position of the kept entry with key `k`, or -1 when none has it. */
  function Lookup<T, K(==)>(kept: seq<T>, k: K, key: T -> K): (i: int)
    ensures -1 <= i < |kept|
    ensures 0 <= i ==> key(kept[i]) == k
    ensures i < 0 ==> forall j :: 0 <= j < |kept| ==> key(kept[j]) != k
  {
    if |kept| == 0 then -1
    else if key(kept[|kept| - 1]) == k then |kept| - 1
    else Lookup(kept[..|kept| - 1], k, key)
  }

  /** One step of the dictionary fold: a new key is appended; a known one
      is replaced in place only by a strictly higher rank. */
  function Keep<T, K(==)>(kept: seq<T>, a: T, key: T -> K, rank: T -> Key): seq<T> {
    var i := Lookup(kept, key(a), key);
    if i < 0 then kept + [a]
    else if KeyGt(rank(a), rank(kept[i])) then kept[i := a]
    else kept
  }

  /** One entry per key, in order of the key's first appearance. */
  function Dedup<T, K(==)>(s: seq<T>, key: T -> K, rank: T -> Key): (r: seq<T>)
    ensures |r| <= |s|
    ensures forall x :: x in r ==> x in s
  {
    if |s| == 0 then []
    else
      var init := s[..|s| - 1];
      assert s == init + [s[|s| - 1]];
      Keep(Dedup(init, key, rank), s[|s| - 1], key, rank)
  }

  /** The keys of the deduplicated list are the distinct keys of the input,
      each once, in order of first appearance. */
  lemma {:induction false} DedupKeys<T, K>(s: seq<T>, key: T -> K, rank: T -> Key)
    ensures KeysBy(Dedup(s, key, rank), key) == Keys(KeysBy(s, key))
  {
    if |s| > 0 {
      var n := |s| - 1;
      var init := s[..n];
      assert s == init + [s[n]];
      DedupKeys(init, key, rank);
      KeysBySnoc(init, s[n], key);
      KeysSnoc(KeysBy(init, key), key(s[n]));
      KeepKeys(Dedup(init, key, rank), s[n], key, rank);
    }
  }

  /** Keeping an entry adds its key at the end when it is new and leaves
      the keys alone otherwise. */
  lemma KeepKeys<T, K>(kept: seq<T>, a: T, key: T -> K, rank: T -> Key)
    ensures KeysBy(Keep(kept, a, key, rank), key)
            == if key(a) in KeysBy(kept, key) then KeysBy(kept, key)
               else KeysBy(kept, key) + [key(a)]
  {
    var i := Lookup(kept, key(a), key);
    if i < 0 {
      KeysBySnoc(kept, a, key);
    } else {
      assert KeysBy(kept, key)[i] == key(a);
      assert KeysBy(kept[i := a], key) == KeysBy(kept, key);
    }
  }

  /** `s[j]` is the first entry of its key with the highest rank: no entry
      of its key ranks higher, and every earlier one ranks strictly lower. */
  predicate FirstMaximal<T, K(==)>(s: seq<T>, j: int, key: T -> K, rank: T -> Key)
    requires 0 <= j < |s|
  {
    (forall k :: 0 <= k < |s| && key(s[k]) == key(s[j]) ==> KeyGe(rank(s[j]), rank(s[k])))
    && (forall k :: 0 <= k < j && key(s[k]) == key(s[j]) ==> KeyGt(rank(s[j]), rank(s[k])))
  }

  /** `x` is the first-maximal entry of its key somewhere in `s`. */
  ghost predicate FirstMaximalIn<T, K>(s: seq<T>, x: T, key: T -> K, rank: T -> Key) {
    exists j :: 0 <= j < |s| && s[j] == x && FirstMaximal(s, j, key, rank)
  }

  /** Deduplication keeps, for each key, its first entry of highest rank. */
  lemma {:induction false} DedupKeepsFirstMaximal<T, K>(s: seq<T>, key: T -> K, rank: T -> Key)
    ensures forall x :: x in Dedup(s, key, rank) ==> FirstMaximalIn(s, x, key, rank)
  {
    if |s| > 0 {
      var n := |s| - 1;
      var init := s[..n];
      var a := s[n];
      assert s == init + [a];
      var kept := Dedup(init, key, rank);
      DedupKeepsFirstMaximal(init, key, rank);
      DedupKeys(init, key, rank);
      var i := Lookup(kept, key(a), key);
      if i < 0 {
        KeepNew(init, kept, a, key, rank);
      } else if KeyGt(rank(a), rank(kept[i])) {
        KeepReplace(init, kept, a, i, key, rank);
      } else {
        KeepOld(init, kept, a, i, key, rank);
      }
    }
  }

  /** A new key: the old entries stay first-maximal and so does the
      newcomer, which no earlier entry shares a key with. */
  lemma KeepNew<T, K>(init: seq<T>, kept: seq<T>, a: T, key: T -> K, rank: T -> Key)
    requires KeysBy(kept, key) == Keys(KeysBy(init, key))
    requires forall x :: x in kept ==> FirstMaximalIn(init, x, key, rank)
    requires forall j :: 0 <= j < |kept| ==> key(kept[j]) != key(a)
    ensures forall x :: x in kept + [a] ==> FirstMaximalIn(init + [a], x, key, rank)
  {
    forall k | 0 <= k < |init| ensures key(init[k]) != key(a) {
      assert KeysBy(init, key)[k] == key(init[k]);
      assert key(init[k]) in KeysBy(kept, key);
    }
    NewcomerFirstMaximal(init, a, key, rank);
    forall x | x in kept ensures FirstMaximalIn(init + [a], x, key, rank) {
      CarryOver(init, a, x, key, rank);
    }
  }

  /** A known key with a strictly higher rank: the newcomer takes the
      entry's place and outranks every earlier entry of its key. */
  lemma KeepReplace<T, K>(init: seq<T>, kept: seq<T>, a: T, i: int, key: T -> K, rank: T -> Key)
    requires KeysBy(kept, key) == Keys(KeysBy(init, key))
    requires forall x :: x in kept ==> FirstMaximalIn(init, x, key, rank)
    requires 0 <= i < |kept| && key(kept[i]) == key(a)
    requires KeyGt(rank(a), rank(kept[i]))
    ensures forall x :: x in kept[i := a] ==> FirstMaximalIn(init + [a], x, key, rank)
  {
    assert kept[i] in kept;
    var j0 :| 0 <= j0 < |init| && init[j0] == kept[i] && FirstMaximal(init, j0, key, rank);
    NewcomerFirstMaximal(init, a, key, rank);
    forall x | x in kept[i := a] ensures FirstMaximalIn(init + [a], x, key, rank) {
      if x != a {
        var k := kept[i := a];
        var m :| 0 <= m < |k| && k[m] == x;
        assert k[i] == a;
        assert m != i;
        assert k[m] == kept[m];
        DistinctAt(KeysBy(kept, key), i, m);
        CarryOver(init, a, x, key, rank);
      }
    }
  }

  /** A known key without a higher rank: nothing changes, and the kept
      entry still outranks or ties the newcomer. */
  lemma KeepOld<T, K>(init: seq<T>, kept: seq<T>, a: T, i: int, key: T -> K, rank: T -> Key)
    requires KeysBy(kept, key) == Keys(KeysBy(init, key))
    requires forall x :: x in kept ==> FirstMaximalIn(init, x, key, rank)
    requires 0 <= i < |kept| && key(kept[i]) == key(a)
    requires !KeyGt(rank(a), rank(kept[i]))
    ensures forall x :: x in kept ==> FirstMaximalIn(init + [a], x, key, rank)
  {
    forall x | x in kept ensures FirstMaximalIn(init + [a], x, key, rank) {
      var m :| 0 <= m < |kept| && kept[m] == x;
      if m != i {
        DistinctAt(KeysBy(kept, key), i, m);
      }
      CarryOver(init, a, x, key, rank);
    }
  }

  /** Distinct positions of a duplicate-free sequence hold distinct
      entries. */
  lemma DistinctAt<K>(ks: seq<K>, i: int, m: int)
    requires Distinct(ks) && 0 <= i < |ks| && 0 <= m < |ks| && i != m
    ensures ks[i] != ks[m]
  {
  }

  /** Appending an entry that does not outrank `x`'s key keeps `x`
      first-maximal. */
  lemma CarryOver<T, K>(init: seq<T>, a: T, x: T, key: T -> K, rank: T -> Key)
    requires FirstMaximalIn(init, x, key, rank)
    requires key(a) == key(x) ==> !KeyGt(rank(a), rank(x))
    ensures FirstMaximalIn(init + [a], x, key, rank)
  {
    var j :| 0 <= j < |init| && init[j] == x && FirstMaximal(init, j, key, rank);
    var s := init + [a];
    assert s[j] == x;
    forall k | 0 <= k < |s| && key(s[k]) == key(x)
      ensures KeyGe(rank(x), rank(s[k]))
    {
      if k < |init| {
        assert s[k] == init[k];
      }
    }
    forall k | 0 <= k < j && key(s[k]) == key(x)
      ensures KeyGt(rank(x), rank(s[k]))
    {
      assert s[k] == init[k];
    }
    assert FirstMaximal(s, j, key, rank);
  }

  /** An entry that strictly outranks every earlier one of its key is
      first-maximal at the end. */
  lemma NewcomerFirstMaximal<T, K>(init: seq<T>, a: T, key: T -> K, rank: T -> Key)
    requires forall k :: 0 <= k < |init| && key(init[k]) == key(a) ==> KeyGt(rank(a), rank(init[k]))
    ensures FirstMaximalIn(init + [a], a, key, rank)
  {
    var s := init + [a];
    assert s[|init|] == a;
    forall k | 0 <= k < |s| && key(s[k]) == key(a)
      ensures KeyGe(rank(a), rank(s[k]))
    {
      if k < |init| {
        assert s[k] == init[k];
      }
    }
    assert FirstMaximal(s, |init|, key, rank);
  }

  /** An entry whose key is new to the kept list is appended. */
  lemma DedupNewKey<T, K>(s: seq<T>, x: T, key: T -> K, rank: T -> Key)
    requires forall y :: y in Dedup(s, key, rank) ==> key(y) != key(x)
    ensures Dedup(s + [x], key, rank) == Dedup(s, key, rank) + [x]
  {
    var kept := Dedup(s, key, rank);
    assert (s + [x])[..|s|] == s;
    forall j | 0 <= j < |kept| ensures key(kept[j]) != key(x) {
      assert kept[j] in kept;
    }
  }
}

=== FILE: metrics.dfy ===
/** Metric definitions and the registry that picks the metrics to collect
    for an Azure resource type. */
module Metrics {
  import opened Common
  import opened Text
  import opened Dicts
  import opened Grouping

  const NicType := "Microsoft.Network/networkInterfaces"
  const VmType := "Microsoft.Compute/virtualMachines"
  const LbType := "Microsoft.Network/loadBalancers"
  const AppType := "Microsoft.Web/sites"

  /** A metric definition after initialisation: dimensions always present.
      The description is kept apart, in `Describe`: nothing downstream
      reads it. */
  datatype Definition = Definition(
    name: string,
    displayName: string,
    category: string,
    unit: string,
    aggregation: string,
    resourceType: string,
    dimensions: seq<string>)

  /** The dataclass constructor followed by `__post_init__`: missing
      dimensions become empty. Pass "Total" and `NicType` for the field
      defaults. */
  function Define(name: string, displayName: string, category: string, unit: string,
                  aggregation: string, resourceType: string, dimensions: Option<seq<string>>): (d: Definition)
    ensures d.name == name && d.displayName == displayName && d.category == category && d.unit == unit
    ensures d.aggregation == aggregation && d.resourceType == resourceType
    ensures dimensions.None? ==> d.dimensions == []
    ensures dimensions.Some? ==> d.dimensions == dimensions.value
  {
    Definition(name, displayName, category, unit, aggregation, resourceType, dimensions.GetOr([]))
  }

  /** The description `__post_init__` leaves: a non-empty given one, else
      "display name (unit)". */
  function Describe(displayName: string, unit: string, description: Option<string>): string {
    if description.Some? && description.value != "" then description.value
    else displayName + " (" + unit + ")"
  }

  /** A non-empty description is kept; a missing or empty one becomes the
      display name followed by the unit in parentheses. */
  lemma DescribeSpec(displayName: string, unit: string, description: Option<string>)
    ensures var d := Describe(displayName, unit, description);
            (description.Some? && description.value != "" ==> d == description.value)
            && (description.None? || description.value == "" ==>
                  |d| == |displayName| + |unit| + 3
                  && d[..|displayName|] == displayName
                  && d[|displayName|..|displayName| + 2] == " ("
                  && d[|displayName| + 2..|d| - 1] == unit
                  && d[|d| - 1] == ')')
  {
    if description.None? || description.value == "" {
      var d := displayName + " (" + unit + ")";
      assert d[..|displayName|] == displayName;
      assert d[|displayName| + 2..|d| - 1] == unit;
    }
  }

  /** `to_dict`: the four fields an API call needs. */
  function ToDict(d: Definition): (r: Dict<string, string>)
    ensures WellKeyed(r) && |r| == 4
    ensures Get(r, "name") == Some(d.name) && Get(r, "aggregation") == Some(d.aggregation)
    ensures Get(r, "resourceType") == Some(d.resourceType) && Get(r, "unit") == Some(d.unit)
  {
    var r := [("name", d.name), ("aggregation", d.aggregation), ("resourceType", d.resourceType), ("unit", d.unit)];
    assert KeysOf(r) == ["name", "aggregation", "resourceType", "unit"];
    GetEntry(r, 0);
    GetEntry(r, 1);
    GetEntry(r, 2);
    GetEntry(r, 3);
    r
  }

  type Registry = Dict<string, Definition>

  function NicMetrics(): Registry {
    [("bytes_out", Define("BytesOutPerSecond", "Outbound Traffic", "Traffic", "BytesPerSecond", "Average", NicType, None)),
     ("bytes_in", Define("BytesInPerSecond", "Inbound Traffic", "Traffic", "BytesPerSecond", "Average", NicType, None)),
     ("packets_out", Define("PacketsOutPerSecond", "Outbound Packets", "Traffic", "CountPerSecond", "Average", NicType, None)),
     ("packets_in", Define("PacketsInPerSecond", "Inbound Packets", "Traffic", "CountPerSecond", "Average", NicType, None))]
  }

  function VmMetrics(): Registry {
    [("network_out", Define("Network Out Total", "Network Out Total", "Network", "Bytes", "Total", VmType, None)),
     ("network_in", Define("Network In Total", "Network In Total", "Network", "Bytes", "Total", VmType, None)),
     ("network_out_rate", Define("Network Out", "Network Out Rate", "Network", "BytesPerSecond", "Average", VmType, None)),
     ("network_in_rate", Define("Network In", "Network In Rate", "Network", "BytesPerSecond", "Average", VmType, None))]
  }

  function LbMetrics(): Registry {
    [("bytes_out", Define("ByteCount", "Byte Count", "Traffic", "Bytes", "Total", LbType, Some(["Direction"]))),
     ("packet_count", Define("PacketCount", "Packet Count", "Traffic", "Count", "Total", LbType, Some(["Direction"]))),
     ("snat_connection_count", Define("SnatConnectionCount", "SNAT Connection Count", "Connections", "Count", "Average", LbType, None))]
  }

  function AppMetrics(): Registry {
    [("data_out", Define("BytesSent", "Data Out", "Network", "Bytes", "Total", AppType, None)),
     ("data_in", Define("BytesReceived", "Data In", "Network", "Bytes", "Total", AppType, None))]
  }

  /** Every entry of a registry describes the registry's resource type. */
  predicate AllOfType(r: Registry, t: string) {
    forall i :: 0 <= i < |r| ==> r[i].1.resourceType == t
  }

  const NicNames := ["bytes_out", "bytes_in", "packets_out", "packets_in"]
  const VmNames := ["network_out", "network_in", "network_out_rate", "network_in_rate"]
  const LbNames := ["bytes_out", "packet_count", "snat_connection_count"]
  const AppNames := ["data_out", "data_in"]

  lemma KeysDistinct()
    ensures Distinct(NicNames) && Distinct(VmNames) && Distinct(LbNames) && Distinct(AppNames)
  {
  }

  lemma NicKeys()
    ensures KeysOf(NicMetrics()) == NicNames && |NicMetrics()| == |NicNames|
  {
  }

  lemma NicTypes()
    ensures AllOfType(NicMetrics(), NicType)
  {
  }

  lemma VmKeys()
    ensures KeysOf(VmMetrics()) == VmNames && |VmMetrics()| == |VmNames|
  {
  }

  lemma VmTypes()
    ensures AllOfType(VmMetrics(), VmType)
  {
  }

  lemma LbKeys()
    ensures KeysOf(LbMetrics()) == LbNames && |LbMetrics()| == |LbNames|
  {
  }

  lemma LbTypes()
    ensures AllOfType(LbMetrics(), LbType)
  {
  }

  lemma AppKeys()
    ensures KeysOf(AppMetrics()) == AppNames && |AppMetrics()| == |AppNames|
  {
  }

  lemma AppTypes()
    ensures AllOfType(AppMetrics(), AppType)
  {
  }

  /** The four registries: their sizes, distinct keys and single resource
      type. */
  lemma Registries()
    ensures |NicMetrics()| == 4 && WellKeyed(NicMetrics()) && AllOfType(NicMetrics(), NicType)
    ensures |VmMetrics()| == 4 && WellKeyed(VmMetrics()) && AllOfType(VmMetrics(), VmType)
    ensures |LbMetrics()| == 3 && WellKeyed(LbMetrics()) && AllOfType(LbMetrics(), LbType)
    ensures |AppMetrics()| == 2 && WellKeyed(AppMetrics()) && AllOfType(AppMetrics(), AppType)
  {
    KeysDistinct();
    NicKeys();
    NicTypes();
    VmKeys();
    VmTypes();
    LbKeys();
    LbTypes();
    AppKeys();
    AppTypes();
  }

  /** The lookups the registries promise their callers: the outbound
      interface rate, the VM's outbound total and the load balancer's byte
      count split by direction. */
  lemma RegistryLookups()
    ensures var b := Get(NicMetrics(), "bytes_out");
            b.Some? && b.value.name == "BytesOutPerSecond" && b.value.unit == "BytesPerSecond"
    ensures var n := Get(VmMetrics(), "network_out");
            n.Some? && n.value.resourceType == VmType
    ensures var l := Get(LbMetrics(), "bytes_out");
            l.Some? && "Direction" in l.value.dimensions
  {
    NicKeys();
    VmKeys();
    LbKeys();
    KeysDistinct();
    GetEntry(NicMetrics(), 0);
    GetEntry(VmMetrics(), 0);
    GetEntry(LbMetrics(), 0);
  }

  /** Which registry a resource type selects. */
  datatype Family = NoMetrics | Nic | Vm | Lb | App

  /** The keyword tests of `get_metrics_for_resource_type`, in order, on
      the lowered type. */
  function FamilyOf(resourceType: string): Family {
    var t := Lower(resourceType);
    if Contains(t, "virtualnetwork") then NoMetrics
    else if Contains(t, "networkinterface") then Nic
    else if Contains(t, "virtualmachine") then Vm
    else if Contains(t, "loadbalancer") then Lb
    else if Contains(t, "sites") || Contains(t, "webapp") then App
    else NoMetrics
  }

  function RegistryOf(f: Family): Registry {
    match f
    case NoMetrics => []
    case Nic => NicMetrics()
    case Vm => VmMetrics()
    case Lb => LbMetrics()
    case App => AppMetrics()
  }

  /** `get_metrics_for_resource_type`. */
  function MetricsFor(resourceType: string): Registry {
    RegistryOf(FamilyOf(resourceType))
  }

  /** The lookup ignores case. */
  lemma MetricsForIgnoresCase(resourceType: string)
    ensures MetricsFor(Lower(resourceType)) == MetricsFor(resourceType)
  {
    LowerIdempotent(resourceType);
    assert FamilyOf(Lower(resourceType)) == FamilyOf(resourceType);
  }

  /** Every registry but the empty one has distinct keys and entries of
      its own resource type. */
  lemma RegistryOfSpec(f: Family)
    ensures f == NoMetrics <==> RegistryOf(f) == []
    ensures f != NoMetrics ==> WellKeyed(RegistryOf(f))
    ensures f == Nic ==> |RegistryOf(f)| == 4 && AllOfType(RegistryOf(f), NicType)
    ensures f == Vm ==> |RegistryOf(f)| == 4 && AllOfType(RegistryOf(f), VmType)
    ensures f == Lb ==> |RegistryOf(f)| == 3 && AllOfType(RegistryOf(f), LbType)
    ensures f == App ==> |RegistryOf(f)| == 2 && AllOfType(RegistryOf(f), AppType)
  {
    Registries();
  }

  /** A type that names a virtual network gets nothing; otherwise the first
      keyword the lowered type contains picks the registry. */
  lemma FamilyOfSpec(resourceType: string)
    ensures var t := Lower(resourceType);
            var f := FamilyOf(resourceType);
            (Contains(t, "virtualnetwork") ==> f == NoMetrics)
            && (f == Nic <==> !Contains(t, "virtualnetwork") && Contains(t, "networkinterface"))
            && (f == Vm <==> !Contains(t, "virtualnetwork") && !Contains(t, "networkinterface")
                             && Contains(t, "virtualmachine"))
            && (f == Lb <==> !Contains(t, "virtualnetwork") && !Contains(t, "networkinterface")
                             && !Contains(t, "virtualmachine") && Contains(t, "loadbalancer"))
            && (f == App <==> !Contains(t, "virtualnetwork") && !Contains(t, "networkinterface")
                              && !Contains(t, "virtualmachine") && !Contains(t, "loadbalancer")
                              && (Contains(t, "sites") || Contains(t, "webapp")))
            && (f == NoMetrics <==> Contains(t, "virtualnetwork")
                                    || !(Contains(t, "networkinterface") || Contains(t, "virtualmachine")
                                         || Contains(t, "loadbalancer") || Contains(t, "sites") || Contains(t, "webapp")))
  {
  }

  /** Sufficient conditions for each outcome of the keyword tests: a piece
      `w` of the type whose lower-case form is the keyword, and letters the
      type lacks in both cases that rule out the earlier keywords. */
  lemma NicWhen(s: string, i: int, w: string)
    requires 0 <= i && i + |w| <= |s| && s[i..i + |w|] == w && Lower(w) == "networkinterface"
    requires LacksLetter(s, 'v')
    ensures FamilyOf(s) == Nic
  {
    LowerOccurs(s, i, w, "networkinterface");
    LowerLacks(s, 'v');
    AbsentChar(Lower(s), "virtualnetwork", 'v');
  }

  lemma VmWhen(s: string, i: int, w: string)
    requires 0 <= i && i + |w| <= |s| && s[i..i + |w|] == w && Lower(w) == "virtualmachine"
    requires LacksLetter(s, 'w')
    ensures FamilyOf(s) == Vm
  {
    LowerOccurs(s, i, w, "virtualmachine");
    LowerLacks(s, 'w');
    AbsentChar(Lower(s), "virtualnetwork", 'w');
    AbsentChar(Lower(s), "networkinterface", 'w');
  }

  lemma VnetWhen(s: string, i: int, w: string)
    requires 0 <= i && i + |w| <= |s| && s[i..i + |w|] == w && Lower(w) == "virtualnetwork"
    ensures FamilyOf(s) == NoMetrics
  {
    LowerOccurs(s, i, w, "virtualnetwork");
  }

  lemma LbWhen(s: string, i: int, w: string)
    requires 0 <= i && i + |w| <= |s| && s[i..i + |w|] == w && Lower(w) == "loadbalancer"
    requires LacksLetter(s, 'v') && !Contains(Lower(s), "networkinterface")
    ensures FamilyOf(s) == Lb
  {
    LowerOccurs(s, i, w, "loadbalancer");
    LowerLacks(s, 'v');
    AbsentChar(Lower(s), "virtualnetwork", 'v');
    AbsentChar(Lower(s), "virtualmachine", 'v');
  }

  lemma AppWhen(s: string, i: int, w: string)
    requires 0 <= i && i + |w| <= |s| && s[i..i + |w|] == w && Lower(w) == "sites"
    requires LacksLetter(s, 'n')
    ensures FamilyOf(s) == App
  {
    LowerOccurs(s, i, w, "sites");
    LowerLacks(s, 'n');
    AbsentChar(Lower(s), "virtualnetwork", 'n');
    AbsentChar(Lower(s), "networkinterface", 'n');
    AbsentChar(Lower(s), "virtualmachine", 'n');
    AbsentChar(Lower(s), "loadbalancer", 'n');
  }

  lemma NoneWhen(s: string)
    requires LacksLetter(s, 'i') && LacksLetter(s, 'a')
    ensures FamilyOf(s) == NoMetrics
  {
    LowerLacks(s, 'i');
    LowerLacks(s, 'a');
    AbsentChar(Lower(s), "virtualnetwork", 'i');
    AbsentChar(Lower(s), "networkinterface", 'i');
    AbsentChar(Lower(s), "virtualmachine", 'i');
    AbsentChar(Lower(s), "loadbalancer", 'a');
    AbsentChar(Lower(s), "sites", 'i');
    AbsentChar(Lower(s), "webapp", 'a');
  }

  /** "networkinterface" cannot occur in a lowered type whose only `k` is
      at `j` and is followed by `/`. */
  lemma NotNicWhen(s: string, j: int)
    requires 0 <= j && j + 1 < |s| && s[j + 1] == '/'
    requires LacksLetter(s[..j], 'k') && LacksLetter(s[j + 1..], 'k')
    ensures !Contains(Lower(s), "networkinterface")
  {
    var t := Lower(s);
    LowerSlice(s, 0, j);
    LowerSlice(s, j + 1, |s|);
    LowerLacks(s[..j], 'k');
    LowerLacks(s[j + 1..], 'k');
    assert t[j + 1] == '/';
    if 6 <= j && j + 10 <= |t| {
      assert t[j - 6..j + 10][7] == t[j + 1];
    }
    OnlyAt(t, "networkinterface", 6, j);
  }

  /** How the keyword tests classify the standard type names, a virtual
      network, a type written in lower case and an unknown type. */
  lemma MetricsForExamples()
    ensures MetricsFor(NicType) == NicMetrics()
    ensures MetricsFor(VmType) == VmMetrics()
    ensures MetricsFor("Microsoft.Network/virtualNetworks") == []
    ensures MetricsFor("microsoft.network/loadbalancers") == LbMetrics()
    ensures MetricsFor(AppType) == AppMetrics()
    ensures MetricsFor("Unknown/ResourceType") == []
  {
    NicExample(NicType);
    VmExample(VmType);
    VnetExample("Microsoft.Network/virtualNetworks");
    LbExample("microsoft.network/loadbalancers");
    AppExample(AppType);
    UnknownExample("Unknown/ResourceType");
  }

  lemma NicExample(s: string)
    requires s == NicType
    ensures FamilyOf(s) == Nic
  {
    NicPiece(s);
    NicLetters(s);
    LowerWord("networkInterface");
    NicWhen(s, 18, "networkInterface");
  }

  lemma NicPiece(s: string)
    requires s == NicType
    ensures |s| >= 34 && s[18..34] == "networkInterface"
  {
  }

  lemma NicLetters(s: string)
    requires s == NicType
    ensures LacksLetter(s, 'v')
  {
  }

  /** The lower-case forms of the keywords as the standard type names
      spell them. */
  lemma LowerWord(w: string)
    requires w == "networkInterface" || w == "virtualMachine" || w == "virtualNetwork"
    ensures w == "networkInterface" ==> Lower(w) == "networkinterface"
    ensures w == "virtualMachine" ==> Lower(w) == "virtualmachine"
    ensures w == "virtualNetwork" ==> Lower(w) == "virtualnetwork"
  {
  }

  lemma VmExample(s: string)
    requires s == VmType
    ensures FamilyOf(s) == Vm
  {
    VmPiece(s);
    VmLetters(s);
    LowerWord("virtualMachine");
    VmWhen(s, 18, "virtualMachine");
  }

  lemma VmPiece(s: string)
    requires s == VmType
    ensures |s| >= 32 && s[18..32] == "virtualMachine"
  {
  }

  lemma VmLetters(s: string)
    requires s == VmType
    ensures LacksLetter(s, 'w')
  {
  }

  lemma VnetExample(s: string)
    requires s == "Microsoft.Network/virtualNetworks"
    ensures FamilyOf(s) == NoMetrics
  {
    VnetPiece(s);
    LowerWord("virtualNetwork");
    VnetWhen(s, 18, "virtualNetwork");
  }

  lemma VnetPiece(s: string)
    requires s == "Microsoft.Network/virtualNetworks"
    ensures |s| >= 32 && s[18..32] == "virtualNetwork"
  {
  }

  lemma LbExample(s: string)
    requires s == "microsoft.network/loadbalancers"
    ensures FamilyOf(s) == Lb
  {
    LbPiece(s);
    LbLetters(s);
    LbHead(s);
    LbNoK(s[..16]);
    LbNoK(s[17..]);
    NotNicWhen(s, 16);
    LbWhen(s, 18, "loadbalancer");
  }

  lemma LbPiece(s: string)
    requires s == "microsoft.network/loadbalancers"
    ensures |s| >= 30 && s[18..30] == "loadbalancer" && Lower("loadbalancer") == "loadbalancer"
  {
  }

  lemma LbLetters(s: string)
    requires s == "microsoft.network/loadbalancers"
    ensures LacksLetter(s, 'v')
  {
  }

  /** The type's one `k` is the last letter of "network", which `/`
      follows. */
  lemma LbHead(s: string)
    requires s == "microsoft.network/loadbalancers"
    ensures |s| > 17 && s[..16] == "microsoft.networ" && s[16] == 'k' && s[17..] == "/loadbalancers"
  {
  }

  lemma LbNoK(t: string)
    requires t == "microsoft.networ" || t == "/loadbalancers"
    ensures LacksLetter(t, 'k')
  {
  }

  lemma AppExample(s: string)
    requires s == AppType
    ensures FamilyOf(s) == App
  {
    AppPiece(s);
    AppLetters(s);
    AppWhen(s, 14, "sites");
  }

  lemma AppPiece(s: string)
    requires s == AppType
    ensures |s| >= 19 && s[14..19] == "sites" && Lower("sites") == "sites"
  {
  }

  lemma AppLetters(s: string)
    requires s == AppType
    ensures LacksLetter(s, 'n')
  {
  }

  lemma UnknownExample(s: string)
    requires s == "Unknown/ResourceType"
    ensures FamilyOf(s) == NoMetrics
  {
    UnknownLacksI(s);
    UnknownLacksA(s);
    NoneWhen(s);
  }

  lemma UnknownLacksI(s: string)
    requires s == "Unknown/ResourceType"
    ensures LacksLetter(s, 'i')
  {
  }

  lemma UnknownLacksA(s: string)
    requires s == "Unknown/ResourceType"
    ensures LacksLetter(s, 'a')
  {
  }

  /** The default definition of the initialisation example. */
  lemma DefineDefaults()
    ensures var d := Define("TestMetric", "Test Metric", "Test", "Count", "Total", NicType, None);
            d.dimensions == [] && d.aggregation == "Total"
            && Describe(d.displayName, d.unit, None) == "Test Metric (Count)"
            && ToDict(d) == [("name", "TestMetric"), ("aggregation", "Total"), ("resourceType", NicType), ("unit", "Count")]
  {
  }
}

=== FILE: monitor.dfy ===
/** The egress monitor's resource statistics over a collection artifact,
    and the resource-type filter of its resource discovery. */
module Monitor {
  import opened Common
  import opened Text
  import opened Dicts
  import opened Artifact

  datatype TypeStats = TypeStats(count: nat, withMetrics: nat, metricsCount: nat)

  datatype Stats = Stats(resourceCount: nat, resourceTypes: seq<string>, metricsCount: nat,
                         errorsCount: nat, resourcesWithData: nat, byType: Dict<string, TypeStats>)

  function MetricCount(r: ResourceData): nat {
    |r.metrics|
  }

  function HasData(r: ResourceData): nat {
    if |r.metrics| > 0 then 1 else 0
  }

  /** The inner loop over the resources of one type: a resource with at
      least one metric counts as having data and adds its metrics. */
  function TypeStatsOf(items: Dict<string, ResourceData>): TypeStats {
    if |items| == 0 then TypeStats(0, 0, 0)
    else
      var prev := TypeStatsOf(items[..|items| - 1]);
      var n := MetricCount(items[|items| - 1].1);
      if n > 0 then TypeStats(prev.count + 1, prev.withMetrics + 1, prev.metricsCount + n)
      else prev.(count := prev.count + 1)
  }

  /** The outer loop over the resource types. */
  function Accumulate(rs: Resources): Stats {
    if |rs| == 0 then Stats(0, [], 0, 0, 0, [])
    else
      var prev := Accumulate(rs[..|rs| - 1]);
      var rt := rs[|rs| - 1].0;
      var t := TypeStatsOf(rs[|rs| - 1].1);
      prev.(resourceCount := prev.resourceCount + t.count,
            resourceTypes := prev.resourceTypes + [rt],
            metricsCount := prev.metricsCount + t.metricsCount,
            resourcesWithData := prev.resourcesWithData + t.withMetrics,
            byType := Put(prev.byType, rt, t))
  }

  /** `_calculate_resource_statistics`. */
  function ResourceStatistics(data: Collection): Stats {
    var errors := if data.errors.Some? then |data.errors.value| else 0;
    Accumulate(data.resources).(errorsCount := errors)
  }

  /** The resources of one type, and of all types, in order. */
  function Items(e: (string, Dict<string, ResourceData>)): seq<ResourceData> {
    ValuesOf(e.1)
  }

  function AllResources(rs: Resources): seq<ResourceData> {
    FlatMap(rs, Items)
  }

  /** Per type: the count is the number of resources, those with data are
      the ones with a metric, and the metric count is the sum over all
      resources. */
  lemma {:induction false} TypeStatsSpec(items: Dict<string, ResourceData>)
    ensures TypeStatsOf(items).count == |items|
    ensures TypeStatsOf(items).withMetrics == SumOf(ValuesOf(items), HasData)
    ensures TypeStatsOf(items).metricsCount == SumOf(ValuesOf(items), MetricCount)
  {
    if |items| > 0 {
      var n := |items| - 1;
      TypeStatsSpec(items[..n]);
      assert ValuesOf(items)[..n] == ValuesOf(items[..n]);
    }
  }

  /** A resource with data has at least one metric. */
  lemma {:induction false} DataBelowMetrics(s: seq<ResourceData>)
    ensures SumOf(s, HasData) <= SumOf(s, MetricCount)
    ensures SumOf(s, HasData) <= |s|
  {
    if |s| > 0 {
      DataBelowMetrics(s[..|s| - 1]);
    }
  }

  /** The global totals are totals over every resource of every type, in
      the order the artifact lists them; the types are listed once each,
      in order. */
  lemma AccumulateSpec(rs: Resources)
    ensures Accumulate(rs).resourceTypes == KeysOf(rs)
    ensures Accumulate(rs).resourceCount == |AllResources(rs)|
    ensures Accumulate(rs).resourcesWithData == SumOf(AllResources(rs), HasData)
    ensures Accumulate(rs).metricsCount == SumOf(AllResources(rs), MetricCount)
  {
    AccumulateTypes(rs);
    AccumulateCount(rs);
    AccumulateData(rs);
    AccumulateMetrics(rs);
  }

  lemma {:induction false} AccumulateTypes(rs: Resources)
    ensures Accumulate(rs).resourceTypes == KeysOf(rs)
  {
    if |rs| > 0 {
      AccumulateTypes(rs[..|rs| - 1]);
    }
  }

  lemma {:induction false} AccumulateCount(rs: Resources)
    ensures Accumulate(rs).resourceCount == |AllResources(rs)|
  {
    if |rs| > 0 {
      var n := |rs| - 1;
      AccumulateCount(rs[..n]);
      TypeStatsSpec(rs[n].1);
    }
  }

  lemma {:induction false} AccumulateData(rs: Resources)
    ensures Accumulate(rs).resourcesWithData == SumOf(AllResources(rs), HasData)
  {
    if |rs| > 0 {
      var n := |rs| - 1;
      AccumulateData(rs[..n]);
      TypeStatsSpec(rs[n].1);
      SumOfAppend(AllResources(rs[..n]), Items(rs[n]), HasData);
    }
  }

  lemma {:induction false} AccumulateMetrics(rs: Resources)
    ensures Accumulate(rs).metricsCount == SumOf(AllResources(rs), MetricCount)
  {
    if |rs| > 0 {
      var n := |rs| - 1;
      AccumulateMetrics(rs[..n]);
      TypeStatsSpec(rs[n].1);
      SumOfAppend(AllResources(rs[..n]), Items(rs[n]), MetricCount);
    }
  }

  /** The statistics: the error count is the number of errors, zero when
      the artifact has none; the type list is the artifact's types; the
      resources with data are at most all resources and at most the
      metrics. */
  lemma ResourceStatisticsSpec(data: Collection)
    ensures var s := ResourceStatistics(data);
            (data.errors.None? ==> s.errorsCount == 0)
            && (data.errors.Some? ==> s.errorsCount == |data.errors.value|)
            && s.resourceTypes == KeysOf(data.resources)
            && s.resourceCount == |AllResources(data.resources)|
            && s.resourcesWithData == SumOf(AllResources(data.resources), HasData)
            && s.metricsCount == SumOf(AllResources(data.resources), MetricCount)
            && s.resourcesWithData <= s.resourceCount
            && s.resourcesWithData <= s.metricsCount
  {
    AccumulateSpec(data.resources);
    DataBelowMetrics(AllResources(data.resources));
  }

  /** One entry per type, in the artifact's order, with its statistics. */
  function TypeEntries(rs: Resources): (r: Dict<string, TypeStats>)
    ensures |r| == |rs|
  {
    seq(|rs|, i requires 0 <= i < |rs| => (rs[i].0, TypeStatsOf(rs[i].1)))
  }

  lemma TypeEntriesLast(rs: Resources)
    requires |rs| > 0
    ensures TypeEntries(rs) == TypeEntries(rs[..|rs| - 1]) + [(rs[|rs| - 1].0, TypeStatsOf(rs[|rs| - 1].1))]
  {
  }

  lemma TypeEntriesKeys(rs: Resources)
    ensures KeysOf(TypeEntries(rs)) == KeysOf(rs)
  {
  }

  /** In an artifact with distinct types, `resources_by_type` holds one
      entry per type, in order, with that type's statistics. */
  lemma {:induction false} ByTypeSpec(rs: Resources)
    requires WellKeyed(rs)
    ensures Accumulate(rs).byType == TypeEntries(rs)
  {
    if |rs| > 0 {
      var n := |rs| - 1;
      assert KeysOf(rs[..n]) == KeysOf(rs)[..n];
      ByTypeSpec(rs[..n]);
      TypeEntriesKeys(rs[..n]);
      assert rs[n].0 !in KeysOf(rs[..n]) by {
        assert forall i :: 0 <= i < n ==> KeysOf(rs)[i] != KeysOf(rs)[n];
      }
      PutAbsent(TypeEntries(rs[..n]), rs[n].0, TypeStatsOf(rs[n].1));
      TypeEntriesLast(rs);
    }
  }

  function EntryCount(e: (string, TypeStats)): nat { e.1.count }
  function EntryWithData(e: (string, TypeStats)): nat { e.1.withMetrics }
  function EntryMetrics(e: (string, TypeStats)): nat { e.1.metricsCount }

  /** Every global total is the sum of its per-type entries. */
  lemma TotalsByType(rs: Resources)
    requires WellKeyed(rs)
    ensures var s := Accumulate(rs);
            s.resourceCount == SumOf(s.byType, EntryCount)
            && s.resourcesWithData == SumOf(s.byType, EntryWithData)
            && s.metricsCount == SumOf(s.byType, EntryMetrics)
  {
    ByTypeSpec(rs);
    CountByEntries(rs);
    DataByEntries(rs);
    MetricsByEntries(rs);
  }

  lemma {:induction false} CountByEntries(rs: Resources)
    ensures Accumulate(rs).resourceCount == SumOf(TypeEntries(rs), EntryCount)
  {
    if |rs| > 0 {
      CountByEntries(rs[..|rs| - 1]);
      TypeEntriesLast(rs);
    }
  }

  lemma {:induction false} DataByEntries(rs: Resources)
    ensures Accumulate(rs).resourcesWithData == SumOf(TypeEntries(rs), EntryWithData)
  {
    if |rs| > 0 {
      DataByEntries(rs[..|rs| - 1]);
      TypeEntriesLast(rs);
    }
  }

  lemma {:induction false} MetricsByEntries(rs: Resources)
    ensures Accumulate(rs).metricsCount == SumOf(TypeEntries(rs), EntryMetrics)
  {
    if |rs| > 0 {
      MetricsByEntries(rs[..|rs| - 1]);
      TypeEntriesLast(rs);
    }
  }

  /** The resource-type filter of `get_network_resources`: without a filter
      every type is kept; with one, the types whose name contains it,
      ignoring case. */
  function FilterTypes<V>(rs: Dict<string, V>, filter: Option<string>): (r: Dict<string, V>)
    ensures |r| <= |rs|
  {
    if filter.None? || filter.value == "" then rs
    else if |rs| == 0 then []
    else
      var prev := FilterTypes(rs[..|rs| - 1], filter);
      if Contains(Lower(rs[|rs| - 1].0), Lower(filter.value)) then prev + [rs[|rs| - 1]] else prev
  }

  predicate Matches(rt: string, filter: string) {
    Contains(Lower(rt), Lower(filter))
  }

  /** An entry is kept exactly when its type matches; an empty filter
      matches every type. */
  lemma {:induction false} FilterTypesSpec<V>(rs: Dict<string, V>, f: string)
    ensures forall e :: e in FilterTypes(rs, Some(f)) <==> e in rs && Matches(e.0, f)
  {
    if f == "" {
      forall e | e in rs ensures Matches(e.0, f) {
        assert OccursAt(Lower(e.0), Lower(f), 0);
        ContainsIff(Lower(e.0), Lower(f));
      }
    } else if |rs| > 0 {
      FilterTypesSpec(rs[..|rs| - 1], f);
      assert rs == rs[..|rs| - 1] + [rs[|rs| - 1]];
    }
  }

  /** The filter keeps the artifact's order: filtering two parts and
      joining the results is filtering the whole. */
  lemma {:induction false} FilterTypesAppend<V>(a: Dict<string, V>, b: Dict<string, V>, f: Option<string>)
    ensures FilterTypes(a + b, f) == FilterTypes(a, f) + FilterTypes(b, f)
    decreases |b|
  {
    if f.None? || f.value == "" {
    } else if |b| == 0 {
      assert a + b == a;
    } else {
      var n := |b| - 1;
      FilterTypesAppend(a, b[..n], f);
      assert (a + b)[..|a + b| - 1] == a + b[..n];
    }
  }

  /** The filter ignores the case of the filter text. */
  lemma FilterTypesIgnoresCase<V>(rs: Dict<string, V>, f: string)
    ensures FilterTypes(rs, Some(Lower(f))) == FilterTypes(rs, Some(f))
  {
    LowerIdempotent(f);
    if f != "" {
      FilterSameText(rs, Lower(f), f);
    }
  }

  lemma {:induction false} FilterSameText<V>(rs: Dict<string, V>, f: string, g: string)
    requires f != "" && g != "" && Lower(f) == Lower(g)
    ensures FilterTypes(rs, Some(f)) == FilterTypes(rs, Some(g))
  {
    if |rs| > 0 {
      FilterSameText(rs[..|rs| - 1], f, g);
    }
  }
}

=== FILE: recommendation.dfy ===
/** The recommendation engine: it brings the cost, anomaly and trend
    recommendations into one record shape, adds rules that combine the
    analyses, keeps one recommendation per title and ranks the rest under a
    per-category and an overall cap. The analyses' outcomes, including the
    weekly and hourly pattern results, are its inputs; the wall-clock stamp
    that goes into the ids is a parameter. */
module Recommendation {
  import opened Common
  import opened Text
  import opened Sorting
  import opened Grouping
  import opened KeyedDedup
  import Capping
  import AzureUtils
  import CostAnalysis
  import AnomalyDetection
  import TrendAnalysis
  import TrendPatterns

  /** A standardized recommendation. Descriptions, action lists and
      metadata are fixed prose or copies of the inputs and are not modelled. */
  datatype Rec = Rec(
    id: string,
    kind: string,
    title: string,
    severity: Option<string>,
    confidence: real,
    source: string,
    resourceId: Option<string>,
    resourceName: Option<string>,
    savings: Option<real>)

  /** The engine's caps: `max_recommendations` and `max_per_category`. */
  datatype Settings = Settings(maxRecs: int, maxPerCategory: int)

  const DefaultSettings := Settings(15, 5)

  // ---------------------------------------------------------------------
  // Ranking

  /** `severity_weights.get(severity, 0)`, where a missing severity reads
      as "low". */
  function Weight(severity: Option<string>): (w: nat)
    ensures w <= 3
    ensures w == 0 <==> severity.Some? && severity.value !in ["high", "medium", "low"]
  {
    var s := severity.GetOr("low");
    if s == "high" then 3 else if s == "medium" then 2 else if s == "low" then 1 else 0
  }

  /** Recommendations rank by severity weight, then by confidence. */
  function RankOf(r: Rec): Key {
    Key(Weight(r.severity), r.confidence)
  }

  function TitleOf(r: Rec): string {
    r.title
  }

  function KindOf(r: Rec): string {
    r.kind
  }

  function SeverityName(s: Severity): string {
    match s
    case High => "high"
    case Medium => "medium"
    case Low => "low"
  }

  /** A named severity weighs 3, 2 or 1, in the order of the bands. */
  lemma WeightOfSeverity(s: Severity)
    ensures Weight(Some(SeverityName(s))) == match s case High => 3 case Medium => 2 case Low => 1
    ensures Weight(None) == Weight(Some(SeverityName(Low)))
  {
  }

  // ---------------------------------------------------------------------
  // Source transforms

  /** A source recommendation as a dictionary whose keys may be missing. */
  datatype Raw = Raw(
    kind: Option<string>,
    title: Option<string>,
    severity: Option<string>,
    savings: Option<real>,
    resourceId: Option<string>)

  function CostKindName(k: CostAnalysis.RecKind): string {
    match k
    case CostKind => "cost"
    case ResourceSpecific => "resource_specific"
    case RegionKind => "region"
    case ProjectionKind => "projection"
    case General => "general"
  }

  function AnomalyKindName(k: AnomalyDetection.AnomalyRecKind): string {
    match k
    case Security => "security"
    case ResourceSpecific => "resource_specific"
    case CostImpact => "cost"
  }

  /** The dictionary a cost recommendation is: every key but the resource
      is present. */
  function FromCost(c: CostAnalysis.CostRec): Raw {
    Raw(Some(CostKindName(c.kind)), Some(c.title), Some(SeverityName(c.severity)), Some(c.savings), c.resourceId)
  }

  /** The dictionary an anomaly recommendation is; it names no savings. */
  function FromAnomaly(a: AnomalyDetection.AnomalyRec): Raw {
    Raw(Some(AnomalyKindName(a.kind)), Some(a.title), Some(SeverityName(a.severity)), None, a.resourceId)
  }

  /** `f"{prefix}_{i}_{stamp}"`. */
  function IndexedId(prefix: string, i: nat, stamp: string): string {
    prefix + "_" + NatToString(i) + "_" + stamp
  }

  /** The display name that goes with a resource id, when there is one. */
  function NameOf(id: Option<string>): Option<string> {
    match id
    case None => None
    case Some(x) => Some(AzureUtils.ResourceName(x))
  }

  /** The shared part of both transforms: the missing type, title and
      severity take the source's defaults. */
  function Standardize(raw: Raw, id: string, kind: string, title: string, confidence: real,
                       source: string, savings: Option<real>): Rec
  {
    Rec(id, raw.kind.GetOr(kind), raw.title.GetOr(title), Some(raw.severity.GetOr("medium")),
        confidence, source, raw.resourceId, NameOf(raw.resourceId), savings)
  }

  /** `_transform_cost_recommendations`. */
  function TransformCost(raws: seq<Raw>, stamp: string): (r: seq<Rec>)
    ensures |r| == |raws|
  {
    seq(|raws|, i requires 0 <= i < |raws| =>
      Standardize(raws[i], IndexedId("cost", i, stamp), "cost", "Cost Optimization", 0.9,
                  "cost_analyzer", raws[i].savings))
  }

  /** The anomaly transform's confidence: high only for a high severity
      given by the source. */
  function AnomalyConfidence(raw: Raw): real {
    if raw.severity == Some("high") then 0.85 else 0.7
  }

  /** `_transform_anomaly_recommendations`. */
  function TransformAnomaly(raws: seq<Raw>, stamp: string): (r: seq<Rec>)
    ensures |r| == |raws|
  {
    seq(|raws|, i requires 0 <= i < |raws| =>
      Standardize(raws[i], IndexedId("anomaly", i, stamp), "anomaly", "Anomaly Detection",
                  AnomalyConfidence(raws[i]), "anomaly_detector", None))
  }

  /** The resource name a transform attaches is the last segment of the
      resource id, and it is attached exactly when the id is. */
  lemma NameOfSpec(id: Option<string>)
    ensures NameOf(id).Some? <==> id.Some?
    ensures id.Some? && id.value == "" ==> NameOf(id) == Some(AzureUtils.Unknown)
    ensures id.Some? && id.value != "" ==>
              var n := NameOf(id).value;
              '/' !in n && |n| <= |id.value| && id.value[|id.value| - |n|..] == n
              && (|n| == |id.value| || id.value[|id.value| - |n| - 1] == '/')
  {
    if id.Some? && id.value != "" {
      AzureUtils.ResourceNameSuffix(id.value);
    }
  }

  /** Every cost recommendation gets confidence 0.9 and its source's values,
      with "cost", "Cost Optimization" and "medium" standing in for a
      missing type, title and severity; savings pass through. */
  lemma TransformCostSpec(raws: seq<Raw>, stamp: string, i: int)
    requires 0 <= i < |raws|
    ensures var r := TransformCost(raws, stamp)[i];
            r.confidence == 0.9 && r.source == "cost_analyzer"
            && r.kind == (if raws[i].kind.Some? then raws[i].kind.value else "cost")
            && r.title == (if raws[i].title.Some? then raws[i].title.value else "Cost Optimization")
            && r.severity == Some(if raws[i].severity.Some? then raws[i].severity.value else "medium")
            && r.savings == raws[i].savings
            && r.resourceId == raws[i].resourceId
  {
  }

  /** Anomaly recommendations get confidence 0.85 exactly when the source
      calls them high and 0.7 otherwise, including when it names no
      severity, which then reads as "medium"; they carry no savings. */
  lemma TransformAnomalySpec(raws: seq<Raw>, stamp: string, i: int)
    requires 0 <= i < |raws|
    ensures var r := TransformAnomaly(raws, stamp)[i];
            (r.confidence == 0.85 <==> raws[i].severity == Some("high"))
            && (r.confidence == 0.7 <==> raws[i].severity != Some("high"))
            && r.source == "anomaly_detector"
            && r.kind == (if raws[i].kind.Some? then raws[i].kind.value else "anomaly")
            && r.title == (if raws[i].title.Some? then raws[i].title.value else "Anomaly Detection")
            && r.severity == Some(if raws[i].severity.Some? then raws[i].severity.value else "medium")
            && r.savings.None? && r.resourceId == raws[i].resourceId
  {
  }

  /** The indexed id is the three parts joined by '_'. */
  lemma IndexedIdJoin(prefix: string, i: nat, stamp: string)
    ensures IndexedId(prefix, i, stamp) == Join([prefix, NatToString(i), stamp], "_")
  {
    var parts := [prefix, NatToString(i), stamp];
    assert parts[1..][1..] == [stamp];
    assert Join(parts[1..], "_") == NatToString(i) + "_" + stamp;
  }

  /** Within one transform the ids are unique, provided the prefix and the
      stamp hold no '_' (the stamp is all digits). */
  lemma IndexedIdInjective(prefix: string, i: nat, j: nat, stamp: string)
    requires '_' !in prefix && '_' !in stamp
    requires IndexedId(prefix, i, stamp) == IndexedId(prefix, j, stamp)
    ensures i == j
  {
    IndexedIdJoin(prefix, i, stamp);
    IndexedIdJoin(prefix, j, stamp);
    var di, dj := NatToString(i), NatToString(j);
    assert '_' !in di by {
      forall k | 0 <= k < |di| ensures di[k] != '_' {
        assert IsDigit(di[k]);
      }
    }
    assert '_' !in dj by {
      forall k | 0 <= k < |dj| ensures dj[k] != '_' {
        assert IsDigit(dj[k]);
      }
    }
    SplitJoin([prefix, di, stamp], '_');
    SplitJoin([prefix, dj, stamp], '_');
    assert di == dj;
    ParseNatOfNatToString(i);
    ParseNatOfNatToString(j);
  }

  /** The cost transform's ids are pairwise distinct. */
  lemma TransformCostIdsDistinct(raws: seq<Raw>, stamp: string)
    requires '_' !in stamp
    ensures forall i, j :: 0 <= i < j < |raws| ==> TransformCost(raws, stamp)[i].id != TransformCost(raws, stamp)[j].id
  {
    forall i, j | 0 <= i < j < |raws|
      ensures TransformCost(raws, stamp)[i].id != TransformCost(raws, stamp)[j].id
    {
      if IndexedId("cost", i, stamp) == IndexedId("cost", j, stamp) {
        IndexedIdInjective("cost", i, j, stamp);
      }
    }
  }

  // ---------------------------------------------------------------------
  // Trend rules

  predicate HasPattern(o: TrendPatterns.PatternOutcome) {
    o.PatternFound? && o.pattern.hasPattern
  }

  /** The steady-rise recommendation: only for a moderate or strong
      increase, and high with confidence 0.85 beyond a 20 % slope. */
  function RisingRec(t: TrendAnalysis.Trend, stamp: string): seq<Rec> {
    var c := t.core.fit.trend;
    var n := t.core.fit.normalizedSlope;
    if c.direction == TrendAnalysis.Increasing && (c.strength == TrendAnalysis.Moderate || c.strength == TrendAnalysis.Strong) then
      var steep := Stats.Abs(n) > 20.0;
      [Rec("trend_inc_" + stamp, "trend", "Rising Egress Traffic Trend Detected",
           Some(if steep then "high" else "medium"), if steep then 0.85 else 0.7,
           "trend_analyzer", None, None, None)]
    else []
  }

  /** The weekly-pattern recommendation: a pattern with peak days. */
  function WeeklyRec(weekly: TrendPatterns.PatternOutcome, stamp: string): seq<Rec> {
    if HasPattern(weekly) && |weekly.pattern.peaks| > 0 then
      [Rec("trend_weekly_" + stamp, "pattern", "Weekly Egress Pattern Detected", Some("medium"), 0.75,
           "trend_analyzer", None, None, None)]
    else []
  }

  /** The daily-pattern recommendation: a pattern with peak hours. */
  function HourlyRec(hourly: TrendPatterns.PatternOutcome, stamp: string): seq<Rec> {
    if HasPattern(hourly) && |hourly.pattern.peaks| > 0 then
      [Rec("trend_hourly_" + stamp, "pattern", "Daily Egress Pattern Detected", Some("low"), 0.7,
           "trend_analyzer", None, None, None)]
    else []
  }

  /** `_generate_trend_recommendations`, with the weekly and hourly
      pattern outcomes as inputs. */
  function TrendRecs(t: TrendAnalysis.TrendOutcome, weekly: TrendPatterns.PatternOutcome,
                     hourly: TrendPatterns.PatternOutcome, stamp: string): seq<Rec>
  {
    if !t.TrendFound? then []
    else RisingRec(t.trend, stamp) + WeeklyRec(weekly, stamp) + HourlyRec(hourly, stamp)
  }

  /** A trend recommendation is made exactly for a moderate or strong
      increase; it is high with confidence 0.85 exactly when the slope
      exceeds 20 % either way, and medium with 0.7 otherwise. */
  lemma RisingRecSpec(t: TrendAnalysis.Trend, stamp: string)
    ensures var c := t.core.fit.trend;
            |RisingRec(t, stamp)| == (if c.direction == TrendAnalysis.Increasing
                                         && c.strength in {TrendAnalysis.Moderate, TrendAnalysis.Strong} then 1 else 0)
    ensures |RisingRec(t, stamp)| == 1 ==>
              var r := RisingRec(t, stamp)[0];
              var n := t.core.fit.normalizedSlope;
              r.kind == "trend"
              && (r.severity == Some("high") <==> n > 20.0 || n < -20.0)
              && (r.confidence == 0.85 <==> n > 20.0 || n < -20.0)
              && (r.severity == Some("medium") <==> -20.0 <= n <= 20.0)
              && (r.confidence == 0.7 <==> -20.0 <= n <= 20.0)
  {
  }

  /** The rising-trend rule makes at most one recommendation, of kind
      "trend". */
  lemma RisingPiece(t: TrendAnalysis.Trend, stamp: string)
    ensures |RisingRec(t, stamp)| <= 1
    ensures forall r :: r in RisingRec(t, stamp) ==> r.kind == "trend"
  {
  }

  /** The weekly rule makes at most one recommendation, medium, and only
      from a detected pattern with peak days. */
  lemma WeeklyPiece(weekly: TrendPatterns.PatternOutcome, stamp: string)
    ensures |WeeklyRec(weekly, stamp)| <= 1
    ensures forall r :: r in WeeklyRec(weekly, stamp) ==>
              r.severity == Some("medium") && HasPattern(weekly) && |weekly.pattern.peaks| > 0
  {
  }

  /** The daily rule makes at most one recommendation, low, and only from a
      detected pattern with peak hours. */
  lemma HourlyPiece(hourly: TrendPatterns.PatternOutcome, stamp: string)
    ensures |HourlyRec(hourly, stamp)| <= 1
    ensures forall r :: r in HourlyRec(hourly, stamp) ==>
              r.severity == Some("low") && HasPattern(hourly) && |hourly.pattern.peaks| > 0
  {
  }

  lemma TrendPieces(t: TrendAnalysis.Trend, weekly: TrendPatterns.PatternOutcome,
                    hourly: TrendPatterns.PatternOutcome, stamp: string)
    ensures |RisingRec(t, stamp)| <= 1 && |WeeklyRec(weekly, stamp)| <= 1 && |HourlyRec(hourly, stamp)| <= 1
    ensures forall r :: r in RisingRec(t, stamp) ==> r.kind == "trend"
    ensures forall r :: r in WeeklyRec(weekly, stamp) ==>
              r.severity == Some("medium") && HasPattern(weekly) && |weekly.pattern.peaks| > 0
    ensures forall r :: r in HourlyRec(hourly, stamp) ==>
              r.severity == Some("low") && HasPattern(hourly) && |hourly.pattern.peaks| > 0
  {
    RisingPiece(t, stamp);
    WeeklyPiece(weekly, stamp);
    HourlyPiece(hourly, stamp);
  }

  /** A pattern recommendation among the trend ones comes from a detected
      weekly pattern with peak days (medium) or a detected daily pattern
      with peak hours (low). */
  lemma TrendRecsPatterns(t: TrendAnalysis.TrendOutcome, weekly: TrendPatterns.PatternOutcome,
                          hourly: TrendPatterns.PatternOutcome, stamp: string)
    ensures forall r :: r in TrendRecs(t, weekly, hourly, stamp) && r.kind == "pattern" ==>
              (r.severity == Some("medium") && HasPattern(weekly) && |weekly.pattern.peaks| > 0)
              || (r.severity == Some("low") && HasPattern(hourly) && |hourly.pattern.peaks| > 0)
  {
    if t.TrendFound? {
      var a, b, c := RisingRec(t.trend, stamp), WeeklyRec(weekly, stamp), HourlyRec(hourly, stamp);
      TrendPieces(t.trend, weekly, hourly, stamp);
      forall r: Rec | r in a + b + c && r.kind == "pattern"
        ensures (r.severity == Some("medium") && HasPattern(weekly) && |weekly.pattern.peaks| > 0)
                || (r.severity == Some("low") && HasPattern(hourly) && |hourly.pattern.peaks| > 0)
      {
        assert r in a || r in b || r in c;
      }
    }
  }

  /** A detected weekly pattern with peak days always yields the weekly
      recommendation once the trend analysis succeeded. */
  lemma TrendRecsWeekly(t: TrendAnalysis.TrendOutcome, weekly: TrendPatterns.PatternOutcome,
                        hourly: TrendPatterns.PatternOutcome, stamp: string)
    requires t.TrendFound? && HasPattern(weekly) && |weekly.pattern.peaks| > 0
    ensures exists r :: r in TrendRecs(t, weekly, hourly, stamp) && r.title == "Weekly Egress Pattern Detected"
  {
    var rs := TrendRecs(t, weekly, hourly, stamp);
    assert rs[|RisingRec(t.trend, stamp)|] == WeeklyRec(weekly, stamp)[0];
  }

  /** Without a successful trend analysis there are no trend
      recommendations, not even pattern ones; with one, there is at most
      one of each of the three kinds, and a pattern recommendation needs a
      detected pattern with peaks. */
  lemma TrendRecsSpec(t: TrendAnalysis.TrendOutcome, weekly: TrendPatterns.PatternOutcome,
                      hourly: TrendPatterns.PatternOutcome, stamp: string)
    ensures !t.TrendFound? ==> TrendRecs(t, weekly, hourly, stamp) == []
    ensures |TrendRecs(t, weekly, hourly, stamp)| <= 3
    ensures forall r :: r in TrendRecs(t, weekly, hourly, stamp) && r.kind == "pattern" ==>
              (r.severity == Some("medium") && HasPattern(weekly) && |weekly.pattern.peaks| > 0)
              || (r.severity == Some("low") && HasPattern(hourly) && |hourly.pattern.peaks| > 0)
    ensures t.TrendFound? && HasPattern(weekly) && |weekly.pattern.peaks| > 0 ==>
              exists r :: r in TrendRecs(t, weekly, hourly, stamp) && r.title == "Weekly Egress Pattern Detected"
  {
    TrendRecsPatterns(t, weekly, hourly, stamp);
    if t.TrendFound? {
      TrendPieces(t.trend, weekly, hourly, stamp);
    }
    if t.TrendFound? && HasPattern(weekly) && |weekly.pattern.peaks| > 0 {
      TrendRecsWeekly(t, weekly, hourly, stamp);
    }
  }

  // ---------------------------------------------------------------------
  // Combined rules

  predicate Elevated(s: CostAnalysis.CostStatus) {
    s == CostAnalysis.Warning || s == CostAnalysis.Critical
  }

  /** Rising traffic with elevated cost calls for a strategic review. */
  function StrategicRec(t: TrendAnalysis.Trend, rep: CostAnalysis.CostReport, stamp: string): seq<Rec> {
    if t.core.fit.trend.direction == TrendAnalysis.Increasing && Elevated(rep.costStatus) then
      [Rec("combined_rising_costs_" + stamp, "strategic", "Strategic Review of Rising Egress Costs",
           Some("high"), 0.9, "recommendation_engine", None, None, None)]
    else []
  }

  /** More than three anomalies with elevated cost call for a security
      review, high when one of the anomalies is. */
  function SecurityCostRec(d: AnomalyDetection.Detection, rep: CostAnalysis.CostReport, stamp: string): seq<Rec> {
    if d.Detected? && d.summary.total > 3 && Elevated(rep.costStatus) then
      var high := d.summary.high > 0;
      [Rec("combined_anomaly_costs_" + stamp, "security_cost", "Security and Cost Alert: Unusual Egress Patterns",
           Some(if high then "high" else "medium"), if high then 0.85 else 0.7,
           "recommendation_engine", None, None, None)]
    else []
  }

  /** Cost above half the warning threshold with a weekly or daily pattern
      calls for CDN and caching, estimated to save 30 %. */
  function ArchitectureRec(rep: CostAnalysis.CostReport, weekly: TrendPatterns.PatternOutcome,
                           hourly: TrendPatterns.PatternOutcome, warn: real, stamp: string): seq<Rec>
  {
    if rep.totalCost > warn * 0.5 && (HasPattern(weekly) || HasPattern(hourly)) then
      [Rec("combined_cdn_cache_" + stamp, "architecture", "Implement CDN and Caching for Pattern Optimization",
           Some("medium"), 0.8, "recommendation_engine", None, None, Some(rep.totalCost * 0.3))]
    else []
  }

  /** `_generate_combined_recommendations`, called with a successful trend
      and cost analysis; the anomaly outcome counts only when it succeeded. */
  function CombinedRecs(t: TrendAnalysis.Trend, rep: CostAnalysis.CostReport, d: AnomalyDetection.Detection,
                        weekly: TrendPatterns.PatternOutcome, hourly: TrendPatterns.PatternOutcome,
                        warn: real, stamp: string): seq<Rec>
  {
    StrategicRec(t, rep, stamp) + SecurityCostRec(d, rep, stamp) + ArchitectureRec(rep, weekly, hourly, warn, stamp)
  }

  predicate HasKind(rs: seq<Rec>, kind: string) {
    exists r :: r in rs && r.kind == kind
  }

  lemma HasKindAppend3(a: seq<Rec>, b: seq<Rec>, c: seq<Rec>, kind: string)
    ensures HasKind(a + b + c, kind) <==> HasKind(a, kind) || HasKind(b, kind) || HasKind(c, kind)
  {
    assert forall r :: r in a + b + c <==> r in a || r in b || r in c;
  }

  /** A rule that yields at most one recommendation of one kind has that
      kind exactly when it fired. */
  lemma OneOfKind(rs: seq<Rec>, kind: string, other: string)
    requires |rs| <= 1 && forall r :: r in rs ==> r.kind == kind
    requires other != kind
    ensures HasKind(rs, kind) <==> |rs| == 1
    ensures !HasKind(rs, other)
  {
    if |rs| == 1 {
      assert rs[0] in rs;
    }
  }

  /** Three rules of three different kinds, each yielding at most one
      recommendation of its kind: their concatenation has a kind exactly
      when the rule of that kind fired. */
  lemma Combine3(s: seq<Rec>, c: seq<Rec>, a: seq<Rec>, ks: string, kc: string, ka: string)
    requires ks != kc && kc != ka && ks != ka
    requires |s| <= 1 && forall r :: r in s ==> r.kind == ks
    requires |c| <= 1 && forall r :: r in c ==> r.kind == kc
    requires |a| <= 1 && forall r :: r in a ==> r.kind == ka
    ensures HasKind(s + c + a, ks) <==> |s| == 1
    ensures HasKind(s + c + a, kc) <==> |c| == 1
    ensures HasKind(s + c + a, ka) <==> |a| == 1
  {
    HasKindAppend3(s, c, a, ks);
    HasKindAppend3(s, c, a, kc);
    HasKindAppend3(s, c, a, ka);
    OneOfKind(s, ks, kc);
    OneOfKind(s, ks, ka);
    OneOfKind(c, kc, ks);
    OneOfKind(c, kc, ka);
    OneOfKind(a, ka, ks);
    OneOfKind(a, ka, kc);
  }

  /** Each combined rule fires exactly under its condition: the strategic
      review for an increasing trend with warning or critical cost, the
      security review for more than three detected anomalies with such
      cost, and CDN advice for cost above half the warning threshold with a
      detected pattern. */
  lemma CombinedRecsSpec(t: TrendAnalysis.Trend, rep: CostAnalysis.CostReport, d: AnomalyDetection.Detection,
                         weekly: TrendPatterns.PatternOutcome, hourly: TrendPatterns.PatternOutcome,
                         warn: real, stamp: string)
    ensures var rs := CombinedRecs(t, rep, d, weekly, hourly, warn, stamp);
            (HasKind(rs, "strategic") <==> t.core.fit.trend.direction == TrendAnalysis.Increasing && Elevated(rep.costStatus))
            && (HasKind(rs, "security_cost") <==> d.Detected? && d.summary.total > 3 && Elevated(rep.costStatus))
            && (HasKind(rs, "architecture") <==> rep.totalCost > warn * 0.5 && (HasPattern(weekly) || HasPattern(hourly)))
  {
    StrategicShape(t, rep, stamp);
    SecurityCostShape(d, rep, stamp);
    ArchitectureShape(rep, weekly, hourly, warn, stamp);
    KindNamesDiffer();
    Combine3(StrategicRec(t, rep, stamp), SecurityCostRec(d, rep, stamp), ArchitectureRec(rep, weekly, hourly, warn, stamp),
             "strategic", "security_cost", "architecture");
  }

  lemma KindNamesDiffer()
    ensures "strategic" != "security_cost" && "security_cost" != "architecture" && "strategic" != "architecture"
  {
  }

  lemma StrategicShape(t: TrendAnalysis.Trend, rep: CostAnalysis.CostReport, stamp: string)
    ensures |StrategicRec(t, rep, stamp)| <= 1 && forall r :: r in StrategicRec(t, rep, stamp) ==> r.kind == "strategic"
    ensures |StrategicRec(t, rep, stamp)| == 1 <==> t.core.fit.trend.direction == TrendAnalysis.Increasing && Elevated(rep.costStatus)
  {
  }

  lemma SecurityCostShape(d: AnomalyDetection.Detection, rep: CostAnalysis.CostReport, stamp: string)
    ensures |SecurityCostRec(d, rep, stamp)| <= 1 && forall r :: r in SecurityCostRec(d, rep, stamp) ==> r.kind == "security_cost"
    ensures |SecurityCostRec(d, rep, stamp)| == 1 <==> d.Detected? && d.summary.total > 3 && Elevated(rep.costStatus)
  {
  }

  lemma ArchitectureShape(rep: CostAnalysis.CostReport, weekly: TrendPatterns.PatternOutcome,
                          hourly: TrendPatterns.PatternOutcome, warn: real, stamp: string)
    ensures |ArchitectureRec(rep, weekly, hourly, warn, stamp)| <= 1
    ensures forall r :: r in ArchitectureRec(rep, weekly, hourly, warn, stamp) ==> r.kind == "architecture"
    ensures |ArchitectureRec(rep, weekly, hourly, warn, stamp)| == 1 <==>
              rep.totalCost > warn * 0.5 && (HasPattern(weekly) || HasPattern(hourly))
  {
  }

  /** The security review is high, with confidence 0.85, exactly when a
      high anomaly was found. */
  lemma SecurityCostSeverity(d: AnomalyDetection.Detection, rep: CostAnalysis.CostReport, stamp: string)
    ensures forall r :: r in SecurityCostRec(d, rep, stamp) ==>
              (r.severity == Some("high") <==> d.summary.high > 0)
              && (r.confidence == 0.85 <==> d.summary.high > 0)
  {
  }

  // ---------------------------------------------------------------------
  // Deduplication and ranking

  /** `_deduplicate_recommendations`: one recommendation per title; a later
      one replaces the kept one only with a strictly higher severity weight,
      or the same weight and a strictly higher confidence. */
  function DedupRecs(recs: seq<Rec>): (r: seq<Rec>)
    ensures |r| <= |recs|
    ensures forall x :: x in r ==> x in recs
  {
    Dedup(recs, TitleOf, RankOf)
  }

  /** The titles left are the input's titles, each once, in order of first
      appearance. */
  lemma DedupTitles(recs: seq<Rec>)
    ensures KeysBy(DedupRecs(recs), TitleOf) == Keys(KeysBy(recs, TitleOf))
    ensures Distinct(KeysBy(DedupRecs(recs), TitleOf))
  {
    DedupKeys(recs, TitleOf, RankOf);
  }

  /** The recommendation kept for a title is the first of that title with
      the highest rank: none of its title ranks higher and every earlier
      one ranks strictly lower. */
  lemma DedupKeepsBest(recs: seq<Rec>)
    ensures forall x :: x in DedupRecs(recs) ==> FirstMaximalIn(recs, x, TitleOf, RankOf)
  {
    DedupKeepsFirstMaximal(recs, TitleOf, RankOf);
  }

  /** `_prioritize_recommendations`: rank, keep the first
      `max_per_category` of each type, rank again and keep the first
      `max_recommendations`. */
  function Prioritize(recs: seq<Rec>, st: Settings): (r: seq<Rec>)
    ensures multiset(r) <= multiset(recs)
    ensures SortedDesc(r, RankOf)
    ensures st.maxRecs >= 0 ==> |r| <= st.maxRecs
    ensures st.maxPerCategory >= 0 ==> forall t :: |Capping.Having(r, KindOf, t)| <= st.maxPerCategory
  {
    Capping.PrioritizeSub(recs, KindOf, RankOf, st.maxPerCategory, st.maxRecs);
    Capping.PrioritizeRanked(recs, KindOf, RankOf, st.maxPerCategory, st.maxRecs);
    if st.maxPerCategory >= 0 then
      Capping.PrioritizeCapped(recs, KindOf, RankOf, st.maxPerCategory, st.maxRecs);
      Capping.Prioritize(recs, KindOf, RankOf, st.maxPerCategory, st.maxRecs)
    else
      Capping.Prioritize(recs, KindOf, RankOf, st.maxPerCategory, st.maxRecs)
  }

  /** When no type exceeds the per-category cap and everything fits under
      the overall cap, every recommendation is kept. */
  lemma PrioritizeKeepsAll(recs: seq<Rec>, st: Settings)
    requires |recs| <= st.maxRecs
    requires forall t :: |Capping.Having(recs, KindOf, t)| <= st.maxPerCategory
    ensures multiset(Prioritize(recs, st)) == multiset(recs)
  {
    Capping.PrioritizeKeepsAll(recs, KindOf, RankOf, st.maxPerCategory, st.maxRecs);
  }

  /** Per type, the recommendations that survive the per-category cap are
      the type's first `max_per_category` in rank order, and none of the
      type's left-out ones ranks higher than any of them. */
  lemma PrioritizeTopPerCategory(recs: seq<Rec>, st: Settings, t: string)
    ensures var g := Capping.Having(Capping.Ranked(recs, RankOf), KindOf, t);
            var h := Capping.Having(Capping.Selected(recs, KindOf, RankOf, st.maxPerCategory), KindOf, t);
            h == Capping.Prefix(g, st.maxPerCategory)
            && forall i, j :: 0 <= i < |h| <= j < |g| ==> KeyGe(RankOf(g[i]), RankOf(g[j]))
  {
    Capping.SelectedPerCategory(recs, KindOf, RankOf, st.maxPerCategory, t);
  }

  /** Ranking cannot bring back a duplicate title. */
  lemma PrioritizeTitlesDistinct(recs: seq<Rec>, st: Settings)
    requires Distinct(KeysBy(recs, TitleOf))
    ensures Distinct(KeysBy(Prioritize(recs, st), TitleOf))
  {
    Capping.SubKeyDistinct(Prioritize(recs, st), recs, TitleOf);
  }

  /** Some recommendation comes out of a non-empty list whenever both caps
      leave room for one. */
  lemma PrioritizeNonEmpty(recs: seq<Rec>, st: Settings)
    requires |recs| > 0 && st.maxPerCategory >= 1 && st.maxRecs >= 1
    ensures |Prioritize(recs, st)| > 0
  {
    Capping.PrioritizeNonEmpty(recs, KindOf, RankOf, st.maxPerCategory, st.maxRecs);
  }

  // ---------------------------------------------------------------------
  // The report

  datatype Sources = Sources(trends: bool, costs: bool, anomalies: bool)

  datatype RecStatus = RecSuccess | NoRecommendations

  /** What `generate_recommendations` returns: "no_data" for an empty
      frame, otherwise the ranked list with its count, which analyses
      succeeded, and the count per type. */
  datatype Report =
    | NoRecData
    | Report(status: RecStatus, count: nat, sources: Sources, recs: seq<Rec>, categories: seq<(string, nat)>)

  function Kinds(recs: seq<Rec>): seq<string> {
    KeysBy(recs, KindOf)
  }

  /** The `{type: count}` dictionary, in order of first appearance. */
  function CategoryCounts(recs: seq<Rec>): seq<(string, nat)> {
    Tally(Keys(Kinds(recs)), Kinds(recs))
  }

  /** Each type of the list appears once, with the number of
      recommendations of that type, which is at least one, and the counts
      add up to the length of the list. */
  lemma CategoryCountsSpec(recs: seq<Rec>)
    ensures var c := CategoryCounts(recs);
            (forall i, j :: 0 <= i < j < |c| ==> c[i].0 != c[j].0)
            && (forall i :: 0 <= i < |c| ==> c[i].1 == |Capping.Having(recs, KindOf, c[i].0)| && c[i].1 >= 1)
            && (forall x :: x in recs ==> exists i :: 0 <= i < |c| && c[i].0 == x.kind)
            && TallyTotal(c) == |recs|
  {
    CategoryCountsOnce(recs);
    CategoryCountsSizes(recs);
    CategoryCountsCover(recs);
    CategoryCountsTotal(recs);
  }

  lemma CategoryCountsOnce(recs: seq<Rec>)
    ensures var c := CategoryCounts(recs);
            forall i, j :: 0 <= i < j < |c| ==> c[i].0 != c[j].0
  {
    var us := Keys(Kinds(recs));
    var c := CategoryCounts(recs);
    forall i, j | 0 <= i < j < |c| ensures c[i].0 != c[j].0 {
      assert c[i].0 == us[i] && c[j].0 == us[j];
    }
  }

  lemma CategoryCountsSizes(recs: seq<Rec>)
    ensures var c := CategoryCounts(recs);
            forall i :: 0 <= i < |c| ==> c[i].1 == |Capping.Having(recs, KindOf, c[i].0)| && c[i].1 >= 1
  {
    var us := Keys(Kinds(recs));
    var c := CategoryCounts(recs);
    forall i | 0 <= i < |c| ensures c[i].1 == |Capping.Having(recs, KindOf, c[i].0)| && c[i].1 >= 1 {
      Capping.HavingSize(recs, KindOf, us[i]);
    }
  }

  lemma CategoryCountsCover(recs: seq<Rec>)
    ensures var c := CategoryCounts(recs);
            forall x :: x in recs ==> exists i :: 0 <= i < |c| && c[i].0 == x.kind
  {
    var ks := Kinds(recs);
    var us := Keys(ks);
    var c := CategoryCounts(recs);
    forall x | x in recs ensures exists i :: 0 <= i < |c| && c[i].0 == x.kind {
      var m :| 0 <= m < |recs| && recs[m] == x;
      assert ks[m] == x.kind;
      var i :| 0 <= i < |us| && us[i] == x.kind;
      assert c[i].0 == x.kind;
    }
  }

  lemma CategoryCountsTotal(recs: seq<Rec>)
    ensures TallyTotal(CategoryCounts(recs)) == |recs|
  {
    var ks := Kinds(recs);
    var us := Keys(ks);
    forall k | k in ks ensures k in us {
      var m :| 0 <= m < |ks| && ks[m] == k;
    }
    TallyPartition(us, ks);
  }

  function CostRaws(o: CostAnalysis.CostOutcome): seq<Raw> {
    var cs := CostAnalysis.CostRecommendations(o);
    seq(|cs|, i requires 0 <= i < |cs| => FromCost(cs[i]))
  }

  function AnomalyRaws(d: AnomalyDetection.Detection): seq<Raw> {
    var ar := AnomalyDetection.AnomalyRecommendations(d);
    seq(|ar|, i requires 0 <= i < |ar| => FromAnomaly(ar[i]))
  }

  /** Every source's recommendations, in the order the engine collects
      them: cost, trend, anomaly, then the combined rules when both the
      trend and the cost analysis succeeded. */
  function Collected(t: TrendAnalysis.TrendOutcome, cost: CostAnalysis.CostOutcome, d: AnomalyDetection.Detection,
                     weekly: TrendPatterns.PatternOutcome, hourly: TrendPatterns.PatternOutcome,
                     warn: real, stamp: string): seq<Rec>
  {
    (if cost.Analyzed? then TransformCost(CostRaws(cost), stamp) else [])
    + TrendRecs(t, weekly, hourly, stamp)
    + (if d.Detected? then TransformAnomaly(AnomalyRaws(d), stamp) else [])
    + (if t.TrendFound? && cost.Analyzed? then CombinedRecs(t.trend, cost.report, d, weekly, hourly, warn, stamp) else [])
  }

  /** `generate_recommendations`, given whether the frame is empty and
      the analyses' outcomes. */
  function Generate(empty: bool, t: TrendAnalysis.TrendOutcome, cost: CostAnalysis.CostOutcome,
                    d: AnomalyDetection.Detection, weekly: TrendPatterns.PatternOutcome,
                    hourly: TrendPatterns.PatternOutcome, warn: real, st: Settings, stamp: string): Report
  {
    if empty then NoRecData
    else
      var recs := Prioritize(DedupRecs(Collected(t, cost, d, weekly, hourly, warn, stamp)), st);
      Report(if |recs| > 0 then RecSuccess else NoRecommendations, |recs|,
             Sources(t.TrendFound?, cost.Analyzed?, d.Detected?), recs, CategoryCounts(recs))
  }

  /** `generate_recommendations` as written: the cost recommendations are
      gathered without a handler, so their division by zero (several
      regions, zero total) escapes the engine; otherwise it reports what
      `Generate`, which guards that division, reports. */
  function GenerateAsWritten(empty: bool, t: TrendAnalysis.TrendOutcome, cost: CostAnalysis.CostOutcome,
                             d: AnomalyDetection.Detection, weekly: TrendPatterns.PatternOutcome,
                             hourly: TrendPatterns.PatternOutcome, warn: real, st: Settings, stamp: string): (r: Result<Report, string>)
    ensures r.Err? <==> !empty && cost.Analyzed? && |cost.report.byRegion| > 1 && cost.report.totalCost == 0.0
    ensures r.Ok? ==> r.value == Generate(empty, t, cost, d, weekly, hourly, warn, st, stamp)
  {
    if empty then Ok(NoRecData)
    else
      match CostAnalysis.CostRecommendationsAsWritten(cost)
      case Err(e) => Err(e)
      case Ok(_) => Ok(Generate(empty, t, cost, d, weekly, hourly, warn, st, stamp))
  }

  /** Deduplicating and ranking a list keeps only its members, at most once
      per title, ranked and within both caps. */
  lemma {:induction false} RankedSpec(all: seq<Rec>, st: Settings)
    ensures var recs := Prioritize(DedupRecs(all), st);
            (forall x :: x in recs ==> x in all)
            && Distinct(KeysBy(recs, TitleOf))
            && SortedDesc(recs, RankOf)
            && (st.maxRecs >= 0 ==> |recs| <= st.maxRecs)
  {
    var u := DedupRecs(all);
    var recs := Prioritize(u, st);
    DedupTitles(all);
    PrioritizeTitlesDistinct(u, st);
    forall x | x in recs ensures x in all {
      assert x in multiset(u);
    }
  }

  /** The report lists recommendations that were collected, at most once
      per title, ranked, within both caps; its status says whether any are
      left and its count is how many. */
  lemma {:induction false} GenerateSpec(empty: bool, t: TrendAnalysis.TrendOutcome, cost: CostAnalysis.CostOutcome,
                                        d: AnomalyDetection.Detection, weekly: TrendPatterns.PatternOutcome,
                                        hourly: TrendPatterns.PatternOutcome, warn: real, st: Settings, stamp: string)
    ensures var r := Generate(empty, t, cost, d, weekly, hourly, warn, st, stamp);
            (empty <==> r.NoRecData?)
            && (r.Report? ==>
                  (r.status == RecSuccess <==> r.count > 0) && r.count == |r.recs|
                  && (forall x :: x in r.recs ==> x in Collected(t, cost, d, weekly, hourly, warn, stamp))
                  && Distinct(KeysBy(r.recs, TitleOf))
                  && SortedDesc(r.recs, RankOf)
                  && (st.maxRecs >= 0 ==> |r.recs| <= st.maxRecs)
                  && r.sources == Sources(t.TrendFound?, cost.Analyzed?, d.Detected?))
  {
    if !empty {
      RankedSpec(Collected(t, cost, d, weekly, hourly, warn, stamp), st);
    }
  }

  /** A non-empty frame with something collected reports success when
      both caps leave room for one recommendation. */
  lemma GenerateSucceeds(t: TrendAnalysis.TrendOutcome, cost: CostAnalysis.CostOutcome,
                         d: AnomalyDetection.Detection, weekly: TrendPatterns.PatternOutcome,
                         hourly: TrendPatterns.PatternOutcome, warn: real, st: Settings, stamp: string)
    requires |Collected(t, cost, d, weekly, hourly, warn, stamp)| > 0
    requires st.maxPerCategory >= 1 && st.maxRecs >= 1
    ensures Generate(false, t, cost, d, weekly, hourly, warn, st, stamp).status == RecSuccess
  {
    var all := Collected(t, cost, d, weekly, hourly, warn, stamp);
    var u := DedupRecs(all);
    DedupTitles(all);
    assert KeysBy(all, TitleOf)[0] in Keys(KeysBy(all, TitleOf));
    PrioritizeNonEmpty(u, st);
  }

  /** A successful cost analysis always contributes: the engine then never
      reports "no_recommendations" under caps that leave room. */
  lemma CostAnalysisContributes(t: TrendAnalysis.TrendOutcome, rep: CostAnalysis.CostReport,
                                d: AnomalyDetection.Detection, weekly: TrendPatterns.PatternOutcome,
                                hourly: TrendPatterns.PatternOutcome, warn: real, st: Settings, stamp: string)
    requires st.maxPerCategory >= 1 && st.maxRecs >= 1
    ensures Generate(false, t, CostAnalysis.Analyzed(rep), d, weekly, hourly, warn, st, stamp).status == RecSuccess
  {
    var cost := CostAnalysis.Analyzed(rep);
    assert |TransformCost(CostRaws(cost), stamp)| >= 1;
    GenerateSucceeds(t, cost, d, weekly, hourly, warn, st, stamp);
  }
}

=== FILE: samples.dfy ===
/** One row of the metrics table the dashboard builds and the analyzers
    read: a single metric value of one resource at one instant. Timestamps
    are opaque, ordered instants in whole seconds. */
module Samples {
  import opened Text
  import opened Stats

  datatype Row = Row(
    timestamp: int,
    value: real,
    resourceId: string,
    resourceName: string,
    resourceType: string,
    resourceGroup: string,
    location: string,
    metricName: string,
    displayName: string,
    unit: string)

  /** A metric counts as egress when its name contains "out", "sent" or
      "egress", ignoring case. */
  predicate IsEgressName(name: string) {
    var n := Lower(name);
    Contains(n, "out") || Contains(n, "sent") || Contains(n, "egress")
  }

  /** The egress rows of a table, in their original order. */
  function EgressRows(rows: seq<Row>): (r: seq<Row>)
    ensures |r| <= |rows|
    ensures forall x :: x in r <==> x in rows && IsEgressName(x.metricName)
  {
    if |rows| == 0 then []
    else
      var init := EgressRows(rows[..|rows| - 1]);
      var x := rows[|rows| - 1];
      assert rows == rows[..|rows| - 1] + [x];
      if IsEgressName(x.metricName) then init + [x] else init
  }

  /** A table whose every row is an egress metric is its own egress part. */
  lemma {:induction false} AllEgress(rows: seq<Row>)
    requires forall x :: x in rows ==> IsEgressName(x.metricName)
    ensures EgressRows(rows) == rows
  {
    if |rows| > 0 {
      var n := |rows| - 1;
      assert forall x :: x in rows[..n] ==> x in rows;
      AllEgress(rows[..n]);
      assert rows == rows[..n] + [rows[n]];
    }
  }

  /** A name that holds "out" once lower-cased is an egress name. */
  lemma OutIsEgress(name: string, i: int)
    requires OccursAt(Lower(name), "out", i)
    ensures IsEgressName(name)
  {
  }

  function Values(rows: seq<Row>): (r: seq<real>)
    ensures |r| == |rows| && forall i :: 0 <= i < |rows| ==> r[i] == rows[i].value
  {
    seq(|rows|, i requires 0 <= i < |rows| => rows[i].value)
  }

  /** Appending a row appends its value, and adds it to the sum. */
  lemma ValuesSnoc(rows: seq<Row>, x: Row)
    ensures Values(rows + [x]) == Values(rows) + [x.value]
    ensures Sum(Values(rows + [x])) == Sum(Values(rows)) + x.value
  {
    var vs := Values(rows + [x]);
    assert vs == Values(rows) + [x.value];
    assert vs[..|rows|] == Values(rows);
  }

  function Timestamps(rows: seq<Row>): (r: seq<int>)
    ensures |r| == |rows| && forall i :: 0 <= i < |rows| ==> r[i] == rows[i].timestamp
  {
    seq(|rows|, i requires 0 <= i < |rows| => rows[i].timestamp)
  }
}

=== FILE: time_utils.dfy ===
/** The phase time tracker: duration formatting, starting and ending a
    phase, and the summary over all phases. Clock readings are seconds
    supplied by the caller; the JSON file the tracker loads and saves is
    not modelled. */
module TimeUtils {
  import opened Common
  import opened Text
  import opened Dicts

  /** One tracked phase. `end`, `duration` and `formatted` are absent until
      the phase is ended. */
  datatype Phase = Phase(start: real, description: string, status: string,
                         end: Option<real>, duration: Option<real>, formatted: Option<string>)

  type Phases = Dict<string, Phase>

  /** The whole hours, minutes and seconds of a duration, as `divmod`
      by 3600 and then by 60 splits it; `hours` is negative for a negative
      duration. */
  datatype Hms = Hms(hours: int, minutes: nat, seconds: nat)

  function Breakdown(s: real): (b: Hms)
    ensures b.minutes < 60 && b.seconds < 60
    ensures 3600 * b.hours + 60 * b.minutes + b.seconds == s.Floor
    ensures b.hours > 0 <==> s >= 3600.0
  {
    var h := (s / 3600.0).Floor;
    var rem := s - 3600.0 * h as real;
    assert 0.0 <= rem < 3600.0;
    var m := (rem / 60.0).Floor;
    var sec := rem - 60.0 * m as real;
    assert 0 <= m < 60 && 0.0 <= sec < 60.0;
    var whole := (3600 * h + 60 * m) as real;
    assert s == whole + sec;
    assert s.Floor == 3600 * h + 60 * m + sec.Floor by {
      FloorShift(whole, sec);
    }
    Hms(h, m, sec.Floor)
  }

  lemma FloorShift(n: real, x: real)
    requires n.Floor as real == n
    ensures (n + x).Floor == n.Floor + x.Floor
  {
  }

  /** The pieces `_format_duration` joins: hours only when positive,
      minutes when they or the hours are positive, seconds always. */
  function Pieces(b: Hms): seq<string> {
    (if b.hours > 0 then [NatToString(b.hours as nat) + "h"] else [])
    + (if b.minutes > 0 || b.hours > 0 then [NatToString(b.minutes) + "m"] else [])
    + [NatToString(b.seconds) + "s"]
  }

  /** `_format_duration`. */
  function FormatDuration(s: real): (r: string)
    ensures |r| > 0 && r[|r| - 1] == 's'
  {
    var p := Pieces(Breakdown(s));
    JoinLast(p, " ");
    Join(p, " ")
  }

  lemma {:induction false} JoinLast(parts: seq<string>, sep: string)
    requires |parts| > 0 && |parts[|parts| - 1]| > 0
    ensures var j := Join(parts, sep);
            |j| > 0 && j[|j| - 1] == parts[|parts| - 1][|parts[|parts| - 1]| - 1]
  {
    if |parts| > 1 {
      JoinLast(parts[1..], sep);
    }
  }

  /** The reader `_format_duration`'s output is checked against: each
      space-separated piece is a decimal count followed by `h`, `m` or `s`,
      and the value is the total in seconds. */
  function UnitSeconds(u: char): Option<nat> {
    if u == 'h' then Some(3600) else if u == 'm' then Some(60) else if u == 's' then Some(1) else None
  }

  function PieceValue(p: string): Option<nat> {
    if |p| == 0 then None
    else
      match (ParseNat(p[..|p| - 1]), UnitSeconds(p[|p| - 1]))
      case (Some(n), Some(w)) => Some(n * w)
      case _ => None
  }

  function ReadPieces(ps: seq<string>): Option<nat> {
    if |ps| == 0 then Some(0)
    else
      match (PieceValue(ps[0]), ReadPieces(ps[1..]))
      case (Some(a), Some(b)) => Some(a + b)
      case _ => None
  }

  function ParseDuration(r: string): Option<nat> {
    ReadPieces(Split(r, ' '))
  }

  lemma PieceOf(n: nat, u: string, w: nat)
    requires |u| == 1 && UnitSeconds(u[0]) == Some(w)
    ensures PieceValue(NatToString(n) + u) == Some(n * w)
    ensures ' ' !in NatToString(n) + u
  {
    var p := NatToString(n) + u;
    assert p[..|p| - 1] == NatToString(n);
    ParseNatOfNatToString(n);
  }

  /** Every piece is a count and a unit, and reading them back gives the
      duration's whole seconds. */
  lemma PiecesRead(b: Hms)
    requires b.hours >= 0
    ensures ReadPieces(Pieces(b)) == Some(3600 * b.hours + 60 * b.minutes + b.seconds)
    ensures forall i :: 0 <= i < |Pieces(b)| ==> ' ' !in Pieces(b)[i]
  {
    var hp, mp, sp := NatToString(b.hours as nat) + "h", NatToString(b.minutes) + "m", NatToString(b.seconds) + "s";
    PieceOf(b.hours as nat, "h", 3600);
    PieceOf(b.minutes, "m", 60);
    PieceOf(b.seconds, "s", 1);
    assert ReadPieces([sp]) == Some(b.seconds);
    assert ReadPieces([mp, sp]) == Some(60 * b.minutes + b.seconds) by {
      assert [mp, sp][1..] == [sp];
    }
    if b.hours > 0 {
      assert Pieces(b) == [hp, mp, sp];
      assert [hp, mp, sp][1..] == [mp, sp];
    } else if b.minutes > 0 {
      assert Pieces(b) == [mp, sp];
    } else {
      assert Pieces(b) == [sp];
    }
  }

  /** Reading a formatted duration gives its whole seconds. Below one hour
      the hours are not printed, so a negative duration reads as its
      remainder modulo an hour. */
  lemma FormatDurationRoundTrip(s: real)
    ensures ParseDuration(FormatDuration(s)) == Some(if s >= 3600.0 then s.Floor else s.Floor % 3600)
  {
    var b := Breakdown(s);
    ShownPiecesRead(s);
    SplitJoin(Pieces(b), ' ');
  }

  /** The printed pieces hold no space and read back as the whole seconds,
      modulo an hour below one hour. */
  lemma ShownPiecesRead(s: real)
    ensures ReadPieces(Pieces(Breakdown(s))) == Some(if s >= 3600.0 then s.Floor else s.Floor % 3600)
    ensures forall i :: 0 <= i < |Pieces(Breakdown(s))| ==> ' ' !in Pieces(Breakdown(s))[i]
  {
    var b := Breakdown(s);
    var c := if b.hours > 0 then b else Hms(0, b.minutes, b.seconds);
    assert Pieces(c) == Pieces(b);
    PiecesRead(c);
    if b.hours <= 0 {
      HourRemainder(b.hours, 60 * b.minutes + b.seconds);
    }
  }

  /** Whole hours plus less than an hour leave that much modulo an hour. */
  lemma HourRemainder(h: int, r: int)
    requires 0 <= r < 3600
    ensures (3600 * h + r) % 3600 == r
  {
  }

  /** The number of pieces: three from one hour on, two from one minute
      past the hour, one below that. */
  lemma FormatDurationShape(s: real)
    ensures |Split(FormatDuration(s), ' ')|
            == if s >= 3600.0 then 3 else if s.Floor % 3600 >= 60 then 2 else 1
  {
    var b := Breakdown(s);
    ShownPiecesRead(s);
    SplitJoin(Pieces(b), ' ');
    if b.hours <= 0 {
      HourRemainder(b.hours, 60 * b.minutes + b.seconds);
    }
  }

  /** The formats the docstring and callers rely on. */
  lemma FormatDurationExamples()
    ensures FormatDuration(0.0) == "0s"
    ensures FormatDuration(61.0) == "1m 1s"
    ensures FormatDuration(3600.0) == "1h 0m 0s"
    ensures FormatDuration(9015.0) == "2h 30m 15s"
  {
    FormatZero();
    FormatMinute();
    FormatHour();
    FormatMixed();
  }

  lemma FormatZero() ensures FormatDuration(0.0) == "0s" {
    FormatAs(0.0, Hms(0, 0, 0));
  }

  lemma FormatMinute() ensures FormatDuration(61.0) == "1m 1s" {
    FormatAs(61.0, Hms(0, 1, 1));
  }

  lemma FormatHour() ensures FormatDuration(3600.0) == "1h 0m 0s" {
    FormatAs(3600.0, Hms(1, 0, 0));
  }

  lemma FormatMixed() ensures FormatDuration(9015.0) == "2h 30m 15s" {
    FormatAs(9015.0, Hms(2, 30, 15));
    MixedPieces();
    JoinThree("2h", "30m", "15s", " ");
  }

  lemma JoinThree(a: string, b: string, c: string, sep: string)
    ensures Join([a, b, c], sep) == a + sep + (b + sep + c)
  {
    assert [a, b, c][1..] == [b, c];
    assert [b, c][1..] == [c];
    assert Join([c], sep) == c;
    assert Join([b, c], sep) == b + sep + c;
  }

  lemma MixedPieces() ensures Pieces(Hms(2, 30, 15)) == ["2h", "30m", "15s"] {
    Digits2(3, 0);
    Digits2(1, 5);
    assert NatToString(30) == "30" && NatToString(15) == "15" && NatToString(2) == "2";
    var b := Hms(2, 30, 15);
    assert Pieces(b) == [NatToString(2) + "h", NatToString(30) + "m", NatToString(15) + "s"];
    assert NatToString(2) + "h" == "2h";
    assert NatToString(30) + "m" == "30m";
    assert NatToString(15) + "s" == "15s";
  }

  lemma Digits2(a: nat, b: nat)
    requires 1 <= a < 10 && b < 10
    ensures NatToString(10 * a + b) == [DigitChar(a), DigitChar(b)]
  {
  }

  lemma FormatAs(s: real, b: Hms)
    requires b.minutes < 60 && b.seconds < 60 && s.Floor as real == s
    requires 3600 * b.hours + 60 * b.minutes + b.seconds == s.Floor
    ensures FormatDuration(s) == Join(Pieces(b), " ")
  {
    assert Breakdown(s) == b;
  }

  /** `start_phase`: the entry is replaced by a fresh one in progress. */
  function StartPhase(ps: Phases, id: string, description: string, now: real): Phases {
    Put(ps, id, Phase(now, description, "in_progress", None, None, None))
  }

  /** `end_phase`: None and nothing changed for an unknown id; otherwise the
      entry gets the end reading, the status and the duration, and the
      updated entry is returned. */
  function EndPhase(ps: Phases, id: string, status: string, now: real): (Option<Phase>, Phases) {
    match Get(ps, id)
    case None => (None, ps)
    case Some(p) =>
      var d := now - p.start;
      var q := p.(end := Some(now), status := status, duration := Some(d), formatted := Some(FormatDuration(d)));
      (Some(q), Put(ps, id, q))
  }

  datatype Summary = Summary(totalPhases: nat, completedPhases: nat, totalDuration: real,
                             totalFormatted: string, phases: Phases)

  /** What one phase adds to the totals: only a phase with a duration
      counts, towards the completed ones only when its status is
      "completed". */
  function Timed(p: Phase): real {
    if p.duration.Some? then p.duration.value else 0.0
  }

  function Done(p: Phase): nat {
    if p.duration.Some? && p.status == "completed" then 1 else 0
  }

  function TotalTimed(ps: Phases): real {
    if |ps| == 0 then 0.0 else TotalTimed(ps[..|ps| - 1]) + Timed(ps[|ps| - 1].1)
  }

  function DoneCount(ps: Phases): (r: nat)
    ensures r <= |ps|
  {
    if |ps| == 0 then 0 else DoneCount(ps[..|ps| - 1]) + Done(ps[|ps| - 1].1)
  }

  /** `get_phase_summary`. */
  function PhaseSummary(ps: Phases): (r: Summary)
    ensures r.totalPhases == |ps| && r.completedPhases <= r.totalPhases && r.phases == ps
    ensures r.totalFormatted == FormatDuration(r.totalDuration)
  {
    var t := TotalTimed(ps);
    Summary(|ps|, DoneCount(ps), t, FormatDuration(t), ps)
  }

  /** Replacing one entry changes the totals by the difference of the two
      entries' contributions. */
  lemma {:induction false} TotalsReplace(ps: Phases, i: int, e: (string, Phase))
    requires 0 <= i < |ps|
    ensures TotalTimed(ps[i := e]) == TotalTimed(ps) - Timed(ps[i].1) + Timed(e.1)
    ensures DoneCount(ps[i := e]) == DoneCount(ps) - Done(ps[i].1) + Done(e.1)
  {
    var n := |ps| - 1;
    if i < n {
      TotalsReplace(ps[..n], i, e);
      assert ps[i := e][..n] == ps[..n][i := e];
    } else {
      assert ps[i := e][..n] == ps[..n];
    }
  }

  lemma TotalsAppend(ps: Phases, e: (string, Phase))
    ensures TotalTimed(ps + [e]) == TotalTimed(ps) + Timed(e.1)
    ensures DoneCount(ps + [e]) == DoneCount(ps) + Done(e.1)
  {
    assert (ps + [e])[..|ps|] == ps;
  }

  /** Assignment changes the totals by the new entry's contribution less
      the old one's, if there was one. */
  lemma TotalsPut(ps: Phases, id: string, q: Phase)
    requires WellKeyed(ps)
    ensures var r := Put(ps, id, q);
            var prev := Get(ps, id);
            TotalTimed(r) == TotalTimed(ps) - (if prev.Some? then Timed(prev.value) else 0.0) + Timed(q)
            && DoneCount(r) == DoneCount(ps) - (if prev.Some? then Done(prev.value) else 0) + Done(q)
  {
    var i := IndexOf(ps, id);
    if i < 0 {
      TotalsAppend(ps, (id, q));
    } else {
      TotalsReplace(ps, i, (id, q));
    }
  }

  /** Starting a phase stores a fresh in-progress entry under its id, keeps
      every other entry and adds an entry only for a new id. */
  lemma StartPhaseSpec(ps: Phases, id: string, description: string, now: real)
    requires WellKeyed(ps)
    ensures var r := StartPhase(ps, id, description, now);
            WellKeyed(r)
            && Get(r, id) == Some(Phase(now, description, "in_progress", None, None, None))
            && (forall j :: j != id ==> Get(r, j) == Get(ps, j))
            && |r| == if id in KeysOf(ps) then |ps| else |ps| + 1
  {
    GetPut(ps, id, Phase(now, description, "in_progress", None, None, None));
  }

  /** Restarting a phase drops what it added to the summary; starting a
      new one only adds to the phase count. */
  lemma StartPhaseSummary(ps: Phases, id: string, description: string, now: real)
    requires WellKeyed(ps)
    ensures var s0 := PhaseSummary(ps);
            var s1 := PhaseSummary(StartPhase(ps, id, description, now));
            match Get(ps, id)
            case None =>
              s1.totalPhases == s0.totalPhases + 1 && s1.completedPhases == s0.completedPhases
              && s1.totalDuration == s0.totalDuration
            case Some(p) =>
              s1.totalPhases == s0.totalPhases && s1.completedPhases == s0.completedPhases - Done(p)
              && s1.totalDuration == s0.totalDuration - Timed(p)
  {
    StartPhaseSpec(ps, id, description, now);
    TotalsPut(ps, id, Phase(now, description, "in_progress", None, None, None));
    assert Get(ps, id).None? <==> id !in KeysOf(ps);
  }

  /** Ending an unknown phase returns None and changes nothing; ending a
      known one returns its updated entry, which is what is stored, with
      the start and description kept and the duration measured from the
      start. */
  lemma EndPhaseSpec(ps: Phases, id: string, status: string, now: real)
    requires WellKeyed(ps)
    ensures var (res, r) := EndPhase(ps, id, status, now);
            (res.None? <==> id !in KeysOf(ps))
            && (res.None? ==> r == ps)
            && (res.Some? ==>
                  var p := Get(ps, id).value;
                  var q := res.value;
                  q.start == p.start && q.description == p.description && q.status == status
                  && q.end == Some(now) && q.duration == Some(now - p.start)
                  && q.formatted == Some(FormatDuration(now - p.start))
                  && WellKeyed(r) && Get(r, id) == res && |r| == |ps|
                  && forall j :: j != id ==> Get(r, j) == Get(ps, j))
  {
    match Get(ps, id)
    case None =>
    case Some(p) =>
      var q := EndPhase(ps, id, status, now).0.value;
      GetPut(ps, id, q);
  }

  /** Ending a known phase replaces its contribution to the summary by its
      new duration, and counts it as completed exactly when the status is
      "completed". */
  lemma EndPhaseSummary(ps: Phases, id: string, status: string, now: real)
    requires WellKeyed(ps) && id in KeysOf(ps)
    ensures var p := Get(ps, id).value;
            var s0 := PhaseSummary(ps);
            var s1 := PhaseSummary(EndPhase(ps, id, status, now).1);
            s1.totalPhases == s0.totalPhases
            && s1.totalDuration == s0.totalDuration - Timed(p) + (now - p.start)
            && s1.completedPhases == s0.completedPhases - Done(p) + (if status == "completed" then 1 else 0)
  {
    var p := Get(ps, id).value;
    var q := EndPhase(ps, id, status, now).0.value;
    TotalsPut(ps, id, q);
    GetPut(ps, id, q);
  }

  /** A phase started at `t0` and ended at `t1` lasted `t1 - t0`. */
  lemma StartThenEnd(ps: Phases, id: string, description: string, status: string, t0: real, t1: real)
    requires WellKeyed(ps)
    ensures EndPhase(StartPhase(ps, id, description, t0), id, status, t1).0
            == Some(Phase(t0, description, status, Some(t1), Some(t1 - t0), Some(FormatDuration(t1 - t0))))
  {
    StartPhaseSpec(ps, id, description, t0);
  }
}

=== FILE: trend_analysis.dfy ===
/** The egress trend analyzer: the egress rows are totalled per timestamp,
    a least-squares line is fitted to the totals, its slope relative to the
    mean is classified into a direction and a strength, and recent changes
    are reported; per-group trends and weekly and hourly patterns reuse the
    same pieces. */
module TrendAnalysis {
  import opened Common
  import opened Stats
  import opened Grouping
  import opened Samples

  /** The analyzer reads only the minimum number of timestamps; its
      significant-change threshold and look-back window are never read. */
  datatype TrendConfig = TrendConfig(minDataPoints: int)

  const DefaultTrendConfig := TrendConfig(3)

  // ---------------------------------------------------------------------
  // Totals per timestamp

  /** The distinct timestamps of the rows, oldest first. */
  function TimeAxis(rows: seq<Row>): seq<int> {
    SortedKeys(Timestamps(rows))
  }

  /** The total value of the rows at each timestamp, oldest first. */
  function Totals(rows: seq<Row>): (r: seq<real>)
    ensures |r| == |TimeAxis(rows)|
    ensures forall i :: 0 <= i < |r| ==>
              r[i] == SumWhere(Timestamps(rows), Values(rows), TimeAxis(rows)[i])
  {
    var ts := TimeAxis(rows);
    seq(|ts|, i requires 0 <= i < |ts| => SumWhere(Timestamps(rows), Values(rows), ts[i]))
  }

  /** The time axis lists every timestamp of the rows once, in increasing
      order, and the totals over it add up to the sum of all values. */
  lemma TotalsPartition(rows: seq<Row>)
    ensures forall i, j :: 0 <= i < j < |TimeAxis(rows)| ==> TimeAxis(rows)[i] < TimeAxis(rows)[j]
    ensures forall t :: t in TimeAxis(rows) <==> exists x :: x in rows && x.timestamp == t
    ensures Sum(Totals(rows)) == Sum(Values(rows))
  {
    var ts := Timestamps(rows);
    var axis := TimeAxis(rows);
    SortedKeysIncreasing(ts);
    forall t ensures t in ts <==> exists x :: x in rows && x.timestamp == t {
      if t in ts {
        var i :| 0 <= i < |ts| && ts[i] == t;
        assert rows[i] in rows;
      }
      if exists x :: x in rows && x.timestamp == t {
        var x :| x in rows && x.timestamp == t;
        var i :| 0 <= i < |rows| && rows[i] == x;
        assert ts[i] == t;
      }
    }
    assert Distinct(axis);
    GroupSumsPartition(axis, ts, Values(rows));
    SumOverKeys(axis, ts, Values(rows));
  }

  /** Summing the per-key sums in a sequence is the total over the key
      list. */
  lemma {:induction false} SumOverKeys(us: seq<int>, ks: seq<int>, vs: seq<real>)
    requires |ks| == |vs|
    ensures Sum(seq(|us|, i requires 0 <= i < |us| => SumWhere(ks, vs, us[i]))) == TotalOver(us, ks, vs)
  {
    if |us| > 0 {
      var n := |us| - 1;
      var whole := seq(|us|, i requires 0 <= i < |us| => SumWhere(ks, vs, us[i]));
      var init := seq(n, i requires 0 <= i < n => SumWhere(ks, vs, us[..n][i]));
      assert whole[..n] == init;
      SumOverKeys(us[..n], ks, vs);
    }
  }

  // ---------------------------------------------------------------------
  // Least-squares line through the totals

  /** The spread of the positions 0, 1, ..., n-1 about their mean. */
  function IndexSpread(n: nat): real
    requires n > 0
  {
    SumSqDev(Indices(n), Mean(Indices(n)))
  }

  lemma IndexSpreadPositive(n: nat)
    requires n >= 2
    ensures IndexSpread(n) > 0.0
  {
    SumSqDevPositive(Indices(n), Mean(Indices(n)), 0, 1);
  }

  /** The least-squares slope of the values against their positions. */
  function Slope(ys: seq<real>): real
    requires |ys| >= 2
  {
    var xs := Indices(|ys|);
    IndexSpreadPositive(|ys|);
    SumCross(xs, ys, Mean(xs), Mean(ys)) / IndexSpread(|ys|)
  }

  /** The intercept of the least-squares line. */
  function Intercept(ys: seq<real>): real
    requires |ys| >= 2
  {
    Mean(ys) - Product(Slope(ys), Mean(Indices(|ys|)))
  }

  /** The distance of each value from the line `a + b i`. */
  function Residuals(ys: seq<real>, b: real, a: real): (r: seq<real>)
    ensures |r| == |ys|
    ensures forall i :: 0 <= i < |ys| ==> r[i] == ys[i] - (Product(b, i as real) + a)
  {
    seq(|ys|, i requires 0 <= i < |ys| => ys[i] - (Product(b, i as real) + a))
  }

  /** The coefficient of determination of the fitted line; zero when the
      values do not vary. */
  function RSquared(ys: seq<real>): (r: real)
    requires |ys| >= 2
    ensures r <= 1.0
  {
    var total := SumSqDev(ys, Mean(ys));
    var residual := SumSqDev(Residuals(ys, Slope(ys), Intercept(ys)), 0.0);
    SumSqDevNonNegative(ys, Mean(ys));
    SumSqDevNonNegative(Residuals(ys, Slope(ys), Intercept(ys)), 0.0);
    if total != 0.0 then 1.0 - residual / total else 0.0
  }

  /** Values on a line are fitted exactly: the slope and intercept are the
      line's, and the fit explains everything unless the line is flat. */
  lemma LineFit(ys: seq<real>, a: real, b: real)
    requires |ys| >= 2
    requires forall i :: 0 <= i < |ys| ==> ys[i] == a + b * (i as real)
    ensures Slope(ys) == b && Intercept(ys) == a
    ensures RSquared(ys) == if b == 0.0 then 0.0 else 1.0
  {
    LineSlope(ys, a, b);
    LineMean(ys, a, b);
    LineResiduals(ys, a, b);
    if b == 0.0 {
      forall i | 0 <= i < |ys| ensures ys[i] == a { }
      SumSqDevZeroIff(ys, Mean(ys));
    } else {
      SumSqDevPositive(ys, Mean(ys), 0, 1);
    }
  }

  lemma LineSlope(ys: seq<real>, a: real, b: real)
    requires |ys| >= 2
    requires forall i :: 0 <= i < |ys| ==> ys[i] == a + b * (i as real)
    ensures Slope(ys) == b
  {
    var xs := Indices(|ys|);
    var mx := Mean(xs);
    LineMean(ys, a, b);
    OnIndexLine(ys, xs, a, b);
    SumCrossLinear(xs, ys, mx, Mean(ys), a, b);
    IndexSpreadPositive(|ys|);
    DivProduct(b, IndexSpread(|ys|));
  }

  lemma OnIndexLine(ys: seq<real>, xs: seq<real>, a: real, b: real)
    requires xs == Indices(|ys|)
    requires forall i :: 0 <= i < |ys| ==> ys[i] == a + b * (i as real)
    ensures forall i :: 0 <= i < |xs| ==> ys[i] == a + b * xs[i]
  {
  }

  /** Values on the line leave no residual about it. */
  lemma LineResiduals(ys: seq<real>, a: real, b: real)
    requires forall i :: 0 <= i < |ys| ==> ys[i] == a + b * (i as real)
    ensures SumSqDev(Residuals(ys, b, a), 0.0) == 0.0
  {
    var res := Residuals(ys, b, a);
    forall i | 0 <= i < |ys| ensures res[i] == 0.0 {
      assert Product(b, i as real) == b * (i as real);
    }
    SumSqDevZeroIff(res, 0.0);
  }

  /** The mean of values on the line `a + b i` is the line at the mean
      position. */
  lemma LineMean(ys: seq<real>, a: real, b: real)
    requires |ys| >= 1
    requires forall i :: 0 <= i < |ys| ==> ys[i] == a + b * (i as real)
    ensures Mean(ys) == a + Product(b, Mean(Indices(|ys|)))
  {
    var xs := Indices(|ys|);
    SumLinear(xs, ys, a, b);
    var n := |ys| as real;
    assert Sum(ys) == n * a + b * Sum(xs);
    assert Sum(ys) / n == a + b * (Sum(xs) / n);
  }

  // ---------------------------------------------------------------------
  // Classification of the slope

  datatype Direction = Stable | Increasing | Decreasing | UnknownDirection
  datatype Strength = NoStrength | Weak | Moderate | Strong | UnknownStrength

  datatype Class = Class(direction: Direction, strength: Strength)

  /** The class of a slope given in percent of the mean per step: below 1%
      either way is stable; beyond that the strength is weak up to 5%,
      moderate up to 10% and strong above. */
  function Classify(n: real): (r: Class)
    ensures r.direction == Stable <==> Abs(n) < 1.0
    ensures r.direction == Increasing <==> n >= 1.0
    ensures r.direction == Decreasing <==> n <= -1.0
    ensures r.strength == NoStrength <==> Abs(n) < 1.0
    ensures r.strength == Weak <==> 1.0 <= Abs(n) <= 5.0
    ensures r.strength == Moderate <==> 5.0 < Abs(n) <= 10.0
    ensures r.strength == Strong <==> Abs(n) > 10.0
  {
    if Abs(n) < 1.0 then Class(Stable, NoStrength)
    else if n > 0.0 then
      Class(Increasing, if n > 10.0 then Strong else if n > 5.0 then Moderate else Weak)
    else
      Class(Decreasing, if n < -10.0 then Strong else if n < -5.0 then Moderate else Weak)
  }

  function Opposite(d: Direction): Direction {
    match d
    case Increasing => Decreasing
    case Decreasing => Increasing
    case _ => d
  }

  /** The classification is symmetric: negating the slope flips the
      direction and keeps the strength. */
  lemma ClassifyMirror(n: real)
    ensures Classify(-n) == Class(Opposite(Classify(n).direction), Classify(n).strength)
  {
    assert Abs(-n) == Abs(n);
  }

  function StrengthRank(s: Strength): nat {
    match s
    case NoStrength => 0
    case Weak => 1
    case Moderate => 2
    case Strong => 3
    case UnknownStrength => 0
  }

  /** A steeper slope is never classified weaker. */
  lemma StrengthMonotone(n: real, m: real)
    requires Abs(n) <= Abs(m)
    ensures StrengthRank(Classify(n).strength) <= StrengthRank(Classify(m).strength)
  {
  }

  /** The fitted line of a series of at least three totals, or the
      "unknown" placeholder for a shorter one. */
  datatype Fit = Fit(
    slope: real,
    rSquared: real,
    trend: Class,
    confidence: real,
    normalizedSlope: real)

  /** The slope in percent of the mean per step; zero when the mean is. */
  function NormalizedSlope(ys: seq<real>): real
    requires |ys| >= 2
  {
    if Mean(ys) != 0.0 then Slope(ys) / Mean(ys) * 100.0 else 0.0
  }

  /** The fit's confidence: the explained share in percent, capped at 100. */
  function Confidence(r2: real): (r: real)
    ensures 0.0 <= r <= 100.0 && r <= Abs(r2 * 100.0)
    ensures r == Abs(r2 * 100.0) || r == 100.0
  {
    if Abs(r2 * 100.0) < 100.0 then Abs(r2 * 100.0) else 100.0
  }

  function FitOf(ys: seq<real>): (r: Fit)
    ensures |ys| < 3 ==> r == Fit(0.0, 0.0, Class(UnknownDirection, UnknownStrength), 0.0, 0.0)
    ensures |ys| >= 3 ==> r.trend == Classify(r.normalizedSlope) && r.rSquared <= 1.0
    ensures 0.0 <= r.confidence <= 100.0
  {
    if |ys| < 3 then Fit(0.0, 0.0, Class(UnknownDirection, UnknownStrength), 0.0, 0.0)
    else
      var r2 := RSquared(ys);
      var ns := NormalizedSlope(ys);
      Fit(Slope(ys), r2, Classify(ns), Confidence(r2), ns)
  }

  /** A constant series of at least three totals is stable, with no
      strength and no confidence. */
  lemma ConstantFit(ys: seq<real>, c: real)
    requires |ys| >= 3
    requires forall i :: 0 <= i < |ys| ==> ys[i] == c
    ensures FitOf(ys) == Fit(0.0, 0.0, Class(Stable, NoStrength), 0.0, 0.0)
  {
    forall i | 0 <= i < |ys| ensures ys[i] == c + 0.0 * (i as real) { }
    LineFit(ys, c, 0.0);
  }

  /** Totals that grow by a fixed positive step from a positive start are
      fitted exactly, increasing, with full confidence. */
  lemma RisingLineFit(ys: seq<real>, a: real, b: real)
    requires |ys| >= 3 && a > 0.0 && b > 0.0
    requires forall i :: 0 <= i < |ys| ==> ys[i] == a + b * (i as real)
    ensures FitOf(ys).slope == b && FitOf(ys).rSquared == 1.0 && FitOf(ys).confidence == 100.0
    ensures FitOf(ys).normalizedSlope > 0.0
  {
    LineFit(ys, a, b);
    LineMean(ys, a, b);
    var xs := Indices(|ys|);
    SumNonNegative(xs);
    assert Mean(xs) >= 0.0;
    assert Product(b, Mean(xs)) >= 0.0;
  }

  // ---------------------------------------------------------------------
  // Changes between consecutive totals

  /** The change from `base` to `cur` in percent of `base`; zero for a zero
      base. */
  function ChangePercent(cur: real, base: real): (r: real)
    ensures base != 0.0 ==> base + Product(r, base) / 100.0 == cur
    ensures base == 0.0 ==> r == 0.0
  {
    if base != 0.0 then (cur - base) / base * 100.0 else 0.0
  }

  /** Over a positive base the change is positive, zero or negative as the
      value rose, stayed or fell. */
  lemma ChangeSign(cur: real, base: real)
    requires base > 0.0
    ensures ChangePercent(cur, base) > 0.0 <==> cur > base
    ensures ChangePercent(cur, base) == 0.0 <==> cur == base
  {
    var r := ChangePercent(cur, base);
    assert base + Product(r, base) / 100.0 == cur;
    if r > 0.0 {
      assert Product(r, base) > 0.0;
    } else if r < 0.0 {
      assert Product(r, base) < 0.0;
    }
  }

  /** The step changes that are defined: the change into position `i` for
      every `i >= 1` whose predecessor is nonzero, in order. A change from a
      zero predecessor divides by zero and is dropped, as pandas drops the
      resulting infinities and NaNs. */
  function StepChanges(vs: seq<real>): (r: seq<real>)
    ensures |r| <= |vs|
    ensures |r| == 0 <==> forall i :: 0 <= i < |vs| - 1 ==> vs[i] == 0.0
  {
    if |vs| < 2 then []
    else
      var n := |vs| - 1;
      var init := StepChanges(vs[..n]);
      assert forall i :: 0 <= i < n ==> vs[..n][i] == vs[i];
      if vs[n - 1] != 0.0 then init + [ChangePercent(vs[n], vs[n - 1])] else init
  }

  /** The mean step change, or none when no change is defined. */
  function AverageChange(vs: seq<real>): Option<real> {
    var cs := StepChanges(vs);
    if |cs| == 0 then None else Some(Mean(cs))
  }

  /** Every total from position `k` up to the one before the last is zero. */
  predicate ZeroFrom(vs: seq<real>, k: int) {
    forall j :: 0 <= j && k <= j < |vs| - 1 ==> vs[j] == 0.0
  }

  /** The most recent defined step change, or none when there is none. */
  function LatestChange(vs: seq<real>): (r: Option<real>)
    ensures r.None? <==> forall i :: 0 <= i < |vs| - 1 ==> vs[i] == 0.0
    ensures r.Some? ==>
              exists k :: 1 <= k < |vs| && vs[k - 1] != 0.0 && r.value == ChangePercent(vs[k], vs[k - 1])
                          && ZeroFrom(vs, k)
  {
    if |vs| < 2 then None
    else
      var n := |vs| - 1;
      if vs[n - 1] != 0.0 then Some(ChangePercent(vs[n], vs[n - 1]))
      else
        var prev := LatestChange(vs[..n]);
        assert forall i :: 0 <= i < n ==> vs[..n][i] == vs[i];
        prev
  }

  /** The latest change is the last of the step changes. */
  lemma {:induction false} LatestIsLastStep(vs: seq<real>)
    ensures LatestChange(vs) == if |StepChanges(vs)| == 0 then None
                                else Some(StepChanges(vs)[|StepChanges(vs)| - 1])
  {
    if |vs| >= 2 {
      var n := |vs| - 1;
      if vs[n - 1] == 0.0 {
        assert StepChanges(vs) == StepChanges(vs[..n]);
        assert LatestChange(vs) == LatestChange(vs[..n]);
        LatestIsLastStep(vs[..n]);
      } else {
        var c := ChangePercent(vs[n], vs[n - 1]);
        assert StepChanges(vs) == StepChanges(vs[..n]) + [c];
        assert LatestChange(vs) == Some(c);
      }
    }
  }

  /** The change of the last total against the one before it, once there
      are two. */
  function DayOverDay(vs: seq<real>): (r: Option<real>)
    ensures r.Some? <==> |vs| >= 2
  {
    if |vs| >= 2 then Some(ChangePercent(vs[|vs| - 1], vs[|vs| - 2])) else None
  }

  /** The change of the last total against the seventh from the end, once
      there are seven; with daily totals that point lies six days back. */
  function WeekOverWeek(vs: seq<real>): (r: Option<real>)
    ensures r.Some? <==> |vs| >= 7
  {
    if |vs| >= 7 then Some(ChangePercent(vs[|vs| - 1], vs[|vs| - 7])) else None
  }

  /** Both recent changes relate the latest total to an earlier one: the
      latest total is recovered from the earlier total and the change. */
  lemma RecentChangesInverse(vs: seq<real>)
    ensures DayOverDay(vs).Some? && vs[|vs| - 2] != 0.0 ==>
              vs[|vs| - 2] + Product(DayOverDay(vs).value, vs[|vs| - 2]) / 100.0 == vs[|vs| - 1]
    ensures WeekOverWeek(vs).Some? && vs[|vs| - 7] != 0.0 ==>
              vs[|vs| - 7] + Product(WeekOverWeek(vs).value, vs[|vs| - 7]) / 100.0 == vs[|vs| - 1]
  {
  }

  // ---------------------------------------------------------------------
  // Trend of one series of totals

  /** What the analyzer reports about a series of totals in every mode. */
  datatype TrendCore = TrendCore(
    fit: Fit,
    averageChange: Option<real>,
    minValue: real,
    maxValue: real,
    currentValue: real,
    timepoints: nat)

  function CoreOf(vs: seq<real>): (r: TrendCore)
    requires |vs| > 0
    ensures r.timepoints == |vs| && r.currentValue == vs[|vs| - 1]
    ensures r.minValue <= r.currentValue <= r.maxValue
    ensures r.minValue in vs && r.maxValue in vs
  {
    TrendCore(FitOf(vs), AverageChange(vs), Min(vs), Max(vs), vs[|vs| - 1], |vs|)
  }

  /** The overall trend adds the latest change and the day-over-day and
      week-over-week changes. */
  datatype Trend = Trend(
    core: TrendCore,
    latestChange: real,
    dayOverDay: Option<real>,
    weekOverWeek: Option<real>)

  datatype TrendOutcome =
    | NoData
    | NoEgressData
    | InsufficientData(dataPoints: nat)
    | TrendFailed
    | TrendFound(trend: Trend)

  /** The overall egress trend as the source computes it. With two or more
      timestamps the latest change is the last defined step change; when
      every total but the last is zero there is none, and the lookup
      raises, which the analyzer reports as an error. */
  function OverallTrendAsWritten(rows: seq<Row>, cfg: TrendConfig): (r: TrendOutcome)
    ensures r.NoData? <==> |rows| == 0
    ensures r.NoEgressData? <==> |rows| > 0 && |EgressRows(rows)| == 0
    ensures r.TrendFailed? ==>
              var vs := Totals(EgressRows(rows));
              |vs| >= 2 && forall i :: 0 <= i < |vs| - 1 ==> vs[i] == 0.0
  {
    if |rows| == 0 then NoData
    else
      var eg := EgressRows(rows);
      if |eg| == 0 then NoEgressData
      else
        var vs := Totals(eg);
        TimeAxisNonEmpty(eg);
        if |vs| < cfg.minDataPoints then InsufficientData(|vs|)
        else if |vs| > 1 && LatestChange(vs).None? then TrendFailed
        else
          var latest := if |vs| > 1 then LatestChange(vs).value else 0.0;
          TrendFound(Trend(CoreOf(vs), latest, DayOverDay(vs), WeekOverWeek(vs)))
  }

  /** The trend as written fails exactly for egress with at least two and
      at least the minimum number of timestamps whose totals before the
      last are all zero. */
  lemma OverallTrendFailsExactly(rows: seq<Row>, cfg: TrendConfig)
    ensures var vs := Totals(EgressRows(rows));
            OverallTrendAsWritten(rows, cfg).TrendFailed? <==>
              |EgressRows(rows)| > 0 && |vs| >= 2 && |vs| >= cfg.minDataPoints
              && forall i :: 0 <= i < |vs| - 1 ==> vs[i] == 0.0
  {
  }

  /** The overall egress trend with a missing latest change read as zero,
      as it already is for a single timestamp, so that a series that stayed
      at zero is reported rather than failing. */
  function OverallTrend(rows: seq<Row>, cfg: TrendConfig): (r: TrendOutcome)
    ensures r.NoData? <==> |rows| == 0
    ensures r.NoEgressData? <==> |rows| > 0 && |EgressRows(rows)| == 0
    ensures r.InsufficientData? <==>
              |EgressRows(rows)| > 0 && |TimeAxis(EgressRows(rows))| < cfg.minDataPoints
    ensures r.InsufficientData? ==> r.dataPoints == |TimeAxis(EgressRows(rows))|
    ensures !r.TrendFailed?
    ensures r.TrendFound? ==>
              var vs := Totals(EgressRows(rows));
              r.trend.core == CoreOf(vs)
              && r.trend.dayOverDay == DayOverDay(vs) && r.trend.weekOverWeek == WeekOverWeek(vs)
              && r.trend.latestChange == LatestChange(vs).GetOr(0.0)
  {
    if |rows| == 0 then NoData
    else
      var eg := EgressRows(rows);
      if |eg| == 0 then NoEgressData
      else
        var vs := Totals(eg);
        TimeAxisNonEmpty(eg);
        if |vs| < cfg.minDataPoints then InsufficientData(|vs|)
        else TrendFound(Trend(CoreOf(vs), LatestChange(vs).GetOr(0.0), DayOverDay(vs), WeekOverWeek(vs)))
  }

  /** The two agree everywhere except where the source fails. */
  lemma OverallTrendAgrees(rows: seq<Row>, cfg: TrendConfig)
    ensures !OverallTrendAsWritten(rows, cfg).TrendFailed? ==>
              OverallTrendAsWritten(rows, cfg) == OverallTrend(rows, cfg)
  {
  }

  lemma TimeAxisNonEmpty(rows: seq<Row>)
    requires |rows| > 0
    ensures |TimeAxis(rows)| > 0
  {
    TotalsPartition(rows);
    assert rows[0].timestamp in TimeAxis(rows);
  }

  // ---------------------------------------------------------------------
  // Trends per group

  /** The text columns of the metrics table, which a caller may group by. */
  datatype Column =
    | MetricNameColumn | DisplayNameColumn | UnitColumn | ResourceIdColumn
    | ResourceNameColumn | ResourceGroupColumn | ResourceTypeColumn | LocationColumn

  function ColumnName(c: Column): string {
    match c
    case MetricNameColumn => "metric_name"
    case DisplayNameColumn => "display_name"
    case UnitColumn => "unit"
    case ResourceIdColumn => "resource_id"
    case ResourceNameColumn => "resource_name"
    case ResourceGroupColumn => "resource_group"
    case ResourceTypeColumn => "resource_type"
    case LocationColumn => "location"
  }

  /** The text column called `name`, if the table has one. */
  function ColumnNamed(name: string): (r: Option<Column>)
    ensures r.Some? ==> ColumnName(r.value) == name
  {
    if name == "metric_name" then Some(MetricNameColumn)
    else if name == "display_name" then Some(DisplayNameColumn)
    else if name == "unit" then Some(UnitColumn)
    else if name == "resource_id" then Some(ResourceIdColumn)
    else if name == "resource_name" then Some(ResourceNameColumn)
    else if name == "resource_group" then Some(ResourceGroupColumn)
    else if name == "resource_type" then Some(ResourceTypeColumn)
    else if name == "location" then Some(LocationColumn)
    else None
  }

  /** Every column is found under its own name. */
  lemma ColumnNamedName(c: Column)
    ensures ColumnNamed(ColumnName(c)) == Some(c)
  {
  }

  function Cell(x: Row, c: Column): string {
    match c
    case MetricNameColumn => x.metricName
    case DisplayNameColumn => x.displayName
    case UnitColumn => x.unit
    case ResourceIdColumn => x.resourceId
    case ResourceNameColumn => x.resourceName
    case ResourceGroupColumn => x.resourceGroup
    case ResourceTypeColumn => x.resourceType
    case LocationColumn => x.location
  }

  function Cells(rows: seq<Row>, c: Column): (r: seq<string>)
    ensures |r| == |rows| && forall i :: 0 <= i < |rows| ==> r[i] == Cell(rows[i], c)
  {
    seq(|rows|, i requires 0 <= i < |rows| => Cell(rows[i], c))
  }

  /** The rows whose cell in column `c` is `v`, in their original order. */
  function GroupRows(rows: seq<Row>, c: Column, v: string): seq<Row> {
    if |rows| == 0 then []
    else
      var init := GroupRows(rows[..|rows| - 1], c, v);
      var x := rows[|rows| - 1];
      if Cell(x, c) == v then init + [x] else init
  }

  /** How the analysis of one group ends. */
  datatype GroupTrend =
    | GroupInsufficient(dataPoints: nat)
    | GroupFailed
    | GroupFound(core: TrendCore)

  /** The trend of one group's rows: the totals per timestamp are fitted as
      for the overall trend, without the recent changes. A group with no
      totals at all can only be reached with a minimum of zero points, and
      then reading its current value fails. */
  function SingleGroupTrend(rows: seq<Row>, cfg: TrendConfig): (r: GroupTrend)
    ensures r.GroupInsufficient? <==> |TimeAxis(rows)| < cfg.minDataPoints
    ensures r.GroupInsufficient? ==> r.dataPoints == |TimeAxis(rows)|
    ensures r.GroupFailed? <==> |rows| == 0 && cfg.minDataPoints <= 0
    ensures r.GroupFound? ==> r.core.timepoints == |TimeAxis(rows)| >= cfg.minDataPoints
  {
    var vs := Totals(rows);
    if |vs| < cfg.minDataPoints then GroupInsufficient(|vs|)
    else if |vs| == 0 then
      assert |Keys(Timestamps(rows))| == 0;
      GroupFailed
    else GroupFound(CoreOf(vs))
  }

  /** The successful group trends over the group values `us`, skipping the
      empty value; `outcome` analyses the group with a given value. */
  function GroupTrends(us: seq<string>, outcome: string -> GroupTrend): (r: map<string, TrendCore>)
    ensures forall k :: k in r <==> k in us && k != "" && outcome(k).GroupFound?
    ensures forall k :: k in r ==> r[k] == outcome(k).core
  {
    if |us| == 0 then map[]
    else
      var n := |us| - 1;
      var m := GroupTrends(us[..n], outcome);
      var u := us[n];
      assert us == us[..n] + [u];
      if u == "" then m
      else match outcome(u)
        case GroupFound(core) => m[u := core]
        case _ => m
  }

  /** The trend of every group of egress rows by column `name`; a name
      that is not a column of the table reports nothing. */
  function TrendsByGroup(rows: seq<Row>, name: string, cfg: TrendConfig): (r: map<string, TrendCore>)
    ensures ColumnNamed(name).None? ==> r == map[]
    ensures ColumnNamed(name).Some? ==> r == ColumnTrends(EgressRows(rows), ColumnNamed(name).value, cfg)
  {
    var eg := EgressRows(rows);
    if |rows| == 0 || |eg| == 0 then
      NoColumnTrends(eg, ColumnNamed(name), cfg);
      map[]
    else match ColumnNamed(name)
      case None => map[]
      case Some(c) => ColumnTrends(eg, c, cfg)
  }

  /** Without rows there are no groups. */
  lemma NoColumnTrends(eg: seq<Row>, c: Option<Column>, cfg: TrendConfig)
    requires |eg| == 0
    ensures c.Some? ==> ColumnTrends(eg, c.value, cfg) == map[]
  {
  }

  /** The successful trends of the groups of `eg` by column `c`, visiting
      every distinct value once. */
  function ColumnTrends(eg: seq<Row>, c: Column, cfg: TrendConfig): (r: map<string, TrendCore>)
    ensures forall k :: k in r <==>
              k != "" && k in Cells(eg, c) && SingleGroupTrend(GroupRows(eg, c, k), cfg).GroupFound?
    ensures forall k :: k in r ==> r[k] == SingleGroupTrend(GroupRows(eg, c, k), cfg).core
    ensures |eg| == 0 ==> r == map[]
  {
    var cs := Cells(eg, c);
    assert forall k :: k in Keys(cs) <==> k in cs;
    GroupTrends(Keys(cs), k => SingleGroupTrend(GroupRows(eg, c, k), cfg))
  }

  /** A group's values add up to the sum of the values under its key. */
  lemma {:induction false} GroupSum(rows: seq<Row>, c: Column, v: string)
    ensures Sum(Values(GroupRows(rows, c, v))) == SumWhere(Cells(rows, c), Values(rows), v)
  {
    if |rows| > 0 {
      var n := |rows| - 1;
      var x := rows[n];
      var init := GroupRows(rows[..n], c, v);
      GroupSum(rows[..n], c, v);
      assert Cells(rows, c)[..n] == Cells(rows[..n], c);
      assert Values(rows)[..n] == Values(rows[..n]);
      assert Cells(rows, c)[n] == Cell(x, c) && Values(rows)[n] == x.value;
      assert SumWhere(Cells(rows, c), Values(rows), v)
             == SumWhere(Cells(rows[..n], c), Values(rows[..n]), v) + (if Cell(x, c) == v then x.value else 0.0);
      if Cell(x, c) == v {
        ValuesSnoc(init, x);
        assert GroupRows(rows, c, v) == init + [x];
      } else {
        assert GroupRows(rows, c, v) == init;
      }
    }
  }

  /** The per-timestamp totals of the groups with values `us`, added up. */
  function GroupTotal(eg: seq<Row>, c: Column, us: seq<string>): real {
    if |us| == 0 then 0.0
    else GroupTotal(eg, c, us[..|us| - 1]) + Sum(Totals(GroupRows(eg, c, us[|us| - 1])))
  }

  lemma {:induction false} GroupTotalOver(eg: seq<Row>, c: Column, us: seq<string>)
    ensures GroupTotal(eg, c, us) == TotalOver(us, Cells(eg, c), Values(eg))
  {
    if |us| > 0 {
      var n := |us| - 1;
      GroupTotalOver(eg, c, us[..n]);
      TotalsPartition(GroupRows(eg, c, us[n]));
      GroupSum(eg, c, us[n]);
    }
  }

  /** Grouping keeps every egress row: the totals of all groups add up to
      the overall totals. */
  lemma GroupsPartitionTotals(rows: seq<Row>, c: Column)
    ensures var eg := EgressRows(rows);
            GroupTotal(eg, c, Keys(Cells(eg, c))) == Sum(Totals(eg))
  {
    var eg := EgressRows(rows);
    GroupTotalOver(eg, c, Keys(Cells(eg, c)));
    GroupSumsTotal(Cells(eg, c), Values(eg));
    TotalsPartition(eg);
  }

  /** A group holds exactly the rows with its value, in order. */
  lemma {:induction false} GroupRowsMembers(rows: seq<Row>, c: Column, v: string)
    ensures forall x :: x in GroupRows(rows, c, v) <==> x in rows && Cell(x, c) == v
  {
    if |rows| > 0 {
      var n := |rows| - 1;
      GroupRowsMembers(rows[..n], c, v);
      assert rows == rows[..n] + [rows[n]];
    }
  }

  lemma {:induction false} GroupRowsAll(rows: seq<Row>, c: Column, v: string)
    requires forall i :: 0 <= i < |rows| ==> Cell(rows[i], c) == v
    ensures GroupRows(rows, c, v) == rows
  {
    if |rows| > 0 {
      var n := |rows| - 1;
      GroupRowsAll(rows[..n], c, v);
      assert rows == rows[..n] + [rows[n]];
    }
  }

  /** When every egress row belongs to one nonempty group with enough
      timestamps, the trends by group hold exactly that group, with the core
      the overall trend reports. */
  lemma SingleGroupIsOverall(rows: seq<Row>, name: string, c: Column, k: string, cfg: TrendConfig)
    requires ColumnNamed(name) == Some(c)
    requires k != "" && forall i :: 0 <= i < |EgressRows(rows)| ==> Cell(EgressRows(rows)[i], c) == k
    requires |EgressRows(rows)| > 0 && |TimeAxis(EgressRows(rows))| >= cfg.minDataPoints
    ensures TrendsByGroup(rows, name, cfg) == map[k := CoreOf(Totals(EgressRows(rows)))]
  {
    var eg := EgressRows(rows);
    GroupRowsAll(eg, c, k);
    SingleGroupFound(eg, cfg);
    OneGroupTrends(eg, c, k, cfg);
  }

  lemma SingleGroupFound(rows: seq<Row>, cfg: TrendConfig)
    requires |rows| > 0 && |TimeAxis(rows)| >= cfg.minDataPoints
    ensures SingleGroupTrend(rows, cfg) == GroupFound(CoreOf(Totals(rows)))
  {
  }

  lemma OneGroupTrends(eg: seq<Row>, c: Column, k: string, cfg: TrendConfig)
    requires k != "" && |eg| > 0 && forall i :: 0 <= i < |eg| ==> Cell(eg[i], c) == k
    requires SingleGroupTrend(GroupRows(eg, c, k), cfg).GroupFound?
    ensures ColumnTrends(eg, c, cfg) == map[k := SingleGroupTrend(GroupRows(eg, c, k), cfg).core]
  {
    KeysConstant(Cells(eg, c), k);
    GroupTrendsOne(k, j => SingleGroupTrend(GroupRows(eg, c, j), cfg));
  }

  lemma GroupTrendsOne(k: string, outcome: string -> GroupTrend)
    requires k != "" && outcome(k).GroupFound?
    ensures GroupTrends([k], outcome) == map[k := outcome(k).core]
  {
    assert [k][..0] == [];
  }

  /** Rows that all carry the value zero total zero at every timestamp. */
  lemma ZeroTotals(rows: seq<Row>)
    requires forall x :: x in rows ==> x.value == 0.0
    ensures forall j :: 0 <= j < |Totals(rows)| ==> Totals(rows)[j] == 0.0
  {
    var vs := Values(rows);
    forall i | 0 <= i < |vs| ensures vs[i] == 0.0 {
      assert rows[i] in rows;
    }
    forall j | 0 <= j < |Totals(rows)| ensures Totals(rows)[j] == 0.0 {
      SumWhereZero(Timestamps(rows), vs, TimeAxis(rows)[j]);
    }
  }

  /** Egress traffic that stayed at zero over enough timestamps makes the
      source fail: every step change divides by zero, so there is no latest
      change to look up. */
  lemma FlatZeroFails(rows: seq<Row>, cfg: TrendConfig)
    requires forall x :: x in rows ==> x.value == 0.0
    requires |TimeAxis(EgressRows(rows))| >= 2 && |TimeAxis(EgressRows(rows))| >= cfg.minDataPoints
    ensures OverallTrendAsWritten(rows, cfg) == TrendFailed
  {
    var eg := EgressRows(rows);
    assert |Keys(Timestamps(eg))| <= |eg|;
    ZeroTotals(eg);
  }

  /** The corrected analysis reports the same traffic as a stable trend with
      no strength and a latest change of zero. */
  lemma FlatZeroStable(rows: seq<Row>, cfg: TrendConfig)
    requires forall x :: x in rows ==> x.value == 0.0
    requires |TimeAxis(EgressRows(rows))| >= 3 && |TimeAxis(EgressRows(rows))| >= cfg.minDataPoints
    ensures OverallTrend(rows, cfg).TrendFound?
    ensures OverallTrend(rows, cfg).trend.core.fit.trend == Class(Stable, NoStrength)
    ensures OverallTrend(rows, cfg).trend.latestChange == 0.0
  {
    var eg := EgressRows(rows);
    assert |Keys(Timestamps(eg))| <= |eg|;
    ZeroTotals(eg);
    var vs := Totals(eg);
    ConstantFit(vs, 0.0);
    assert LatestChange(vs).None?;
    assert OverallTrend(rows, cfg).trend.core == CoreOf(vs);
  }

  /** Zero outbound traffic at three consecutive timestamps makes the source
      fail. */
  lemma ZeroTrafficFails(t: int)
    ensures OverallTrendAsWritten(ZeroTraffic(t), DefaultTrendConfig) == TrendFailed
  {
    ZeroTrafficAxis(t);
    FlatZeroFails(ZeroTraffic(t), DefaultTrendConfig);
  }

  /** The corrected analysis reports it as a stable trend. */
  lemma ZeroTrafficStable(t: int)
    ensures OverallTrend(ZeroTraffic(t), DefaultTrendConfig).TrendFound?
    ensures OverallTrend(ZeroTraffic(t), DefaultTrendConfig).trend.core.fit.trend == Class(Stable, NoStrength)
  {
    ZeroTrafficAxis(t);
    FlatZeroStable(ZeroTraffic(t), DefaultTrendConfig);
  }

  lemma ZeroTrafficAxis(t: int)
    ensures |TimeAxis(EgressRows(ZeroTraffic(t)))| == 3
    ensures forall x :: x in ZeroTraffic(t) ==> x.value == 0.0
  {
    ThreeStamps(t);
    ZeroTrafficValues(t);
  }

  lemma ZeroTrafficValues(t: int)
    ensures forall x :: x in ZeroTraffic(t) ==> x.value == 0.0
  {
  }

  lemma ThreeStamps(t: int)
    ensures |TimeAxis(EgressRows(ZeroTraffic(t)))| == 3
  {
    var rows := ZeroTraffic(t);
    ZeroTrafficEgress(t);
    var ts := Timestamps(rows);
    assert ts == [t, t + 1, t + 2] by {
      assert |ts| == 3 && ts[0] == t && ts[1] == t + 1 && ts[2] == t + 2;
    }
    ConsecutiveKeys(ts, t);
  }

  lemma ConsecutiveKeys(ts: seq<int>, t: int)
    requires ts == [t, t + 1, t + 2]
    ensures |SortedKeys(ts)| == 3
  {
    assert Distinct(ts);
    DistinctKeys(ts);
  }

  lemma ZeroTrafficEgress(t: int)
    ensures EgressRows(ZeroTraffic(t)) == ZeroTraffic(t)
  {
    var rows := ZeroTraffic(t);
    OutIsEgress("out", 0);
    assert forall x :: x in rows ==> x.metricName == "out";
    AllEgress(rows);
  }

  /** Three rows of an outbound metric at `t`, `t + 1` and `t + 2`, each
      with the value zero. */
  function ZeroTraffic(t: int): seq<Row> {
    [ZeroRow(t), ZeroRow(t + 1), ZeroRow(t + 2)]
  }

  function ZeroRow(t: int): Row {
    Row(t, 0.0, "vm", "vm", "vm", "rg", "eu", "out", "out", "B")
  }
}

=== FILE: trend_patterns.dfy ===
/** Weekly and hourly seasonality of egress traffic: the egress rows are
    bucketed by day of the week or hour of the day, every bucket (a slot) is
    averaged, and the slots whose average lies well above or below the mean
    of the slot averages are reported, together with the difference between
    two sides of the week or of the day. The day or hour of a timestamp is
    given by the caller. */
module TrendPatterns {
  import opened Common
  import opened Stats
  import opened Grouping
  import opened Samples
  import TrendAnalysis

  /** What sets the weekly and the hourly analysis apart: the least number
      of distinct slots, the slots of the base side that the other side is
      compared with, and the difference in percent beyond which the two
      sides alone make a pattern. */
  datatype Rule = Rule(minSlots: int, inBase: int -> bool, threshold: real)

  /** Days of the week, Monday 0: the base side is the working week and the
      other side the weekend. */
  const WeeklyRule: Rule := Rule(3, d => d < 5, 15.0)

  /** Hours of the day: the base side is the hours outside business hours
      and the other side the business hours from 9:00 to 17:00. */
  const HourlyRule: Rule := Rule(6, h => !BusinessHour(h), 20.0)

  predicate BusinessHour(h: int) {
    9 <= h < 17
  }

  /** How a slot average is compared with a threshold. */
  datatype Bound = AtLeast | AtMost | Above | Below

  predicate Meets(b: Bound, x: real, t: real) {
    match b
    case AtLeast => x >= t
    case AtMost => x <= t
    case Above => x > t
    case Below => x < t
  }

  /** The source marks a peak at or above 120% of the mean of the slot
      averages and a low at or below 80%; its comments describe both as
      strict. `strict` selects the comparisons the comments describe. */
  function PeakBound(strict: bool): Bound {
    if strict then Above else AtLeast
  }

  function LowBound(strict: bool): Bound {
    if strict then Below else AtMost
  }

  // ---------------------------------------------------------------------
  // Slots and their averages

  /** The slot of every row. */
  function Slots(rows: seq<Row>, slotOf: int -> int): (r: seq<int>)
    ensures |r| == |rows| && forall i :: 0 <= i < |rows| ==> r[i] == slotOf(rows[i].timestamp)
  {
    seq(|rows|, i requires 0 <= i < |rows| => slotOf(rows[i].timestamp))
  }

  /** The mean value of the rows in slot `k`. */
  function SlotMean(ss: seq<int>, vs: seq<real>, k: int): real
    requires |ss| == |vs| && k in ss
  {
    SumWhere(ss, vs, k) / CountWhere(ss, k) as real
  }

  /** The values of slot `k` add up to their number times a value they all
      share. */
  lemma {:induction false} SumWhereConstant(ss: seq<int>, vs: seq<real>, k: int, c: real)
    requires |ss| == |vs| && forall i :: 0 <= i < |ss| && ss[i] == k ==> vs[i] == c
    ensures SumWhere(ss, vs, k) == Product(CountWhere(ss, k) as real, c)
  {
    if |ss| > 0 {
      var n := |ss| - 1;
      assert forall i :: 0 <= i < n ==> ss[..n][i] == ss[i] && vs[..n][i] == vs[i];
      SumWhereConstant(ss[..n], vs[..n], k, c);
      var m := CountWhere(ss[..n], k) as real;
      if ss[n] == k {
        assert CountWhere(ss, k) as real == m + 1.0;
        ProductStep(m, c);
      } else {
        assert CountWhere(ss, k) as real == m;
      }
    }
  }

  /** A slot whose rows all carry the same value averages to that value. */
  lemma SlotMeanConstant(ss: seq<int>, vs: seq<real>, k: int, c: real)
    requires |ss| == |vs| && k in ss
    requires forall i :: 0 <= i < |ss| && ss[i] == k ==> vs[i] == c
    ensures SlotMean(ss, vs, k) == c
  {
    SumWhereConstant(ss, vs, k, c);
    var n := CountWhere(ss, k) as real;
    assert Product(n, c) == Product(c, n);
    DivProduct(c, n);
  }

  /** The average of every slot in `keys`, in the same order. */
  function SlotMeans(ss: seq<int>, vs: seq<real>, keys: seq<int>): seq<real>
    requires |ss| == |vs| && forall k :: k in keys ==> k in ss
  {
    seq(|keys|, i requires 0 <= i < |keys| => SlotMean(ss, vs, keys[i]))
  }

  /** The slots, in the order of `keys`, whose average meets bound `b`
      against `t`. */
  function Select(keys: seq<int>, means: seq<real>, b: Bound, t: real): seq<int>
    requires |keys| == |means|
  {
    if |keys| == 0 then []
    else
      var n := |keys| - 1;
      var init := Select(keys[..n], means[..n], b, t);
      if Meets(b, means[n], t) then init + [keys[n]] else init
  }

  /** When the average of slot `k` is `m` wherever `k` appears, `k` is
      selected exactly when it is present and `m` meets the bound. */
  lemma {:induction false} SelectByKey(keys: seq<int>, means: seq<real>, b: Bound, t: real, k: int, m: real)
    requires |keys| == |means| && forall i :: 0 <= i < |keys| && keys[i] == k ==> means[i] == m
    ensures k in Select(keys, means, b, t) <==> k in keys && Meets(b, m, t)
  {
    if |keys| > 0 {
      var n := |keys| - 1;
      assert forall i :: 0 <= i < n ==> keys[..n][i] == keys[i] && means[..n][i] == means[i];
      SelectByKey(keys[..n], means[..n], b, t, k, m);
      assert keys == keys[..n] + [keys[n]];
    }
  }

  // ---------------------------------------------------------------------
  // The two sides of the week or the day

  /** The values of the rows on the base side (`base`) or on the other side
      (`!base`), in order. */
  function Side(ss: seq<int>, vs: seq<real>, inBase: int -> bool, base: bool): seq<real>
    requires |ss| == |vs|
  {
    if |ss| == 0 then []
    else
      var n := |ss| - 1;
      var init := Side(ss[..n], vs[..n], inBase, base);
      if inBase(ss[n]) == base then init + [vs[n]] else init
  }

  /** The two sides split the rows: together they hold every row once, and
      their sums add up to the sum of all values. */
  lemma {:induction false} SidesPartition(ss: seq<int>, vs: seq<real>, inBase: int -> bool)
    requires |ss| == |vs|
    ensures |Side(ss, vs, inBase, true)| + |Side(ss, vs, inBase, false)| == |vs|
    ensures Sum(Side(ss, vs, inBase, true)) + Sum(Side(ss, vs, inBase, false)) == Sum(vs)
  {
    if |ss| > 0 {
      var n := |ss| - 1;
      SidesPartition(ss[..n], vs[..n], inBase);
      var t := Side(ss[..n], vs[..n], inBase, true);
      var f := Side(ss[..n], vs[..n], inBase, false);
      assert (t + [vs[n]])[..|t|] == t;
      assert (f + [vs[n]])[..|f|] == f;
      assert vs[..n] + [vs[n]] == vs;
    }
  }

  /** The other side of one split is the base side of the complementary
      split. */
  lemma {:induction false} SideComplement(ss: seq<int>, vs: seq<real>, p: int -> bool, q: int -> bool)
    requires |ss| == |vs| && forall i :: 0 <= i < |ss| ==> q(ss[i]) == !p(ss[i])
    ensures Side(ss, vs, p, false) == Side(ss, vs, q, true)
  {
    if |ss| > 0 {
      var n := |ss| - 1;
      assert forall i :: 0 <= i < n ==> ss[..n][i] == ss[i];
      SideComplement(ss[..n], vs[..n], p, q);
    }
  }

  /** pandas `mean()`, with none for no rows. */
  function MeanOf(xs: seq<real>): (r: Option<real>)
    ensures r.None? <==> |xs| == 0
  {
    if |xs| == 0 then None else Some(Mean(xs))
  }

  /** The other side's average against the base side's, in percent of the
      base: zero unless the base average is positive, and undefined when the
      other side has no rows. */
  function PercentDiff(base: Option<real>, other: Option<real>): (r: Option<real>)
    ensures !(base.Some? && base.value > 0.0) ==> r == Some(0.0)
    ensures base.Some? && base.value > 0.0 ==> (r.Some? <==> other.Some?)
    ensures base.Some? && base.value > 0.0 && other.Some? ==>
              base.value + Product(r.value, base.value) / 100.0 == other.value
  {
    match base
    case Some(b) =>
      if b > 0.0 then
        match other
        case Some(o) => Some(TrendAnalysis.ChangePercent(o, b))
        case None => None
      else Some(0.0)
    case None => Some(0.0)
  }

  /** A slot average in percent of the overall average, or zero when the
      overall average is zero. */
  function Share(average: real, overall: real): (r: real)
    ensures overall != 0.0 ==> Product(r, overall) == average * 100.0
    ensures overall == 0.0 ==> r == 0.0
  {
    if overall != 0.0 then average / overall * 100.0 else 0.0
  }

  // ---------------------------------------------------------------------
  // Pattern detection

  datatype SlotStat = SlotStat(slot: int, average: real, percentOfOverall: real)

  datatype Pattern = Pattern(
    hasPattern: bool,
    peaks: seq<int>,
    lows: seq<int>,
    baseAverage: Option<real>,
    otherAverage: Option<real>,
    percentDiff: Option<real>,
    stats: seq<SlotStat>)

  datatype PatternOutcome =
    | NoData
    | NoEgressData
    | InsufficientData(slotsAvailable: nat)
    | PatternFound(pattern: Pattern)
    | PatternError

  /** The distinct slots of the egress rows, in increasing order. */
  function SlotKeys(eg: seq<Row>, slotOf: int -> int): seq<int>
  {
    SortedKeys(Slots(eg, slotOf))
  }

  /** The slots present, each once. */
  lemma SlotKeysMembers(eg: seq<Row>, slotOf: int -> int)
    ensures forall k :: k in SlotKeys(eg, slotOf) <==> k in Slots(eg, slotOf)
    ensures Distinct(SlotKeys(eg, slotOf))
  {
    SortedKeysIncreasing(Slots(eg, slotOf));
  }

  function Means(eg: seq<Row>, slotOf: int -> int): (r: seq<real>)
    ensures |r| == |SlotKeys(eg, slotOf)|
  {
    SlotKeysMembers(eg, slotOf);
    SlotMeans(Slots(eg, slotOf), Values(eg), SlotKeys(eg, slotOf))
  }

  /** The mean of the slot averages. */
  function Overall(eg: seq<Row>, slotOf: int -> int): real
    requires |eg| > 0
  {
    SlotKeysMembers(eg, slotOf);
    assert Slots(eg, slotOf)[0] in SlotKeys(eg, slotOf);
    Mean(Means(eg, slotOf))
  }

  /** The pattern of nonempty egress rows. */
  function Analyze(eg: seq<Row>, slotOf: int -> int, rule: Rule, strict: bool): Pattern
    requires |eg| > 0
  {
    Judge(Slots(eg, slotOf), Values(eg), SlotKeys(eg, slotOf), Means(eg, slotOf), Overall(eg, slotOf), rule, strict)
  }

  /** The pattern of the values `vs` in slots `ss`, given the distinct slots
      `keys`, their averages `means` and the mean `overall` of those. */
  function Judge(ss: seq<int>, vs: seq<real>, keys: seq<int>, means: seq<real>, overall: real,
                 rule: Rule, strict: bool): (r: Pattern)
    requires |ss| == |vs| && |keys| == |means|
    ensures r.hasPattern <==>
              |r.peaks| > 0 || |r.lows| > 0 || (r.percentDiff.Some? && Abs(r.percentDiff.value) > rule.threshold)
    ensures r.percentDiff == PercentDiff(r.baseAverage, r.otherAverage)
    ensures |r.stats| == |keys|
  {
    var peaks := Select(keys, means, PeakBound(strict), overall * 1.2);
    var lows := Select(keys, means, LowBound(strict), overall * 0.8);
    var baseAverage := MeanOf(Side(ss, vs, rule.inBase, true));
    var otherAverage := MeanOf(Side(ss, vs, rule.inBase, false));
    var diff := PercentDiff(baseAverage, otherAverage);
    var stats := seq(|keys|, i requires 0 <= i < |keys| => SlotStat(keys[i], means[i], Share(means[i], overall)));
    Pattern(|peaks| > 0 || |lows| > 0 || (diff.Some? && Abs(diff.value) > rule.threshold),
            peaks, lows, baseAverage, otherAverage, diff, stats)
  }

  /** The analysis of a table under a rule. */
  function PatternOf(rows: seq<Row>, slotOf: int -> int, rule: Rule, strict: bool): (r: PatternOutcome)
    ensures r.NoData? <==> |rows| == 0
    ensures r.NoEgressData? <==> |rows| > 0 && |EgressRows(rows)| == 0
    ensures r.InsufficientData? <==>
              |EgressRows(rows)| > 0 && |SlotKeys(EgressRows(rows), slotOf)| < rule.minSlots
    ensures r.InsufficientData? ==> r.slotsAvailable == |SlotKeys(EgressRows(rows), slotOf)|
    ensures r.PatternFound? ==> r.pattern == Analyze(EgressRows(rows), slotOf, rule, strict)
  {
    if |rows| == 0 then NoData
    else
      var eg := EgressRows(rows);
      if |eg| == 0 then NoEgressData
      else
        var keys := SlotKeys(eg, slotOf);
        if |keys| < rule.minSlots then InsufficientData(|keys|)
        else PatternFound(Analyze(eg, slotOf, rule, strict))
  }

  /** Weekly patterns as the source computes them; `dayOf` gives the day of
      the week of a timestamp, Monday 0. Once three days are present the
      per-day loop reads each day back from a row of the table of day
      averages; that row holds an integer and a float column, so pandas
      hands the day back as a float, and indexing the list of day names
      with a float raises a TypeError, which the handler reports as an
      error. */
  function WeeklyPatternsAsWritten(rows: seq<Row>, dayOf: int -> int): (r: PatternOutcome)
    ensures r.InsufficientData? <==> |EgressRows(rows)| > 0 && |SlotKeys(EgressRows(rows), dayOf)| < 3
    ensures !r.PatternFound?
    ensures r.PatternError? <==> |EgressRows(rows)| > 0 && |SlotKeys(EgressRows(rows), dayOf)| >= 3
  {
    var o := PatternOf(rows, dayOf, WeeklyRule, false);
    if o.PatternFound? then PatternError else o
  }

  /** Weekly patterns as evidently intended: the day names looked up with
      whole days and the strict comparisons the source's comments
      describe. Every table with egress rows on three days or more is
      analysed, and none ends in an error. */
  function WeeklyPatterns(rows: seq<Row>, dayOf: int -> int): (r: PatternOutcome)
    ensures r.InsufficientData? <==> |EgressRows(rows)| > 0 && |SlotKeys(EgressRows(rows), dayOf)| < 3
    ensures !r.PatternError?
    ensures r.PatternFound? <==> |EgressRows(rows)| > 0 && |SlotKeys(EgressRows(rows), dayOf)| >= 3
  {
    PatternOf(rows, dayOf, WeeklyRule, true)
  }

  /** Hourly patterns as the source computes them; `hourOf` gives the hour
      of the day of a timestamp. */
  function HourlyPatternsAsWritten(rows: seq<Row>, hourOf: int -> int): (r: PatternOutcome)
    ensures r.InsufficientData? <==> |EgressRows(rows)| > 0 && |SlotKeys(EgressRows(rows), hourOf)| < 6
    ensures !r.PatternError?
    ensures r.PatternFound? <==> |EgressRows(rows)| > 0 && |SlotKeys(EgressRows(rows), hourOf)| >= 6
  {
    PatternOf(rows, hourOf, HourlyRule, false)
  }

  /** Hourly patterns with the strict comparisons the source's comments
      describe. */
  function HourlyPatterns(rows: seq<Row>, hourOf: int -> int): (r: PatternOutcome)
    ensures r.InsufficientData? <==> |EgressRows(rows)| > 0 && |SlotKeys(EgressRows(rows), hourOf)| < 6
    ensures !r.PatternError?
    ensures r.PatternFound? <==> |EgressRows(rows)| > 0 && |SlotKeys(EgressRows(rows), hourOf)| >= 6
  {
    PatternOf(rows, hourOf, HourlyRule, true)
  }

  // ---------------------------------------------------------------------
  // Properties

  /** Selecting among the slot averages picks a slot exactly when it is
      present and its own average meets the bound. */
  lemma SelectSlot(keys: seq<int>, b: Bound, t: real, ss: seq<int>, vs: seq<real>, k: int)
    requires |ss| == |vs| && forall j :: j in keys <==> j in ss
    ensures k in Select(keys, SlotMeans(ss, vs, keys), b, t) <==> k in ss && Meets(b, SlotMean(ss, vs, k), t)
  {
    var means := SlotMeans(ss, vs, keys);
    if k in ss {
      SelectByKey(keys, means, b, t, k, SlotMean(ss, vs, k));
    } else {
      SelectByKey(keys, means, b, t, k, 0.0);
    }
  }

  /** A slot is a peak exactly when its average meets the peak bound against
      120% of the overall mean, and a low exactly when it meets the low bound
      against 80%; against a positive mean (or a mean of zero, under the
      strict comparisons) no slot is both. */
  lemma PeaksAndLows(ss: seq<int>, vs: seq<real>, keys: seq<int>, o: real, rule: Rule, strict: bool, k: int)
    requires |ss| == |vs| && forall j :: j in keys <==> j in ss
    ensures var p := Judge(ss, vs, keys, SlotMeans(ss, vs, keys), o, rule, strict);
            && (k in p.peaks <==> k in ss && Meets(PeakBound(strict), SlotMean(ss, vs, k), o * 1.2))
            && (k in p.lows <==> k in ss && Meets(LowBound(strict), SlotMean(ss, vs, k), o * 0.8))
            && (o > 0.0 || (strict && o >= 0.0) ==> !(k in p.peaks && k in p.lows))
  {
    SelectSlot(keys, PeakBound(strict), o * 1.2, ss, vs, k);
    SelectSlot(keys, LowBound(strict), o * 0.8, ss, vs, k);
  }

  /** The analysis of egress rows judges their slots, slot averages and
      overall mean. */
  lemma AnalyzeJudges(eg: seq<Row>, slotOf: int -> int, rule: Rule, strict: bool)
    requires |eg| > 0
    ensures forall j :: j in SlotKeys(eg, slotOf) <==> j in Slots(eg, slotOf)
    ensures Analyze(eg, slotOf, rule, strict)
            == Judge(Slots(eg, slotOf), Values(eg), SlotKeys(eg, slotOf),
                     SlotMeans(Slots(eg, slotOf), Values(eg), SlotKeys(eg, slotOf)),
                     Overall(eg, slotOf), rule, strict)
  {
    SlotKeysMembers(eg, slotOf);
  }

  lemma {:induction false} SelectAll(keys: seq<int>, means: seq<real>, b: Bound, t: real)
    requires |keys| == |means| && forall i :: 0 <= i < |keys| ==> Meets(b, means[i], t)
    ensures Select(keys, means, b, t) == keys
  {
    if |keys| > 0 {
      var n := |keys| - 1;
      assert forall i :: 0 <= i < n ==> means[..n][i] == means[i];
      SelectAll(keys[..n], means[..n], b, t);
      assert keys == keys[..n] + [keys[n]];
    }
  }

  lemma {:induction false} SelectNone(keys: seq<int>, means: seq<real>, b: Bound, t: real)
    requires |keys| == |means| && forall i :: 0 <= i < |keys| ==> !Meets(b, means[i], t)
    ensures Select(keys, means, b, t) == []
  {
    if |keys| > 0 {
      var n := |keys| - 1;
      assert forall i :: 0 <= i < n ==> means[..n][i] == means[i];
      SelectNone(keys[..n], means[..n], b, t);
    }
  }

  lemma {:induction false} SideZero(ss: seq<int>, vs: seq<real>, inBase: int -> bool, base: bool)
    requires |ss| == |vs| && forall i :: 0 <= i < |vs| ==> vs[i] == 0.0
    ensures forall j :: 0 <= j < |Side(ss, vs, inBase, base)| ==> Side(ss, vs, inBase, base)[j] == 0.0
  {
    if |ss| > 0 {
      var n := |ss| - 1;
      SideZero(ss[..n], vs[..n], inBase, base);
    }
  }

  /** Zero traffic averages to zero in every slot and overall. */
  lemma FlatZeroMeans(eg: seq<Row>, slotOf: int -> int)
    requires |eg| > 0 && forall i :: 0 <= i < |eg| ==> eg[i].value == 0.0
    ensures forall i :: 0 <= i < |Means(eg, slotOf)| ==> Means(eg, slotOf)[i] == 0.0
    ensures Overall(eg, slotOf) == 0.0
  {
    var ss := Slots(eg, slotOf);
    var vs := Values(eg);
    var keys := SlotKeys(eg, slotOf);
    var means := Means(eg, slotOf);
    SlotKeysMembers(eg, slotOf);
    forall i | 0 <= i < |means| ensures means[i] == 0.0 {
      SlotMeanConstant(ss, vs, keys[i], 0.0);
    }
    assert ss[0] in keys;
    MeanConstant(means, 0.0);
  }

  /** As written, slot averages that are all zero make every slot both a
      peak and a low, so a pattern is reported. */
  lemma FlatZeroAsWritten(ss: seq<int>, vs: seq<real>, keys: seq<int>, means: seq<real>, o: real, rule: Rule)
    requires |ss| == |vs| && |keys| == |means| > 0
    requires o == 0.0 && forall i :: 0 <= i < |means| ==> means[i] == 0.0
    ensures var p := Judge(ss, vs, keys, means, o, rule, false);
            p.peaks == keys && p.lows == keys && p.hasPattern
  {
    SelectAll(keys, means, PeakBound(false), o * 1.2);
    SelectAll(keys, means, LowBound(false), o * 0.8);
  }

  /** With the strict comparisons zero traffic has no peak, no low and,
      under a nonnegative threshold, no pattern. */
  lemma FlatZeroCorrected(ss: seq<int>, vs: seq<real>, keys: seq<int>, means: seq<real>, o: real, rule: Rule)
    requires |ss| == |vs| && |keys| == |means|
    requires forall i :: 0 <= i < |vs| ==> vs[i] == 0.0
    requires o == 0.0 && forall i :: 0 <= i < |means| ==> means[i] == 0.0
    requires rule.threshold >= 0.0
    ensures var p := Judge(ss, vs, keys, means, o, rule, true);
            p.peaks == [] && p.lows == [] && !p.hasPattern
  {
    SelectNone(keys, means, PeakBound(true), o * 1.2);
    SelectNone(keys, means, LowBound(true), o * 0.8);
    var base := Side(ss, vs, rule.inBase, true);
    SideZero(ss, vs, rule.inBase, true);
    if |base| > 0 {
      MeanConstant(base, 0.0);
    }
  }

  /** A table whose egress traffic is all zero, over enough slots: as
      written a pattern is found, with every slot both a peak and a low. */
  lemma FlatZeroPatternAsWritten(rows: seq<Row>, slotOf: int -> int, rule: Rule)
    requires |EgressRows(rows)| > 0 && forall i :: 0 <= i < |EgressRows(rows)| ==> EgressRows(rows)[i].value == 0.0
    requires |SlotKeys(EgressRows(rows), slotOf)| >= rule.minSlots
    ensures var a := PatternOf(rows, slotOf, rule, false);
            a.PatternFound? && a.pattern.hasPattern && a.pattern.peaks == a.pattern.lows
  {
    var eg := EgressRows(rows);
    FlatZeroMeans(eg, slotOf);
    SlotKeysMembers(eg, slotOf);
    assert Slots(eg, slotOf)[0] in SlotKeys(eg, slotOf);
    FlatZeroAsWritten(Slots(eg, slotOf), Values(eg), SlotKeys(eg, slotOf), Means(eg, slotOf), Overall(eg, slotOf), rule);
  }

  /** With the strict comparisons the same table shows no pattern, when the
      threshold is nonnegative. */
  lemma FlatZeroPatternCorrected(rows: seq<Row>, slotOf: int -> int, rule: Rule)
    requires |EgressRows(rows)| > 0 && forall i :: 0 <= i < |EgressRows(rows)| ==> EgressRows(rows)[i].value == 0.0
    requires |SlotKeys(EgressRows(rows), slotOf)| >= rule.minSlots && rule.threshold >= 0.0
    ensures var c := PatternOf(rows, slotOf, rule, true);
            c.PatternFound? && !c.pattern.hasPattern && c.pattern.peaks == [] && c.pattern.lows == []
  {
    var eg := EgressRows(rows);
    FlatZeroMeans(eg, slotOf);
    FlatZeroCorrected(Slots(eg, slotOf), Values(eg), SlotKeys(eg, slotOf), Means(eg, slotOf), Overall(eg, slotOf), rule);
  }

  predicate Weekend(d: int) {
    d >= 5
  }

  /** The weekly comparison sets the working week, Monday to Friday, against
      the weekend. */
  lemma WeeklySides(ss: seq<int>, vs: seq<real>, keys: seq<int>, means: seq<real>, o: real, strict: bool)
    requires |ss| == |vs| && |keys| == |means|
    ensures var p := Judge(ss, vs, keys, means, o, WeeklyRule, strict);
            p.otherAverage == MeanOf(Side(ss, vs, Weekend, true))
  {
    SideComplement(ss, vs, WeeklyRule.inBase, Weekend);
  }

  /** The hourly comparison sets the hours outside 9:00-17:00 against the
      business hours. */
  lemma HourlySides(ss: seq<int>, vs: seq<real>, keys: seq<int>, means: seq<real>, o: real, strict: bool)
    requires |ss| == |vs| && |keys| == |means|
    ensures var p := Judge(ss, vs, keys, means, o, HourlyRule, strict);
            && p.baseAverage == MeanOf(Side(ss, vs, BusinessHour, false))
            && p.otherAverage == MeanOf(Side(ss, vs, BusinessHour, true))
  {
    SideComplement(ss, vs, HourlyRule.inBase, BusinessHour);
    SideComplement(ss, vs, BusinessHour, HourlyRule.inBase);
  }

  /** Three rows of zero traffic on three different days: with the
      inclusive comparisons as written (and the day lookup repaired) a
      weekly pattern is reported. */
  lemma ZeroWeekAsWritten(t: int, dayOf: int -> int)
    requires dayOf(t) != dayOf(t + 1) && dayOf(t) != dayOf(t + 2) && dayOf(t + 1) != dayOf(t + 2)
    ensures var a := PatternOf(TrendAnalysis.ZeroTraffic(t), dayOf, WeeklyRule, false);
            a.PatternFound? && a.pattern.hasPattern
  {
    ZeroWeek(t, dayOf);
    FlatZeroPatternAsWritten(TrendAnalysis.ZeroTraffic(t), dayOf, WeeklyRule);
  }

  /** With the strict comparisons the same rows show no weekly pattern. */
  lemma ZeroWeekCorrected(t: int, dayOf: int -> int)
    requires dayOf(t) != dayOf(t + 1) && dayOf(t) != dayOf(t + 2) && dayOf(t + 1) != dayOf(t + 2)
    ensures var c := WeeklyPatterns(TrendAnalysis.ZeroTraffic(t), dayOf);
            c.PatternFound? && !c.pattern.hasPattern
  {
    ZeroWeek(t, dayOf);
    FlatZeroPatternCorrected(TrendAnalysis.ZeroTraffic(t), dayOf, WeeklyRule);
  }

  lemma ZeroWeek(t: int, dayOf: int -> int)
    requires dayOf(t) != dayOf(t + 1) && dayOf(t) != dayOf(t + 2) && dayOf(t + 1) != dayOf(t + 2)
    ensures var rows := TrendAnalysis.ZeroTraffic(t);
            && |EgressRows(rows)| > 0
            && (forall i :: 0 <= i < |EgressRows(rows)| ==> EgressRows(rows)[i].value == 0.0)
            && |SlotKeys(EgressRows(rows), dayOf)| >= WeeklyRule.minSlots
  {
    var rows := TrendAnalysis.ZeroTraffic(t);
    TrendAnalysis.ZeroTrafficEgress(t);
    TrendAnalysis.ZeroTrafficAxis(t);
    ThreeDays(EgressRows(rows), dayOf);
  }

  lemma ThreeDays(eg: seq<Row>, dayOf: int -> int)
    requires |eg| == 3
    requires var d := dayOf(eg[0].timestamp); var e := dayOf(eg[1].timestamp); var f := dayOf(eg[2].timestamp);
             d != e && d != f && e != f
    ensures |SlotKeys(eg, dayOf)| == 3
  {
    var ss := Slots(eg, dayOf);
    assert Distinct(ss);
    DistinctKeys(ss);
  }
}

=== FILE: update_version.dfy ===
/** The release script's string logic: reading and replacing the
    `version="..."` assignment of the setup file, bumping a version as
    items 7 and 8 of Semantic Versioning 2.0.0 say, and placing a new
    changelog entry. Files, the clock and argument parsing are left to the
    caller. */
module Versioning {
  import opened Common
  import opened Text

  const Open := "version=\""

  /** The pattern `version="([^"]+)"` tried at the start of `s`: the index
      of the closing quote when it matches. */
  function MatchAt(s: string): (q: Option<nat>)
    ensures q.Some? ==> |Open| < q.value < |s| && s[q.value] == '"' && s[..|Open|] == Open
    ensures q.Some? ==> forall k :: |Open| <= k < q.value ==> s[k] != '"'
  {
    if |s| < |Open| || s[..|Open|] != Open then None
    else
      var q := FindFrom(s, "\"", |Open|);
      if q > |Open| then
        assert forall k :: |Open| <= k < q ==> !OccursAt(s, "\"", k);
        assert OccursAt(s, "\"", q) && s[q..q + 1][0] == s[q];
        forall k | |Open| <= k < q ensures s[k] != '"' {
          assert !OccursAt(s, "\"", k) && s[k..k + 1] == [s[k]];
        }
        Some(q)
      else None
  }

  /** `re.search`: the leftmost match, as its value. */
  function Search(s: string): Option<string>
    decreases |s|
  {
    if |s| == 0 then None
    else match MatchAt(s)
      case Some(q) => Some(s[|Open|..q])
      case None => Search(s[1..])
  }

  /** `get_current_version`. */
  function CurrentVersion(content: string): string {
    Search(content).GetOr("0.1.0")
  }

  /** `update_version`'s `re.sub`: every match, left to right, is replaced
      by the assignment of `v`; the scan resumes after each match. */
  function ReplaceAll(s: string, v: string): string
    decreases |s|
  {
    if |s| == 0 then ""
    else match MatchAt(s)
      case Some(q) => Open + v + "\"" + ReplaceAll(s[q + 1..], v)
      case None => [s[0]] + ReplaceAll(s[1..], v)
  }

  /** The text as the pattern sees it: literal characters and matched
      assignments, left to right. */
  datatype Token = Lit(c: char) | Assign(value: string)

  function Tokens(s: string): seq<Token>
    decreases |s|
  {
    if |s| == 0 then []
    else match MatchAt(s)
      case Some(q) => [Assign(s[|Open|..q])] + Tokens(s[q + 1..])
      case None => [Lit(s[0])] + Tokens(s[1..])
  }

  /** The text of the tokens, with every assigned value replaced by `v`
      when one is given. */
  function Render(ts: seq<Token>, v: Option<string>): string {
    if |ts| == 0 then ""
    else
      match ts[0]
      case Lit(c) => [c] + Render(ts[1..], v)
      case Assign(x) => Open + v.GetOr(x) + "\"" + Render(ts[1..], v)
  }

  /** Tokenising loses nothing: the tokens render back to the text. */
  lemma {:induction false} TokensRender(s: string)
    ensures Render(Tokens(s), None) == s
    decreases |s|
  {
    if |s| > 0 {
      match MatchAt(s)
      case Some(q) =>
        TokensRender(s[q + 1..]);
        RenderHead(Assign(s[|Open|..q]), Tokens(s[q + 1..]));
        MatchSplits(s, q);
      case None =>
        TokensRender(s[1..]);
        RenderHead(Lit(s[0]), Tokens(s[1..]));
        assert s == [s[0]] + s[1..];
    }
  }

  /** Rendering a token followed by others is that token's text first. */
  lemma RenderHead(t: Token, rest: seq<Token>)
    ensures Render([t] + rest, None) == (match t case Lit(c) => [c] case Assign(x) => Open + x + "\"") + Render(rest, None)
  {
    assert ([t] + rest)[1..] == rest;
  }

  /** A matched assignment splits the text into the opening, the value, the
      closing quote and the rest. */
  lemma MatchSplits(s: string, q: nat)
    requires MatchAt(s) == Some(q)
    ensures s == Open + s[|Open|..q] + "\"" + s[q + 1..]
  {
    assert s == s[..|Open|] + s[|Open|..q] + [s[q]] + s[q + 1..];
  }

  /** Replacing keeps every literal character where it was and puts `v` in
      every assignment. */
  lemma {:induction false} ReplaceAllRender(s: string, v: string)
    ensures ReplaceAll(s, v) == Render(Tokens(s), Some(v))
    decreases |s|
  {
    if |s| > 0 {
      match MatchAt(s)
      case Some(q) => ReplaceAllRender(s[q + 1..], v);
      case None => ReplaceAllRender(s[1..], v);
    }
  }

  function FirstAssign(ts: seq<Token>): Option<string> {
    if |ts| == 0 then None
    else if ts[0].Assign? then Some(ts[0].value)
    else FirstAssign(ts[1..])
  }

  /** The current version is the first assignment's value, or "0.1.0" when
      there is none. */
  lemma {:induction false} CurrentVersionSpec(s: string)
    ensures CurrentVersion(s) == FirstAssign(Tokens(s)).GetOr("0.1.0")
  {
    SearchFirst(s);
  }

  lemma {:induction false} SearchFirst(s: string)
    ensures Search(s) == FirstAssign(Tokens(s))
    decreases |s|
  {
    if |s| > 0 && MatchAt(s).None? {
      SearchFirst(s[1..]);
    }
  }

  /** Text without any assignment is left as it is. */
  lemma NoAssignUnchanged(s: string, v: string)
    requires forall i :: 0 <= i < |Tokens(s)| ==> Tokens(s)[i].Lit?
    ensures ReplaceAll(s, v) == s
    ensures CurrentVersion(s) == "0.1.0"
  {
    ReplaceAllRender(s, v);
    TokensRender(s);
    RenderLiterals(Tokens(s), v);
    CurrentVersionSpec(s);
    NoAssignNoFirst(Tokens(s));
  }

  lemma {:induction false} RenderLiterals(ts: seq<Token>, v: string)
    requires forall i :: 0 <= i < |ts| ==> ts[i].Lit?
    ensures Render(ts, Some(v)) == Render(ts, None)
  {
    if |ts| > 0 {
      RenderLiterals(ts[1..], v);
    }
  }

  lemma {:induction false} NoAssignNoFirst(ts: seq<Token>)
    requires forall i :: 0 <= i < |ts| ==> ts[i].Lit?
    ensures FirstAssign(ts) == None
  {
    if |ts| > 0 {
      NoAssignNoFirst(ts[1..]);
    }
  }

  /** A version as three numbers. */
  datatype Version = Version(major: nat, minor: nat, patch: nat)

  function FormatVersion(v: Version): string {
    NatToString(v.major) + "." + NatToString(v.minor) + "." + NatToString(v.patch)
  }

  /** `map(int, current_version.split('.'))` unpacked into three: exactly
      three dot-separated decimal numerals, or an error. */
  function ParseVersion(s: string): Result<Version, string> {
    var parts := Split(s, '.');
    if |parts| != 3 then Err("ValueError")
    else
      match (ParseNat(parts[0]), ParseNat(parts[1]), ParseNat(parts[2]))
      case (Some(a), Some(b), Some(c)) => Ok(Version(a, b, c))
      case _ => Err("ValueError")
  }

  /** A formatted version reads back as itself. */
  lemma FormatParse(v: Version)
    ensures ParseVersion(FormatVersion(v)) == Ok(v)
  {
    var parts := [NatToString(v.major), NatToString(v.minor), NatToString(v.patch)];
    assert Join(parts, ".") == FormatVersion(v) by {
      assert Join(parts[2..], ".") == NatToString(v.patch);
      assert parts[1..][1..] == parts[2..];
    }
    assert forall i :: 0 <= i < 3 ==> '.' !in parts[i] by {
      assert forall n: nat :: '.' !in NatToString(n);
    }
    SplitJoin(parts, '.');
    ParseNatOfNatToString(v.major);
    ParseNatOfNatToString(v.minor);
    ParseNatOfNatToString(v.patch);
  }

  datatype Bump = Major | Minor | Patch | NoFlag

  /** The version-bump step of `main`: the first of major, minor, patch
      requested wins, and no flag bumps the patch. */
  function BumpVersion(v: Version, b: Bump): (r: Version) {
    match b
    case Major => Version(v.major + 1, 0, 0)
    case Minor => Version(v.major, v.minor + 1, 0)
    case Patch => Version(v.major, v.minor, v.patch + 1)
    case NoFlag => Version(v.major, v.minor, v.patch + 1)
  }

  /** The flags as `main` tests them. */
  function FlagsToBump(major: bool, minor: bool, patch: bool): Bump {
    if major then Major else if minor then Minor else if patch then Patch else NoFlag
  }

  /** Semantic Versioning precedence (item 11) on plain versions. */
  predicate Precedes(a: Version, b: Version) {
    a.major < b.major
    || (a.major == b.major && a.minor < b.minor)
    || (a.major == b.major && a.minor == b.minor && a.patch < b.patch)
  }

  /** Every bump moves the version forward; a major bump resets minor and
      patch, a minor bump resets patch (items 7 and 8), and a patch bump
      changes nothing else. */
  lemma BumpSpec(v: Version, b: Bump)
    ensures Precedes(v, BumpVersion(v, b))
    ensures b == Major ==> BumpVersion(v, b).minor == 0 && BumpVersion(v, b).patch == 0
    ensures b == Minor ==> BumpVersion(v, b).major == v.major && BumpVersion(v, b).patch == 0
    ensures b == Patch || b == NoFlag ==> BumpVersion(v, b).major == v.major && BumpVersion(v, b).minor == v.minor
  {
  }

  /** `main`'s choice of the new version: a non-empty `--set-version` is
      taken as given; otherwise the current version is parsed and bumped,
      and a current version that is not three numbers is an error. */
  function NewVersion(current: string, setVersion: Option<string>, major: bool, minor: bool, patch: bool): Result<string, string> {
    if setVersion.Some? && setVersion.value != "" then Ok(setVersion.value)
    else
      match ParseVersion(current)
      case Err(e) => Err(e)
      case Ok(v) => Ok(FormatVersion(BumpVersion(v, FlagsToBump(major, minor, patch))))
  }

  /** A set version bypasses the bump; otherwise the result is the bumped
      current version, which follows it in precedence, and major wins over
      minor, minor over patch. */
  lemma NewVersionSpec(current: string, setVersion: Option<string>, major: bool, minor: bool, patch: bool)
    ensures var r := NewVersion(current, setVersion, major, minor, patch);
            (setVersion.Some? && setVersion.value != "" ==> r == Ok(setVersion.value))
            && (!(setVersion.Some? && setVersion.value != "") ==>
                  (r.Ok? <==> ParseVersion(current).Ok?)
                  && (r.Ok? ==>
                        ParseVersion(r.value).Ok? &&
                        var v := ParseVersion(current).value;
                        var w := ParseVersion(r.value).value;
                        Precedes(v, w)
                        && (major ==> w == Version(v.major + 1, 0, 0))
                        && (!major && minor ==> w == Version(v.major, v.minor + 1, 0))
                        && (!major && !minor ==> w == Version(v.major, v.minor, v.patch + 1))))
  {
    if !(setVersion.Some? && setVersion.value != "") && ParseVersion(current).Ok? {
      var v := ParseVersion(current).value;
      var b := FlagsToBump(major, minor, patch);
      FormatParse(BumpVersion(v, b));
      BumpSpec(v, b);
    }
  }

  /** A release from "1.2.3" with each flag. */
  lemma BumpExamples()
    ensures BumpVersion(Version(1, 2, 3), FlagsToBump(true, true, true)) == Version(2, 0, 0)
    ensures BumpVersion(Version(1, 2, 3), FlagsToBump(false, true, true)) == Version(1, 3, 0)
    ensures BumpVersion(Version(1, 2, 3), FlagsToBump(false, false, true)) == Version(1, 2, 4)
    ensures BumpVersion(Version(1, 2, 3), FlagsToBump(false, false, false)) == Version(1, 2, 4)
  {
  }

  /** The changelog entry `create_changelog_entry` writes. */
  function Entry(version: string, today: string, changes: string): string {
    "\n## [" + version + "] - " + today + "\n\n" + changes + "\n"
  }

  /** Where the entry goes: before the first entry heading; failing that,
      after the line holding the title; failing that, at the start. A
      title on the last line, with no newline after it, also gives the
      start, since `find` returns -1 there. */
  function InsertionPoint(content: string): (p: nat)
    ensures p <= |content|
  {
    var h := Find(content, "## [");
    if h != -1 then h
    else
      var c := Find(content, "# Changelog");
      if c == -1 then 0
      else FindFrom(content, "\n", c) + 1
  }

  /** The changelog after the entry is added. */
  function AddEntry(content: string, entry: string): (r: string) {
    var p := InsertionPoint(content);
    content[..p] + entry + content[p..]
  }

  /** The three cases of the insertion point. */
  lemma InsertionPointSpec(content: string)
    ensures var p := InsertionPoint(content);
            (Contains(content, "## [") ==> OccursAt(content, "## [", p)
                                           && forall j :: 0 <= j < p ==> !OccursAt(content, "## [", j))
            && (!Contains(content, "## [") && Contains(content, "# Changelog") ==>
                  p == 0 || (content[p - 1] == '\n' && p - 1 >= Find(content, "# Changelog")
                             && forall j :: Find(content, "# Changelog") <= j < p - 1 ==> content[j] != '\n'))
            && (!Contains(content, "## [") && !Contains(content, "# Changelog") ==> p == 0)
  {
    var c := Find(content, "# Changelog");
    if !Contains(content, "## [") && c != -1 {
      var n := FindFrom(content, "\n", c);
      if n != -1 {
        assert OccursAt(content, "\n", n) && content[n..n + 1][0] == content[n];
        forall j | c <= j < n ensures content[j] != '\n' {
          assert !OccursAt(content, "\n", j) && content[j..j + 1] == [content[j]];
        }
      }
    }
  }

  /** Taking the entry back out gives the old changelog. */
  lemma AddEntryRemovable(content: string, entry: string)
    ensures var p := InsertionPoint(content);
            var r := AddEntry(content, entry);
            |r| == |content| + |entry| && r[p..p + |entry|] == entry
            && r[..p] + r[p + |entry|..] == content
  {
    var p := InsertionPoint(content);
    var r := AddEntry(content, entry);
    assert r[..p] == content[..p];
    assert r[p + |entry|..] == content[p..];
  }

  /** An entry placed after text holding no entry heading is the first
      entry heading of the result. */
  lemma EntryHeadingFirst(pre: string, e: string, post: string)
    requires |e| >= 5 && e[..5] == "\n## ["
    requires forall j :: 0 <= j && j + 4 <= |pre| ==> !OccursAt(pre, "## [", j)
    ensures Find(pre + e + post, "## [") == |pre| + 1
  {
    var r := pre + e + post;
    var p := |pre|;
    assert r[p..p + |e|] == e;
    assert OccursAt(r, "## [", p + 1) by {
      assert r[p + 1..p + 5] == e[1..5];
    }
    forall j | 0 <= j < p + 1 ensures !OccursAt(r, "## [", j) {
      if j == p {
        assert r[p] == '\n';
      } else if j + 4 <= p {
        assert r[j..j + 4] == pre[j..j + 4];
        assert !OccursAt(pre, "## [", j);
      } else {
        assert r[j..j + 4][p - j] == r[p] == '\n';
      }
    }
    FindFirst(r, "## [", p + 1);
  }

  /** The new entry becomes the changelog's first entry heading. */
  lemma NewestFirst(content: string, version: string, today: string, changes: string)
    ensures var e := Entry(version, today, changes);
            Find(AddEntry(content, e), "## [") == InsertionPoint(content) + 1
  {
    var e := Entry(version, today, changes);
    var p := InsertionPoint(content);
    forall j | 0 <= j && j + 4 <= p ensures !OccursAt(content[..p], "## [", j) {
      NoHeadingBefore(content, p, j);
      assert content[..p][j..j + 4] == content[j..j + 4];
    }
    assert AddEntry(content, e) == content[..p] + e + content[p..];
    EntryHeadingFirst(content[..p], e, content[p..]);
  }

  /** No entry heading starts before the insertion point. */
  lemma NoHeadingBefore(content: string, p: int, j: int)
    requires p == InsertionPoint(content) && 0 <= j < p
    ensures !OccursAt(content, "## [", j)
  {
    InsertionPointSpec(content);
    ContainsIff(content, "## [");
  }

  /** `find` gives the first occurrence. */
  lemma FindFirst(s: string, p: string, i: int)
    requires OccursAt(s, p, i) && forall j :: 0 <= j < i ==> !OccursAt(s, p, j)
    ensures Find(s, p) == i
  {
  }

  /** The title and preamble of a changelog the script creates, in pieces
      short enough to inspect one by one. */
  const Title := "# Changelog\n"
  const H1 := "\nAll notable changes to this "
  const H2 := "project will be documented "
  const H3 := "in this file.\n\n"
  const H4 := "The format is based on [Keep "
  const H5 := "a Changelog](https://keepa"
  const H6 := "changelog.com/en/1.0.0/),\n"
  const H7 := "and this project adheres to "
  const H8 := "[Semantic Versioning](https"
  const H9 := "://semver.org/spec/v2.0.0.html).\n"
  const Preamble := (H1 + H2 + H3) + (H4 + H5 + H6) + (H7 + H8 + H9)
  const Header := Title + Preamble

  /** `create_changelog_entry` on a missing file (None) and on an existing
      one. */
  function Changelog(existing: Option<string>, entry: string): string {
    match existing
    case None => Header + entry + "\n"
    case Some(content) => AddEntry(content, entry)
  }

  /** Whether the file is created or updated, the new entry is its first
      entry heading. */
  lemma ChangelogNewestFirst(existing: Option<string>, version: string, today: string, changes: string)
    ensures var e := Entry(version, today, changes);
            var r := Changelog(existing, e);
            OccursAt(r, e, Find(r, "## [") - 1)
            && Find(r, "## [") == (if existing.None? then |Header| else InsertionPoint(existing.value)) + 1
  {
    var e := Entry(version, today, changes);
    match existing
    case None =>
      HeaderHasNoHeading();
      ContainsIff(Header, "## [");
      EntryHeadingFirst(Header, e, "\n");
      assert (Header + e + "\n")[|Header|..|Header| + |e|] == e;
    case Some(content) =>
      NewestFirst(content, version, today, changes);
      AddEntryRemovable(content, e);
  }

  /** The preamble's only `#` is the title's. */
  lemma HeaderHasNoHeading()
    ensures !Contains(Header, "## [")
  {
    HeaderOneHash(Header);
    OnlyAt(Header, "## [", 0, 0);
  }

  lemma HeaderOneHash(h: string)
    requires h == Header
    ensures '#' !in h[1..] && !OccursAt(h, "## [", 0)
  {
    PreambleNoHash(Preamble);
    TitleOneHash(Title, Preamble);
  }

  lemma TitleOneHash(t: string, p: string)
    requires t == Title && '#' !in p
    ensures '#' !in (t + p)[1..] && !OccursAt(t + p, "## [", 0)
  {
    assert (t + p)[1..] == t[1..] + p;
    assert (t + p)[1] == ' ';
    assert |t + p| >= 4 ==> (t + p)[0..4][1] == ' ';
  }

  lemma PreambleNoHash(p: string)
    requires p == Preamble
    ensures '#' !in p
  {
    FirstLineNoHash(H1, H2, H3);
    SecondLineNoHash(H4, H5, H6);
    ThirdLineNoHash(H7, H8, H9);
  }

  lemma FirstLineNoHash(a: string, b: string, c: string)
    requires a == H1 && b == H2 && c == H3
    ensures '#' !in a + b + c
  {
    FirstPieceNoHash(a, H1);
    FirstPieceNoHash(b, H2);
    FirstPieceNoHash(c, H3);
  }

  lemma FirstPieceNoHash(x: string, h: string)
    requires h == x
    requires x == H1 || x == H2 || x == H3
    ensures '#' !in h
  {
  }

  lemma SecondLineNoHash(a: string, b: string, c: string)
    requires a == H4 && b == H5 && c == H6
    ensures '#' !in a + b + c
  {
    SecondPieceNoHash(a, H4);
    SecondPieceNoHash(b, H5);
    SecondPieceNoHash(c, H6);
  }

  lemma SecondPieceNoHash(x: string, h: string)
    requires h == x
    requires x == H4 || x == H5 || x == H6
    ensures '#' !in h
  {
  }

  lemma ThirdLineNoHash(a: string, b: string, c: string)
    requires a == H7 && b == H8 && c == H9
    ensures '#' !in a + b + c
  {
    ThirdPieceNoHash(a, H7);
    ThirdPieceNoHash(b, H8);
    ThirdPieceNoHash(c, H9);
  }

  lemma ThirdPieceNoHash(x: string, h: string)
    requires h == x
    requires x == H7 || x == H8 || x == H9
    ensures '#' !in h
  {
  }
}
